=== FILE: README.md ===
# Advent of Code 2021, modelled in Dafny

The repository solves the 2021 Advent of Code puzzles in Rust, one module per
day (`src/day_N/mod.rs`), with standalone copies of some days
(`day_N/src/main.rs`). Each day parses a puzzle input and computes two
answers. This project models the puzzle logic of days 1 to 18 as pure Dafny
functions and methods. It also states and proves what each answer means,
usually against an independent reference definition.

The model follows these conventions throughout:

- A panic of the original is a `None` or an `Err`. This covers an `unwrap` on
  nothing, an index out of range, a `usize` underflow and an `unreachable!()`.
  The contracts state exactly when one happens.
- Integers are unbounded unless a contract says otherwise. Fixed-width
  behaviour that matters is written out: the day-3 `u16` complement and
  counter overflow, and the day-12 `u16` shift overflow. The rest is listed
  under "Left out".
- Hash sets become Dafny `set`s. Where the original depends on a hash
  iteration order, the model fixes one order and proves that the answer does
  not depend on it.
- A text input is a `string`. The slice of Rust's `str` API the parsers use
  (`lines`, `split`, `trim`, `str::parse`) is modelled in `text.dfy`.

| file | module | day and content |
|---|---|---|
| common.dfy | Wrappers, Arith, Seqs | `Option`/`Result`, powers of two and bit sequences, sequence sums, sorting and ranges |
| text.dfy | Text | the `str` operations the parsers use |
| digit_grid.dfy | DigitGrid | grids of single digits written as lines of text (days 9, 11, 15) |
| sonar.dfy | Sonar | day 1: increasing depths and sliding windows |
| dive.dfy | Dive | day 2: submarine commands, with and without aim |
| diagnostic.dfy | Diagnostic | day 3: gamma and epsilon rates, bit-criteria ratings |
| bingo.dfy, bingo_game.dfy | Bingo, BingoGame | day 4: boards as bit masks, and the game of first and last winners |
| vents.dfy | Vents | day 5: vent lines walked point by point, and overlaps |
| lanternfish.dfy | Lanternfish | day 6: the nine-slot ring buffer of fish timers |
| crabs.dfy | Crabs | day 7: least fuel to align the crabs |
| seven_segment.dfy | SevenSegment | day 8: decoding scrambled seven-segment displays |
| basins.dfy | Basins | day 9: low points and flood-filled basins |
| syntax.dfy | Syntax | day 10: corrupted and incomplete bracket lines |
| octopus.dfy | Octopus | day 11: flashing octopus grid |
| caves.dfy | Caves | day 12: counting cave paths with 16-bit node sets |
| origami.dfy | Origami | day 13: folding transparent paper |
| polymer.dfy | Polymer | day 14: pair-counting polymer insertion |
| chiton.dfy, chiton_search.dfy | Chiton, ChitonSearch | day 15: risk maps, tiling and Dijkstra's search |
| bit_cursor.dfy, packet_parser.dfy, packet_eval.dfy | BitCursor, PacketParser, PacketEval | day 16: bit reader, packet parser and evaluator |
| trick_shot.dfy | TrickShot | day 17: probe trajectories and the velocity search |
| snailfish.dfy, snailfish_examples.dfy | Snailfish, SnailfishExamples | day 18: snailfish numbers packed into 32 slots, and the worked reduction |

Source paths below are relative to the repository root. Where a day has both
a library module and a standalone copy with the same logic, rows cite
whichever copy the member was checked against.

## Model

| member | source | states |
|---|---|---|
| Sonar.Part1 | src/day_1/mod.rs:5-15 | the count of measurements deeper than the one before (`Rises(input, 1)`), below the input length; `None` exactly for the empty input, where `input[0]` panics |
| Sonar.Part2 | src/day_1/mod.rs:17-26 | the count of `i` with `numbers[i] < numbers[i + 3]`, at most `len - 3`; `None` exactly when `len - 3` underflows (fewer than three numbers) |
| Sonar.Part2Unchecked | src/day_1/mod.rs:28-39 | the unchecked loop returns the same count as `part_2` and panics (`None`) on exactly the same inputs; every index it reads is in range |
| Sonar.RisesUpToIsCard | src/day_1/mod.rs:5-15 | the loop's count is the size of the set of rising positions |
| Sonar.Part2CountsWindows | src/day_1/mod.rs:17-26 | comparing `numbers[i]` with `numbers[i + 3]` counts exactly the rises of the three-measurement window sums |
| Sonar.ParseInput | src/day_1/mod.rs:1-3 | one `u16` per line: defined exactly when every line parses below 65536, and then element `k` is line `k`'s value |
| Dive.ParseDir | src/day_2/mod.rs:20-25 | exactly the three words `forward`, `up` and `down` are accepted, each naming its own direction |
| Dive.ParseLine | src/day_2/mod.rs:13-30 | a line without a space fails; a parsed command's word is the text before the first space and its number is the `i32` written after it |
| Dive.ParseLineRender | src/day_2/mod.rs:13-30 | parsing reads back every command whose number fits in an `i32` |
| Dive.ParseInput | src/day_2/mod.rs:12-37 | the trimmed text split at every newline, defined exactly when every piece parses, with element `k` the command of piece `k` |
| Dive.ParseRenderAll | src/day_2/mod.rs:12-37 | any non-empty list of commands written one per line parses back to itself |
| Dive.Part1 | src/day_2/mod.rs:39-52 | the sum of the forward moves times the sum of the `down` moves less the sum of the `up` moves |
| Dive.Part2 | src/day_2/mod.rs:54-71 | the sum of the forward moves times the depth reached when each forward move dives by the current aim |
| Dive.DepthAppend | src/day_2/mod.rs:59-68 | running one list after another dives as deep as both alone plus the second list's forward moves taken at the aim the first left behind |
| Dive.AimAppend | src/day_2/mod.rs:59-68 | part 2's running aim after one list of commands and then another is the first list's aim plus the second's |
| Dive.AimIsPart1Depth | src/day_2/mod.rs:39-71 | part 1's depth is the aim part 2 ends with: the running aim, raised by each `down` and lowered by each `up`, ends at the `down` total less the `up` total |
| Diagnostic.MaskTest | day_3/src/main.rs:40-51 | the test `line & existing_mask == val` holds exactly when the line's bits from `bit + 1` up spell the chosen prefix |
| Diagnostic.Ones | day_3/src/main.rs:11-18 | `one_freqs[b]` never exceeds the number of lines |
| Diagnostic.Gamma | day_3/src/main.rs:10-29 | gamma is below 4096, its bit `b` (below 12) is set exactly when at least half the lines, rounded down, have bit `b` set, and no higher bit is set |
| Diagnostic.Not16 | day_3/src/main.rs:30 | `!gamma` flips every one of the sixteen bits |
| Diagnostic.Part1 | day_3/src/main.rs:9-32 | gamma times `!gamma`, defined whenever the report has at most 65535 lines (a longer one overflows a `u16` counter) |
| Diagnostic.MajorityGamma | day_3/src/main.rs:10-29 | the intended gamma: bit `b` set exactly when ones are at least as common as zeros in bit `b` |
| Diagnostic.Part1Intended | day_3/src/main.rs:9-32 | the intended product: epsilon's bit `b` is set exactly when bit `b` is more often 0, so gamma and epsilon cover the twelve bits once |
| Diagnostic.EpsilonTooWide | day_3/src/main.rs:30-31 | as written, epsilon is the 12-bit complement plus 61440, so part 1 overshoots by gamma times 61440 |
| Diagnostic.SingleLineGamma | day_3/src/main.rs:20-27 | as written, a one-line report has gamma 4095 whatever the line, while the majority gamma is the line itself |
| Diagnostic.Matching | day_3/src/main.rs:44-52 | the lines passing the mask filter are a sub-list of the report |
| Diagnostic.MatchingSplit | day_3/src/main.rs:44-64 | choosing the next bit splits the matching lines: those with it set match the prefix ending in 1, the rest the prefix ending in 0 |
| Diagnostic.FindStep | day_3/src/main.rs:38-65 | one step of `find`: the search continues from the prefix extended by the bit the criterion picks |
| Diagnostic.OxygenInInput | day_3/src/main.rs:35-70 | the oxygen rating of a non-empty report whose lines fit in `bits` bits is one of its lines |
| Diagnostic.Co2LeavesInput | day_3/src/main.rs:35-71 | the CO2 criterion can leave the report: for the lines 0 and 1 on two bits the rating is 2 |
| Diagnostic.Part2 | day_3/src/main.rs:34-73 | defined exactly when both ratings are, and then the oxygen rating times the CO2 rating; never defined for 16 bits or more, where `0xFFFF << (bit + 1)` overflows |
| Diagnostic.ParseBinary | day_3/src/main.rs:4 | `from_str_radix(line, 2)`: an optional `+` then one or more binary digits worth less than 65536, and then that value |
| Diagnostic.ParseBinaryString | day_3/src/main.rs:4 | a line of `n` binary digits parses back to its number |
| Diagnostic.ParseInput | day_3/src/main.rs:1-7 | defined exactly when every line parses, with element `k` the value of line `k` |
| Bingo.MasksBuilt | src/day_4/mod.rs:3-21 | the ten-entry mask table is exactly what the two construction loops produce: rows `0b11111 << 5r`, then columns `0b00001_00001_00001_00001_00001 << c` |
| Bingo.MaskBits | src/day_4/mod.rs:3-21 | the bits of mask `k` are exactly the cells of line `k` (row `k`, or column `k - 5`) |
| Bingo.SubsetBits | src/day_4/mod.rs:40 | `marked & mask == mask` holds exactly when every bit of the mask is set in `marked` |
| Bingo.Mark | src/day_4/mod.rs:32-36 | marking keeps the board's values |
| Bingo.MarkBits | src/day_4/mod.rs:32-36 | after marking, a cell is marked exactly when it was before or it is the first cell holding the drawn number |
| Bingo.MarkGrows | src/day_4/mod.rs:32-36 | marking never clears a mark, and a newly marked cell holds the drawn number |
| Bingo.MaskLine | src/day_4/mod.rs:38-46 | mask `k` is covered by the marks exactly when line `k` is fully marked |
| Bingo.WinningLines | src/day_4/mod.rs:38-46 | `winning` holds exactly when some row or column is fully marked |
| Bingo.UnmarkedFresh | src/day_4/mod.rs:48-53 | on a board with nothing marked the unmarked sum is the sum of all 25 values |
| Bingo.UnmarkedAfterMark | src/day_4/mod.rs:32-53 | drawing a number on an unmarked cell takes it off the unmarked sum; any other draw leaves the sum alone |
| Bingo.ParseInts | src/day_4/mod.rs:58-64 | defined exactly when every piece parses as an `i32` (in range: a number outside `i32` is the `unwrap` panic), and then piece by piece |
| Bingo.ParseRow | src/day_4/mod.rs:78-91 | a row of at most five numbers that parse as `i32` fills the first slots and leaves the rest 0; a sixth number overruns the row (`None`) |
| Bingo.ParseBoard | src/day_4/mod.rs:73-93 | cell `5 * row + c` of the board is cell `c` of row `row`, defined exactly when all five rows parse with every number in the `i32` range |
| Bingo.ParseBoards | day_4/src/main.rs:70-96 | each board takes one skipped line and five rows of `i32` numbers and starts unmarked |
| Bingo.ParseInput | src/day_4/mod.rs:56-97 | the draws are the comma-separated `i32` numbers of the first line and the boards follow it |
| BingoGame.WinningStays | src/day_4/mod.rs:99-111 | a board that has won keeps winning as more numbers are drawn |
| BingoGame.FirstWinIsEdge | src/day_4/mod.rs:113-136 | a board's first win is the draw on which it turns from not winning to winning |
| BingoGame.Part1 | src/day_4/mod.rs:99-111 | the score of the first winner (earliest draw, then lowest board index) on the draw it won with; `None` exactly when no board ever wins |
| BingoGame.Part2 | src/day_4/mod.rs:113-142 | the score of a board whose first win is the latest of all, on its winning draw; `None` exactly when no board ever wins |
| BingoGame.Round | day_4/src/main.rs:119-136 | one round marks every board still playing and removes those that win, keeping every board's first-win record and `last_win` valid |
| Vents.Points | src/day_5/mod.rs:55-67 | a moving line yields `Span + 1` points from `start`; a line from a point to itself yields none, because the stop point `end + dir` is its start |
| Vents.PointsAreSegment | src/day_5/mod.rs:26-67 | the walk of a horizontal, vertical or 45-degree line covers exactly the points of the segment |
| Vents.PointsDistinct | src/day_5/mod.rs:55-67 | no point of the walk repeats |
| Vents.Ends | src/day_5/mod.rs:58-66 | the walk ends at `end` and stops one step later |
| Vents.NeverStops | src/day_5/mod.rs:58-66 | on any other slope no step of the walk reaches the stop point |
| Vents.Rasterise | src/day_5/mod.rs:34-67 | `iter_points` collected: defined exactly when the line is walkable and `end + dir` fits in `i32` (otherwise a debug build overflows), and then exactly `Points` |
| Vents.DensityCounts | src/day_5/mod.rs:90-103 | the density map holds exactly the covered points, each with the number of times it was covered |
| Vents.AddPoints | src/day_5/mod.rs:100-102 | adding one line's points gives the density map of all points so far |
| Vents.CountOverlaps | src/day_5/mod.rs:89-106 | the number of points covered more than once by the kept lines, cast to `i32`; defined exactly when every kept line is walkable and its stop point fits in `i32` |
| Vents.Part1 | src/day_5/mod.rs:108-110 | the overlap count of the horizontal and vertical lines only |
| Vents.Part2 | day_5/src/main.rs:114-116 | the overlap count of every line |
| Vents.Part1WithinPart2 | src/day_5/mod.rs:89-114 | every point part 1 counts, part 2 counts too |
| Vents.ParseVec | src/day_5/mod.rs:70-75 | `x,y`: the first two comma pieces are the `i32` coordinates and further pieces are ignored |
| Vents.ParseLine | src/day_5/mod.rs:79-83 | the first word is the start, the second is skipped unread and the third is the end; fewer than three words is a panic (`None`) |
| Vents.ParseInput | day_5/src/main.rs:69-89 | one vent line per text line, each parsed by `ParseLine` |
| Vents.ParseLineRender | src/day_5/mod.rs:69-87 | parsing reads back every line whose coordinates are `i32`s |
| Vents.CoveredGrows | src/day_5/mod.rs:89-114 | the points part 1 draws are a sub-multiset of those part 2 draws: ignoring diagonals never adds a point |
| Lanternfish.Step | src/day_6/mod.rs:11-24 | a step keeps the ring well formed: nine counts and a head below nine |
| Lanternfish.StepRotates | src/day_6/mod.rs:11-24 | read from the new head, every count moves one timer value down, timer 8 receives the spawning fish and timer 6 gets them as well |
| Lanternfish.StepTotal | src/day_6/mod.rs:11-34 | a day adds exactly the number of fish at timer 0 to the total |
| Lanternfish.StepN | src/day_6/mod.rs:26-30 | `n` steps, one after the other; the total never shrinks |
| Lanternfish.Part1 | src/day_6/mod.rs:52-56 | the total after 80 days, at least the starting total |
| Lanternfish.Part2 | day_6/src/main.rs:57-60 | the total after 256 days, at least the starting total |
| Lanternfish.StepIsTick | src/day_6/mod.rs:11-24 | the ring's counts after a step are the histogram of the school after every fish's timer ticks once (0 wraps to 6 and spawns an 8) |
| Lanternfish.StepsAreTicks | src/day_6/mod.rs:26-34 | after `n` days the ring stands for the school after `n` ticks, and its total is that school's size |
| Lanternfish.RotatedSum | src/day_6/mod.rs:32-34 | reading the ring from its head does not change its sum |
| Lanternfish.AddAll | src/day_6/mod.rs:42-47 | counting the ages adds each age's number of occurrences to its slot |
| Lanternfish.ParseInput | src/day_6/mod.rs:37-50 | defined exactly when every comma piece is a `usize` below 9 (a larger age indexes past the ring), and then the head is 0 and slot `a` counts the fish of age `a` |
| Lanternfish.Histogram | src/day_6/mod.rs:42-47 | nine slots, slot `age` holding how many fish have timer `age` |
| Lanternfish.HistogramTotal | src/day_6/mod.rs:42-47 | every fish is counted once: the slots sum to the number of fish |
| Crabs.FuelReq | src/day_7/mod.rs:19-22 | `n(n + 1) / 2` for `n = abs(a - b)` is the triangular number 1 + 2 + ... + n, the cost the puzzle defines |
| Crabs.FuelReqSymmetric | day_7/src/main.rs:23-26 | moving costs the same in both directions, and nothing exactly when the crab stays |
| Crabs.CostMonotone | src/day_7/mod.rs:10-24 | under either rate a longer move never costs less |
| Crabs.Least | src/day_7/mod.rs:6 | `min()` of a non-empty input is one of its elements and at most every element |
| Crabs.Greatest | src/day_7/mod.rs:7 | `max()` of a non-empty input is one of its elements and at least every element |
| Crabs.MinTotal | src/day_7/mod.rs:9-12 | the least total fuel over the candidate positions, attained at one of them |
| Crabs.Solve | src/day_7/mod.rs:5-28 | as written: the least total over the positions `min..max`, attained there; `None` exactly for an empty input or one whose crabs all share a position (the empty range's `unwrap`) |
| Crabs.Part1MissesGreatest | day_7/src/main.rs:9-17 | for crabs at 0, 1 and 1 part 1 answers 2, although position 1, the greatest, costs only 1 |
| Crabs.SolveInclusive | src/day_7/mod.rs:5-28 | the intended search over `min..=max`: `None` exactly for an empty input, otherwise the least total over that range, attained there |
| Crabs.SolveInclusiveOptimal | src/day_7/mod.rs:5-28 | the inclusive search beats every position whatsoever, which is what the puzzle asks |
| Crabs.SolveAtLeastInclusive | day_7/src/main.rs:19-32 | where the search as written answers, it never beats the inclusive one |
| Crabs.ParseInput | src/day_7/mod.rs:1-3 | defined exactly when every comma piece is an `i32`, and then piece by piece |
| Crabs.ParseRender | day_7/src/main.rs:1-7 | any non-empty list of `i32` positions written with commas parses back to itself |
| SevenSegment.ParseSegment | src/day_8/mod.rs:4-13 | defined exactly when every character is one of `a` to `g` (any other panics), and then the set of segments named in the word |
| SevenSegment.ParseTokensFull | src/day_8/mod.rs:15-27 | a line of ten patterns, a bar and four patterns fills the signals and the code with exactly those patterns |
| SevenSegment.ParseTokensTooMany | src/day_8/mod.rs:18-25 | a sixteenth token indexes past the code array and panics |
| SevenSegment.ParseLines | src/day_8/mod.rs:29-32 | defined exactly when every line parses, with entry `k` the parse of line `k` |
| SevenSegment.Pass | src/day_8/mod.rs:46-54 | one pass over the patterns leaves alone every slot no pattern is routed to |
| SevenSegment.PassUnique | src/day_8/mod.rs:46-54 | a slot that exactly one pattern is routed to ends up holding that pattern |
| SevenSegment.FirstWhere | src/day_8/mod.rs:57-70 | `filter(..).next().unwrap()` is the first pattern satisfying the filter, and panics exactly when none does |
| SevenSegment.CanonDistinct | src/day_8/mod.rs:40-101 | no two digits light the same segments |
| SevenSegment.ThreeStage | src/day_8/mod.rs:56-62 | the 3 is the five-segment pattern that covers the 1 |
| SevenSegment.SixStage | src/day_8/mod.rs:64-70 | the 6 is the six-segment pattern that does not cover the 1 |
| SevenSegment.ZeroNineStage | src/day_8/mod.rs:72-84 | of the other six-segment patterns, the one covering the 4 is the 9 and the other is the 0 |
| SevenSegment.TwoFiveStage | src/day_8/mod.rs:86-98 | of the other five-segment patterns, the one inside the 6 is the 5 and the other is the 2 |
| SevenSegment.FromInputDecodes | src/day_8/mod.rs:42-101 | on any display, whatever the wiring and the order of its ten patterns, `from_input` recovers every digit's pattern |
| SevenSegment.Value | src/day_8/mod.rs:103-105 | the first digit whose pattern is `val`, and a panic exactly when no digit has it |
| SevenSegment.ValueDecodes | src/day_8/mod.rs:103-105 | once decoded, every digit's pattern reads back as that digit |
| SevenSegment.DecodeEntry | src/day_8/mod.rs:125-130 | an entry's code decodes to a number below 10000 |
| SevenSegment.DecodeEntryShows | src/day_8/mod.rs:124-131 | an entry decodes to the four-digit number its display shows |
| SevenSegment.EasyCodesAreEasyDigits | src/day_8/mod.rs:108-120 | `part_1` counts exactly the 1s, 4s, 7s and 8s an entry shows |
| SevenSegment.Part2Shows | src/day_8/mod.rs:122-135 | `part_2` is the sum of the numbers the displays show |
| SevenSegment.ParseInput | src/day_8/mod.rs:28-33 | one entry per line of the input, entry `k` being the parse of line `k` |
| SevenSegment.EasyStage | src/day_8/mod.rs:46-54 | the segment-counting pass puts the true patterns of 1, 4, 7 and 8 in their slots, whatever the wiring and the order of the patterns |
| SevenSegment.ValueUnique | src/day_8/mod.rs:103-105 | a pattern held by exactly one digit is looked up to that digit |
| Basins.Get | day_9/src/main.rs:10-19 | a height exactly for the points on the map, read at index `x + dim_x * y` |
| Basins.GetIndexInjective | day_9/src/main.rs:16 | distinct points on the map read distinct cells |
| Basins.NeighboursAdjacent | day_9/src/main.rs:22-29 | the four neighbours are exactly the points one orthogonal step away |
| Basins.OnMapValues | day_9/src/main.rs:50-52 | the heights kept are exactly those of the neighbours on the map; none are kept exactly when no neighbour is on the map |
| Basins.MinOf | day_9/src/main.rs:53 | `min()` is `None` exactly for no values, otherwise one of them and at most each |
| Basins.LowAt | day_9/src/main.rs:49-56 | the `expect` fails exactly for a cell with no neighbour on the map; otherwise the test says whether the cell is lower than every neighbour |
| Basins.LonelyIsTiny | day_9/src/main.rs:54 | only the single cell of a one-by-one map has no neighbour, so only there does the `expect` panic |
| Basins.Cells | day_9/src/main.rs:47-48 | the scan visits every point of the map once, column by column |
| Basins.LowsInMembers | day_9/src/main.rs:66-80 | the low points collected are exactly the low points among the cells scanned |
| Basins.Lows | day_9/src/main.rs:66-80 | every low point of the map, each once; `None` exactly for a one-by-one map |
| Basins.Part1 | day_9/src/main.rs:45-63 | the sum of one plus the height over the low points; `None` exactly for a one-by-one map |
| Basins.Open | day_9/src/main.rs:95-98 | the cells the fill may enter are exactly those on the map whose height is not 9 |
| Basins.FloodFill | day_9/src/main.rs:84-105 | the set filled from a low point is its basin: it holds the point, is closed under steps onto open cells, and lies inside every such closed set |
| Basins.Fill | day_9/src/main.rs:93-105 | the work-queue loop ends with the least closed region of the open cells that holds the start |
| Basins.Visit | day_9/src/main.rs:94-104 | visiting a cell adds each open neighbour not yet seen to both the basin and the queue, keeping the fill's invariant and decreasing its measure |
| Basins.LargestProduct | day_9/src/main.rs:110-111 | `None` exactly for fewer than three basins (the slice panics); otherwise the product of three sizes that are the three largest |
| Basins.TopThreeOfSorted | day_9/src/main.rs:110 | after sorting, the three end values are three largest of the sizes |
| Basins.LargestProductAnyOrder | day_9/src/main.rs:107-111 | the answer does not depend on the order the basins were found in |
| Basins.Part2 | day_9/src/main.rs:65-112 | one size per low point, each the size of that point's basin, and the answer is the product of the three largest |
| Basins.SizesOf | day_9/src/main.rs:86-108 | the sizes, in the order of the low points, are the sizes of their basins |
| Basins.FromText | day_9/src/main.rs:31-43 | the map is the text's digits, 100 by 100 |
| Basins.FromRows | day_9/src/main.rs:31-43 | a hundred rows of a hundred digits give a valid map whose point (x, y) holds digit x of row y |
| Syntax.FromChar | src/day_10/mod.rs:16-28 | a symbol exactly for the eight bracket characters; `None` (the panic) for any other character |
| Syntax.FromCharToChar | src/day_10/mod.rs:16-28 | each symbol reads back from its character, and each accepted character is the one its symbol is written as |
| Syntax.ParseLine | src/day_10/mod.rs:34 | defined exactly when every character is a bracket, and then symbol by symbol |
| Syntax.ParseRender | src/day_10/mod.rs:31-36 | parsing a rendered line gives the line back |
| Syntax.ParseLines | src/day_10/mod.rs:31-36 | every line parsed in order; `None` only when some line has an illegal character |
| Syntax.CheckAppend | src/day_10/mod.rs:54-66 | checking a concatenation checks the first part and carries on from its stack |
| Syntax.CompletionCloses | src/day_10/mod.rs:103-104 | the closers read off the stack innermost first close every open chunk |
| Syntax.CompletedLine | src/day_10/mod.rs:103-104 | an incomplete line followed by its completion leaves nothing open |
| Syntax.CorruptAtFirstIllegal | src/day_10/mod.rs:57-62 | a corrupted line is corrupted at its first illegal character: the prefix before it checks, and there a closer meets a different opener |
| Syntax.CloseScore | src/day_10/mod.rs:75-82 | each completing closer scores between 1 and 4 |
| Syntax.DecodeCompletionScore | src/day_10/mod.rs:104 | the base-5 fold loses nothing: the completion score determines the open stack |
| Syntax.LineCorruptScore | src/day_10/mod.rs:53-68 | `None` exactly where a closer meets an empty stack (the panic); a positive score exactly for a corrupted line |
| Syntax.RunLine | src/day_10/mod.rs:54-66 | the loop with its early exits agrees with the stack machine: corrupt at the first mismatch, the panic on underflow, otherwise the open stack |
| Syntax.Part1 | src/day_10/mod.rs:38-72 | the loop's total is the sum of the lines' corruption scores, `None` if any line panics |
| Syntax.CountsSort | src/day_10/mod.rs:107 | sorting keeps how many scores lie below and above any value |
| Syntax.MiddleScore | src/day_10/mod.rs:107-108 | `None` exactly for no incomplete line (the index panics); otherwise one of the scores |
| Syntax.MiddleIsMedian | src/day_10/mod.rs:107-108 | the middle score is a median: at most half the scores lie below it and at most half above it |
| Syntax.Part2 | src/day_10/mod.rs:74-109 | the loop gives the middle of the incomplete lines' completion scores, skipping corrupted lines, `None` if any line panics |
| Syntax.TotalCorruptPanics | src/day_10/mod.rs:38-72 | a single line whose closer meets an empty stack makes `part_1` panic, wherever that line is |
| Syntax.ScoresPanic | src/day_10/mod.rs:74-109 | a single line whose closer meets an empty stack makes `part_2` panic, wherever that line is |
| Octopus.Index | day_11/src/main.rs:22-30 | a cell exactly for the positions on the grid, and then one of its cells |
| Octopus.CoordIndex | day_11/src/main.rs:49-53 | the coordinates the flash loop computes from a cell lead back to that cell |
| Octopus.IndexCoord | day_11/src/main.rs:28 | the cell of on-grid coordinates has those coordinates |
| Octopus.NeighboursAround | day_11/src/main.rs:1-12 | the eight neighbours are exactly the other positions at most one step away in each direction |
| Octopus.NeighboursDistinct | day_11/src/main.rs:1-12 | no neighbour is listed twice |
| Octopus.NbrIsAdj | day_11/src/main.rs:52-56 | the on-grid neighbours the loop visits are exactly the cells the flashing cell touches |
| Octopus.NbrInjective | day_11/src/main.rs:52-58 | distinct neighbours of a cell are distinct cells, so no cell is raised twice by one flash |
| Octopus.UnderBump | day_11/src/main.rs:58-64 | a cell reaching 10 leaves the cells below 10; no other raise changes them |
| Octopus.Bump | day_11/src/main.rs:58-64 | raising one cell keeps the length, never lowers a level, and moves a cell from below 10 to the queue exactly when it reaches 10 |
| Octopus.Spread | day_11/src/main.rs:52-65 | the neighbour loop never lowers a level, queues only cells of the grid, and trades cells below 10 for queue entries one for one |
| Octopus.Propagate | day_11/src/main.rs:48-66 | the flash loop ends (each pass shortens the queue or moves a cell past 9 for good) and never lowers a level |
| Octopus.Raise | day_11/src/main.rs:39-40 | rule 1: every level one higher |
| Octopus.Overfull | day_11/src/main.rs:39-45 | the first queue holds exactly the cells above 9, in increasing order |
| Octopus.Step | day_11/src/main.rs:32-77 | the step keeps the grid's shape and leaves every level between 0 and 9 |
| Octopus.BumpForced | day_11/src/main.rs:60-63 | a cell queued by a bump reached 10 from flashed neighbours alone |
| Octopus.SpreadSpec | day_11/src/main.rs:52-65 | the neighbour loop keeps the flash invariant to its end |
| Octopus.PropagateSpec | day_11/src/main.rs:48-66 | the flash loop ends with nothing queued and the invariant kept |
| Octopus.PropStart | day_11/src/main.rs:38-45 | before the flash loop nothing has flashed and the queue holds the cells above 9 |
| Octopus.CountFullIs | day_11/src/main.rs:68-74 | the final loop counts the cells at 10 or more |
| Octopus.FlashedIs | day_11/src/main.rs:69-73 | rule 3: the flashed cells are exactly those the step leaves at 0 |
| Octopus.StepSpec | day_11/src/main.rs:32-77 | the flashing cells are the least set closed under the flash rule; each ignites from the others; they are counted and drop to 0; every other cell ends at its level plus one plus its number of flashing neighbours |
| Octopus.StepCount | day_11/src/main.rs:68-76 | the step returns the number of flashed cells |
| Octopus.AllFlash | day_11/src/main.rs:117 | the count equals the number of cells exactly when the whole grid is left at 0 |
| Octopus.FlashedBound | day_11/src/main.rs:60-63 | a step flashes each cell at most once |
| Octopus.IterateNext | day_11/src/main.rs:106-108 | stepping the grid after `n` steps gives the grid after `n + 1` |
| Octopus.FlashesBound | day_11/src/main.rs:102-111 | `n` steps flash at most `n` times per cell |
| Octopus.Part1 | day_11/src/main.rs:102-111 | the total flashes of the first 100 steps, at most 100 per cell |
| Octopus.SyncStep | day_11/src/main.rs:117 | step `n + 1` counts every cell exactly when it leaves them all at 0 |
| Octopus.FirstSync | day_11/src/main.rs:116-119 | the first step after which every cell is at 0, no earlier step doing so; `None` only when none of the first `limit` steps does |
| Octopus.Part2 | day_11/src/main.rs:113-122 | the first step after which every octopus has just flashed, none before it; `None` only when no step up to `limit` synchronises |
| Octopus.ParseGrid | day_11/src/main.rs:80-96 | `None` exactly for the empty text (the `unwrap` panics); otherwise the digits in order, the width the first line's length and the height the line count, both cut to `u8` |
| Octopus.ParseRows | day_11/src/main.rs:80-96 | equal rows of digits, fewer than 256 of fewer than 256 digits, parse to a valid grid holding digit x of row y at cell (x, y) |
| DigitGrid.Digits | day_11/src/main.rs:81-85 | keeps the digit characters only, so never lengthens the text |
| DigitGrid.DigitsOfDigits | day_11/src/main.rs:81-85 | a text of digits gives one level per character, each that digit's value |
| DigitGrid.RowsTextFacts | day_11/src/main.rs:87-89 | rows joined by newlines split back into the same lines, and their digits are the rows' digits in order |
| Caves.Empty | src/day_12/mod.rs:18-20 | the zero word holds no cave |
| Caves.Mask | src/day_12/mod.rs:9-11 | `1 << idx` holds exactly cave `idx` |
| Caves.Add | src/day_12/mod.rs:22-24 | `add` sets the cave's bit and keeps every other bit |
| Caves.Remove | src/day_12/mod.rs:26-28 | `remove` clears the cave's bit and keeps every other bit |
| Caves.RemoveAll | src/day_12/mod.rs:30-32 | `remove_all` keeps exactly the members the other set lacks |
| Caves.TrailingZeros | src/day_12/mod.rs:39 | the lowest set bit, with every bit below it clear; 16 exactly for the zero word |
| Caves.Next | src/day_12/mod.rs:38-47 | the iterator ends exactly on the empty set; otherwise it yields the lowest member and removes it |
| Caves.ElementsMembers | src/day_12/mod.rs:35-48 | iterating a set yields every member and nothing else |
| Caves.ElementsIncreasing | src/day_12/mod.rs:35-48 | iterating a set yields its members in increasing order, so each once |
| Caves.RegisterStep | src/day_12/mod.rs:90-104 | a known name changes nothing; a new admissible name gets the next number, an empty edge set and its small flag; an inadmissible one is the panic |
| Caves.RegisterAllFacts | src/day_12/mod.rs:88-106 | the first pass numbers the distinct names in order of first appearance, and succeeds exactly when each new name is non-empty and a small one's number fits in the mask |
| Caves.LinkedSymmetric | src/day_12/mod.rs:108-115 | a line joins two caves whichever way round it names them |
| Caves.LinkStep | src/day_12/mod.rs:109-114 | a line links exactly when it has a second name and both numbers fit in a mask; linking keeps the nodes and the small set |
| Caves.LinkStepAt | src/day_12/mod.rs:113-114 | a linked line adds exactly its pair of caves, each to the other's edge set |
| Caves.LinkAllOk | src/day_12/mod.rs:108-115 | the second pass succeeds exactly when every line links |
| Caves.LinkAllEdgesAt | src/day_12/mod.rs:108-115 | after the second pass cave `j` is in cave `x`'s set exactly when it was before or some line joins them |
| Caves.Finish | src/day_12/mod.rs:117-123 | finding `start` and `end` and dropping `start` from every edge set keeps the nodes and one edge set per node |
| Caves.ParseNodes | src/day_12/mod.rs:78-126 | the nodes are the distinct names in order of first appearance, each small exactly when it starts with a lower-case letter |
| Caves.ParseValid | src/day_12/mod.rs:78-126 | a parsed map is well formed, and its `start` and `end` carry those names |
| Caves.ParseEdgesAt | src/day_12/mod.rs:108-123 | cave `j` is in cave `x`'s set exactly when some line joins them and `j` is not `start` |
| Caves.ParseEdgesSymmetric | src/day_12/mod.rs:113-114 | apart from `start`, every edge of a parsed map goes both ways |
| Caves.ParseOk | src/day_12/mod.rs:78-126 | `parse_input` returns a map exactly when every new name is admissible, every line links, both `start` and `end` occur and `start`'s number fits in a mask |
| Caves.Visit | src/day_12/mod.rs:157-159 | stepping onto a cave records it exactly when it is small |
| Caves.RankDrops | src/day_12/mod.rs:154-163 | every step onto a fresh neighbour lowers the measure, so the search ends when no two big caves are joined |
| Caves.LevelSplit | src/day_12/mod.rs:154-163 | taking the lowest cave out of a level's set moves its paths onto the level pushed for that cave |
| Caves.PendingPush | src/day_12/mod.rs:156-162 | pushing a level adds its work to the stack's |
| Caves.PendingPop | src/day_12/mod.rs:164-168 | popping the top level removes its work from the stack's |
| Caves.LeaveUndoesVisit | src/day_12/mod.rs:164-168 | leaving a cave undoes the visit that entered it |
| Caves.StepPop | src/day_12/mod.rs:144-152 | popping at `end` counts its path and popping an empty level counts nothing; either way the stack below is restored |
| Caves.StepPush | src/day_12/mod.rs:154-163 | stepping onto the lowest cave left pushes a level for it, keeping the paths still to find |
| Caves.Step | src/day_12/mod.rs:143-170 | one loop iteration keeps the stack well formed, keeps found plus still-to-find paths, and lowers the remaining work; it counts a path exactly when the top of the path is the end cave |
| Caves.Part1 | src/day_12/mod.rs:132-173 | the loop counts exactly the start-to-end paths on which no small cave repeats |
| Caves.MaskFacts | src/day_12/mod.rs:197-203 | `mask` is the cave's bit if it is small and zero otherwise, so a big cave always passes the first test and is never recorded |
| Caves.SigilFacts | src/day_12/mod.rs:205-206 | the sigil test reads bit 15, and setting the sigil sets only that bit |
| Caves.RankVisit | src/day_12/mod.rs:197-204 | stepping onto a neighbour that is not an already visited small cave lowers the measure |
| Caves.CountAgree | src/day_12/mod.rs:184-214 | on at most 15 caves the as-written count with the flag in the sigil bit equals the intended count with a separate flag |
| Caves.Part2Intended | src/day_12/mod.rs:183-223 | on at most 15 caves `part_2` counts the paths that visit one small cave at most twice and the others at most once, starting with nothing visited |
| Caves.SpareVisitMonotone | src/day_12/mod.rs:202-208 | keeping the second visit in reserve never loses a path |
| Caves.ElementsRemoveAll | src/day_12/mod.rs:160-161 | iterating a set difference yields the first set's members that the second lacks, in the same order |
| Caves.SpentIsPart1 | src/day_12/mod.rs:132-223 | once the second visit is spent, part two's count is part one's walk |
| Caves.Part1IsSpentPart2 | src/day_12/mod.rs:132-223 | part two with its second visit spent from the outset is part one |
| Caves.Part2CountsMore | src/day_12/mod.rs:132-223 | every path of part one is a path of part two |
| Origami.FoldPoint | src/day_13/mod.rs:62-89 | a dot on the kept side stays put and one past the line lands on its mirror image; either way it ends on the kept side, never further along the axis, and keeps the other coordinate |
| Origami.MirrorMirror | src/day_13/mod.rs:69-72 | mirroring twice across the same line gives the dot back |
| Origami.FoldMirror | src/day_13/mod.rs:62-89 | a dot and its mirror image land on the same place |
| Origami.FoldPointIdempotent | src/day_13/mod.rs:62-89 | folding a dot a second time along the same line moves nothing |
| Origami.FoldMembers | src/day_13/mod.rs:59-92 | a dot is present after a fold exactly when it is on the kept side and it or its mirror image was present before |
| Origami.FoldCount | src/day_13/mod.rs:59-92 | a fold never adds dots |
| Origami.FoldIdempotent | src/day_13/mod.rs:59-92 | folding the folded paper again along the same line changes nothing |
| Origami.DoFoldLoop | src/day_13/mod.rs:59-92 | the drain loop builds exactly the folded set, no larger than the old one |
| Origami.FoldAllAppend | src/day_13/mod.rs:100-104 | folding along one list and then another is folding along their concatenation |
| Origami.FoldAllKept | src/day_13/mod.rs:100-104 | after all the folds every dot is on the kept side of every fold line |
| Origami.Part1 | src/day_13/mod.rs:94-98 | `None` exactly when there is no fold (the index panics); otherwise the dots left after the first fold, never more than before |
| Origami.Part2Impl | src/day_13/mod.rs:100-104 | the loop applies every fold in order; the result is no larger and lies on the kept side of every line |
| Origami.ParsePoints | src/day_13/mod.rs:28-37 | defined exactly when every dot line parses, and then the set of exactly those dots |
| Origami.ParseFolds | src/day_13/mod.rs:39-54 | defined exactly when every fold line parses, and then those folds in order |
| Origami.FirstBlank | src/day_13/mod.rs:28-31 | the dot section ends at the first empty line, or at the end |
| Origami.ParseInput | src/day_13/mod.rs:21-57 | defined exactly when every line before the first empty one is a dot and every line after it a fold |
| Origami.ParseRenderPoint | src/day_13/mod.rs:33-36 | any dot with `i64` coordinates written as `x,y` parses back to itself |
| Origami.ParseRenderFold | src/day_13/mod.rs:43-51 | any fold along an `i64` line written as `fold along x=N` or `fold along y=N` parses back to itself |
| Polymer.LetterIndex | src/day_14/mod.rs:97 | `c - b'A'` of an upper-case letter indexes the 26-entry histogram |
| Polymer.RulePairs | src/day_14/mod.rs:19-23 | `line[..2]` is defined exactly when every rule line has two characters, and is then each line's first two letters |
| Polymer.InitFrom | src/day_14/mod.rs:38-45 | the template loop gives one counter per numbered pair |
| Polymer.AdditionsFrom | src/day_14/mod.rs:47-62 | the rule loop gives one pair of products per numbered pair |
| Polymer.ParseInput | src/day_14/mod.rs:18-70 | a parsed input has a non-empty template, one counter and one in-range pair of products per numbered pair |
| Polymer.NoAdditions | src/day_14/mod.rs:47 | one `(0, 0)` entry per pair, each in range once there is a pair |
| Polymer.AdditionsInRange | src/day_14/mod.rs:54-61 | every products entry the rule loop writes names numbered pairs |
| Polymer.Expand | src/day_14/mod.rs:72-108 | one polymer step keeps the first letter |
| Polymer.ExpandN | src/day_14/mod.rs:77-91 | any number of steps keeps the first letter |
| Polymer.AdjacentExpand | src/day_14/mod.rs:86-90 | the pairs of the expanded polymer are what the old pairs produce, in order |
| Polymer.DotCounts | src/day_14/mod.rs:86-90 | a weighted sum of the count vector is the sum of the weights of the pairs counted |
| Polymer.RoundDoubles | src/day_14/mod.rs:86-90 | every pair turns into two, so a round doubles the number of pairs |
| Polymer.RoundPointwise | src/day_14/mod.rs:86-90 | after the inner loop each counter is the weighted sum of the counts of the pairs that turn into it |
| Polymer.RoundCounts | src/day_14/mod.rs:84-90 | a round of the counters is a step of the pair list, counted |
| Polymer.StepCounts | src/day_14/mod.rs:84-90 | a round of the counters is a step of the polymer, counted |
| Polymer.ProduceWithin | src/day_14/mod.rs:54-59 | the pairs produced from numbered pairs are numbered |
| Polymer.ExpandNWithin | src/day_14/mod.rs:54-59 | every pair of the polymer stays numbered however many steps it takes |
| Polymer.IterateExpands | src/day_14/mod.rs:77-92 | after any number of rounds the counters are the pair counts of the polymer after as many steps |
| Polymer.Histogram | src/day_14/mod.rs:94-100 | defined exactly when the template's first letter is upper-case (otherwise `- b'A'` underflows, or the index runs past the 26 entries for a letter after `Z`), and then that letter's entry is positive |
| Polymer.CreditPointwise | src/day_14/mod.rs:96-99 | each letter's entry is the weighted sum of the counts of the pairs ending in it |
| Polymer.LettersFromPairs | src/day_14/mod.rs:96-100 | every letter but the first is the second letter of exactly one pair |
| Polymer.UpperThroughout | src/day_14/mod.rs:32-35 | a polymer whose first letter is upper-case and whose pairs are numbered is upper-case throughout |
| Polymer.HistogramLetters | src/day_14/mod.rs:94-100 | the histogram read off the pair counts is the polymer's letter histogram |
| Polymer.MinNonzero | src/day_14/mod.rs:102-104 | the first non-zero entry of the sorted histogram: `None` exactly for an all-zero histogram, otherwise the least positive entry |
| Polymer.DoSolve | src/day_14/mod.rs:72-108 | the result is the spread of the histogram of the counters after the given number of rounds |
| Polymer.RunRounds | src/day_14/mod.rs:73-92 | with the two buffers taking turns, the one read last holds the counters after all the rounds |
| Polymer.RunRound | src/day_14/mod.rs:84-90 | the cleared buffer ends as one round applied to the buffer read |
| Polymer.InitFromCounts | src/day_14/mod.rs:38-45 | the template loop succeeds exactly when every pair of the template has a number, and then counts each pair once per occurrence |
| Polymer.AdditionsConsistent | src/day_14/mod.rs:48-62 | every rule line is long enough; each pair's entry is the one its last rule line sets; pairs without a rule keep theirs |
| Polymer.InitCounts | src/day_14/mod.rs:37-45 | the initial counters count the template's pairs, all of them numbered |
| Polymer.PairsAreRulePairs | src/day_14/mod.rs:19-24 | the pairs numbered are exactly the pairs that have a rule |
| Polymer.ParseFacts | src/day_14/mod.rs:18-70 | a parsed input's template is the first line, its pairs are exactly the rule pairs, its counters count the template's pairs, and its products agree with the rules |
| Polymer.SolveMatchesPolymer | src/day_14/mod.rs:72-116 | on a parsed input the answer after any number of rounds is the most common letter's count minus the least common's in the polymer grown for as many steps; it fails only when the first letter is not upper-case |
| Chiton.NextNeighbour | src/day_15/mod.rs:18-39 | one `next` call yields the first in-bounds offset point at or after the cursor, skipping only out-of-bounds ones, and advances the cursor past it |
| Chiton.NeighboursInOrder | src/day_15/mod.rs:15-52 | the iterator yields the in-bounds points among −x, +x, −y and +y, in that order |
| Chiton.NeighboursMembers | src/day_15/mod.rs:15-52 | a point is yielded exactly when it is in bounds and orthogonally adjacent |
| Chiton.IndexInRange | src/day_15/mod.rs:61-63 | every in-bounds position indexes a cell of the grid |
| Chiton.IndexInjective | src/day_15/mod.rs:61-63 | distinct in-bounds positions use distinct cells |
| Chiton.Put | src/day_15/mod.rs:71-74 | a write through `get_mut` changes only the cell written |
| Chiton.Rem9 | src/day_15/mod.rs:106 | Rust's `% 9` keeps the dividend's sign and differs from it by a multiple of 9 |
| Chiton.TileSplit | src/day_15/mod.rs:95-103 | `% dim` and `/ dim` split a point into its copy and its place inside the tile, which recombine to the point |
| Chiton.TiledValueRange | src/day_15/mod.rs:106 | with tile levels in 1..=9 every tiled level is in 1..=9 |
| Chiton.TiledValueFirstCopy | src/day_15/mod.rs:106 | the top-left copy reproduces the tile |
| Chiton.TiledValueNextCopy | src/day_15/mod.rs:106 | one copy further on is one level higher, 9 wrapping round to 1 |
| Chiton.TiledValueZero | src/day_15/mod.rs:106 | a zero in the tile stays zero in the first copy, because the negative remainder keeps its sign |
| Chiton.TiledRiskRange | src/day_15/mod.rs:94-107 | every level a tiled map reports is in 1..=9 when the tile's are |
| Chiton.TiledFirstCopy | src/day_15/mod.rs:94-107 | inside the first copy the tiled map reads the tile itself |
| Chiton.TiledRightCopy | src/day_15/mod.rs:94-107 | the copy one tile-width to the right is one level riskier, 9 wrapping to 1 |
| Chiton.TiledDownCopy | src/day_15/mod.rs:94-107 | the copy one tile-height down is one level riskier, 9 wrapping to 1 |
| Chiton.ParseInput | src/day_15/mod.rs:114-127 | an error exactly for the empty text (the `unwrap` panics); otherwise the digits row-major, the width the first line's length and the height the line count |
| Chiton.ParseRows | src/day_15/mod.rs:114-127 | equal-length digit rows, with or without a final newline, give a grid whose cell (x, y) is digit x of row y |
| Chiton.CmpInt | src/day_15/mod.rs:149 | `Ord::cmp` on integers is `Less`, `Equal` or `Greater` exactly as the values compare |
| Chiton.CmpIsExtOrder | src/day_15/mod.rs:141-152 | `Infinite` above every finite value: `Equal` exactly on equal values, antisymmetric, and not `Greater` exactly for the order on extended naturals |
| Chiton.CmpTransitive | src/day_15/mod.rs:141-152 | the order on `DjikstraValue` is transitive, strictly so when either step is strict |
| Chiton.CmpU32IsCmp | src/day_15/mod.rs:154-170 | comparing with a `u32` is comparing with that finite value; `Infinite` exceeds every `u32` and equals none |
| Chiton.UnvisitedReversed | src/day_15/mod.rs:178-190 | an entry ranks above another exactly when its value is smaller |
| Chiton.PopIndex | src/day_15/mod.rs:205 | the popped entry is one that no other entry ranks above |
| Chiton.PopIsCheapest | src/day_15/mod.rs:205 | the popped entry carries the least value in the heap |
| ChitonSearch.PathExtend | src/day_15/mod.rs:215-219 | one more step extends a walk and adds the entered cell's risk |
| ChitonSearch.CostPrefix | src/day_15/mod.rs:215-219 | a prefix of a walk costs no more than the whole walk |
| ChitonSearch.PrefixBound | src/day_15/mod.rs:205-226 | along a walk from the origin whose first points are settled, the tentative distance of the next point is at most the risk of the walk so far |
| ChitonSearch.ChainBound | src/day_15/mod.rs:205-226 | any walk from the origin to an unsettled point costs at least the value of some heap entry |
| ChitonSearch.PoppedIsLeast | src/day_15/mod.rs:205-208 | the entry popped for the destination carries the least total risk |
| ChitonSearch.ExhaustedMeansUnreachable | src/day_15/mod.rs:205-228 | with the heap empty no walk reaches the destination |
| ChitonSearch.ImproveAt | src/day_15/mod.rs:221-224 | lowering one tentative distance lowers the termination measure |
| ChitonSearch.Step | src/day_15/mod.rs:216-224 | handling one neighbour keeps the search invariant: if the route through the popped point is cheaper it is recorded and pushed, and no distance gets worse |
| ChitonSearch.Relax | src/day_15/mod.rs:215-225 | the neighbour loop keeps the frontier invariant; it pushes nothing exactly when it changes no distance |
| ChitonSearch.EntriesAfterPop | src/day_15/mod.rs:205 | removing the popped entry keeps every other entry's facts |
| ChitonSearch.Djikstra | src/day_15/mod.rs:192-229 | the answer is the least total risk of a walk from origin to destination; `None` (the panic) only when no walk reaches it |
| ChitonSearch.StaircaseIsPath | src/day_15/mod.rs:231-238 | every cell is reachable from the top-left corner, so the search never panics on a whole grid |
| ChitonSearch.Part1 | src/day_15/mod.rs:231-238 | the least total risk from the top-left to the bottom-right cell |
| ChitonSearch.Part2 | src/day_15/mod.rs:240-252 | the least total risk across the map tiled five times in each direction |
| BitCursor.HexValue | src/day_16/mod.rs:17-21 | a nibble exactly for `0`-`9` and `A`-`F` (the panic otherwise), and the digit that nibble is written as is the character read |
| BitCursor.HexRoundTrip | src/day_16/mod.rs:17-21 | reading a hex digit and writing a nibble are inverse on the 16-character alphabet |
| BitCursor.HexNibbles | src/day_16/mod.rs:15-22 | defined exactly when every character is a hex digit, and then one nibble per character, each spelling its character |
| BitCursor.CursorAtPos | src/day_16/mod.rs:1-11 | a valid cursor is determined by its nibbles and its bit position |
| BitCursor.FromHexStr | src/day_16/mod.rs:14-29 | a fresh cursor at bit 0 over one nibble per character, exactly when every character is a hex digit; otherwise the invalid-byte error |
| BitCursor.NibbleBits | src/day_16/mod.rs:34-39 | the four bits of a nibble, most significant first, spell its value |
| BitCursor.StreamIndex | src/day_16/mod.rs:34-46 | bit `j` of nibble `i` sits at position `4 * i + j` of the transmission |
| BitCursor.NibbleBitMask | src/day_16/mod.rs:34-39 | the mask-and-shift isolates exactly bit `j` of the nibble, counted from the top |
| BitCursor.ReadBitStream | src/day_16/mod.rs:34-39 | the bit under the cursor is the bit at its position in the transmission |
| BitCursor.Advance | src/day_16/mod.rs:44-46 | one step of the offsets moves the cursor one bit on, carrying from bit 3 into the next nibble |
| BitCursor.TakeN | src/day_16/mod.rs:31-50 | a successful read of `n` bits leaves the cursor exactly `n` bits on, over the same nibbles, and yields a number below `2^n` |
| BitCursor.TakeNLoop | src/day_16/mod.rs:31-50 | the bit-by-bit loop, or-ing each bit in at position `n - 1`, computes `TakeN` |
| BitCursor.TakeNOk | src/day_16/mod.rs:31-50 | whenever `n` bits remain, `take_n(n)` succeeds with the value of exactly those bits, first bit most significant, and the cursor just after them |
| BitCursor.OrInBit | src/day_16/mod.rs:41 | or-ing the next bit in at weight `2^(k-1)` extends the value read so far by that bit |
| BitCursor.Remaining | src/day_16/mod.rs:52-54 | `remaining()` is always 4 more than the number of unread bits |
| BitCursor.TakeNRemaining | src/day_16/mod.rs:52-54 | a successful `take_n(n)` lowers `remaining()` by exactly `n` |
| BitCursor.TakeAt | src/day_16/mod.rs:31-50 | `take_n` at a position reads the value of the transmission's bits from there |
| BitCursor.TakeNExample | src/day_16/mod.rs:230-237 | on "D2FE28" the five reads give 110, 100, 10111, 11110 and 00101, each from where the previous one stopped |
| BitCursor.HexNibblesExample | src/day_16/mod.rs:231 | "D2FE28" decodes to the nibbles 13, 2, 15, 14, 2, 8 |
| PacketParser.VersionSumAppend | src/day_16/mod.rs:215-217 | the version sum of two runs of packets is the sum of theirs |
| PacketParser.TreeVersionSumFrame | src/day_16/mod.rs:197-200 | pushing more packets onto the arena leaves the version sum of every existing packet's tree unchanged |
| PacketParser.ParseLiteral | src/day_16/mod.rs:139-151 | a literal consumes at least one 5-bit group, never loses the value accumulated so far, and fails only by running out of bits |
| PacketParser.HexDigitsOf | src/day_16/mod.rs:139-151 | every value has a non-empty digit string, base 16, that spells it |
| PacketParser.LiteralGroups | src/day_16/mod.rs:141-149 | an encoding writes one 5-bit group per digit |
| PacketParser.ParseLiteralGroups | src/day_16/mod.rs:139-151 | the literal round trip: the groups of any digit string read back as the digits' value, and the cursor stops right after the last group |
| PacketParser.LiteralStep | src/day_16/mod.rs:144-149 | one loop iteration shifts the group's low four bits in, stopping exactly when the top bit is clear |
| PacketParser.GroupFields | src/day_16/mod.rs:141-147 | `& PAYLOAD_MASK` is the digit and `& CONTINUE_MASK` is zero exactly when the flag is clear |
| PacketParser.OperationId | src/day_16/mod.rs:170-179 | every operation has a type id below 8 other than 4 |
| PacketParser.OperationIdRoundTrip | src/day_16/mod.rs:170-179 | the operator table is a bijection between the seven non-literal ids and the operations |
| PacketParser.ParsePacket | src/day_16/mod.rs:187-201 | a packet consumes at least 11 bits, only appends to the arena, and its id is the last index; children stay before parents, and its tree's version sum is the sum of the versions it appended |
| PacketParser.ParseOperatorPayload | src/day_16/mod.rs:153-185 | the operation is the one its type id names, at least 12 bits are consumed, and the children are parsed in order before it |
| PacketParser.ParseByBits | src/day_16/mod.rs:155-163 | children are parsed in order until `remaining()` is at or below the target, and nothing is parsed when it starts there |
| PacketParser.ParseByCount | src/day_16/mod.rs:164-166 | exactly `count` children are parsed, in order |
| PacketParser.PushKeepsOrder | src/day_16/mod.rs:197-200 | a packet pushed after all its children keeps every child before its parent |
| PacketParser.PushVersionSum | src/day_16/mod.rs:197-200 | pushing a packet adds its version to the version sum |
| PacketParser.ParseInput | src/day_16/mod.rs:203-213 | the root is the last packet pushed, every child precedes its parent, and the arena's version sum (`part_1`) is the root tree's |
| PacketEval.CompareValues | src/day_16/mod.rs:121-131 | a comparison yields 1 or 0 |
| PacketEval.Eval | src/day_16/mod.rs:104-136 | a literal is its value; an empty sum is 0 and an empty product 1; an empty minimum or maximum, or a comparison with fewer than two children, is `None` (the `unwrap` panics); a comparison yields at most 1 |
| PacketEval.EvalAll | src/day_16/mod.rs:111 | the children's values are defined exactly when each child's is, and then in order |
| PacketEval.EvalMin | src/day_16/mod.rs:116 | a minimum is defined exactly when there are children and every child is, and is then the least child value |
| PacketEval.EvalMax | src/day_16/mod.rs:117 | a maximum is defined exactly when there are children and every child is, and is then the greatest child value |
| PacketEval.EvalCompare | src/day_16/mod.rs:118-132 | a comparison yields 1 exactly when its first two children are defined and stand in the relation and 0 when they do not; later children play no part |
| PacketEval.EvalSum | src/day_16/mod.rs:114 | a sum is defined exactly when every child is; its value is then the sum of the children's values, at least each child, and zero exactly when every child is zero |
| PacketEval.EvalProduct | src/day_16/mod.rs:115 | a product is defined exactly when every child is; its value is then the product of the children's values, zero exactly when some child is zero, and otherwise at least each child |
| PacketEval.EvalReordered | src/day_16/mod.rs:111-115 | a sum or product does not depend on the order of its children |
| PacketEval.SumExampleValue | src/day_16/mod.rs:241-243 | the packet tree "C200B40A82" encodes, 1 + 2, evaluates to 3 |
| PacketEval.ProductExampleValue | src/day_16/mod.rs:245-247 | the packet tree "04005AC33890" encodes, 6 * 9, evaluates to 54 |
| PacketEval.MaxExampleValue | src/day_16/mod.rs:249-251 | the packet tree "CE00C43D881120" encodes, max(7, 8, 9), evaluates to 9 |
| PacketEval.LessExampleValue | src/day_16/mod.rs:253-255 | the packet tree "D8005AC2A8F0" encodes, 5 < 15, evaluates to 1 |
| PacketEval.GreaterExampleValue | src/day_16/mod.rs:257-259 | the packet tree "F600BC2D8F" encodes, 5 > 15, evaluates to 0 |
| PacketEval.EqualExampleValue | src/day_16/mod.rs:261-263 | the packet tree "9C005AC2F8F0" encodes, 5 == 15, evaluates to 0 |
| PacketEval.NestedExampleValue | src/day_16/mod.rs:265-267 | the packet tree "9C0141080250320F1802104A08" encodes, 1 + 3 == 2 * 2, evaluates to 1 |
| TrickShot.Step | src/day_17/mod.rs:71-75 | one step lowers the vertical speed by one and brings the horizontal speed one closer to zero, never past it |
| TrickShot.AtVelY | src/day_17/mod.rs:71-75 | after `n` steps the vertical speed is the initial one minus `n` |
| TrickShot.AtPosY | src/day_17/mod.rs:71-75 | after `n` steps the height is `n·v.y − n(n−1)/2`, the closed form of the trajectory |
| TrickShot.AtVelX | src/day_17/mod.rs:71-75 | after `n` steps the horizontal speed has dropped by `min(n, abs(v.x))` towards zero, keeping its sign |
| TrickShot.GlideStep | src/day_17/mod.rs:72-73 | one more step of a slowing glide covers the current speed minus the steps already taken |
| TrickShot.AtPosX | src/day_17/mod.rs:71-75 | the sideways distance after `n` steps is `c·abs(v.x) − c(c−1)/2` in the direction of `v.x`, with `c = min(n, abs(v.x))`: drag stops the probe and it stays there |
| TrickShot.MaxHeight | src/day_17/mod.rs:84-106 | `max_height` starts at 0 and never drops below it |
| TrickShot.MaxHeightIsMax | src/day_17/mod.rs:84-106 | `max_height` after `n` steps is at least every height reached within them, and is 0 or one of them |
| TrickShot.HopelessStep | src/day_17/mod.rs:90-103 | each give-up condition of `trial` (below and falling, short and not moving right, past and not moving left) survives a step, and a probe meeting one is outside the target |
| TrickShot.HopelessForever | src/day_17/mod.rs:90-103 | giving up is sound: once a condition holds the probe never reaches the target at any later step |
| TrickShot.TrialFromAt | src/day_17/mod.rs:85-107 | the loop from step `n`, if the target was not reached before, ends with the highest point up to the first later step inside it, or with `None` exactly when no later step is inside |
| TrickShot.TrialIsFirstHit | src/day_17/mod.rs:78-108 | `trial` succeeds exactly when some step of the trajectory is inside the target, and then gives the highest point reached up to the first such step |
| TrickShot.HitsMembers | src/day_17/mod.rs:129-148 | the hits counted so far are exactly the velocities tried so far whose trial succeeds |
| TrickShot.HitsSame | src/day_17/mod.rs:131-132 | the hits depend only on which velocities have been tried |
| TrickShot.HitsColumnEnd | src/day_17/mod.rs:131-132 | finishing the `init_y` range of one `init_x` is starting the next |
| TrickShot.HitsEnd | src/day_17/mod.rs:131-132 | once `init_x` passes `top_right.x` every velocity of the search box has been tried |
| TrickShot.HitsNext | src/day_17/mod.rs:133-143 | trying `(x, y)` adds it to the hits exactly when its trial succeeds, and it was not there before |
| TrickShot.CountHits | src/day_17/mod.rs:129-148 | the nested loops count every velocity of the box whose trial succeeds, once each |
| TrickShot.HitsReach | src/day_17/mod.rs:78-148 | the velocities `part_2` counts are exactly those with `init_x` in `0..=top_right.x` and `init_y` in `bottom_left.y - 1..1000` whose trajectory enters the target |
| TrickShot.Part2 | src/day_17/mod.rs:129-148 | `part_2` is the number of velocities of the box whose trial succeeds |
| TrickShot.BestAdd | src/day_17/mod.rs:121 | taking `max` with one more hit's height keeps the answer the best over the hits seen |
| TrickShot.BestHeight | src/day_17/mod.rs:110-127 | the nested loops end with 0 or some hit's height, and at least every hit's height |
| TrickShot.Part1 | src/day_17/mod.rs:110-127 | `part_1` is the greatest height of any velocity of the box that hits the target, or 0 when none hits |
| TrickShot.ParseRenderRange | src/day_17/mod.rs:43-45 | `a..b` reads back as the pair `(a, b)` whenever both ends fit an `i32` |
| TrickShot.ParsePieces | src/day_17/mod.rs:33-62 | after the `target area: ` prefix the line splits at its comma; the x range follows `x=` and the y range the first three characters of ` y=`, and the target's corners are `(x_min, y_min)` and `(x_max, y_max)` |
| TrickShot.ParseRender | src/day_17/mod.rs:33-62 | every target whose corners fit an `i32`, written as the puzzle's input line, parses back to itself |
| Snailfish.Blank | src/day_18/mod.rs:167 | a fresh number is 32 empty slots |
| Snailfish.Layout | src/day_18/mod.rs:3-21 | a tree packs into a chunk of `2^k` slots whose first slot is its leftmost leaf: a leaf fills the first slot of its chunk and a pair puts its children in the two halves |
| Snailfish.MagnitudeBlank | src/day_18/mod.rs:30-38 | an empty chunk has the "no value" magnitude -1 |
| Snailfish.LeafHalves | src/day_18/mod.rs:3-21 | a leaf's chunk splits into the leaf's chunk one level down and an empty half |
| Snailfish.MagnitudeLayout | src/day_18/mod.rs:27-47 | `magnitude` of a packed tree is 3 times the left magnitude plus 2 times the right, down to the leaves: the tree's magnitude |
| Snailfish.MagnitudeLeafStep | src/day_18/mod.rs:31-39 | a leaf's chunk has the leaf's value as magnitude, its empty half being ignored |
| Snailfish.MagnitudePairStep | src/day_18/mod.rs:32-40 | a pair's chunk has magnitude `3·x + 2·y` of its halves |
| Snailfish.TreeString | src/day_18/mod.rs:131-153 | the text of a tree is never empty |
| Snailfish.RenderBlank | src/day_18/mod.rs:135-144 | an empty chunk renders as the empty string |
| Snailfish.RenderLayout | src/day_18/mod.rs:129-155 | rendering a packed tree prints the tree: `[left,right]` for a pair and the number for a leaf |
| Snailfish.RenderLeafStep | src/day_18/mod.rs:136-146 | a leaf's chunk renders as the leaf's number |
| Snailfish.RenderPairStep | src/day_18/mod.rs:137-147 | a pair's chunk renders as the bracketed, comma-separated renderings of its halves |
| Snailfish.ParseChar | src/day_18/mod.rs:193-212 | one character of `from_str` keeps 32 slots; it fails with `InvalidChar` exactly on a character that is neither whitespace, a bracket, a comma nor a digit, and never with `TooDeep` |
| Snailfish.ParseFrom | src/day_18/mod.rs:193-215 | the character loop keeps 32 slots and never fails with `TooDeep` |
| Snailfish.FromStr | src/day_18/mod.rs:185-216 | `from_str` yields 32 slots or an error other than `TooDeep`, which the original never returns |
| Snailfish.ParseFromAppend | src/day_18/mod.rs:193-215 | parsing a concatenation parses the first part and carries on from where it stopped; the first failure ends the loop |
| Snailfish.NextSibling | src/day_18/mod.rs:203-205 | the shift right, increment and shift left of `idx` at a `,` move it to the start of the right half of its chunk |
| Snailfish.ParseOne | src/day_18/mod.rs:193-212 | parsing one character is one step of the loop |
| Snailfish.ParseTree | src/day_18/mod.rs:188-216 | parsing a tree's text with `idx` at the start of an empty chunk of `2^k` slots, at depth `5 - k`, writes the tree's packing into that chunk, leaves every other slot alone and returns to the same depth |
| Snailfish.CommaStep | src/day_18/mod.rs:198-206 | a `,` inside the left half of a chunk, at that chunk's depth, moves `idx` to the start of the right half |
| Snailfish.ParseRenderRoundTrip | src/day_18/mod.rs:185-216 | the text of any tree of digits with at most five nested pairs parses to its packing, and rendering that packing gives the text back |
| Snailfish.FirstDepth5 | src/day_18/mod.rs:49-59 | `first_depth_5` finds the first even slot `i` with slots `i` and `i + 1` both filled, and `None` exactly when there is none |
| Snailfish.FirstGte10 | src/day_18/mod.rs:61-63 | `first_gte_10` is the first slot holding at least 10, and `None` exactly when every slot is below 10 |
| Snailfish.Next | src/day_18/mod.rs:65-70 | `next` is the nearest filled slot after `idx`, and `None` exactly when every later slot is empty |
| Snailfish.Prev | src/day_18/mod.rs:72-78 | `prev` is the nearest filled slot before `idx`, and `None` exactly when every earlier slot is empty |
| Snailfish.NextFrame | src/day_18/mod.rs:65-70 | `next` reads only the slots after `idx` |
| Snailfish.TotalUpdate | src/day_18/mod.rs:90-98 | overwriting one slot changes the sum of the regular numbers by the difference in that slot |
| Snailfish.AddToPrev | src/day_18/mod.rs:89-91 | adding to the previous value touches only slots before `idx` |
| Snailfish.AddToNext | src/day_18/mod.rs:93-95 | adding to the next value touches only slots after `idx` |
| Snailfish.Explode | src/day_18/mod.rs:82-98 | an exploded pair leaves 0 in its left slot and an empty right slot |
| Snailfish.ExplodeSpreads | src/day_18/mod.rs:82-98 | an explosion adds the pair's left value to the nearest regular number before it and the right value to the nearest one after it, and leaves every other slot as it was |
| Snailfish.AddToPrevTotal | src/day_18/mod.rs:89-91 | adding to the previous value keeps the slots well formed and raises the sum by the value moved, if there is a previous value |
| Snailfish.AddToNextTotal | src/day_18/mod.rs:93-95 | adding to the next value keeps the slots well formed and raises the sum by the value moved, if there is a next value |
| Snailfish.ExplodeTotal | src/day_18/mod.rs:82-98 | an explosion keeps the slots well formed, and the sum of the regular numbers drops only by a half that has no neighbour to go to |
| Snailfish.EmptyRun | src/day_18/mod.rs:103-106 | `spaces` counts the empty slots after the value, up to the next filled slot or the end |
| Snailfish.SplitOffset | src/day_18/mod.rs:108-114 | only runs of 1, 3, 7 or 15 empty slots have an offset, which is half the run plus one; others are `unreachable!()` |
| Snailfish.SplitTarget | src/day_18/mod.rs:103-114 | the slot a split writes to lies after the value, with only empty slots in between |
| Snailfish.Split | src/day_18/mod.rs:99-121 | a split writes `v / 2` in place and `v - v / 2` at the target, which differ by at most one and sum to `v`; every other slot is unchanged; `None` exactly when the target is unreachable |
| Snailfish.SplitTotal | src/day_18/mod.rs:116-121 | a split keeps the slots well formed and the sum of the regular numbers |
| Snailfish.Step | src/day_18/mod.rs:81-125 | one pass of the loop stops exactly on a reduced number; a pair nested five deep is always exploded before any value is split, and otherwise the first value of at least 10 is split |
| Snailfish.StepTotal | src/day_18/mod.rs:81-125 | a rewrite keeps the slots well formed and never raises the sum of the regular numbers |
| Snailfish.Advance | src/day_18/mod.rs:81-125 | a pass that rewrites turns 32 slots into 32 slots |
| Snailfish.RunsAgree | src/day_18/mod.rs:80-126 | the rewriting is deterministic: two runs from the same slots agree as far as both go |
| Snailfish.RunPrefix | src/day_18/mod.rs:80-126 | a run that ends where no rewrite applies is the longest: any other run from the same slots is a prefix of it |
| Snailfish.Reduce | src/day_18/mod.rs:80-126 | `reduce` follows the rewriting run and answers with a reduced number, namely the run's last state; an already reduced number is returned unchanged; the result stays well formed with no larger sum; the `unreachable!()` arm and running out of fuel are errors |
| Snailfish.ReduceSettlesOn | src/day_18/mod.rs:80-126 | when the run settles within the fuel, every answer meeting `Reduce`'s contract is the number it settles on |
| Snailfish.AdvanceIsStep | src/day_18/mod.rs:81-125 | `Advance` rewrites exactly when a pass of the loop does, to the same slots |
| Snailfish.Join | src/day_18/mod.rs:167-172 | the sum before reduction has 32 slots |
| Snailfish.Add | src/day_18/mod.rs:163-177 | `a + b` is `reduce` on the joined slots: the answer is reduced and is the last state of that run; a join that is already reduced is the answer; well-formed operands give a well-formed sum |
| Snailfish.Halve | src/day_18/mod.rs:169-172 | taking every other slot halves the chunk |
| Snailfish.HalveAppend | src/day_18/mod.rs:169-172 | taking every other slot distributes over concatenation |
| Snailfish.HalveLayout | src/day_18/mod.rs:169-172 | dropping the odd slots of a packing moves the tree up one level when no pair needs the last level |
| Snailfish.JoinHalves | src/day_18/mod.rs:167-172 | joining two numbers puts the even slots of `a` in the first half and those of `b` in the second |
| Snailfish.JoinLayout | src/day_18/mod.rs:163-172 | adding two numbers whose pairs nest at most four deep packs exactly the pair of the two trees: nothing is lost before reduction |
| Snailfish.DeepPairAppend | src/day_18/mod.rs:50-59 | a concatenation has two adjacent filled slots in a pair exactly when one of its parts does |
| Snailfish.DeepPairLayout | src/day_18/mod.rs:50-59 | a packing has a pair with both slots filled exactly when the tree uses every level |
| Snailfish.FirstDepth5Layout | src/day_18/mod.rs:50-59 | `first_depth_5` finds nothing in a packed number exactly when its pairs nest at most four deep |
| Snailfish.SplitLeafAt | src/day_18/mod.rs:103-121 | a split with a run of `spaces` empty slots writes the halves at the value and `(spaces + 1) / 2` slots further on |
| Snailfish.MagnitudeOfText | src/day_18/mod.rs:320-343 | the text of a tree of digits parses to its packing, whose magnitude is the tree's |
| Snailfish.Example143Facts | src/day_18/mod.rs:325 | the tree `[[1,2],[[3,4],5]]` has magnitude 143 |
| Snailfish.MagnitudeExample | src/day_18/mod.rs:325 | `"[[1,2],[[3,4],5]]"` parses and has magnitude 143 |
| Snailfish.RenderExample | src/day_18/mod.rs:258-266 | slots 0, 16 and 24 holding 1, 2 and 3 render as `[1,[2,3]]` |
| SnailfishExamples.ReduceRun | src/day_18/mod.rs:304-318 | from `[[[[[4,3],4],4],[7,[[8,4],9]]],[1,1]]` the rewriting runs through two explosions, two splits and one explosion to `[[[[0,7],4],[[7,8],[6,0]]],[8,1]]`, where it stops, reduced |
| SnailfishExamples.ReduceExample | src/day_18/mod.rs:304-318 | `reduce` on the test's input, with fuel for its five rewrites, answers `[[[[0,7],4],[[7,8],[6,0]]],[8,1]]` |
| SnailfishExamples.JoinAB | src/day_18/mod.rs:167-172 | joining `[[[[4,3],4],4],[7,[[8,4],9]]]` and `[1,1]` gives the unreduced input of that test |
| SnailfishExamples.AddExample | src/day_18/mod.rs:163-177 | adding `[[[[4,3],4],4],[7,[[8,4],9]]]` and `[1,1]` gives `[[[[0,7],4],[[7,8],[6,0]]],[8,1]]` |

## Left out

- Input and output: `include_str!`, the `impl_day!` macro, `main` and `dbg!` are not modelled. Every puzzle input is a parameter, either as raw text to the parsers or as parsed values to the parts.
- Snailfish.Reduce: the original `loop` has no bound; the model takes a `fuel` count of rewrites and answers `Err(OutOfFuel)` when the run is longer. `ReduceSettlesOn` shows that any fuel covering the run gives the original's answer, but a run that never settles is not distinguished from one longer than the fuel.
- Snailfish.Add: inherits the `fuel` bound of `Reduce`.
- Octopus.Part2: `part_2` loops until every octopus flashes at once, which never happens on some grids; the model searches steps `1..limit` (`FirstSync`) and answers `None` past the limit, proving no synchronised step came before it.
- Caves.Ready: requires that no two big caves are adjacent. On such a map the original's `part_1` and `count_paths` never terminate, because a path can bounce between the two big caves forever; there is no answer to model.
- Caves.Part2Intended: states the agreement of `count_paths` with the intended count only for maps of at most 15 caves. With 16, cave 15's mask is bit 15, the same bit as `VISITED_SMALL_TWICE_SIGIL`.
- Caves.CountPaths: the `FxHashMap` memo is dropped; it only caches results the recursion would recompute. The `u32` path counters are unbounded.
- Snailfish: the `i8` width of the slots is not modelled. A regular number of 128 or more, which the original would wrap, is unbounded here.
- Snailfish: day 18 `part_1` and `part_2` are not modelled: they only fold `Add` over the list and maximise `magnitude` over pairs, both of which are modelled.
- Syntax.CompletionScore: the `u64` completion score is unbounded; it overflows in the original for stacks more than about 27 deep. The `i32` corruption total of `part_1` is unbounded too.
- BingoGame.Score: the `i32` board score is unbounded.
- Octopus.Index: computes `x + y * dim_x` on unbounded integers, where the original computes it in `i8` (day_11/src/main.rs:28). That has three effects the model omits:
  - The sum overflows as soon as the index passes 127, which happens on any grid of more than 128 cells. On a 12×12 grid, position (11, 11) gives 143.
  - `dim_x as i8` is negative for widths of 128 or more.
  - A debug build panics on the overflow; a release build wraps.
  The `u8` truncation of the dimensions in `parse_grid` is modelled in `ParseGrid`.
- Origami: the `i64` fold arithmetic and the `usize` counts are unbounded; parsing does check the `i64` range (`ParseI64`).
- PacketEval.EvalSum, PacketEval.EvalProduct: the `u64` `sum()` and `product()` (src/day_16/mod.rs:114-115) are unbounded; a debug build of the original panics on their overflow, which the model does not report.
- SevenSegment: the `usize` count of `part_1` truncated `as i32` (src/day_8/mod.rs:119) and the `i32` total of `part_2` (src/day_8/mod.rs:127-131) are unbounded.
- TrickShot: the `i32` velocities, positions and heights of the simulation are unbounded; parsing does check the `i32` range (`ParseI32`).
- Caves.Part1: the `i32` `path_count` of `part_1` (src/day_12/mod.rs:136) is unbounded.
- Basins.Part1: the `i32` sum of `part_1` (day_9/src/main.rs:45-57) is unbounded.
- Dive, Crabs, Vents, Lanternfish, Polymer, PacketParser, ChitonSearch, Sonar: the `i32`, `u64`, `u32` and `u16` sums, products and counters are unbounded. Where a contract does model a width, it says so: `Vents.AsI32`, `Diagnostic.Part1` and the `u16` parsers.
- Text.ParseNat: accepts digit strings of any length, where Rust's `parse` fails on overflow of the target type. `ParseNatBelow` adds the range check, and the signed checks `ParseI32` and `ParseI64` are built on `ParseIntIn`; every parse of a fixed-width target uses one of them.
- Text.ParseInt: the same for signed numbers; `ParseIntIn` adds the range check.
- Origami.ParseFold: does not check the `"fold along "` prefix, which the original only `debug_assert!`s (src/day_13/mod.rs:40-41). A release build, modelled here, reads the axis letter at position 11 regardless. The model reads character 11 where the original reads byte 11; the two agree on ASCII input, which the original also only `debug_assert!`s.
- Origami.FoldPoint: accepts a point farther than twice the fold line from the edge, which the original only `debug_assert!`s (src/day_13/mod.rs:68, 81). Such a point lands at a negative coordinate, as in a release build. By contrast, the day-12 `u16` shift overflow is modelled as the panic of a debug build, because the release build's wrapped shift would silently merge two caves.
- Origami: `part_2` returns the constant string "lol ocr" instead of reading the folded letters; the model stops at the folded dot set (`Part2Impl`).
- Octopus.ParseGrid: takes the width as the number of characters of the first line, where `len()` counts bytes (day_11/src/main.rs:87). The two agree on ASCII digit input.
- Chiton.ParseInput: takes the width as the number of characters of the first line, where Rust's `len()` counts bytes. The two agree on the ASCII digit input.
- ChitonSearch.Part1, ChitonSearch.Part2 and Octopus.Step: these require well-shaped grids. Such inputs are excluded rather than modelled.
  - The chiton parts require a rectangular, non-empty grid: `Fits` with positive dimensions.
  - `Octopus.Step` requires `Valid`: as many cells as width times height.
  - The original's parsers take the width from the first line alone, so they build ragged or empty grids without complaint. The original then indexes wrongly on them.
- Chiton: the `i16` coordinates and `u32` distances are unbounded.
- Chiton: which of several equally cheap heap entries `BinaryHeap::pop` returns is left open. `PopIsCheapest` holds for any of them, and the proved result does not depend on the choice.
- BingoGame.Part2: iterates the boards still playing in ascending index order where the original drains a `HashSet`; the contract holds for whichever board wins last.
- Polymer: the pairs are numbered in their order of first appearance (`Dedup`), where the original numbers them in the drain order of a `HashSet`. `SolveMatchesPolymer` equates the answer with the letter counts of the expanded polymer, which no numbering affects.
- Test vectors stated on all inputs rather than replayed: the day-14 answers 1588 and 2188189693529, the day-11 answer 1656, and the day-3 `part_2` answer 230. `Polymer.SolveMatchesPolymer`, `Octopus.StepSpec` with `Octopus.Part1`, and `Diagnostic.FindStep` with `Diagnostic.Part2` state those computations for every input instead.
- Snailfish: the nine chained `test_add` vectors (src/day_18/mod.rs:346-401) are not replayed, and neither are the magnitude vectors other than 143 or the round-trip test over the puzzle input (input.txt is not part of this model). The reduction test (src/day_18/mod.rs:304-318) is replayed in `SnailfishExamples`.
- PacketEval: the seven evaluation examples are stated on the packet arenas their hex strings encode. That each hex string parses to that arena is not proved; the parser is proved correct for all inputs, and `BitCursor.TakeNExample` replays the bit reads of "D2FE28".

## Findings

| source | as written | input that shows it | evidently intended | confidence | as-written member | corrected member |
|---|---|---|---|---|---|---|
| src/day_7/mod.rs:9 | both parts search the positions `min..max`, which excludes the greatest crab position | crabs at 0, 1, 1: part 1 answers 2, but aligning at 1 costs 1 | search `min..=max` | not executed | Crabs.Part1MissesGreatest | Crabs.SolveInclusiveOptimal |
| day_3/src/main.rs:30 | `!gamma` complements all sixteen bits of the `u16`, so epsilon has the four unused top bits set | any report whose gamma is not 0: epsilon comes out 61440 too large | epsilon is the twelve-bit complement of gamma | not executed | Diagnostic.EpsilonTooWide | Diagnostic.Part1Intended |
| day_3/src/main.rs:20-24 | a bit is set in gamma when its count of ones is at least `len / 2` rounded down, which on an odd number of lines admits a minority of ones | the one-line report `[0]`: gamma is 4095 | a bit is set when ones are at least as common as zeros | not executed | Diagnostic.SingleLineGamma | Diagnostic.MajorityGamma |

=== FILE: basins.dfy ===
/** Day 9 (Smoke Basin): a height map of digits. Low points are the cells
    lower than every orthogonal neighbour on the map; a basin is what a
    flood fill from a low point reaches without crossing a 9. */
module Basins {
  import opened Wrappers
  import opened Arith
  import opened Seqs
  import opened Text
  import opened DigitGrid

  /** A map position (`(i8, i8)` in the original; unbounded here). */
  datatype Point = Point(x: int, y: int)

  /** `Map`: row-major heights, `dim_x` wide and `dim_y` tall. */
  datatype Map = Map(values: seq<nat>, dimX: int, dimY: int)

  /** One height per cell: what `get` needs to never index out of range. */
  predicate Valid(m: Map)
  {
    0 <= m.dimX && 0 <= m.dimY && |m.values| == m.dimX * m.dimY
  }

  predicate InBounds(m: Map, p: Point)
  {
    0 <= p.x < m.dimX && 0 <= p.y < m.dimY
  }

  /** `Map::get`: the height at `p`, if `p` is on the map. */
  function Get(m: Map, p: Point): (r: Option<nat>)
    requires Valid(m)
    ensures r.Some? <==> InBounds(m, p)
    ensures r.Some? ==> p.x + p.y * m.dimX < |m.values| && r.value == m.values[p.x + p.y * m.dimX]
  {
    if p.x < 0 || p.x >= m.dimX then None
    else if p.y < 0 || p.y >= m.dimY then None
    else
      MulLe(p.y, m.dimY - 1, m.dimX);
      Some(m.values[p.x + p.y * m.dimX])
  }

  /** Distinct cells on the map sit at distinct indices. */
  lemma GetIndexInjective(m: Map, p: Point, q: Point)
    requires Valid(m) && InBounds(m, p) && InBounds(m, q) && p != q
    ensures p.x + p.y * m.dimX != q.x + q.y * m.dimX
  {
    if p.x + p.y * m.dimX == q.x + q.y * m.dimX {
      DivModUnique(p.x + p.y * m.dimX, m.dimX, p.y, p.x);
      DivModUnique(q.x + q.y * m.dimX, m.dimX, q.y, q.x);
    }
  }

  /** `neighbours`: left, right, up, down. */
  function Neighbours(p: Point): (r: seq<Point>)
    ensures |r| == 4
  {
    [Point(p.x - 1, p.y), Point(p.x + 1, p.y), Point(p.x, p.y - 1), Point(p.x, p.y + 1)]
  }

  /** The neighbours are exactly the cells one orthogonal step away. */
  lemma NeighboursAdjacent(p: Point, q: Point)
    ensures q in Neighbours(p) <==> Abs(q.x - p.x) + Abs(q.y - p.y) == 1
  {
  }

  function Abs(a: int): nat
  {
    if a < 0 then -a else a
  }

  // ---------------------------------------------------------------------
  // Low points
  // ---------------------------------------------------------------------

  /** The heights of those of `ps` that are on the map, in order (`filter_map(get)`). */
  function OnMapValues(m: Map, ps: seq<Point>): (r: seq<nat>)
    requires Valid(m)
    ensures forall v :: v in r <==> exists k :: 0 <= k < |ps| && Get(m, ps[k]) == Some(v)
    ensures |r| == 0 <==> forall k :: 0 <= k < |ps| ==> !InBounds(m, ps[k])
  {
    if |ps| == 0 then []
    else
      var rest := OnMapValues(m, ps[1..]);
      assert forall k :: 1 <= k < |ps| ==> ps[k] == ps[1..][k - 1];
      match Get(m, ps[0])
      case None => rest
      case Some(v) => [v] + rest
  }

  /** `Iterator::min`: `None` for nothing. */
  function MinOf(xs: seq<nat>): (r: Option<nat>)
    ensures r.None? <==> |xs| == 0
    ensures r.Some? ==> r.value in xs && forall k :: 0 <= k < |xs| ==> r.value <= xs[k]
  {
    if |xs| == 0 then None
    else
      match MinOf(xs[1..])
      case None => Some(xs[0])
      case Some(v) => Some(if xs[0] <= v then xs[0] else v)
  }

  /** Lower than every neighbour on the map. */
  predicate Low(m: Map, p: Point)
    requires Valid(m) && InBounds(m, p)
  {
    forall k :: 0 <= k < 4 && InBounds(m, Neighbours(p)[k]) ==>
      Get(m, p).value < Get(m, Neighbours(p)[k]).value
  }

  /** No neighbour of `p` is on the map. */
  predicate Lonely(m: Map, p: Point)
  {
    forall k :: 0 <= k < 4 ==> !InBounds(m, Neighbours(p)[k])
  }

  /** The low-point test of both parts: `None` where the missing minimum
      trips `expect`, otherwise whether `p` is below that minimum. */
  function LowAt(m: Map, p: Point): (r: Option<bool>)
    requires Valid(m) && InBounds(m, p)
    ensures r.None? <==> Lonely(m, p)
    ensures r.Some? ==> (r.value <==> Low(m, p))
  {
    var vals := OnMapValues(m, Neighbours(p));
    if Lonely(m, p) then None
    else
      var k :| 0 <= k < 4 && InBounds(m, Neighbours(p)[k]);
      assert Get(m, Neighbours(p)[k]).value in vals;
      Some(Get(m, p).value < MinOf(vals).value)
  }

  /** Only the cell of a one-by-one map has no neighbour on it. */
  lemma LonelyIsTiny(m: Map, p: Point)
    requires Valid(m) && InBounds(m, p)
    ensures Lonely(m, p) <==> m.dimX == 1 && m.dimY == 1
  {
    if !(m.dimX == 1 && m.dimY == 1) {
      if m.dimX > 1 {
        assert InBounds(m, Neighbours(p)[if p.x == 0 then 1 else 0]);
      } else {
        assert InBounds(m, Neighbours(p)[if p.y == 0 then 3 else 2]);
      }
    }
  }

  /** One column of the scan, top to bottom. */
  function Column(x: int, n: nat): (r: seq<Point>)
    ensures |r| == n && forall y :: 0 <= y < n ==> r[y] == Point(x, y)
  {
    seq(n, y requires 0 <= y < n => Point(x, y))
  }

  /** The scan order of both parts: column by column, `x` outer and `y` inner. */
  function Cells(m: Map, x: nat): (r: seq<Point>)
    requires 0 <= m.dimY
    ensures forall p :: p in r <==> 0 <= p.x < x && 0 <= p.y < m.dimY
    ensures Distinct(r)
  {
    if x == 0 then []
    else
      var before := Cells(m, x - 1);
      var col := Column(x - 1, m.dimY);
      assert forall i, j :: 0 <= i < |before| && 0 <= j < |col| ==> before[i] != col[j] by {
        forall i, j | 0 <= i < |before| && 0 <= j < |col|
          ensures before[i] != col[j]
        {
          assert before[i] in before;
        }
      }
      DistinctAppend(before, col);
      before + col
  }

  lemma DistinctAppend<T>(a: seq<T>, b: seq<T>)
    requires Distinct(a) && Distinct(b)
    requires forall i, j :: 0 <= i < |a| && 0 <= j < |b| ==> a[i] != b[j]
    ensures Distinct(a + b)
  {
    forall i, j | 0 <= i < j < |a + b|
      ensures (a + b)[i] != (a + b)[j]
    {
      if j < |a| {
      } else if i >= |a| {
        assert (a + b)[i] == b[i - |a|] && (a + b)[j] == b[j - |a|];
      } else {
        assert (a + b)[i] == a[i] && (a + b)[j] == b[j - |a|];
      }
    }
  }

  /** The low points among `cells`, in order; `None` where a cell has no
      neighbour on the map. */
  function LowsIn(m: Map, cells: seq<Point>): (r: Option<seq<Point>>)
    requires Valid(m) && forall k :: 0 <= k < |cells| ==> InBounds(m, cells[k])
    ensures r.None? <==> exists k :: 0 <= k < |cells| && Lonely(m, cells[k])
  {
    if |cells| == 0 then Some([])
    else
      var init := cells[..|cells| - 1];
      var p := cells[|cells| - 1];
      LonelySplit(m, cells);
      var rest := LowsIn(m, init);
      var low := LowAt(m, p);
      if rest.None? || low.None? then None
      else if low.value then Some(rest.value + [p])
      else rest
  }

  lemma LonelySplit(m: Map, cells: seq<Point>)
    requires |cells| > 0
    ensures var init := cells[..|cells| - 1];
      && (forall k :: 0 <= k < |init| ==> init[k] == cells[k])
      && ((exists k :: 0 <= k < |cells| && Lonely(m, cells[k])) <==>
          (exists k :: 0 <= k < |init| && Lonely(m, init[k])) || Lonely(m, cells[|cells| - 1]))
  {
    var init := cells[..|cells| - 1];
    if exists k :: 0 <= k < |cells| && Lonely(m, cells[k]) {
      var k :| 0 <= k < |cells| && Lonely(m, cells[k]);
      if k < |init| {
        assert init[k] == cells[k];
      }
    }
    if exists k :: 0 <= k < |init| && Lonely(m, init[k]) {
      var k :| 0 <= k < |init| && Lonely(m, init[k]);
      assert init[k] == cells[k];
    }
  }

  /** The low points found are exactly the low points among the cells. */
  lemma {:induction false} LowsInMembers(m: Map, cells: seq<Point>)
    requires Valid(m) && forall k :: 0 <= k < |cells| ==> InBounds(m, cells[k])
    ensures LowsIn(m, cells).Some? ==>
      forall p :: p in LowsIn(m, cells).value <==> p in cells && InBounds(m, p) && Low(m, p)
    decreases |cells|
  {
    if |cells| > 0 {
      var init := cells[..|cells| - 1];
      var p := cells[|cells| - 1];
      assert forall k :: 0 <= k < |init| ==> init[k] == cells[k];
      assert cells == init + [p];
      LowsInMembers(m, init);
    }
  }

  /** Distinct cells give distinct low points. */
  lemma {:induction false} LowsInDistinct(m: Map, cells: seq<Point>)
    requires Valid(m) && (forall k :: 0 <= k < |cells| ==> InBounds(m, cells[k])) && Distinct(cells)
    ensures LowsIn(m, cells).Some? ==> Distinct(LowsIn(m, cells).value)
    decreases |cells|
  {
    if |cells| > 0 {
      var p := cells[|cells| - 1];
      var init := cells[..|cells| - 1];
      assert forall k :: 0 <= k < |init| ==> init[k] == cells[k];
      LowsInDistinct(m, init);
      if LowsIn(m, init).Some? && LowAt(m, p) == Some(true) {
        var ls := LowsIn(m, init).value;
        assert LowsIn(m, cells).value == ls + [p];
        LowsInMembers(m, init);
        assert p !in init;
        DistinctAppend(ls, [p]);
      }
    }
  }

  /** Every low point of the map, in scan order; `None` for a one-by-one map. */
  function Lows(m: Map): (r: Option<seq<Point>>)
    requires Valid(m)
    ensures r.None? <==> m.dimX == 1 && m.dimY == 1
    ensures r.Some? ==> Distinct(r.value) && forall p :: p in r.value <==> InBounds(m, p) && Low(m, p)
  {
    LowsTiny(m);
    LowsInDistinct(m, Cells(m, m.dimX));
    LowsInMembers(m, Cells(m, m.dimX));
    LowsIn(m, Cells(m, m.dimX))
  }

  lemma LowsTiny(m: Map)
    requires Valid(m)
    ensures LowsIn(m, Cells(m, m.dimX)).None? <==> m.dimX == 1 && m.dimY == 1
  {
    var cells := Cells(m, m.dimX);
    if m.dimX == 1 && m.dimY == 1 {
      assert Point(0, 0) in cells;
      var k :| 0 <= k < |cells| && cells[k] == Point(0, 0);
      LonelyIsTiny(m, cells[k]);
    } else if LowsIn(m, cells).None? {
      var k :| 0 <= k < |cells| && Lonely(m, cells[k]);
      LonelyIsTiny(m, cells[k]);
    }
  }

  /** The risk levels, height plus one, of the points `ps`. */
  function RiskSum(m: Map, ps: seq<Point>): nat
    requires Valid(m) && forall k :: 0 <= k < |ps| ==> InBounds(m, ps[k])
  {
    if |ps| == 0 then 0 else RiskSum(m, ps[..|ps| - 1]) + Get(m, ps[|ps| - 1]).value + 1
  }

  /** `part_1`: the sum of the risk levels of the low points; `None` where
      the original panics, on a one-by-one map. */
  function Part1(m: Map): (r: Option<nat>)
    requires Valid(m)
    ensures r.None? <==> m.dimX == 1 && m.dimY == 1
    ensures r.Some? ==> r.value == RiskSum(m, Lows(m).value)
  {
    match Lows(m)
    case None => None
    case Some(ls) => Some(RiskSum(m, ls))
  }

  // ---------------------------------------------------------------------
  // Basins
  // ---------------------------------------------------------------------

  /** A cell the flood fill may enter: on the map and not of height 9. */
  predicate Passable(m: Map, p: Point)
    requires Valid(m)
  {
    Get(m, p).Some? && Get(m, p).value != 9
  }

  /** The passable cells of the map. */
  function Open(m: Map): (r: set<Point>)
    requires Valid(m)
    ensures forall p :: p in r <==> Passable(m, p)
  {
    set p | p in Cells(m, m.dimX) && Passable(m, p)
  }

  /** With `q`, `s` holds each of `q`'s neighbours that lies in `open`. */
  predicate Spreads(open: set<Point>, s: set<Point>, q: Point)
  {
    var ns := Neighbours(q);
    Reached(open, s, ns[0]) && Reached(open, s, ns[1]) && Reached(open, s, ns[2]) && Reached(open, s, ns[3])
  }

  predicate Reached(open: set<Point>, s: set<Point>, n: Point)
  {
    n in open ==> n in s
  }

  /** No cell of `open` is next to `s` without being in it. */
  predicate Closed(open: set<Point>, s: set<Point>)
  {
    forall q {:trigger Spreads(open, s, q)} :: q in s ==> Spreads(open, s, q)
  }

  /** `b` is the region of `p` in `open`: the least closed set holding `p`. */
  ghost predicate IsRegion(open: set<Point>, p: Point, b: set<Point>)
  {
    p in b && Closed(open, b) && forall s :: p in s && Closed(open, s) ==> b <= s
  }

  /** `b` is the basin of `p`: everything reachable from `p` through
      orthogonal steps onto cells of height other than 9. */
  ghost predicate IsBasin(m: Map, p: Point, b: set<Point>)
    requires Valid(m)
  {
    IsRegion(Open(m), p, b)
  }

  /** A point has at most one basin. */
  lemma BasinUnique(m: Map, p: Point, b: set<Point>, c: set<Point>)
    requires Valid(m) && IsBasin(m, p, b) && IsBasin(m, p, c)
    ensures b == c
  {
  }

  /** Every cell of `basin` lies in every closed set that holds `start`. */
  ghost predicate Forced(open: set<Point>, start: Point, basin: set<Point>)
  {
    forall s :: start in s && Closed(open, s) ==> basin <= s
  }

  /** Every cell of `basin` is queued, is `pos`, or has had its neighbours added. */
  predicate Waiting(open: set<Point>, basin: set<Point>, queue: seq<Point>, pos: Point)
  {
    forall q {:trigger Spreads(open, basin, q)} :: q in basin ==> q in queue || q == pos || Spreads(open, basin, q)
  }

  /** What the fill keeps true between two pops. */
  ghost predicate FillInv(open: set<Point>, start: Point, basin: set<Point>, queue: seq<Point>)
  {
    && basin <= open + {start} && start in basin && Forced(open, start, basin)
    && (forall i :: 0 <= i < |queue| ==> queue[i] in basin)
    && Waiting(open, basin, queue, start) && (start in queue || Spreads(open, basin, start))
  }

  /** The flood fill from `start` (the inner loop of `part_2`): every cell
      is inserted into the basin once, when it is first seen, and queued. */
  method FloodFill(m: Map, start: Point) returns (basin: set<Point>)
    requires Valid(m)
    ensures IsBasin(m, start, basin)
  {
    basin := Fill(m, Open(m), start);
  }

  /** The fill over the passable cells `open` of `m`. */
  method Fill(m: Map, open: set<Point>, start: Point) returns (basin: set<Point>)
    requires Valid(m) && open == Open(m)
    ensures IsRegion(open, start, basin)
  {
    basin := {start};
    var queue := [start];
    ghost var cells := open + {start};
    while |queue| > 0
      invariant FillInv(open, start, basin, queue)
      decreases 2 * |cells - basin| + |queue|
    {
      var pos := queue[|queue| - 1];
      var rest := queue[..|queue| - 1];
      assert queue == rest + [pos];
      PopWaiting(open, start, basin, rest, pos);
      basin, queue := Visit(m, open, cells, start, basin, rest, pos);
    }
    FillDone(open, start, basin);
  }

  /** With nothing queued, the basin is closed, so it is the least closed set. */
  lemma FillDone(open: set<Point>, start: Point, basin: set<Point>)
    requires FillInv(open, start, basin, [])
    ensures IsRegion(open, start, basin)
  {
  }

  lemma PopWaiting(open: set<Point>, start: Point, basin: set<Point>, queue: seq<Point>, pos: Point)
    requires FillInv(open, start, basin, queue + [pos])
    ensures VisitInv(open, open + {start}, start, basin, queue, pos, 0, 2 * |open + {start} - basin| + |queue|)
  {
    assert (queue + [pos])[|queue|] == pos;
    assert forall i :: 0 <= i < |queue| ==> queue[i] == (queue + [pos])[i];
    assert forall q :: q in queue + [pos] ==> q in queue || q == pos;
  }

  /** What holds after the first `k` neighbours of `pos` were considered,
      for a fill whose measure started at `bound`. */
  ghost predicate VisitInv(open: set<Point>, cells: set<Point>, start: Point, basin: set<Point>, queue: seq<Point>,
                           pos: Point, k: nat, bound: nat)
  {
    && basin <= cells && start in basin && pos in basin && Forced(open, start, basin)
    && (forall i :: 0 <= i < |queue| ==> queue[i] in basin)
    && Waiting(open, basin, queue, pos) && (start in queue || start == pos || Spreads(open, basin, start))
    && (forall j :: 0 <= j < k && j < 4 && Neighbours(pos)[j] in open ==> Neighbours(pos)[j] in basin)
    && 2 * |cells - basin| + |queue| <= bound
  }

  /** Visiting `pos`: each passable neighbour not yet in the basin joins
      it and the queue. */
  method Visit(m: Map, open: set<Point>, ghost cells: set<Point>, start: Point, basin: set<Point>, queue: seq<Point>, pos: Point)
    returns (basin': set<Point>, queue': seq<Point>)
    requires Valid(m) && open == Open(m) && cells == open + {start}
    requires VisitInv(open, cells, start, basin, queue, pos, 0, 2 * |cells - basin| + |queue|)
    ensures FillInv(open, start, basin', queue')
    ensures 2 * |cells - basin'| + |queue'| <= 2 * |cells - basin| + |queue|
  {
    basin', queue' := basin, queue;
    ghost var bound := 2 * |cells - basin| + |queue|;
    for k := 0 to 4
      invariant VisitInv(open, cells, start, basin', queue', pos, k, bound)
    {
      var n := Neighbours(pos)[k];
      if Passable(m, n) && n !in basin' {
        VisitAdd(open, cells, start, basin', queue', pos, k, bound);
        queue' := queue' + [n];
        basin' := basin' + {n};
      } else {
        VisitSkip(open, cells, start, basin', queue', pos, k, bound);
      }
    }
    VisitDone(open, cells, start, basin', queue', pos, bound);
  }

  lemma VisitAdd(open: set<Point>, cells: set<Point>, start: Point, basin: set<Point>, queue: seq<Point>,
                 pos: Point, k: nat, bound: nat)
    requires k < 4 && VisitInv(open, cells, start, basin, queue, pos, k, bound)
    requires cells == open + {start} && Neighbours(pos)[k] in open && Neighbours(pos)[k] !in basin
    ensures VisitInv(open, cells, start, basin + {Neighbours(pos)[k]}, queue + [Neighbours(pos)[k]], pos, k + 1, bound)
  {
    var n := Neighbours(pos)[k];
    FloodAdd(open, start, basin, pos, k);
    WaitingAdd(open, start, basin, queue, pos, n);
    assert cells - (basin + {n}) == (cells - basin) - {n};
    assert forall i :: 0 <= i < |queue| ==> (queue + [n])[i] == queue[i];
  }

  lemma VisitSkip(open: set<Point>, cells: set<Point>, start: Point, basin: set<Point>, queue: seq<Point>,
                  pos: Point, k: nat, bound: nat)
    requires k < 4 && VisitInv(open, cells, start, basin, queue, pos, k, bound)
    requires Neighbours(pos)[k] !in open || Neighbours(pos)[k] in basin
    ensures VisitInv(open, cells, start, basin, queue, pos, k + 1, bound)
  {
  }

  lemma VisitDone(open: set<Point>, cells: set<Point>, start: Point, basin: set<Point>, queue: seq<Point>,
                  pos: Point, bound: nat)
    requires VisitInv(open, cells, start, basin, queue, pos, 4, bound) && cells == open + {start}
    ensures FillInv(open, start, basin, queue)
    ensures 2 * |cells - basin| + |queue| <= bound
  {
    assert Spreads(open, basin, pos);
  }

  /** Adding an open neighbour of a cell of the basin keeps it inside
      every closed set that holds the start. */
  lemma FloodAdd(open: set<Point>, start: Point, basin: set<Point>, pos: Point, k: nat)
    requires k < 4 && pos in basin && Neighbours(pos)[k] in open
    requires Forced(open, start, basin)
    ensures Forced(open, start, basin + {Neighbours(pos)[k]})
  {
    forall s | start in s && Closed(open, s)
      ensures Neighbours(pos)[k] in s
    {
      assert Spreads(open, s, pos);
    }
  }

  /** A cell joining the basin and the queue keeps the others' status. */
  lemma WaitingAdd(open: set<Point>, start: Point, basin: set<Point>, queue: seq<Point>, pos: Point, n: Point)
    requires Waiting(open, basin, queue, pos)
    ensures Waiting(open, basin + {n}, queue + [n], pos)
    ensures Spreads(open, basin, start) ==> Spreads(open, basin + {n}, start)
  {
    forall q | q in basin + {n}
      ensures q in queue + [n] || q == pos || Spreads(open, basin + {n}, q)
    {
      if q != n && q !in queue && q != pos {
        assert Spreads(open, basin, q);
      }
    }
  }

  // ---------------------------------------------------------------------
  // The answer of part 2
  // ---------------------------------------------------------------------

  /** `a`, `b` and `c` are three of `xs` and nothing else in `xs` beats any of them. */
  predicate TopThree(xs: seq<nat>, a: nat, b: nat, c: nat)
  {
    && multiset{a, b, c} <= multiset(xs)
    && forall x :: x in multiset(xs) - multiset{a, b, c} ==> x <= a && x <= b && x <= c
  }

  /** `sort_by(|a, b| b.cmp(a))` then `[..3].iter().product()`: the product
      of the three largest sizes; `None` where the slice panics. */
  function LargestProduct(sizes: seq<nat>): (r: Option<nat>)
    ensures r.None? <==> |sizes| < 3
    ensures r.Some? ==> exists a: nat, b: nat, c: nat :: TopThree(sizes, a, b, c) && r.value == a * b * c
  {
    if |sizes| < 3 then None
    else
      var t := Sort(sizes);
      var n := |t|;
      TopThreeOfSorted(t);
      assert TopThree(sizes, t[n - 1], t[n - 2], t[n - 3]);
      Some(Product(t[n - 1], t[n - 2], t[n - 3]))
  }

  function Product(a: nat, b: nat, c: nat): (r: nat)
    ensures r == a * b * c
  {
    MulLe(0, a, b);
    MulLe(0, a * b, c);
    a * b * c
  }

  /** The last three of an ascending sequence are its three largest. */
  lemma TopThreeOfSorted(t: seq<nat>)
    requires Sorted(t) && |t| >= 3
    ensures TopThree(t, t[|t| - 1], t[|t| - 2], t[|t| - 3])
  {
    var n := |t|;
    var low := t[..n - 3];
    var top := multiset{t[n - 1], t[n - 2], t[n - 3]};
    LastThree(t);
    forall x | x in multiset(low)
      ensures x <= t[n - 3]
    {
      var i :| 0 <= i < |low| && low[i] == x;
      assert t[i] == x;
    }
  }

  lemma LastThree(t: seq<nat>)
    requires |t| >= 3
    ensures multiset(t) - multiset{t[|t| - 1], t[|t| - 2], t[|t| - 3]} == multiset(t[..|t| - 3])
  {
    var n := |t|;
    assert t == t[..n - 3] + [t[n - 3], t[n - 2], t[n - 1]];
    assert multiset(t) == multiset(t[..n - 3]) + multiset{t[n - 1], t[n - 2], t[n - 3]};
  }

  /** The answer does not depend on the order the basins were found in. */
  lemma LargestProductAnyOrder(xs: seq<nat>, ys: seq<nat>)
    requires multiset(xs) == multiset(ys)
    ensures LargestProduct(xs) == LargestProduct(ys)
  {
    assert |xs| == |multiset(xs)| == |ys|;
    SortedUnique(Sort(xs), Sort(ys));
  }

  /** `n` is the size of the basin of `p`. */
  ghost predicate BasinSize(m: Map, p: Point, n: nat)
    requires Valid(m)
  {
    exists b :: IsBasin(m, p, b) && n == |b|
  }

  /** `part_2`: the product of the sizes of the three largest basins, with
      one basin per low point; `None` where the original panics. The sizes
      are returned too, in the order of the low points. */
  method Part2(m: Map) returns (r: Option<nat>, sizes: seq<nat>)
    requires Valid(m)
    ensures Lows(m).None? ==> r.None?
    ensures Lows(m).Some? ==> |sizes| == |Lows(m).value|
    ensures Lows(m).Some? ==> forall i :: 0 <= i < |sizes| ==> BasinSize(m, Lows(m).value[i], sizes[i])
    ensures Lows(m).Some? ==> r == LargestProduct(sizes)
  {
    sizes := [];
    var lows := Lows(m);
    if lows.None? {
      return None, sizes;
    }
    sizes := SizesOf(m, lows.value);
    r := LargestProduct(sizes);
  }

  /** The basin sizes of the points of `mins`, in order. */
  method SizesOf(m: Map, mins: seq<Point>) returns (sizes: seq<nat>)
    requires Valid(m)
    ensures |sizes| == |mins|
    ensures forall i :: 0 <= i < |sizes| ==> BasinSize(m, mins[i], sizes[i])
  {
    sizes := [];
    ghost var basins: seq<set<Point>> := [];
    for i := 0 to |mins|
      invariant |sizes| == |basins| == i
      invariant forall j :: 0 <= j < i ==> IsBasin(m, mins[j], basins[j]) && sizes[j] == |basins[j]|
    {
      var basin := FloodFill(m, mins[i]);
      sizes := sizes + [|basin|];
      basins := basins + [basin];
    }
    BasinSizes(m, mins, sizes, basins);
  }

  lemma BasinSizes(m: Map, mins: seq<Point>, sizes: seq<nat>, basins: seq<set<Point>>)
    requires Valid(m) && |sizes| == |basins| == |mins|
    requires forall j :: 0 <= j < |mins| ==> IsBasin(m, mins[j], basins[j]) && sizes[j] == |basins[j]|
    ensures forall j :: 0 <= j < |mins| ==> BasinSize(m, mins[j], sizes[j])
  {
    forall j | 0 <= j < |mins|
      ensures BasinSize(m, mins[j], sizes[j])
    {
      assert IsBasin(m, mins[j], basins[j]);
    }
  }

  // ---------------------------------------------------------------------
  // Input
  // ---------------------------------------------------------------------

  /** `input`: the digits of the text as a 100-by-100 map. */
  function FromText(raw: string): (m: Map)
    ensures m.values == Digits(raw) && m.dimX == 100 && m.dimY == 100
  {
    Map(Digits(raw), 100, 100)
  }

  /** A hundred rows of a hundred digits make a valid map whose cell
      (x, y) is digit x of row y. */
  lemma FromRows(rows: seq<string>, trailing: bool, p: Point)
    requires |rows| == 100 && DigitRows(rows, 100) && InBounds(FromText(RowsText(rows, trailing)), p)
    ensures var m := FromText(RowsText(rows, trailing));
      Valid(m) && Get(m, p) == Some(DigitValue(rows[p.y][p.x]))
  {
    RowsTextFacts(rows, 100, trailing);
    RowLevelsLength(rows, 100);
    RowLevelsAt(rows, 100, p.x, p.y);
  }
}

=== FILE: bingo.dfy ===
/** Day 4 (Giant Squid): bingo boards of 25 numbers whose marked cells are
    bits of a 32-bit word, the ten winning lines as bit masks, and the
    puzzle input of drawn numbers followed by blank-separated boards. */
module Bingo {
  import opened Wrappers
  import opened Seqs
  import opened Text

  // ---------------------------------------------------------------------
  // Bits of a 32-bit word
  // ---------------------------------------------------------------------

  /** Bit `b` of `m`, the bit `1 << b` selects. */
  predicate BitAt(m: bv32, b: bv5)
  {
    m & ((1 as bv32) << b) != 0
  }

  /** Bit `i` of `m`, for a position held as an ordinary number. */
  predicate Bit(m: bv32, i: nat)
    requires i < 32
  {
    BitAt(m, i as bv5)
  }

  /** `m | (1 << i)`. */
  function SetBit(m: bv32, i: nat): bv32
    requires i < 32
  {
    m | ((1 as bv32) << (i as bv5))
  }

  lemma CastBack(i: nat)
    requires i < 32
    ensures (i as bv5) as int == i
  {
  }

  lemma CastInjective(i: nat, j: nat)
    requires i < 32 && j < 32 && i != j
    ensures i as bv5 != j as bv5
  {
    CastBack(i);
    CastBack(j);
  }

  lemma SetBitAt(m: bv32, i: bv5, j: bv5)
    ensures BitAt(m | ((1 as bv32) << i), j) <==> BitAt(m, j) || i == j
  {
  }

  /** Setting bit `i` turns on exactly that bit. */
  lemma SetBitBits(m: bv32, i: nat, j: nat)
    requires i < 32 && j < 32
    ensures Bit(SetBit(m, i), j) <==> Bit(m, j) || i == j
  {
    SetBitAt(m, i as bv5, j as bv5);
    if i != j {
      CastInjective(i, j);
    }
  }

  lemma NoBitsOfZero(i: nat)
    requires i < 32
    ensures !Bit(0, i)
  {
  }

  /** A word with no bit set is zero. */
  lemma ZeroBits(x: bv32)
    requires forall j :: 0 <= j < 32 ==> !Bit(x, j)
    ensures x == 0
  {
    assert !Bit(x, 0) && !Bit(x, 1) && !Bit(x, 2) && !Bit(x, 3) && !Bit(x, 4) && !Bit(x, 5) && !Bit(x, 6) && !Bit(x, 7);
    assert !Bit(x, 8) && !Bit(x, 9) && !Bit(x, 10) && !Bit(x, 11) && !Bit(x, 12) && !Bit(x, 13) && !Bit(x, 14) && !Bit(x, 15);
    assert !Bit(x, 16) && !Bit(x, 17) && !Bit(x, 18) && !Bit(x, 19) && !Bit(x, 20) && !Bit(x, 21) && !Bit(x, 22) && !Bit(x, 23);
    assert !Bit(x, 24) && !Bit(x, 25) && !Bit(x, 26) && !Bit(x, 27) && !Bit(x, 28) && !Bit(x, 29) && !Bit(x, 30) && !Bit(x, 31);
  }

  lemma DiffBit(m: bv32, marked: bv32, j: nat)
    requires j < 32 && Bit(m & !marked, j)
    ensures Bit(m, j) && !Bit(marked, j)
  {
  }

  /** `marked & m == m` says exactly that every bit of `m` is set in `marked`. */
  lemma SubsetBits(m: bv32, marked: bv32)
    ensures marked & m == m <==> forall i :: 0 <= i < 32 && Bit(m, i) ==> Bit(marked, i)
  {
    if marked & m != m {
      var d := m & !marked;
      if forall j :: 0 <= j < 32 ==> !Bit(d, j) {
        ZeroBits(d);
        assert false;
      }
      var j :| 0 <= j < 32 && Bit(d, j);
      DiffBit(m, marked, j);
    }
  }

  // ---------------------------------------------------------------------
  // Winning lines
  // ---------------------------------------------------------------------

  /** Mask `k` as `winning_masks` builds it: rows `0b11111 << 5r` first,
      then columns `0b00001_00001_00001_00001_00001 << c`. */
  function Mask(k: nat): bv32
    requires k < 10
  {
    if k < 5 then (0x1F as bv32) << ((5 * k) as bv5) else (0x10_8421 as bv32) << ((k - 5) as bv5)
  }

  /** `WINNING_MASKS`, evaluated. */
  function Masks(): (r: seq<bv32>)
    ensures |r| == 10
  {
    [0x1F, 0x3E0, 0x7C00, 0xF_8000, 0x1F0_0000, 0x10_8421, 0x21_0842, 0x42_1084, 0x84_2108, 0x108_4210]
  }

  /** The table holds exactly the masks the construction loops produce. */
  lemma MasksBuilt(k: nat)
    requires k < 10
    ensures Masks()[k] == Mask(k)
  {
    if k == 0 {} else if k == 1 {} else if k == 2 {} else if k == 3 {} else if k == 4 {}
    else if k == 5 {} else if k == 6 {} else if k == 7 {} else if k == 8 {} else {}
  }

  /** Cell `i` (row-major, row `i / 5`, column `i % 5`) lies on line `k`:
      row `k` for `k < 5`, column `k - 5` otherwise. */
  predicate InLine(k: nat, i: nat)
  {
    i < 25 && if k < 5 then i / 5 == k else i % 5 == k - 5
  }

  lemma MaskBits0(i: nat) requires i < 32 ensures Bit(Masks()[0], i) <==> InLine(0, i) {}
  lemma MaskBits1(i: nat) requires i < 32 ensures Bit(Masks()[1], i) <==> InLine(1, i) {}
  lemma MaskBits2(i: nat) requires i < 32 ensures Bit(Masks()[2], i) <==> InLine(2, i) {}
  lemma MaskBits3(i: nat) requires i < 32 ensures Bit(Masks()[3], i) <==> InLine(3, i) {}
  lemma MaskBits4(i: nat) requires i < 32 ensures Bit(Masks()[4], i) <==> InLine(4, i) {}
  lemma MaskBits5(i: nat) requires i < 32 ensures Bit(Masks()[5], i) <==> InLine(5, i) {}
  lemma MaskBits6(i: nat) requires i < 32 ensures Bit(Masks()[6], i) <==> InLine(6, i) {}
  lemma MaskBits7(i: nat) requires i < 32 ensures Bit(Masks()[7], i) <==> InLine(7, i) {}
  lemma MaskBits8(i: nat) requires i < 32 ensures Bit(Masks()[8], i) <==> InLine(8, i) {}
  lemma MaskBits9(i: nat) requires i < 32 ensures Bit(Masks()[9], i) <==> InLine(9, i) {}

  /** The bits of each winning mask are exactly the cells of its line, so
      each mask has five bits, all within the low 25. */
  lemma MaskBits(k: nat, i: nat)
    requires k < 10 && i < 32
    ensures Bit(Masks()[k], i) <==> InLine(k, i)
  {
    if k == 0 { MaskBits0(i); } else if k == 1 { MaskBits1(i); } else if k == 2 { MaskBits2(i); }
    else if k == 3 { MaskBits3(i); } else if k == 4 { MaskBits4(i); } else if k == 5 { MaskBits5(i); }
    else if k == 6 { MaskBits6(i); } else if k == 7 { MaskBits7(i); } else if k == 8 { MaskBits8(i); }
    else { MaskBits9(i); }
  }

  /** The cell in place `c` of line `k`. */
  function LineCell(k: nat, c: nat): (i: nat)
    requires k < 10 && c < 5
    ensures InLine(k, i)
  {
    if k < 5 then 5 * k + c else 5 * c + (k - 5)
  }

  /** Each line has the five cells `LineCell(k, 0..5)` and no others. */
  lemma LineCells(k: nat, i: nat)
    requires k < 10
    ensures InLine(k, i) <==> exists c :: 0 <= c < 5 && LineCell(k, c) == i
  {
    if InLine(k, i) {
      var c := if k < 5 then i % 5 else i / 5;
      assert LineCell(k, c) == i;
    }
  }

  // ---------------------------------------------------------------------
  // Boards
  // ---------------------------------------------------------------------

  /** The 25 values of a board, row-major. */
  type Cells = s: seq<int> | |s| == 25 witness seq(25, _ => 0)

  /** `Board`: bit `i` of `marked` is set once `values[i]` has been drawn. */
  datatype Board = Board(values: Cells, marked: bv32)

  /** `Board::mark`: marks the first cell holding `num`, if any. */
  function Mark(b: Board, num: int): (r: Board)
    ensures r.values == b.values
  {
    match IndexOf(b.values, num)
    case None => b
    case Some(i) => Board(b.values, SetBit(b.marked, i))
  }

  /** After marking, a cell is marked exactly when it was before or it is
      the first cell holding `num`. */
  lemma MarkBits(b: Board, num: int, j: nat)
    requires j < 32
    ensures Bit(Mark(b, num).marked, j) <==> Bit(b.marked, j) || IndexOf(b.values, num) == Some(j)
  {
    match IndexOf(b.values, num)
    case None =>
    case Some(i) => SetBitBits(b.marked, i, j);
  }

  /** Marking never clears a mark, and a newly marked cell holds the drawn number. */
  lemma MarkGrows(b: Board, num: int, j: nat)
    requires j < 32
    ensures Bit(b.marked, j) ==> Bit(Mark(b, num).marked, j)
    ensures Bit(Mark(b, num).marked, j) && !Bit(b.marked, j) ==> j < 25 && b.values[j] == num
  {
    MarkBits(b, num, j);
  }

  /** `Board::winning`: some winning mask is covered by the marks. */
  predicate Winning(b: Board)
  {
    exists k :: 0 <= k < 10 && b.marked & Masks()[k] == Masks()[k]
  }

  /** Every cell of line `k` is marked. */
  predicate LineMarked(b: Board, k: nat)
  {
    forall i :: 0 <= i < 32 && InLine(k, i) ==> Bit(b.marked, i)
  }

  lemma MaskCoveredLine(b: Board, k: nat)
    requires k < 10 && b.marked & Masks()[k] == Masks()[k]
    ensures LineMarked(b, k)
  {
    SubsetBits(Masks()[k], b.marked);
    forall i | 0 <= i < 32 && InLine(k, i)
      ensures Bit(b.marked, i)
    {
      MaskBits(k, i);
    }
  }

  lemma LineCoversMask(b: Board, k: nat)
    requires k < 10 && LineMarked(b, k)
    ensures b.marked & Masks()[k] == Masks()[k]
  {
    forall i | 0 <= i < 32 && Bit(Masks()[k], i)
      ensures Bit(b.marked, i)
    {
      MaskBits(k, i);
    }
    SubsetBits(Masks()[k], b.marked);
  }

  /** Mask `k` is covered by the marks exactly when line `k` is fully marked. */
  lemma MaskLine(b: Board, k: nat)
    requires k < 10
    ensures b.marked & Masks()[k] == Masks()[k] <==> LineMarked(b, k)
  {
    if b.marked & Masks()[k] == Masks()[k] {
      MaskCoveredLine(b, k);
    }
    if LineMarked(b, k) {
      LineCoversMask(b, k);
    }
  }

  /** A board wins exactly when one of its rows or columns is fully marked. */
  lemma WinningLines(b: Board)
    ensures Winning(b) <==> exists k :: 0 <= k < 10 && LineMarked(b, k)
  {
    if Winning(b) {
      var k :| 0 <= k < 10 && b.marked & Masks()[k] == Masks()[k];
      MaskLine(b, k);
    }
    if exists k :: 0 <= k < 10 && LineMarked(b, k) {
      var k :| 0 <= k < 10 && LineMarked(b, k);
      MaskLine(b, k);
    }
  }

  /** The sum of the unmarked values among cells `i..25`. */
  function UnmarkedFrom(b: Board, i: nat): int
    requires i <= 25
    decreases 25 - i
  {
    if i == 25 then 0 else (if Bit(b.marked, i) then 0 else b.values[i]) + UnmarkedFrom(b, i + 1)
  }

  /** `Board::unmarked_sum`. */
  function UnmarkedSum(b: Board): int
  {
    UnmarkedFrom(b, 0)
  }

  /** The sum of values `i..25`. */
  function CellSum(values: Cells, i: nat): int
    requires i <= 25
    decreases 25 - i
  {
    if i == 25 then 0 else values[i] + CellSum(values, i + 1)
  }

  /** On a board with nothing marked every value counts. */
  lemma {:induction false} UnmarkedFresh(values: Cells, i: nat)
    requires i <= 25
    ensures UnmarkedFrom(Board(values, 0), i) == CellSum(values, i)
    decreases 25 - i
  {
    if i < 25 {
      NoBitsOfZero(i);
      UnmarkedFresh(values, i + 1);
    }
  }

  lemma {:induction false} UnmarkedMarkFrom(b: Board, num: int, i: nat)
    requires i <= 25
    ensures var j := IndexOf(b.values, num);
      UnmarkedFrom(Mark(b, num), i)
      == UnmarkedFrom(b, i) - (if j.Some? && i <= j.value && !Bit(b.marked, j.value) then num else 0)
    decreases 25 - i
  {
    if i < 25 {
      MarkBits(b, num, i);
      UnmarkedMarkFrom(b, num, i + 1);
    }
  }

  /** Drawing a number that sits on an unmarked cell takes it off the
      unmarked sum; any other draw leaves the sum alone. */
  lemma UnmarkedAfterMark(b: Board, num: int)
    ensures var j := IndexOf(b.values, num);
      UnmarkedSum(Mark(b, num))
      == UnmarkedSum(b) - (if j.Some? && !Bit(b.marked, j.value) then num else 0)
  {
    UnmarkedMarkFrom(b, num, 0);
  }

  // ---------------------------------------------------------------------
  // Input
  // ---------------------------------------------------------------------

  /** Parses every piece as an `i32`; `None` where `unwrap` panics. */
  function ParseInts(pieces: seq<string>): (r: Option<seq<int>>)
    ensures r.Some? <==> forall k :: 0 <= k < |pieces| ==> ParseI32(pieces[k]).Some?
    ensures r.Some? ==> |r.value| == |pieces| && forall k :: 0 <= k < |pieces| ==> ParseI32(pieces[k]) == Some(r.value[k])
  {
    if |pieces| == 0 then Some([])
    else
      assert forall k :: 1 <= k < |pieces| ==> pieces[k] == pieces[1..][k - 1];
      match (ParseI32(pieces[0]), ParseInts(pieces[1..]))
      case (Some(x), Some(rest)) => Some([x] + rest)
      case (None, _) => None
      case (_, None) =>
        var k :| 0 <= k < |pieces[1..]| && ParseI32(pieces[1..][k]).None?;
        assert ParseI32(pieces[k + 1]).None?;
        None
  }

  /** One board row: its whitespace-separated numbers written into five
      zeroed slots; `None` if a number does not parse or a sixth one
      overruns the row. */
  function ParseRow(line: string): (r: Option<seq<int>>)
    ensures r.Some? <==> |Words(line)| <= 5 && ParseInts(Words(line)).Some?
    ensures r.Some? ==> |r.value| == 5
    ensures r.Some? ==> forall c :: 0 <= c < 5 ==>
      r.value[c] == if c < |Words(line)| then ParseInts(Words(line)).value[c] else 0
  {
    var words := Words(line);
    if |words| > 5 then None
    else
      match ParseInts(words)
      case None => None
      case Some(xs) => Some(xs + seq(5 - |xs|, _ => 0))
  }

  /** The rows' cells, row after row; `None` if a row does not parse. */
  function ParseRows(rows: seq<string>): (r: Option<seq<int>>)
    ensures r.Some? <==> forall row :: 0 <= row < |rows| ==> ParseRow(rows[row]).Some?
    ensures r.Some? ==> |r.value| == 5 * |rows|
    ensures r.Some? ==> forall row, c :: 0 <= row < |rows| && 0 <= c < 5 ==>
      r.value[5 * row + c] == ParseRow(rows[row]).value[c]
  {
    if |rows| == 0 then Some([])
    else
      assert forall row :: 1 <= row < |rows| ==> rows[row] == rows[1..][row - 1];
      match (ParseRow(rows[0]), ParseRows(rows[1..]))
      case (Some(first), Some(rest)) =>
        var r := first + rest;
        forall row, c | 0 <= row < |rows| && 0 <= c < 5
          ensures r[5 * row + c] == ParseRow(rows[row]).value[c]
        {
          if row > 0 {
            assert rows[row] == rows[1..][row - 1];
            assert 5 * row + c == |first| + (5 * (row - 1) + c);
          }
        }
        Some(r)
      case (None, _) => None
      case (_, None) => None
  }

  /** A board's 25 cells from its five rows. */
  function ParseBoard(rows: seq<string>): (r: Option<Cells>)
    requires |rows| == 5
    ensures r.Some? <==> forall row :: 0 <= row < 5 ==> ParseRow(rows[row]).Some?
    ensures r.Some? ==> forall row, c :: 0 <= row < 5 && 0 <= c < 5 ==>
      r.value[5 * row + c] == ParseRow(rows[row]).value[c]
  {
    match ParseRows(rows)
    case Some(values) => Some(values)
    case None => None
  }

  /** Consecutive boards, each a skipped line and five rows; `None` when a
      board has fewer than five rows left or a row does not parse. */
  function ParseBoards(lines: seq<string>): (r: Option<seq<Board>>)
    ensures r.Some? ==> |lines| == 6 * |r.value|
    ensures r.Some? ==> forall n :: 0 <= n < |r.value| ==>
      r.value[n].marked == 0 && ParseBoard(lines[6 * n + 1..6 * n + 6]) == Some(r.value[n].values)
    decreases |lines|
  {
    if |lines| == 0 then Some([])
    else if |lines| < 6 then None
    else
      match (ParseBoard(lines[1..6]), ParseBoards(lines[6..]))
      case (Some(values), Some(rest)) =>
        var r := [Board(values, 0)] + rest;
        forall n | 1 <= n < |r|
          ensures lines[6 * n + 1..6 * n + 6] == lines[6..][6 * (n - 1) + 1..6 * (n - 1) + 6]
        {
          assert 6 * n + 1 == 6 + (6 * (n - 1) + 1);
        }
        Some(r)
      case _ => None
  }

  /** `parse_input`: the comma-separated draws on the first line, then the
      boards; `None` where the original panics. */
  function ParseInput(raw: string): (r: Option<(seq<int>, seq<Board>)>)
    ensures r.Some? ==> |Lines(raw)| > 0 && ParseInts(Split(Lines(raw)[0], ',')) == Some(r.value.0)
    ensures r.Some? ==> ParseBoards(Lines(raw)[1..]) == Some(r.value.1)
  {
    var lines := Lines(raw);
    if |lines| == 0 then None
    else
      match (ParseInts(Split(lines[0], ',')), ParseBoards(lines[1..]))
      case (Some(numbers), Some(boards)) => Some((numbers, boards))
      case _ => None
  }
}

=== FILE: bingo_game.dfy ===
/** Day 4 (Giant Squid), the game: numbers are drawn in order and marked on
    every board still playing; part 1 scores the first board to win, part 2
    the last. */
module BingoGame {
  import opened Wrappers
  import opened Seqs
  import opened Bingo

  /** The board operations the game uses: `mark`, `winning` and
      `unmarked_sum`. The game is stated for any such operations, so its
      proofs never look inside a board. */
  datatype Rules = Rules(mark: (Board, int) -> Board, wins: Board -> bool, unmarked: Board -> int)

  /** The rules of this puzzle. */
  function Standard(): Rules
  {
    Rules(Mark, Winning, UnmarkedSum)
  }

  /** A board after the first `n` numbers have been drawn, in order. */
  function Drawn(rules: Rules, b: Board, numbers: seq<int>, n: nat): Board
    requires n <= |numbers|
  {
    if n == 0 then b else rules.mark(Drawn(rules, b, numbers, n - 1), numbers[n - 1])
  }

  /** Drawing more numbers never unmarks a cell, so a winning board keeps winning. */
  lemma {:induction false} DrawnGrows(b: Board, numbers: seq<int>, n: nat, m: nat, i: nat)
    requires n <= m <= |numbers| && i < 32
    requires Bit(Drawn(Standard(), b, numbers, n).marked, i)
    ensures Bit(Drawn(Standard(), b, numbers, m).marked, i)
    decreases m - n
  {
    if n < m {
      MarkGrows(Drawn(Standard(), b, numbers, n), numbers[n], i);
      DrawnGrows(b, numbers, n + 1, m, i);
    }
  }

  lemma WinningStays(b: Board, numbers: seq<int>, n: nat, m: nat)
    requires n <= m <= |numbers|
    requires Winning(Drawn(Standard(), b, numbers, n))
    ensures Winning(Drawn(Standard(), b, numbers, m))
  {
    var before, after := Drawn(Standard(), b, numbers, n), Drawn(Standard(), b, numbers, m);
    WinningLines(before);
    var k :| 0 <= k < 10 && LineMarked(before, k);
    forall i | 0 <= i < 32 && InLine(k, i)
      ensures Bit(after.marked, i)
    {
      DrawnGrows(b, numbers, n, m, i);
    }
    assert LineMarked(after, k);
    WinningLines(after);
  }

  /** The board wins once `numbers[n]` is drawn. */
  predicate WinsAfter(rules: Rules, b: Board, numbers: seq<int>, n: nat)
  {
    n < |numbers| && rules.wins(Drawn(rules, b, numbers, n + 1))
  }

  /** The puzzle's score of a board that has just won on `numbers[n]`. */
  function Score(rules: Rules, b: Board, numbers: seq<int>, n: nat): int
    requires n < |numbers|
  {
    rules.unmarked(Drawn(rules, b, numbers, n + 1)) * numbers[n]
  }

  // ---------------------------------------------------------------------
  // Part 1: the first board to win
  // ---------------------------------------------------------------------

  /** Board `j` wins on draw `n`, and no board won earlier, nor an earlier
      board on the same draw. */
  predicate FirstWinner(rules: Rules, boards: seq<Board>, numbers: seq<int>, n: nat, j: nat)
  {
    && j < |boards| && WinsAfter(rules, boards[j], numbers, n)
    && (forall n', k :: 0 <= n' < n && 0 <= k < |boards| ==> !WinsAfter(rules, boards[k], numbers, n'))
    && (forall k :: 0 <= k < j ==> !WinsAfter(rules, boards[k], numbers, n))
  }

  /** `part_1`: the score of the first board to win, taking draws in order
      and boards in order within a draw; `None` where the original panics
      because no board ever wins. */
  method Part1(rules: Rules, numbers: seq<int>, boards: seq<Board>) returns (r: Option<int>)
    ensures r.None? <==> forall n, j :: 0 <= n < |numbers| && 0 <= j < |boards| ==> !WinsAfter(rules, boards[j], numbers, n)
    ensures r.Some? ==> exists n: nat, j: nat :: FirstWinner(rules, boards, numbers, n, j) && r.value == Score(rules, boards[j], numbers, n)
  {
    var state := boards;
    var n := 0;
    while n < |numbers|
      invariant n <= |numbers| && |state| == |boards|
      invariant forall k :: 0 <= k < |boards| ==> state[k] == Drawn(rules, boards[k], numbers, n)
      invariant forall n', k :: 0 <= n' < n && 0 <= k < |boards| ==> !WinsAfter(rules, boards[k], numbers, n')
    {
      var j := 0;
      while j < |boards|
        invariant j <= |boards| && |state| == |boards|
        invariant forall k :: 0 <= k < j ==> state[k] == Drawn(rules, boards[k], numbers, n + 1)
        invariant forall k :: j <= k < |boards| ==> state[k] == Drawn(rules, boards[k], numbers, n)
        invariant forall k :: 0 <= k < j ==> !WinsAfter(rules, boards[k], numbers, n)
      {
        state := state[j := rules.mark(state[j], numbers[n])];
        if rules.wins(state[j]) {
          assert FirstWinner(rules, boards, numbers, n, j);
          return Some(rules.unmarked(state[j]) * numbers[n]);
        }
        j := j + 1;
      }
      n := n + 1;
    }
    return None;
  }

  // ---------------------------------------------------------------------
  // Part 2: the last board to win
  // ---------------------------------------------------------------------

  /** The draw on which `b` first wins, among the first `n` draws. */
  function FirstWinBefore(rules: Rules, b: Board, numbers: seq<int>, n: nat): (r: Option<nat>)
    requires n <= |numbers|
    ensures r.Some? ==> r.value < n
  {
    if n == 0 then None
    else
      match FirstWinBefore(rules, b, numbers, n - 1)
      case Some(m) => Some(m)
      case None => if WinsAfter(rules, b, numbers, n - 1) then Some(n - 1) else None
  }

  /** `FirstWinBefore` finds the earliest winning draw among the first `n`, or reports none. */
  lemma {:induction false} FirstWinBeforeIs(rules: Rules, b: Board, numbers: seq<int>, n: nat)
    requires n <= |numbers|
    ensures var r := FirstWinBefore(rules, b, numbers, n);
      && (r.Some? ==> WinsAfter(rules, b, numbers, r.value) && forall m :: 0 <= m < r.value ==> !WinsAfter(rules, b, numbers, m))
      && (r.None? ==> forall m :: 0 <= m < n ==> !WinsAfter(rules, b, numbers, m))
    decreases n
  {
    if n > 0 {
      FirstWinBeforeIs(rules, b, numbers, n - 1);
    }
  }

  /** The draw on which `b` first wins, if it ever does. */
  function FirstWinRound(rules: Rules, b: Board, numbers: seq<int>): Option<nat>
  {
    FirstWinBefore(rules, b, numbers, |numbers|)
  }

  /** `FirstWinRound` names exactly the first winning draw. */
  lemma FirstWinRoundIs(rules: Rules, b: Board, numbers: seq<int>, n: nat)
    ensures FirstWinRound(rules, b, numbers) == Some(n)
      <==> WinsAfter(rules, b, numbers, n) && forall m :: 0 <= m < n ==> !WinsAfter(rules, b, numbers, m)
  {
    FirstWinBeforeIs(rules, b, numbers, |numbers|);
  }

  /** Once a board has won within the first `n` draws, later draws do not change its first win. */
  lemma {:induction false} FirstWinStable(rules: Rules, b: Board, numbers: seq<int>, n: nat, m: nat)
    requires n <= m <= |numbers| && FirstWinBefore(rules, b, numbers, n).Some?
    ensures FirstWinBefore(rules, b, numbers, m) == FirstWinBefore(rules, b, numbers, n)
    decreases m - n
  {
    if n < m {
      FirstWinStable(rules, b, numbers, n + 1, m);
    }
  }

  /** Under this puzzle's rules a board keeps winning, so its first win is
      the draw where it turns from not winning to winning. */
  lemma FirstWinIsEdge(b: Board, numbers: seq<int>, n: nat)
    ensures FirstWinRound(Standard(), b, numbers) == Some(n)
      <==> WinsAfter(Standard(), b, numbers, n) && (n == 0 || !WinsAfter(Standard(), b, numbers, n - 1))
  {
    FirstWinRoundIs(Standard(), b, numbers, n);
    if WinsAfter(Standard(), b, numbers, n) && (n == 0 || !WinsAfter(Standard(), b, numbers, n - 1)) {
      forall m | 0 <= m < n
        ensures !WinsAfter(Standard(), b, numbers, m)
      {
        if WinsAfter(Standard(), b, numbers, m) {
          WinningStays(b, numbers, m + 1, n);
        }
      }
    }
  }

  /** Board `j` wins, and no board first wins on a later draw. */
  predicate LastWinner(rules: Rules, boards: seq<Board>, numbers: seq<int>, j: nat)
  {
    && j < |boards| && FirstWinRound(rules, boards[j], numbers).Some?
    && forall k :: 0 <= k < |boards| && FirstWinRound(rules, boards[k], numbers).Some? ==>
         FirstWinRound(rules, boards[k], numbers).value <= FirstWinRound(rules, boards[j], numbers).value
  }

  /** How many draws have been marked on `b` after `n` rounds: all of them
      while it is playing, up to its winning draw once it has won. */
  function Played(rules: Rules, b: Board, numbers: seq<int>, n: nat): (r: nat)
    requires n <= |numbers|
    ensures r <= n
  {
    match FirstWinBefore(rules, b, numbers, n)
    case None => n
    case Some(m) => m + 1
  }

  /** `last_win` agrees with the first wins recorded in `seen`: empty while
      nobody has won, otherwise a board whose first win is the latest, with
      the number drawn then. */
  predicate LastOk(last: Option<(nat, int)>, seen: seq<Option<nat>>, numbers: seq<int>)
  {
    && (last.None? <==> forall k :: 0 <= k < |seen| ==> seen[k].None?)
    && (last.Some? ==>
          && last.value.0 < |seen| && seen[last.value.0].Some? && seen[last.value.0].value < |numbers|
          && last.value.1 == numbers[seen[last.value.0].value]
          && forall k :: 0 <= k < |seen| && seen[k].Some? ==> seen[k].value <= seen[last.value.0].value)
  }

  /** The first wins after round `n` has visited the boards before `j`. */
  function Seen(rules: Rules, boards: seq<Board>, numbers: seq<int>, n: nat, j: nat): (r: seq<Option<nat>>)
    requires n < |numbers| || (n == |numbers| && j == 0)
    ensures |r| == |boards|
    ensures forall k :: 0 <= k < |boards| ==> r[k] == FirstWinBefore(rules, boards[k], numbers, if k < j then n + 1 else n)
  {
    seq(|boards|, k requires 0 <= k < |boards| => FirstWinBefore(rules, boards[k], numbers, if k < j then n + 1 else n))
  }

  lemma LastOkWin(seen: seq<Option<nat>>, numbers: seq<int>, j: nat, n: nat)
    requires j < |seen| && n < |numbers|
    requires forall k :: 0 <= k < |seen| && seen[k].Some? ==> seen[k].value <= n
    ensures LastOk(Some((j, numbers[n])), seen[j := Some(n)], numbers)
  {
    var seen' := seen[j := Some(n)];
    assert seen'[j] == Some(n);
    forall k | 0 <= k < |seen'| && seen'[k].Some?
      ensures seen'[k].value <= n
    {
      if k != j {
        assert seen'[k] == seen[k];
      }
    }
  }

  /** Every board's state holds the draws it has played: round `n` has
      reached the boards before `j`. */
  ghost predicate StatesOk(rules: Rules, boards: seq<Board>, numbers: seq<int>, n: nat, j: nat, state: seq<Board>)
    requires n < |numbers| || (n == |numbers| && j == 0)
  {
    && |state| == |boards|
    && forall k :: 0 <= k < |boards| ==>
         state[k] == Drawn(rules, boards[k], numbers, Played(rules, boards[k], numbers, if k < j then n + 1 else n))
  }

  lemma StatesStep(rules: Rules, boards: seq<Board>, numbers: seq<int>, n: nat, j: nat, state: seq<Board>, s: Board)
    requires n < |numbers| && j < |boards| && StatesOk(rules, boards, numbers, n, j, state)
    requires s == Drawn(rules, boards[j], numbers, Played(rules, boards[j], numbers, n + 1))
    ensures StatesOk(rules, boards, numbers, n, j + 1, state[j := s])
  {
  }

  /** The state of part 2's inner loop before visiting board `j` in round `n`. */
  ghost predicate RoundOk(rules: Rules, boards: seq<Board>, numbers: seq<int>, n: nat, j: nat, losing: set<nat>,
                          state: seq<Board>, toRemove: set<nat>, last: Option<(nat, int)>)
  {
    && n < |numbers| && j <= |boards|
    && (forall k :: k in losing <==> 0 <= k < |boards| && FirstWinBefore(rules, boards[k], numbers, n).None?)
    && (forall k :: k in toRemove <==> 0 <= k < j && k in losing && WinsAfter(rules, boards[k], numbers, n))
    && StatesOk(rules, boards, numbers, n, j, state)
    && LastOk(last, Seen(rules, boards, numbers, n, j), numbers)
  }

  /** Board `j` first winning on draw `n` makes it the latest winner so far. */
  lemma LastAfterWin(rules: Rules, boards: seq<Board>, numbers: seq<int>, n: nat, j: nat, last: Option<(nat, int)>)
    requires n < |numbers| && j < |boards|
    requires FirstWinBefore(rules, boards[j], numbers, n + 1) == Some(n)
    ensures LastOk(Some((j, numbers[n])), Seen(rules, boards, numbers, n, j + 1), numbers)
  {
    var seen := Seen(rules, boards, numbers, n, j);
    assert Seen(rules, boards, numbers, n, j + 1) == seen[j := Some(n)];
    LastOkWin(seen, numbers, j, n);
  }

  /** A board whose first win does not change in round `n` leaves `last_win` valid. */
  lemma LastAfterNoWin(rules: Rules, boards: seq<Board>, numbers: seq<int>, n: nat, j: nat, last: Option<(nat, int)>)
    requires n < |numbers| && j < |boards| && LastOk(last, Seen(rules, boards, numbers, n, j), numbers)
    requires FirstWinBefore(rules, boards[j], numbers, n + 1) == FirstWinBefore(rules, boards[j], numbers, n)
    ensures LastOk(last, Seen(rules, boards, numbers, n, j + 1), numbers)
  {
    assert Seen(rules, boards, numbers, n, j + 1) == Seen(rules, boards, numbers, n, j);
  }

  /** One pass of the inner loop: board `j` is marked and checked if it is still playing. */
  method Visit(rules: Rules, boards: seq<Board>, numbers: seq<int>, n: nat, j: nat, losing: set<nat>,
               state: seq<Board>, toRemove: set<nat>, last: Option<(nat, int)>)
    returns (state': seq<Board>, toRemove': set<nat>, last': Option<(nat, int)>)
    requires j < |boards| && RoundOk(rules, boards, numbers, n, j, losing, state, toRemove, last)
    ensures RoundOk(rules, boards, numbers, n, j + 1, losing, state', toRemove', last')
  {
    var b := boards[j];
    toRemove', last' := toRemove, last;
    if j in losing {
      state' := state[j := rules.mark(state[j], numbers[n])];
      StatesStep(rules, boards, numbers, n, j, state, state'[j]);
      if rules.wins(state'[j]) {
        toRemove' := toRemove + {j};
        last' := Some((j, numbers[n]));
        LastAfterWin(rules, boards, numbers, n, j, last);
      } else {
        LastAfterNoWin(rules, boards, numbers, n, j, last);
      }
    } else {
      FirstWinStable(rules, b, numbers, n, n + 1);
      state' := state;
      StatesStep(rules, boards, numbers, n, j, state, state[j]);
      assert state[j := state[j]] == state;
      LastAfterNoWin(rules, boards, numbers, n, j, last);
    }
  }

  /** The state of part 2's outer loop after `n` rounds. */
  ghost predicate GameOk(rules: Rules, boards: seq<Board>, numbers: seq<int>, n: nat, losing: set<nat>,
                         state: seq<Board>, last: Option<(nat, int)>)
  {
    && n <= |numbers|
    && (forall k :: k in losing <==> 0 <= k < |boards| && FirstWinBefore(rules, boards[k], numbers, n).None?)
    && StatesOk(rules, boards, numbers, n, 0, state)
    && LastOk(last, Seen(rules, boards, numbers, n, 0), numbers)
  }

  /** One round: every playing board is marked, and the winners stop playing. */
  method Round(rules: Rules, boards: seq<Board>, numbers: seq<int>, n: nat, losing: set<nat>,
               state: seq<Board>, last: Option<(nat, int)>)
    returns (losing': set<nat>, state': seq<Board>, last': Option<(nat, int)>)
    requires n < |numbers| && GameOk(rules, boards, numbers, n, losing, state, last)
    ensures GameOk(rules, boards, numbers, n + 1, losing', state', last')
  {
    var toRemove: set<nat> := {};
    state', last' := state, last;
    RoundStart(rules, boards, numbers, n, losing, state, last);
    var j := 0;
    while j < |boards|
      invariant j <= |boards|
      invariant RoundOk(rules, boards, numbers, n, j, losing, state', toRemove, last')
    {
      state', toRemove, last' := Visit(rules, boards, numbers, n, j, losing, state', toRemove, last');
      j := j + 1;
    }
    losing' := losing - toRemove;
    RoundEnd(rules, boards, numbers, n, losing, state', toRemove, last');
  }

  lemma RoundStart(rules: Rules, boards: seq<Board>, numbers: seq<int>, n: nat, losing: set<nat>,
                   state: seq<Board>, last: Option<(nat, int)>)
    requires n < |numbers| && GameOk(rules, boards, numbers, n, losing, state, last)
    ensures RoundOk(rules, boards, numbers, n, 0, losing, state, {}, last)
  {
  }

  lemma RoundEnd(rules: Rules, boards: seq<Board>, numbers: seq<int>, n: nat, losing: set<nat>,
                 state: seq<Board>, toRemove: set<nat>, last: Option<(nat, int)>)
    requires RoundOk(rules, boards, numbers, n, |boards|, losing, state, toRemove, last)
    ensures GameOk(rules, boards, numbers, n + 1, losing - toRemove, state, last)
  {
    assert Seen(rules, boards, numbers, n + 1, 0) == Seen(rules, boards, numbers, n, |boards|);
  }

  /** `part_2`: the score of the last board to win, on the draw it won with;
      `None` where the original panics because no board ever wins. Boards
      still playing are visited in increasing order, one of the orders a
      `HashSet` may yield; the contract holds for whichever board wins last. */
  method Part2(rules: Rules, numbers: seq<int>, boards: seq<Board>) returns (r: Option<int>)
    ensures r.None? <==> forall j :: 0 <= j < |boards| ==> FirstWinRound(rules, boards[j], numbers).None?
    ensures r.Some? ==> exists j: nat ::
      LastWinner(rules, boards, numbers, j) && r.value == Score(rules, boards[j], numbers, FirstWinRound(rules, boards[j], numbers).value)
  {
    var state := boards;
    var losing := Range(|boards|);
    var last: Option<(nat, int)> := None;
    var n := 0;
    GameStart(rules, boards, numbers);
    while n < |numbers|
      invariant GameOk(rules, boards, numbers, n, losing, state, last)
      decreases |numbers| - n
    {
      losing, state, last := Round(rules, boards, numbers, n, losing, state, last);
      n := n + 1;
      if |losing| == 0 {
        break;
      }
    }
    GameEnd(rules, boards, numbers, n, losing, state, last);
    match last {
      case None =>
        return None;
      case Some((idx, number)) =>
        return Some(rules.unmarked(state[idx]) * number);
    }
  }

  lemma GameStart(rules: Rules, boards: seq<Board>, numbers: seq<int>)
    ensures GameOk(rules, boards, numbers, 0, Range(|boards|), boards, None)
  {
  }

  /** When the rounds stop, every first win is settled and `last_win` names a last winner. */
  lemma GameEnd(rules: Rules, boards: seq<Board>, numbers: seq<int>, n: nat, losing: set<nat>,
                state: seq<Board>, last: Option<(nat, int)>)
    requires GameOk(rules, boards, numbers, n, losing, state, last)
    requires n == |numbers| || |losing| == 0
    ensures last.None? <==> forall j :: 0 <= j < |boards| ==> FirstWinRound(rules, boards[j], numbers).None?
    ensures last.Some? ==> LastWinner(rules, boards, numbers, last.value.0)
    ensures last.Some? ==>
      rules.unmarked(state[last.value.0]) * last.value.1
      == Score(rules, boards[last.value.0], numbers, FirstWinRound(rules, boards[last.value.0], numbers).value)
  {
    forall k | 0 <= k < |boards|
      ensures FirstWinRound(rules, boards[k], numbers) == FirstWinBefore(rules, boards[k], numbers, n)
    {
      if n < |numbers| {
        assert k !in losing;
        FirstWinStable(rules, boards[k], numbers, n, |numbers|);
      }
    }
    var seen := Seen(rules, boards, numbers, n, 0);
    assert forall k :: 0 <= k < |boards| ==> seen[k] == FirstWinRound(rules, boards[k], numbers);
  }
}

=== FILE: bit_cursor.dfy ===
/** Day 16, "Packet Decoder", part one: the bit cursor (`BitIterator` of
    src/day_16/mod.rs). A hexadecimal string becomes a sequence of 4-bit
    nibbles and the cursor reads any number of bits from it, most
    significant first. The cursor is proved against `Stream`, the whole
    transmission spelled out as one bit string. */
module BitCursor {
  import opened Wrappers
  import opened Arith

  type Nibble = x: nat | x < 16

  /** Why a decode aborts; each is a panic in the original program. */
  datatype DecodeError =
    | InvalidByte       // a character outside 0-9, A-F
    | BufferExhausted   // a bit was requested past the end of the nibbles
    | FrameUnderflow    // a 15-bit length frame larger than `remaining()`

  const HexAlphabet: string := "0123456789ABCDEF"

  /** The nibble a transmission character stands for; lowercase digits and
      every other character are rejected. */
  function HexValue(c: char): (r: Option<Nibble>)
    ensures r.Some? <==> c in HexAlphabet
    ensures r.Some? ==> HexAlphabet[r.value] == c
  {
    if '0' <= c <= '9' then Some(c as int - '0' as int)
    else if 'A' <= c <= 'F' then Some(c as int - 'A' as int + 10)
    else None
  }

  /** The upper-case hexadecimal digit of a nibble (the inverse of HexValue). */
  function HexDigit(n: Nibble): char
  {
    HexAlphabet[n]
  }

  /** HexValue and HexDigit are mutually inverse on the 16-character alphabet. */
  lemma HexRoundTrip(n: Nibble, c: char)
    ensures HexValue(HexDigit(n)) == Some(n)
    ensures HexValue(c).Some? ==> HexDigit(HexValue(c).value) == c
  {
  }

  /** Every character of `s` decoded, or None at the first that is not a hex digit. */
  function HexNibbles(s: string): (r: Option<seq<Nibble>>)
    ensures r.Some? <==> forall i :: 0 <= i < |s| ==> s[i] in HexAlphabet
    ensures r.Some? ==> |r.value| == |s|
    ensures r.Some? ==> forall i :: 0 <= i < |s| ==> HexAlphabet[r.value[i]] == s[i]
  {
    if |s| == 0 then Some([])
    else
      match HexValue(s[0])
      case None => None
      case Some(n) =>
        match HexNibbles(s[1..])
        case None => assert s[1..][0] == s[1]; None
        case Some(rest) => Some([n] + rest)
  }

  // ---------------------------------------------------------------------
  // Bit cursor (BitIterator)
  // ---------------------------------------------------------------------

  /** A read position inside the nibbles: `nibbleOffset` picks the nibble and
      `bitOffset` (0..3) the bit inside it, counted from the most significant. */
  datatype Cursor = Cursor(nibbles: seq<Nibble>, nibbleOffset: nat, bitOffset: nat)
  {
    /** The bit offset stays below 4 and the cursor never passes the end. */
    predicate Valid()
    {
      bitOffset < 4 && 4 * nibbleOffset + bitOffset <= 4 * |nibbles|
    }

    /** The number of bits consumed so far. */
    function Pos(): nat
    {
      4 * nibbleOffset + bitOffset
    }

    function Capacity(): nat
    {
      4 * |nibbles|
    }

    /** The bits still unread, as a true count. */
    function Rest(): nat
      requires Valid()
    {
      Capacity() - Pos()
    }
  }

  /** The cursor at bit position `p` of `ns`. */
  function CursorAt(ns: seq<Nibble>, p: nat): (c: Cursor)
    requires p <= 4 * |ns|
    ensures c.Valid() && c.nibbles == ns && c.Pos() == p
  {
    Cursor(ns, p / 4, p % 4)
  }

  /** A valid cursor is determined by its nibbles and its bit position. */
  lemma CursorAtPos(c: Cursor)
    requires c.Valid()
    ensures CursorAt(c.nibbles, c.Pos()) == c
  {
  }

  /** A fresh cursor over a hexadecimal string (`from_hex_str`). */
  function FromHexStr(s: string): (r: Result<Cursor, DecodeError>)
    ensures r.Ok? <==> forall i :: 0 <= i < |s| ==> s[i] in HexAlphabet
    ensures r.Err? ==> r.error == InvalidByte
    ensures r.Ok? ==> r.value.Valid() && r.value.Pos() == 0 && |r.value.nibbles| == |s|
    ensures r.Ok? ==> forall i :: 0 <= i < |s| ==> HexAlphabet[r.value.nibbles[i]] == s[i]
  {
    match HexNibbles(s)
    case None => Err(InvalidByte)
    case Some(ns) => Ok(Cursor(ns, 0, 0))
  }

  /** The four bits of a nibble, most significant first. */
  function NibbleBits(n: Nibble): (bs: seq<Bit>)
    ensures |bs| == 4 && BitsValue(bs) == n
  {
    var bs: seq<Bit> := [n / 8, (n / 4) % 2, (n / 2) % 2, n % 2];
    assert Pow2(1) == 2 && Pow2(2) == 4 && Pow2(3) == 8;
    assert BitsValue(bs[3..]) == n % 2 by { assert bs[3..][1..] == []; }
    assert BitsValue(bs[2..]) == 2 * ((n / 2) % 2) + n % 2 by { assert bs[2..][1..] == bs[3..]; }
    assert BitsValue(bs[1..]) == n % 8 by { assert bs[1..][1..] == bs[2..]; }
    bs
  }

  /** The transmission as one bit string: the reference the cursor is proved against. */
  function Stream(ns: seq<Nibble>): (bits: seq<Bit>)
    ensures |bits| == 4 * |ns|
  {
    if |ns| == 0 then [] else NibbleBits(ns[0]) + Stream(ns[1..])
  }

  /** Bit `j` of nibble `i` sits at position `4 * i + j` of the stream. */
  lemma {:induction false} StreamIndex(ns: seq<Nibble>, i: nat, j: nat)
    requires i < |ns| && j < 4
    ensures Stream(ns)[4 * i + j] == NibbleBits(ns[i])[j]
    decreases i
  {
    if i > 0 {
      StreamIndex(ns[1..], i - 1, j);
    }
  }

  /** The mask-and-shift of `take_n` isolates exactly bit `j` of the nibble. */
  lemma NibbleBitMask(n: Nibble, j: nat)
    requires j < 4
    ensures (n / Pow2(3 - j)) % 2 == NibbleBits(n)[j]
  {
    assert Pow2(0) == 1 && Pow2(1) == 2 && Pow2(2) == 4 && Pow2(3) == 8;
  }

  /** The bit under the cursor, isolated the way `take_n` does with a one-bit mask. */
  function ReadBit(c: Cursor): (b: Bit)
    requires c.Valid() && c.nibbleOffset < |c.nibbles|
  {
    (c.nibbles[c.nibbleOffset] / Pow2(3 - c.bitOffset)) % 2
  }

  /** The bit under the cursor is the bit at its position in the stream. */
  lemma ReadBitStream(c: Cursor)
    requires c.Valid() && c.nibbleOffset < |c.nibbles|
    ensures ReadBit(c) == Stream(c.nibbles)[c.Pos()]
  {
    StreamIndex(c.nibbles, c.nibbleOffset, c.bitOffset);
    NibbleBitMask(c.nibbles[c.nibbleOffset], c.bitOffset);
  }

  /** One step of the cursor: the bit offset wraps into the next nibble after 3. */
  function Advance(c: Cursor): (d: Cursor)
    requires c.Valid() && c.nibbleOffset < |c.nibbles|
    ensures d.Valid() && d.nibbles == c.nibbles && d.Pos() == c.Pos() + 1
  {
    Cursor(c.nibbles, c.nibbleOffset + (c.bitOffset + 1) / 4, (c.bitOffset + 1) % 4)
  }

  /** `take_n`, specified: the next `n` bits of the transmission read as a
      number, first bit most significant, and the cursor just after them.
      Asking for more bits than are left is BufferExhausted (the original
      panics on the index of the first missing nibble). */
  function TakeN(c: Cursor, n: nat): (r: Result<(nat, Cursor), DecodeError>)
    requires c.Valid()
    ensures r.Ok? ==> r.value.1.Valid() && r.value.1.nibbles == c.nibbles
    ensures r.Ok? ==> r.value.1.Pos() == c.Pos() + n && r.value.0 < Pow2(n)
  {
    if c.Pos() + n > c.Capacity() then Err(BufferExhausted)
    else Ok((BitsValue(Stream(c.nibbles)[c.Pos()..c.Pos() + n]), CursorAt(c.nibbles, c.Pos() + n)))
  }

  /** `take_n` as the original runs it: one bit per iteration, masked out of
      its nibble and or-ed in at position `n - 1` of the output, the offsets
      advanced with the carry from bit 3 into the next nibble. */
  method TakeNLoop(c: Cursor, n: nat) returns (r: Result<(nat, Cursor), DecodeError>)
    requires c.Valid()
    ensures r == TakeN(c, n)
  {
    var out: nat := 0;
    var k: nat := n;
    var cur := c;
    assert Stream(c.nibbles)[c.Pos()..c.Pos()] == [];
    while k > 0
      invariant TakeInvariant(c, n, k, cur, out)
    {
      if cur.nibbleOffset >= |cur.nibbles| {
        TakeShort(c, n, k, cur, out);
        return Err(BufferExhausted);
      }
      TakeStep(c, n, k, cur, out);
      out := if ReadBit(cur) == 1 then out + Pow2(k - 1) else out;
      k := k - 1;
      cur := Advance(cur);
    }
    TakeDone(c, n, cur, out);
    return Ok((out, cur));
  }

  /** After `n - k` of `n` iterations: the bits read so far sit above the `k` still to come. */
  predicate TakeInvariant(c: Cursor, n: nat, k: nat, cur: Cursor, out: nat)
    requires c.Valid()
  {
    && k <= n && cur.Valid() && cur.nibbles == c.nibbles && cur.Pos() == c.Pos() + (n - k)
    && out == BitsValue(Stream(c.nibbles)[c.Pos()..cur.Pos()]) * Pow2(k)
  }

  /** The loop ran out of nibbles with bits still to read. */
  lemma TakeShort(c: Cursor, n: nat, k: nat, cur: Cursor, out: nat)
    requires c.Valid() && k > 0 && TakeInvariant(c, n, k, cur, out)
    requires cur.nibbleOffset >= |cur.nibbles|
    ensures TakeN(c, n) == Err(BufferExhausted)
  {
    assert c.Pos() + n > c.Capacity();
  }

  /** The loop read all `n` bits. */
  lemma TakeDone(c: Cursor, n: nat, cur: Cursor, out: nat)
    requires c.Valid() && TakeInvariant(c, n, 0, cur, out)
    ensures TakeN(c, n) == Ok((out, cur))
  {
    TimesPow2Zero(BitsValue(Stream(c.nibbles)[c.Pos()..cur.Pos()]), out);
    TakeNOk(c, n, out, cur);
  }

  lemma TimesPow2Zero(v: nat, out: nat)
    requires out == v * Pow2(0)
    ensures out == v
  {
  }

  /** `take_n` succeeds with any cursor at the right position and the value of the bits between. */
  lemma TakeNOk(c: Cursor, n: nat, v: nat, d: Cursor)
    requires c.Valid() && d.Valid() && d.nibbles == c.nibbles && d.Pos() == c.Pos() + n
    requires v == BitsValue(Stream(c.nibbles)[c.Pos()..d.Pos()])
    ensures TakeN(c, n) == Ok((v, d))
  {
    CursorAtPos(d);
  }

  lemma TakeStep(c: Cursor, n: nat, k: nat, cur: Cursor, out: nat)
    requires c.Valid() && k > 0 && TakeInvariant(c, n, k, cur, out)
    requires cur.nibbleOffset < |cur.nibbles|
    ensures TakeInvariant(c, n, k - 1, Advance(cur), if ReadBit(cur) == 1 then out + Pow2(k - 1) else out)
  {
    var s := Stream(c.nibbles);
    var b := ReadBit(cur);
    assert b == s[cur.Pos()] by { ReadBitStream(cur); }
    OrInBit(s, c.Pos(), cur.Pos(), k, out, b);
  }

  /** Or-ing the bit at `q` in at weight `2^(k-1)` extends the value read so far by that bit. */
  lemma OrInBit(s: seq<Bit>, p: nat, q: nat, k: nat, out: nat, b: Bit)
    requires p <= q < |s| && k > 0 && b == s[q]
    requires out == BitsValue(s[p..q]) * Pow2(k)
    ensures (if b == 1 then out + Pow2(k - 1) else out) == BitsValue(s[p..q + 1]) * Pow2(k - 1)
  {
    ShiftInBit(s, p, q, k);
  }

  /** Appending the bit at `q` doubles the value read so far and adds the bit. */
  lemma ShiftInBit(s: seq<Bit>, p: nat, q: nat, k: nat)
    requires p <= q < |s| && k > 0
    ensures BitsValue(s[p..q + 1]) * Pow2(k - 1) == BitsValue(s[p..q]) * Pow2(k) + s[q] * Pow2(k - 1)
  {
    assert BitsValue(s[p..q + 1]) == BitsValue(s[p..q]) * 2 + s[q] by {
      assert s[p..q + 1] == s[p..q] + [s[q]];
      BitsValueAppend(s[p..q], [s[q]]);
      assert BitsValue([s[q]]) == s[q] by { assert [s[q]][1..] == []; }
      assert Pow2(1) == 2;
    }
    DoubleStep(BitsValue(s[p..q]), s[q], Pow2(k - 1));
  }

  lemma DoubleStep(v: int, b: int, h: int)
    ensures (v * 2 + b) * h == v * (2 * h) + b * h
  {
    Distribute(v * 2, b, h);
  }

  lemma SliceValueCons(s: seq<Bit>, p: nat, n: nat)
    requires 0 < n && p + n <= |s|
    ensures BitsValue(s[p..p + n])
         == (if s[p] == 1 then Pow2(n - 1) else 0) + BitsValue(s[p + 1..p + n])
  {
    assert s[p..p + n][1..] == s[p + 1..p + n];
  }

  /** `remaining()`: computed from the offsets it is always 4 more than the true
      number of unread bits. Only differences of it are ever used. */
  function Remaining(c: Cursor): (r: nat)
    requires c.Valid()
    ensures r == c.Rest() + 4
  {
    (|c.nibbles| - c.nibbleOffset) * 4 + (4 - c.bitOffset)
  }

  /** A successful `take_n(n)` lowers `remaining()` by exactly `n`. */
  lemma TakeNRemaining(c: Cursor, n: nat)
    requires c.Valid()
    requires TakeN(c, n).Ok?
    ensures Remaining(TakeN(c, n).value.1) == Remaining(c) - n
  {
  }

  /** `take_n` at a position, stated through the stream. */
  lemma TakeAt(ns: seq<Nibble>, p: nat, n: nat, v: nat)
    requires p + n <= 4 * |ns|
    requires BitsValue(Stream(ns)[p..p + n]) == v
    ensures TakeN(CursorAt(ns, p), n) == Ok((v, CursorAt(ns, p + n)))
  {
    var c := CursorAt(ns, p);
    assert c.Pos() == p && c.nibbles == ns && c.Capacity() == 4 * |ns|;
  }

  /** The reads of the unit test on "D2FE28": 110, 100, 10111, 11110, 00101,
      each from where the previous one stopped. */
  lemma TakeNExample(c: Cursor)
    requires FromHexStr("D2FE28") == Ok(c)
    ensures c.nibbles == [13, 2, 15, 14, 2, 8] && c.Pos() == 0
    ensures TakeN(c, 3) == Ok((6, CursorAt(c.nibbles, 3)))
    ensures TakeN(CursorAt(c.nibbles, 3), 3) == Ok((4, CursorAt(c.nibbles, 6)))
    ensures TakeN(CursorAt(c.nibbles, 6), 5) == Ok((23, CursorAt(c.nibbles, 11)))
    ensures TakeN(CursorAt(c.nibbles, 11), 5) == Ok((30, CursorAt(c.nibbles, 16)))
    ensures TakeN(CursorAt(c.nibbles, 16), 5) == Ok((5, CursorAt(c.nibbles, 21)))
  {
    HexNibblesExample();
    CursorAtPos(c);
    ExampleReadsOf(c.nibbles);
  }

  lemma ExampleReadsOf(ns: seq<Nibble>)
    requires ns == [13, 2, 15, 14, 2, 8]
    ensures TakeN(CursorAt(ns, 0), 3) == Ok((6, CursorAt(ns, 3)))
    ensures TakeN(CursorAt(ns, 3), 3) == Ok((4, CursorAt(ns, 6)))
    ensures TakeN(CursorAt(ns, 6), 5) == Ok((23, CursorAt(ns, 11)))
    ensures TakeN(CursorAt(ns, 11), 5) == Ok((30, CursorAt(ns, 16)))
    ensures TakeN(CursorAt(ns, 16), 5) == Ok((5, CursorAt(ns, 21)))
  {
    ExampleSlices(ns);
    ExampleRead(ns, 0, 3, [1,1,0], 6);
    ExampleRead(ns, 3, 3, [1,0,0], 4);
    ExampleRead(ns, 6, 5, [1,0,1,1,1], 23);
    ExampleRead(ns, 11, 5, [1,1,1,1,0], 30);
    ExampleRead(ns, 16, 5, [0,0,1,0,1], 5);
  }

  lemma ExampleRead(ns: seq<Nibble>, p: nat, n: nat, piece: seq<Bit>, v: nat)
    requires p + n <= 4 * |ns| && Stream(ns)[p..p + n] == piece
    requires BitsValue(piece) == v
    ensures TakeN(CursorAt(ns, p), n) == Ok((v, CursorAt(ns, p + n)))
  {
    TakeAt(ns, p, n, v);
  }

  /** The five fields of "D2FE28" as bit strings, each read off the two
      nibbles it falls in. */
  lemma ExampleSlices(ns: seq<Nibble>)
    requires ns == [13, 2, 15, 14, 2, 8]
    ensures Stream(ns)[0..3] == [1,1,0]
    ensures Stream(ns)[3..6] == [1,0,0]
    ensures Stream(ns)[6..11] == [1,0,1,1,1]
    ensures Stream(ns)[11..16] == [1,1,1,1,0]
    ensures Stream(ns)[16..21] == [0,0,1,0,1]
  {
    ExampleHeader(ns);
    ExampleGroups(ns);
  }

  /** Version 110 and type 100, in the first two nibbles. */
  lemma ExampleHeader(ns: seq<Nibble>)
    requires ns == [13, 2, 15, 14, 2, 8]
    ensures Stream(ns)[0..3] == [1,1,0]
    ensures Stream(ns)[3..6] == [1,0,0]
  {
    NibbleBitsOf(13, [1,1,0,1]);
    NibbleBitsOf(2, [0,0,1,0]);
    StreamWindow(ns, 0);
    WindowPiece(Stream(ns), 0, [1,1,0,1] + [0,0,1,0], 0, 3, [1,1,0]);
    WindowPiece(Stream(ns), 0, [1,1,0,1] + [0,0,1,0], 3, 6, [1,0,0]);
  }

  /** The three five-bit literal groups 10111, 11110 and 00101. */
  lemma ExampleGroups(ns: seq<Nibble>)
    requires ns == [13, 2, 15, 14, 2, 8]
    ensures Stream(ns)[6..11] == [1,0,1,1,1]
    ensures Stream(ns)[11..16] == [1,1,1,1,0]
    ensures Stream(ns)[16..21] == [0,0,1,0,1]
  {
    NibbleBitsOf(2, [0,0,1,0]);
    NibbleBitsOf(15, [1,1,1,1]);
    NibbleBitsOf(14, [1,1,1,0]);
    NibbleBitsOf(8, [1,0,0,0]);
    StreamWindow(ns, 1);
    WindowPiece(Stream(ns), 4, [0,0,1,0] + [1,1,1,1], 2, 7, [1,0,1,1,1]);
    StreamWindow(ns, 2);
    WindowPiece(Stream(ns), 8, [1,1,1,1] + [1,1,1,0], 3, 8, [1,1,1,1,0]);
    StreamWindow(ns, 4);
    WindowPiece(Stream(ns), 16, [0,0,1,0] + [1,0,0,0], 0, 5, [0,0,1,0,1]);
  }

  /** A piece of a window of `s` is the matching piece of `s`. */
  lemma WindowPiece<T>(s: seq<T>, p: nat, w: seq<T>, lo: nat, hi: nat, piece: seq<T>)
    requires p + |w| <= |s| && s[p..p + |w|] == w
    requires lo <= hi <= |w| && w[lo..hi] == piece
    ensures s[p + lo..p + hi] == piece
  {
    SliceOfSlice(s, p, |w|, lo, hi);
  }

  lemma SliceOfSlice<T>(s: seq<T>, p: nat, n: nat, lo: nat, hi: nat)
    requires p + n <= |s| && lo <= hi <= n
    ensures s[p + lo..p + hi] == s[p..p + n][lo..hi]
  {
    var u, v := s[p + lo..p + hi], s[p..p + n][lo..hi];
    assert |u| == |v|;
    forall k | 0 <= k < |u| ensures u[k] == v[k] {
      assert u[k] == s[p + lo + k];
    }
  }

  /** Eight consecutive stream bits from a nibble boundary are two nibbles' bits. */
  lemma StreamWindow(ns: seq<Nibble>, i: nat)
    requires i + 1 < |ns|
    ensures Stream(ns)[4 * i..4 * i + 8] == NibbleBits(ns[i]) + NibbleBits(ns[i + 1])
  {
    var t := ns[i..];
    StreamDrop(ns, i);
    assert t[0] == ns[i] && t[1..][0] == ns[i + 1];
    var a, b := NibbleBits(ns[i]), NibbleBits(ns[i + 1]);
    assert Stream(t) == a + (b + Stream(t[1..][1..]));
    SliceOfSuffix(Stream(ns), 4 * i, 8);
    PrefixOfConcat(a, b, Stream(t[1..][1..]));
  }

  lemma SliceOfSuffix<T>(s: seq<T>, p: nat, n: nat)
    requires p + n <= |s|
    ensures s[p..p + n] == s[p..][..n]
  {
  }

  lemma PrefixOfConcat<T>(a: seq<T>, b: seq<T>, c: seq<T>)
    ensures (a + (b + c))[..|a| + |b|] == a + b
  {
  }

  /** Dropping `i` nibbles drops `4 * i` bits. */
  lemma {:induction false} StreamDrop(ns: seq<Nibble>, i: nat)
    requires i <= |ns|
    ensures Stream(ns)[4 * i..] == Stream(ns[i..])
    decreases i
  {
    if i > 0 {
      StreamDrop(ns[1..], i - 1);
      assert ns[1..][i - 1..] == ns[i..];
    }
  }

  lemma HexNibblesExample()
    ensures HexNibbles("D2FE28") == Some([13, 2, 15, 14, 2, 8])
  {
    var s := "D2FE28";
    assert HexNibbles(s[5..][1..]) == Some([]) by { assert s[5..][1..] == []; }
    HexNibblesStep(s[5..], [8], []);
    HexNibblesStep(s[4..], [2, 8], [8]);
    HexNibblesStep(s[3..], [14, 2, 8], [2, 8]);
    HexNibblesStep(s[2..], [15, 14, 2, 8], [14, 2, 8]);
    HexNibblesStep(s[1..], [2, 15, 14, 2, 8], [15, 14, 2, 8]);
    HexNibblesStep(s, [13, 2, 15, 14, 2, 8], [2, 15, 14, 2, 8]);
  }

  lemma HexNibblesStep(s: string, ns: seq<Nibble>, rest: seq<Nibble>)
    requires |s| > 0 && |ns| == |rest| + 1 && ns[1..] == rest
    requires HexValue(s[0]) == Some(ns[0])
    requires HexNibbles(s[1..]) == Some(rest)
    ensures HexNibbles(s) == Some(ns)
  {
    assert ns == [ns[0]] + rest;
  }

  /** The four bits of a nibble are the only four bits with its value. */
  lemma NibbleBitsOf(n: Nibble, bs: seq<Bit>)
    requires |bs| == 4 && BitsValue(bs) == n
    ensures NibbleBits(n) == bs
  {
    BitsValueInjective(NibbleBits(n), bs);
  }
}

=== FILE: caves.dfy ===
/** Day 12 (src/day_12/mod.rs): passage pathing. Caves are numbered in order
    of first mention; each cave's neighbours, the set of small caves and the
    caves already visited are 16-bit node sets. Part one walks the paths with
    an explicit stack, part two counts them recursively. */
module Caves {
  import opened Wrappers
  import opened Text
  import opened Seqs

  // ---------------------------------------------------------------------
  // NodeSet (src/day_12/mod.rs:5-48)
  // ---------------------------------------------------------------------

  /** A node number whose mask `1 << idx` fits in a `u16`; a larger number
      makes that shift overflow. */
  type NodeIdx = i: nat | i < 16

  /** A `u16` word as its sixteen bits, bit 0 first: `NodeSet`, and the masks. */
  type NodeSet = bits: seq<bool> | |bits| == 16 witness seq(16, _ => false)

  /** `NodeSet::new_empty`: the zero word. */
  function Empty(): (r: NodeSet)
    ensures forall j: NodeIdx :: !r[j]
  {
    seq(16, _ => false)
  }

  /** `NodeIdx::mask`: `1 << idx`. */
  function Mask(i: NodeIdx): (r: NodeSet)
    ensures forall j: NodeIdx :: r[j] <==> j == i
  {
    seq(16, j => j == i)
  }

  /** Bitwise `|`. */
  function BitOr(a: NodeSet, b: NodeSet): (r: NodeSet)
    ensures forall j: NodeIdx :: r[j] <==> a[j] || b[j]
  {
    seq(16, j requires 0 <= j < 16 => a[j] || b[j])
  }

  /** Bitwise `&`. */
  function BitAnd(a: NodeSet, b: NodeSet): (r: NodeSet)
    ensures forall j: NodeIdx :: r[j] <==> a[j] && b[j]
  {
    seq(16, j requires 0 <= j < 16 => a[j] && b[j])
  }

  /** Bitwise `a & !b`. */
  function BitAndNot(a: NodeSet, b: NodeSet): (r: NodeSet)
    ensures forall j: NodeIdx :: r[j] <==> a[j] && !b[j]
  {
    seq(16, j requires 0 <= j < 16 => a[j] && !b[j])
  }

  /** `NodeSet::add` (`|= mask`): bit `i` is set, every other bit is kept. */
  function Add(s: NodeSet, i: NodeIdx): (r: NodeSet)
    ensures r == s[i := true]
  {
    var r := BitOr(s, Mask(i));
    assert forall j: NodeIdx :: r[j] == s[i := true][j];
    r
  }

  /** `NodeSet::remove` (`&= !mask`): bit `i` is cleared, every other bit is kept. */
  function Remove(s: NodeSet, i: NodeIdx): (r: NodeSet)
    ensures r == s[i := false]
  {
    var r := BitAndNot(s, Mask(i));
    assert forall j: NodeIdx :: r[j] == s[i := false][j];
    r
  }

  /** `NodeSet::remove_all`: exactly the bits of `o` are cleared. */
  function RemoveAll(s: NodeSet, o: NodeSet): (r: NodeSet)
    ensures forall j: NodeIdx :: r[j] <==> s[j] && !o[j]
  {
    BitAndNot(s, o)
  }

  /** Every member of `a` is a member of `b`. */
  predicate Within(a: NodeSet, b: NodeSet)
  {
    forall j: NodeIdx :: a[j] ==> b[j]
  }

  /** The number of set bits (`count_ones`). */
  function Count(bits: seq<bool>): nat
  {
    if |bits| == 0 then 0 else (if bits[0] then 1 else 0) + Count(bits[1..])
  }

  /** Clearing a set bit lowers the count by one. */
  lemma {:induction false} CountClear(bits: seq<bool>, i: nat)
    requires i < |bits| && bits[i]
    ensures Count(bits[i := false]) == Count(bits) - 1
    decreases |bits|
  {
    if i > 0 {
      assert bits[i := false][1..] == bits[1..][i - 1 := false];
      CountClear(bits[1..], i - 1);
    } else {
      assert bits[i := false][1..] == bits[1..];
    }
  }

  function TrailingZerosFrom(s: NodeSet, i: nat): (r: nat)
    requires i <= 16 && forall j: NodeIdx :: j < i ==> !s[j]
    ensures i <= r <= 16 && forall j: NodeIdx :: j < r ==> !s[j]
    ensures r < 16 ==> s[r]
    decreases 16 - i
  {
    if i == 16 then 16
    else if s[i] then i
    else TrailingZerosFrom(s, i + 1)
  }

  /** `u16::trailing_zeros`: the lowest set bit, or 16 for the zero word. */
  function TrailingZeros(s: NodeSet): (r: nat)
    ensures r <= 16 && forall j: NodeIdx :: j < r ==> !s[j]
    ensures r < 16 ==> s[r]
    ensures r == 16 <==> s == Empty()
  {
    var r := TrailingZerosFrom(s, 0);
    assert r == 16 ==> forall j: NodeIdx :: s[j] == Empty()[j];
    r
  }

  /** `Iterator::next` for `NodeSet`: the lowest member comes out and leaves the set. */
  function Next(s: NodeSet): (r: Option<(NodeIdx, NodeSet)>)
    ensures r.None? <==> s == Empty()
    ensures r.Some? ==> s[r.value.0] && (forall j: NodeIdx :: j < r.value.0 ==> !s[j])
    ensures r.Some? ==> r.value.1 == s[r.value.0 := false]
  {
    var idx := TrailingZeros(s);
    if idx == 16 then None else Some((idx, Remove(s, idx)))
  }

  /** Everything the iterator yields, in order. */
  function Elements(s: NodeSet): (r: seq<NodeIdx>)
    decreases Count(s)
  {
    match Next(s)
    case None => []
    case Some((i, t)) =>
      CountClear(s, i);
      [i] + Elements(t)
  }

  /** The iterator yields every member, and nothing else. */
  lemma {:induction false} ElementsMembers(s: NodeSet)
    ensures forall j: NodeIdx :: j in Elements(s) <==> s[j]
    decreases Count(s)
  {
    var n := Next(s);
    if n.None? {
      assert Elements(s) == [];
      assert s == Empty();
    } else {
      var (i, t) := n.value;
      CountClear(s, i);
      ElementsMembers(t);
      assert Elements(s) == [i] + Elements(t);
    }
  }

  /** The iterator yields the members in increasing order, so each once. */
  lemma {:induction false} ElementsIncreasing(s: NodeSet)
    ensures forall a, b :: 0 <= a < b < |Elements(s)| ==> Elements(s)[a] < Elements(s)[b]
    decreases Count(s)
  {
    var n := Next(s);
    if n.Some? {
      var (i, t) := n.value;
      CountClear(s, i);
      ElementsIncreasing(t);
      ElementsMembers(t);
      var r := Elements(s);
      assert r == [i] + Elements(t);
      forall b | 0 < b < |r| ensures i < r[b] {
        assert t[r[b]];
      }
    }
  }

  // ---------------------------------------------------------------------
  // The cave map and its parser (src/day_12/mod.rs:50-126)
  // ---------------------------------------------------------------------

  datatype Node = Node(name: string, isSmall: bool, idx: nat)

  /** `Map`: `edges[k]` holds the neighbours of node `k`. The end node is a
      plain number because it is only ever compared, never masked. */
  datatype CaveMap = CaveMap(nodes: seq<Node>, edges: seq<NodeSet>, start: NodeIdx, end: nat, smallNodes: NodeSet)

  /** The panics of `parse_input`: an empty cave name (`chars().next().unwrap()`),
      a mask shift past bit 15 (a debug-build overflow panic), a line without
      a second name, and a missing `start` or `end` cave. */
  datatype ParseError = EmptyName | ShiftOverflow | MissingSecondName | NoStart | NoEnd

  function Names(nodes: seq<Node>): (r: seq<string>)
    ensures |r| == |nodes| && forall k :: 0 <= k < |nodes| ==> r[k] == nodes[k].name
  {
    seq(|nodes|, k requires 0 <= k < |nodes| => nodes[k].name)
  }

  predicate IsAsciiLower(c: char)
  {
    'a' <= c <= 'z'
  }

  /** Whether the `k`-th new name can be registered: it is not empty, and a
      small cave's number must fit in a mask. */
  predicate Admissible(name: string, k: nat)
  {
    |name| > 0 && (IsAsciiLower(name[0]) ==> k < 16)
  }

  /** The state of the first pass: the nodes so far, one empty edge set per
      node, and the small nodes' set. */
  datatype Builder = Builder(nodes: seq<Node>, edges: seq<NodeSet>, small: NodeSet)

  /** What the first pass keeps true: nodes are numbered by position, names are
      distinct and admissible, and `small` holds exactly the small nodes. */
  ghost predicate Registered(b: Builder)
  {
    && |b.edges| == |b.nodes|
    && (forall k :: 0 <= k < |b.edges| ==> b.edges[k] == Empty())
    && Distinct(Names(b.nodes))
    && (forall k :: 0 <= k < |b.nodes| ==>
          b.nodes[k].idx == k && Admissible(b.nodes[k].name, k)
          && b.nodes[k].isSmall == IsAsciiLower(b.nodes[k].name[0]))
    && (forall j: NodeIdx :: b.small[j] <==> j < |b.nodes| && b.nodes[j].isSmall)
  }

  /** One name of the first pass (src/day_12/mod.rs:90-104): a new name gets
      the next number and an empty edge set, and joins `small` if it starts
      with a lower-case letter. */
  function Register(b: Builder, name: string): Result<Builder, ParseError>
  {
    if name in Names(b.nodes) then Ok(b)
    else if |name| == 0 then Err(EmptyName)
    else
      var idx := |b.nodes|;
      var isSmall := IsAsciiLower(name[0]);
      if isSmall && idx >= 16 then Err(ShiftOverflow)
      else
        var small := if isSmall then Add(b.small, idx) else b.small;
        Ok(Builder(b.nodes + [Node(name, isSmall, idx)], b.edges + [Empty()], small))
  }

  function RegisterAll(b: Builder, names: seq<string>): Result<Builder, ParseError>
    decreases |names|
  {
    if |names| == 0 then Ok(b)
    else
      match Register(b, names[0])
      case Err(e) => Err(e)
      case Ok(b') => RegisterAll(b', names[1..])
  }

  /** Every name of every line, in order (`lines()` then `split("-")`). */
  function AllNames(lines: seq<string>): (r: seq<string>)
    ensures forall k :: 0 <= k < |lines| ==> forall p :: p in Split(lines[k], '-') ==> p in r
  {
    if |lines| == 0 then []
    else
      var r := Split(lines[0], '-') + AllNames(lines[1..]);
      assert forall k :: 1 <= k < |lines| ==> lines[k] == lines[1..][k - 1];
      r
  }

  lemma RegisterStep(b: Builder, name: string)
    requires Registered(b)
    ensures var seen := Names(b.nodes);
      if name in seen then Register(b, name) == Ok(b)
      else if Admissible(name, |seen|) then
        Register(b, name).Ok? && Registered(Register(b, name).value)
        && Names(Register(b, name).value.nodes) == seen + [name]
      else Register(b, name).Err?
  {
    var seen := Names(b.nodes);
    if name !in seen && Admissible(name, |seen|) {
      var b' := Register(b, name).value;
      assert Names(b'.nodes) == seen + [name];
      var idx := |b.nodes|;
      forall j: NodeIdx ensures b'.small[j] <==> j < |b'.nodes| && b'.nodes[j].isSmall {
        if j < idx {
          assert b'.nodes[j] == b.nodes[j];
        }
      }
    }
  }

  /** The first pass numbers the distinct names in order of first appearance,
      and it succeeds exactly when each new name is admissible at its number. */
  lemma {:induction false} RegisterAllFacts(b: Builder, names: seq<string>)
    requires Registered(b)
    ensures var d := DedupFrom(names, Names(b.nodes));
      && (RegisterAll(b, names).Ok? <==> forall k :: 0 <= k < |d| ==> Admissible(d[k], k))
      && (RegisterAll(b, names).Ok? ==>
            Registered(RegisterAll(b, names).value) && Names(RegisterAll(b, names).value.nodes) == d)
    decreases |names|
  {
    var seen := Names(b.nodes);
    if |names| > 0 {
      var x := names[0];
      RegisterStep(b, x);
      var d := DedupFrom(names, seen);
      if x in seen {
        RegisterAllFacts(b, names[1..]);
      } else if Admissible(x, |seen|) {
        var b' := Register(b, x).value;
        RegisterAllFacts(b', names[1..]);
      } else {
        assert d[..|seen| + 1] == seen + [x];
        assert d[|seen|] == x;
      }
    }
  }

  /** Whether `line` names `p` and `q` as its two caves, either way round. */
  predicate LinePair(line: string, p: string, q: string)
  {
    var parts := Split(line, '-');
    |parts| >= 2 && ((parts[0] == p && parts[1] == q) || (parts[0] == q && parts[1] == p))
  }

  /** Whether some line joins caves `p` and `q`. */
  predicate Linked(lines: seq<string>, p: string, q: string)
    decreases |lines|
  {
    |lines| > 0 && (LinePair(lines[0], p, q) || Linked(lines[1..], p, q))
  }

  lemma {:induction false} LinkedSymmetric(lines: seq<string>, p: string, q: string)
    ensures Linked(lines, p, q) == Linked(lines, q, p)
    decreases |lines|
  {
    if |lines| > 0 {
      LinkedSymmetric(lines[1..], p, q);
    }
  }

  /** Every name of the line has been registered. */
  predicate Known(line: string, names: seq<string>)
  {
    forall p :: p in Split(line, '-') ==> p in names
  }

  /** Whether the second pass can link a line: it has a second name, and both
      names' numbers fit in a mask. */
  predicate Linkable(line: string, names: seq<string>)
    requires Known(line, names)
  {
    var parts := Split(line, '-');
    |parts| >= 2 && IndexOf(names, parts[0]).value < 16 && IndexOf(names, parts[1]).value < 16
  }

  /** One line of the second pass (src/day_12/mod.rs:109-114): each of the two
      named caves joins the other's edge set; the second name's mask is taken
      first. */
  function Link(b: Builder, line: string): Result<Builder, ParseError>
    requires |b.edges| == |b.nodes| && Known(line, Names(b.nodes))
  {
    var parts := Split(line, '-');
    if |parts| < 2 then Err(MissingSecondName)
    else
      var names := Names(b.nodes);
      var a := IndexOf(names, parts[0]).value;
      var c := IndexOf(names, parts[1]).value;
      if c >= 16 || a >= 16 then Err(ShiftOverflow)
      else
        var e1 := b.edges[a := Add(b.edges[a], c)];
        Ok(b.(edges := e1[c := Add(e1[c], a)]))
  }

  function LinkAll(b: Builder, lines: seq<string>): (r: Result<Builder, ParseError>)
    requires |b.edges| == |b.nodes|
    requires forall k :: 0 <= k < |lines| ==> Known(lines[k], Names(b.nodes))
    ensures r.Ok? ==> r.value.nodes == b.nodes && r.value.small == b.small && |r.value.edges| == |b.edges|
    decreases |lines|
  {
    if |lines| == 0 then Ok(b)
    else
      match Link(b, lines[0])
      case Err(e) => Err(e)
      case Ok(b') =>
        assert forall k :: 1 <= k < |lines| ==> lines[k] == lines[1..][k - 1];
        LinkAll(b', lines[1..])
  }

  /** A line can be linked exactly when it is linkable, and linking keeps the
      nodes and the small set. */
  lemma LinkStep(b: Builder, line: string)
    requires |b.edges| == |b.nodes| && Known(line, Names(b.nodes))
    ensures Link(b, line).Ok? <==> Linkable(line, Names(b.nodes))
    ensures Link(b, line).Ok? ==>
      var b' := Link(b, line).value;
      b'.nodes == b.nodes && b'.small == b.small && |b'.edges| == |b.edges|
  {
  }

  /** A linked line adds exactly its pair of caves, both ways, to the edge sets. */
  lemma LinkStepAt(b: Builder, line: string, x: nat, j: NodeIdx)
    requires |b.edges| == |b.nodes| && Distinct(Names(b.nodes)) && Known(line, Names(b.nodes))
    requires Link(b, line).Ok? && x < |b.nodes|
    ensures Link(b, line).value.edges[x][j] <==>
      b.edges[x][j] || (j < |b.nodes| && LinePair(line, b.nodes[x].name, b.nodes[j].name))
  {
    var names := Names(b.nodes);
    IndexOfDistinct(names, x);
    if j < |b.nodes| {
      IndexOfDistinct(names, j);
    }
  }

  /** The second pass succeeds exactly when every line is linkable. */
  lemma {:induction false} LinkAllOk(b: Builder, lines: seq<string>)
    requires |b.edges| == |b.nodes| && Distinct(Names(b.nodes))
    requires forall k :: 0 <= k < |lines| ==> Known(lines[k], Names(b.nodes))
    ensures LinkAll(b, lines).Ok? <==> forall k :: 0 <= k < |lines| ==> Linkable(lines[k], Names(b.nodes))
    decreases |lines|
  {
    if |lines| > 0 {
      LinkStep(b, lines[0]);
      assert forall k :: 1 <= k < |lines| ==> lines[k] == lines[1..][k - 1];
      if Link(b, lines[0]).Ok? {
        LinkAllOk(Link(b, lines[0]).value, lines[1..]);
      }
    }
  }

  /** After the second pass cave `j` is in cave `x`'s set exactly when it was
      before or some line joins them. */
  lemma {:induction false} LinkAllEdgesAt(b: Builder, lines: seq<string>, x: nat, j: NodeIdx)
    requires |b.edges| == |b.nodes| && Distinct(Names(b.nodes))
    requires forall k :: 0 <= k < |lines| ==> Known(lines[k], Names(b.nodes))
    requires LinkAll(b, lines).Ok? && x < |b.nodes|
    ensures LinkAll(b, lines).value.edges[x][j] <==>
      b.edges[x][j] || (j < |b.nodes| && Linked(lines, b.nodes[x].name, b.nodes[j].name))
    decreases |lines|
  {
    if |lines| > 0 {
      LinkStep(b, lines[0]);
      var b1 := Link(b, lines[0]).value;
      LinkStepAt(b, lines[0], x, j);
      assert forall k :: 1 <= k < |lines| ==> lines[k] == lines[1..][k - 1];
      LinkAllEdgesAt(b1, lines[1..], x, j);
    }
  }

  /** The end of `parse_input` (src/day_12/mod.rs:117-123): find `start` and
      `end`, then drop `start` from every edge set. */
  function Finish(b: Builder): (r: Result<CaveMap, ParseError>)
    requires |b.edges| == |b.nodes|
    ensures r.Ok? ==> |r.value.edges| == |r.value.nodes| && r.value.nodes == b.nodes
  {
    var names := Names(b.nodes);
    match IndexOf(names, "start")
    case None => Err(NoStart)
    case Some(st) =>
      match IndexOf(names, "end")
      case None => Err(NoEnd)
      case Some(en) =>
        if st >= 16 then Err(ShiftOverflow)
        else
          var edges := seq(|b.edges|, k requires 0 <= k < |b.edges| => Remove(b.edges[k], st));
          Ok(CaveMap(b.nodes, edges, st, en, b.small))
  }

  /** `parse_input`. */
  function ParseInput(raw: string): (r: Result<CaveMap, ParseError>)
    ensures r.Ok? ==> |r.value.edges| == |r.value.nodes|
  {
    var lines := Lines(raw);
    var names := AllNames(lines);
    var b0 := Builder([], [], Empty());
    match RegisterAll(b0, names)
    case Err(e) => Err(e)
    case Ok(b1) =>
      RegisterAllFacts(b0, names);
      match LinkAll(b1, lines)
      case Err(e) => Err(e)
      case Ok(b2) => Finish(b2)
  }

  /** What the path counters rely on: nodes are numbered by position with
      distinct names, `start` and `end` are distinct nodes, every edge leads
      to a node other than `start`, and `small_nodes` holds exactly the small
      nodes. */
  ghost predicate ValidMap(m: CaveMap)
  {
    && |m.edges| == |m.nodes|
    && Distinct(Names(m.nodes))
    && (forall k :: 0 <= k < |m.nodes| ==> m.nodes[k].idx == k)
    && m.start < |m.nodes| && m.end < |m.nodes| && m.start != m.end
    && (forall x: nat, j: NodeIdx :: x < |m.edges| && m.edges[x][j] ==> j < |m.nodes| && j != m.start)
    && (forall j: NodeIdx :: m.smallNodes[j] <==> j < |m.nodes| && m.nodes[j].isSmall)
  }

  /** The nodes of a parsed map: the distinct names in order of first
      appearance, each small exactly when it starts with a lower-case letter. */
  lemma ParseNodes(raw: string)
    requires ParseInput(raw).Ok?
    ensures var m := ParseInput(raw).value;
      && Names(m.nodes) == Dedup(AllNames(Lines(raw)))
      && forall k :: 0 <= k < |m.nodes| ==>
           |m.nodes[k].name| > 0 && (m.nodes[k].isSmall <==> IsAsciiLower(m.nodes[k].name[0]))
  {
    var lines := Lines(raw);
    var b0 := Builder([], [], Empty());
    RegisterAllFacts(b0, AllNames(lines));
  }

  /** A parsed map is valid, and its `start` and `end` carry those names. */
  lemma ParseValid(raw: string)
    requires ParseInput(raw).Ok?
    ensures var m := ParseInput(raw).value;
      && ValidMap(m)
      && m.nodes[m.start].name == "start" && m.nodes[m.end].name == "end"
  {
    var lines := Lines(raw);
    var b0 := Builder([], [], Empty());
    RegisterAllFacts(b0, AllNames(lines));
    var b1 := RegisterAll(b0, AllNames(lines)).value;
    var b2 := LinkAll(b1, lines).value;
    var m := ParseInput(raw).value;
    assert m == Finish(b2).value;
    assert Registered(b1) && b2.nodes == b1.nodes && b2.small == b1.small;
    forall x: nat, j: NodeIdx | x < |m.edges| && m.edges[x][j] ensures j < |m.nodes| && j != m.start {
      ParseEdgesAt(raw, x, j);
    }
  }

  /** The edges of a parsed map: cave `j` is in cave `x`'s set exactly when
      some line joins the two and `j` is not `start`. */
  lemma ParseEdgesAt(raw: string, x: nat, j: NodeIdx)
    requires ParseInput(raw).Ok? && x < |ParseInput(raw).value.nodes|
    ensures var m := ParseInput(raw).value;
      m.edges[x][j] <==>
        j < |m.nodes| && j != m.start && Linked(Lines(raw), m.nodes[x].name, m.nodes[j].name)
  {
    var lines := Lines(raw);
    var b0 := Builder([], [], Empty());
    RegisterAllFacts(b0, AllNames(lines));
    var b1 := RegisterAll(b0, AllNames(lines)).value;
    LinkAllEdgesAt(b1, lines, x, j);
  }

  /** Apart from `start`, every edge of a parsed map goes both ways. */
  lemma ParseEdgesSymmetric(raw: string, x: NodeIdx, j: NodeIdx)
    requires ParseInput(raw).Ok?
    requires var m := ParseInput(raw).value; x < |m.nodes| && j < |m.nodes| && x != m.start && j != m.start
    ensures var m := ParseInput(raw).value; m.edges[x][j] <==> m.edges[j][x]
  {
    var m := ParseInput(raw).value;
    ParseEdgesAt(raw, x, j);
    ParseEdgesAt(raw, j, x);
    LinkedSymmetric(Lines(raw), m.nodes[x].name, m.nodes[j].name);
  }

  /** `parse_input` returns a map exactly when every new name is admissible
      at its number, every line is linkable, both `start` and `end` occur,
      and `start`'s number fits in a mask. */
  lemma ParseOk(raw: string)
    ensures var lines := Lines(raw);
      var d := Dedup(AllNames(lines));
      ParseInput(raw).Ok? <==>
        && (forall k :: 0 <= k < |d| ==> Admissible(d[k], k))
        && (forall k :: 0 <= k < |lines| ==> Known(lines[k], d) && Linkable(lines[k], d))
        && "start" in d && "end" in d && IndexOf(d, "start").value < 16
  {
    var lines := Lines(raw);
    var b0 := Builder([], [], Empty());
    RegisterAllFacts(b0, AllNames(lines));
    if RegisterAll(b0, AllNames(lines)).Ok? {
      var b1 := RegisterAll(b0, AllNames(lines)).value;
      LinkAllOk(b1, lines);
    }
  }

  // ---------------------------------------------------------------------
  // Part one: every path visits each small cave at most once
  // (src/day_12/mod.rs:132-173)
  // ---------------------------------------------------------------------

  /** No two big caves are joined. Otherwise a path could bounce between them
      forever and neither part terminates. */
  ghost predicate NoBigNeighbours(m: CaveMap)
    requires ValidMap(m)
  {
    forall x: nat, j: NodeIdx :: x < |m.nodes| && m.edges[x][j] && !m.nodes[j].isSmall ==> m.nodes[x].isSmall
  }

  ghost predicate Ready(m: CaveMap)
  {
    ValidMap(m) && NoBigNeighbours(m)
  }

  /** The visited set after stepping onto `n`: only small caves are recorded. */
  function Visit(m: CaveMap, v: NodeSet, n: NodeIdx): (r: NodeSet)
    requires n < |m.nodes|
    ensures r == if m.nodes[n].isSmall then v[n := true] else v
  {
    if m.nodes[n].isSmall then Add(v, n) else v
  }

  /** The caves still to try from `h`: its neighbours minus the visited set. */
  function Fresh(m: CaveMap, h: NodeIdx, v: NodeSet): NodeSet
    requires h < |m.edges|
  {
    RemoveAll(m.edges[h], v)
  }

  /** A termination measure: twice the unvisited small caves, plus one while
      standing on a small cave. */
  function Rank(m: CaveMap, h: NodeIdx, v: NodeSet): nat
    requires h < |m.nodes|
  {
    2 * Count(RemoveAll(m.smallNodes, v)) + (if m.nodes[h].isSmall then 1 else 0)
  }

  /** Every step onto a fresh neighbour lowers the measure. */
  lemma RankDrops(m: CaveMap, h: NodeIdx, v: NodeSet, n: NodeIdx)
    requires Ready(m) && h < |m.nodes| && Fresh(m, h, v)[n]
    ensures n < |m.nodes| && Rank(m, n, Visit(m, v, n)) < Rank(m, h, v)
  {
    assert m.edges[h][n];
    if m.nodes[n].isSmall {
      var u := RemoveAll(m.smallNodes, v);
      assert RemoveAll(m.smallNodes, v[n := true]) == u[n := false];
      CountClear(u, n);
    }
  }

  /** Paths found and loop iterations spent. */
  datatype Tally = Tally(paths: nat, steps: nat)

  function Plus(a: Tally, b: Tally): Tally
  {
    Tally(a.paths + b.paths, a.steps + b.steps)
  }

  /** The paths from `h` to `end` given the visited set `v`. */
  function Walk(m: CaveMap, h: NodeIdx, v: NodeSet): Tally
    requires Ready(m) && h < |m.nodes|
    decreases Rank(m, h, v), 2, 0
  {
    Level(m, h, Fresh(m, h, v), v)
  }

  /** One stack level: standing on `h` with `s` still to try. A level on `end`
      counts one path and is popped; any other level tries each cave of `s`
      in turn and is popped once `s` is empty. */
  function Level(m: CaveMap, h: NodeIdx, s: NodeSet, v: NodeSet): Tally
    requires Ready(m) && h < |m.nodes| && Within(s, Fresh(m, h, v))
    decreases Rank(m, h, v), 1, 0
  {
    if h == m.end then Tally(1, 1)
    else
      ElementsMembers(s);
      var t := Via(m, h, Elements(s), v);
      Tally(t.paths, t.steps + 1)
  }

  function Via(m: CaveMap, h: NodeIdx, ns: seq<NodeIdx>, v: NodeSet): Tally
    requires Ready(m) && h < |m.nodes| && forall k :: 0 <= k < |ns| ==> Fresh(m, h, v)[ns[k]]
    decreases Rank(m, h, v), 0, |ns|
  {
    if |ns| == 0 then Tally(0, 0)
    else
      RankDrops(m, h, v, ns[0]);
      var c := Walk(m, ns[0], Visit(m, v, ns[0]));
      var rest := Via(m, h, ns[1..], v);
      Tally(c.paths + rest.paths, c.steps + rest.steps + 1)
  }

  /** The number of paths from `start` to `end` on which no small cave repeats. */
  ghost function Paths1(m: CaveMap): nat
    requires Ready(m)
  {
    Walk(m, m.start, Add(Empty(), m.start)).paths
  }

  /** The explicit stack of `part_1`: parallel `path` and `to_visit` vectors,
      with the visited set of each level alongside. */
  ghost predicate Levels(m: CaveMap, path: seq<NodeIdx>, toVisit: seq<NodeSet>, vs: seq<NodeSet>)
  {
    && Ready(m)
    && |path| == |toVisit| == |vs|
    && forall k :: 0 <= k < |path| ==> path[k] < |m.nodes| && Within(toVisit[k], Fresh(m, path[k], vs[k]))
  }

  /** Each level above the first stands on a cave that was fresh below it. */
  ghost predicate Chained(m: CaveMap, path: seq<NodeIdx>, vs: seq<NodeSet>)
    requires |path| == |vs| && forall k :: 0 <= k < |path| ==> path[k] < |m.nodes|
  {
    forall k :: 0 < k < |path| ==> !vs[k - 1][path[k]] && vs[k] == Visit(m, vs[k - 1], path[k])
  }

  /** The work left on the lowest `n` levels of the stack. */
  ghost function PendingUpTo(m: CaveMap, path: seq<NodeIdx>, toVisit: seq<NodeSet>, vs: seq<NodeSet>, n: nat): Tally
    requires Levels(m, path, toVisit, vs) && n <= |path|
    decreases n
  {
    if n == 0 then Tally(0, 0)
    else Plus(PendingUpTo(m, path, toVisit, vs, n - 1), Level(m, path[n - 1], toVisit[n - 1], vs[n - 1]))
  }

  /** The work left on the whole stack. */
  ghost function Pending(m: CaveMap, path: seq<NodeIdx>, toVisit: seq<NodeSet>, vs: seq<NodeSet>): Tally
    requires Levels(m, path, toVisit, vs)
  {
    PendingUpTo(m, path, toVisit, vs, |path|)
  }

  /** The work on the lowest `n` levels depends on those levels only. */
  lemma {:induction false} PendingFrame(m: CaveMap, path: seq<NodeIdx>, toVisit: seq<NodeSet>, vs: seq<NodeSet>,
                                        path': seq<NodeIdx>, toVisit': seq<NodeSet>, vs': seq<NodeSet>, n: nat)
    requires Levels(m, path, toVisit, vs) && Levels(m, path', toVisit', vs')
    requires n <= |path| && n <= |path'|
    requires forall k :: 0 <= k < n ==> path[k] == path'[k] && toVisit[k] == toVisit'[k] && vs[k] == vs'[k]
    ensures PendingUpTo(m, path, toVisit, vs, n) == PendingUpTo(m, path', toVisit', vs', n)
    decreases n
  {
    if n > 0 {
      PendingFrame(m, path, toVisit, vs, path', toVisit', vs', n - 1);
    }
  }

  /** Taking the lowest cave out of a level's set moves its work onto the new
      level pushed for that cave, less the one step spent. */
  lemma LevelSplit(m: CaveMap, h: NodeIdx, s: NodeSet, v: NodeSet)
    requires Ready(m) && h < |m.nodes| && Within(s, Fresh(m, h, v)) && h != m.end
    requires Next(s).Some?
    ensures var (n, rest) := Next(s).value;
      && n < |m.nodes| && Fresh(m, h, v)[n]
      && Within(rest, Fresh(m, h, v))
      && var child := Walk(m, n, Visit(m, v, n));
      && Level(m, h, s, v).paths == Level(m, h, rest, v).paths + child.paths
      && Level(m, h, s, v).steps == Level(m, h, rest, v).steps + child.steps + 1
  {
    var (n, rest) := Next(s).value;
    CountClear(s, n);
    assert Elements(s) == [n] + Elements(rest);
    ElementsMembers(s);
    ElementsMembers(rest);
    RankDrops(m, h, v, n);
  }

  /** An empty level finds nothing and is popped in one step. */
  lemma LevelDone(m: CaveMap, h: NodeIdx, s: NodeSet, v: NodeSet)
    requires Ready(m) && h < |m.nodes| && Within(s, Fresh(m, h, v)) && h != m.end
    requires Next(s).None?
    ensures Level(m, h, s, v) == Tally(0, 1)
  {
    assert Elements(s) == [];
  }

  /** Pushing a level adds its work to the stack's. */
  lemma PendingPush(m: CaveMap, path: seq<NodeIdx>, toVisit: seq<NodeSet>, vs: seq<NodeSet>,
                    h: NodeIdx, s: NodeSet, v: NodeSet)
    requires Levels(m, path, toVisit, vs) && h < |m.nodes| && Within(s, Fresh(m, h, v))
    ensures Levels(m, path + [h], toVisit + [s], vs + [v])
    ensures Pending(m, path + [h], toVisit + [s], vs + [v]) == Plus(Pending(m, path, toVisit, vs), Level(m, h, s, v))
  {
    PendingFrame(m, path, toVisit, vs, path + [h], toVisit + [s], vs + [v], |path|);
  }

  /** Popping the top level removes its work from the stack's. */
  lemma PendingPop(m: CaveMap, path: seq<NodeIdx>, toVisit: seq<NodeSet>, vs: seq<NodeSet>)
    requires Levels(m, path, toVisit, vs) && |path| > 0
    ensures var n := |path| - 1;
      && Levels(m, path[..n], toVisit[..n], vs[..n])
      && Pending(m, path, toVisit, vs) == Plus(Pending(m, path[..n], toVisit[..n], vs[..n]), Level(m, path[n], toVisit[n], vs[n]))
  {
    var n := |path| - 1;
    PendingFrame(m, path, toVisit, vs, path[..n], toVisit[..n], vs[..n], n);
  }

  /** Replacing the top level's set changes only that level's work. */
  lemma PendingReplaceTop(m: CaveMap, path: seq<NodeIdx>, toVisit: seq<NodeSet>, vs: seq<NodeSet>, s: NodeSet)
    requires Levels(m, path, toVisit, vs) && |path| > 0
    requires var n := |path| - 1; Within(s, Fresh(m, path[n], vs[n]))
    ensures var n := |path| - 1;
      && Levels(m, path, toVisit[n := s], vs)
      && Pending(m, path, toVisit[n := s], vs)
           == Plus(PendingUpTo(m, path, toVisit, vs, n), Level(m, path[n], s, vs[n]))
  {
    var n := |path| - 1;
    PendingFrame(m, path, toVisit, vs, path, toVisit[n := s], vs, n);
  }

  /** Leaving a cave undoes the visit that entered it. */
  lemma LeaveUndoesVisit(m: CaveMap, v: NodeSet, n: NodeIdx)
    requires n < |m.nodes| && !v[n]
    ensures Remove(Visit(m, v, n), n) == v
  {
    assert v[n := false] == v;
  }

  /** A cave that was not visited below extends the chain of levels. */
  lemma ChainPush(m: CaveMap, path: seq<NodeIdx>, vs: seq<NodeSet>, node: NodeIdx)
    requires |path| == |vs| > 0 && forall k :: 0 <= k < |path| ==> path[k] < |m.nodes|
    requires Chained(m, path, vs) && node < |m.nodes| && !vs[|vs| - 1][node]
    ensures Chained(m, path + [node], vs + [Visit(m, vs[|vs| - 1], node)])
  {
    var path', vs' := path + [node], vs + [Visit(m, vs[|vs| - 1], node)];
    forall k | 0 < k < |path'| ensures !vs'[k - 1][path'[k]] && vs'[k] == Visit(m, vs'[k - 1], path'[k]) {
      if k < |path| {
        assert path'[k] == path[k] && vs'[k] == vs[k] && vs'[k - 1] == vs[k - 1];
      }
    }
  }

  /** Popping a finished level: one at `end` yields its path, an empty one
      yields nothing; either way one step is spent and the level below is
      restored. */
  lemma StepPop(m: CaveMap, path: seq<NodeIdx>, toVisit: seq<NodeSet>, vs: seq<NodeSet>)
    requires Levels(m, path, toVisit, vs) && Chained(m, path, vs) && |path| > 0
    requires var n := |path| - 1; path[n] == m.end || Next(toVisit[n]).None?
    ensures var n := |path| - 1;
      && Levels(m, path[..n], toVisit[..n], vs[..n]) && Chained(m, path[..n], vs[..n])
      && Pending(m, path[..n], toVisit[..n], vs[..n]).paths + (if path[n] == m.end then 1 else 0)
           == Pending(m, path, toVisit, vs).paths
      && Pending(m, path[..n], toVisit[..n], vs[..n]).steps < Pending(m, path, toVisit, vs).steps
      && (n > 0 ==> Remove(vs[n], path[n]) == vs[n - 1])
  {
    var n := |path| - 1;
    PendingPop(m, path, toVisit, vs);
    if path[n] != m.end {
      LevelDone(m, path[n], toVisit[n], vs[n]);
    }
    if n > 0 {
      LeaveUndoesVisit(m, vs[n - 1], path[n]);
    }
  }

  /** Stepping onto the lowest cave left on the top level pushes a level for
      it; the paths still to find stay the same and one step is spent. */
  lemma StepPush(m: CaveMap, path: seq<NodeIdx>, toVisit: seq<NodeSet>, vs: seq<NodeSet>,
                 node: NodeIdx, rest: NodeSet)
    requires Levels(m, path, toVisit, vs) && Chained(m, path, vs) && |path| > 0
    requires path[|path| - 1] != m.end && Next(toVisit[|path| - 1]) == Some((node, rest))
    ensures node < |m.nodes|
    ensures var n := |path| - 1;
      var v := Visit(m, vs[n], node);
      var toVisit' := toVisit[n := rest] + [Fresh(m, node, v)];
      && Levels(m, path + [node], toVisit', vs + [v]) && Chained(m, path + [node], vs + [v])
      && Pending(m, path + [node], toVisit', vs + [v]).paths == Pending(m, path, toVisit, vs).paths
      && Pending(m, path + [node], toVisit', vs + [v]).steps < Pending(m, path, toVisit, vs).steps
  {
    var n := |path| - 1;
    LevelSplit(m, path[n], toVisit[n], vs[n]);
    var v := Visit(m, vs[n], node);
    var below := PendingUpTo(m, path, toVisit, vs, n);
    var child := Walk(m, node, v);
    var before := Level(m, path[n], toVisit[n], vs[n]);
    var after := Level(m, path[n], rest, vs[n]);
    assert Pending(m, path, toVisit, vs) == Plus(below, before);
    PendingReplaceTop(m, path, toVisit, vs, rest);
    assert Pending(m, path, toVisit[n := rest], vs) == Plus(below, after);
    PendingPush(m, path, toVisit[n := rest], vs, node, Fresh(m, node, v), v);
    assert Pending(m, path + [node], toVisit[n := rest] + [Fresh(m, node, v)], vs + [v]) == Plus(Plus(below, after), child);
    ChainPush(m, path, vs, node);
  }

  /** The loop state of `part_1` is a well-formed stack whose visited set is
      the top level's. */
  ghost predicate Stack(m: CaveMap, path: seq<NodeIdx>, toVisit: seq<NodeSet>, vs: seq<NodeSet>, smalls: NodeSet)
  {
    Levels(m, path, toVisit, vs) && Chained(m, path, vs) && (|path| > 0 ==> smalls == vs[|vs| - 1])
  }

  /** One iteration of the `while let` loop of `part_1`. */
  method Step(m: CaveMap, path: seq<NodeIdx>, toVisit: seq<NodeSet>, smalls: NodeSet, count: nat, ghost vs: seq<NodeSet>)
    returns (path': seq<NodeIdx>, toVisit': seq<NodeSet>, smalls': NodeSet, count': nat, ghost vs': seq<NodeSet>)
    requires Stack(m, path, toVisit, vs, smalls) && |path| > 0
    ensures Stack(m, path', toVisit', vs', smalls')
    ensures count' + Pending(m, path', toVisit', vs').paths == count + Pending(m, path, toVisit, vs).paths
    ensures Pending(m, path', toVisit', vs').steps < Pending(m, path, toVisit, vs).steps
    ensures count' == count + 1 <==> path[|path| - 1] == m.end
    ensures count' <= count + 1
  {
    var top := |path| - 1;
    var head := path[top];
    if head == m.end {
      StepPop(m, path, toVisit, vs);
      count' := count + 1;
      path', toVisit' := path[..top], toVisit[..top];
      smalls' := Remove(smalls, head);
      vs' := vs[..top];
    } else {
      match Next(toVisit[top])
      case Some((node, rest)) =>
        StepPush(m, path, toVisit, vs, node, rest);
        count' := count;
        path' := path + [node];
        smalls' := Visit(m, smalls, node);
        toVisit' := toVisit[top := rest] + [Fresh(m, node, smalls')];
        vs' := vs + [smalls'];
      case None =>
        StepPop(m, path, toVisit, vs);
        count' := count;
        path', toVisit' := path[..top], toVisit[..top];
        smalls' := Remove(smalls, head);
        vs' := vs[..top];
    }
  }

  /** `part_1`: a depth-first search with an explicit stack. It counts exactly
      the start-to-end paths on which no small cave repeats; a path that
      reaches `end` is counted and not extended. */
  method Part1(m: CaveMap) returns (count: nat)
    requires Ready(m)
    ensures count == Paths1(m)
  {
    var start := m.start;
    count := 0;
    var smalls := Add(Empty(), start);
    var path: seq<NodeIdx> := [start];
    var toVisit: seq<NodeSet> := [m.edges[start]];
    ghost var vs: seq<NodeSet> := [smalls];
    assert Fresh(m, start, smalls) == m.edges[start] by {
      forall i | 0 <= i < 16 ensures Fresh(m, start, smalls)[i] == m.edges[start][i] {
      }
    }
    PendingPush(m, [], [], [], start, m.edges[start], smalls);
    assert [] + [start] == path && [] + [m.edges[start]] == toVisit && [] + [smalls] == vs;
    while |path| > 0
      invariant Stack(m, path, toVisit, vs, smalls)
      invariant count + Pending(m, path, toVisit, vs).paths == Paths1(m)
      decreases Pending(m, path, toVisit, vs).steps
    {
      path, toVisit, smalls, count, vs := Step(m, path, toVisit, smalls, count, vs);
    }
  }

  // ---------------------------------------------------------------------
  // Part two: one small cave may be visited twice
  // (src/day_12/mod.rs:175-223)
  // ---------------------------------------------------------------------

  /** `VISITED_SMALL_TWICE_SIGIL` is `1 << 15`: the top bit of the visited set
      records that the one second visit has been spent. */
  const Sigil: NodeIdx := 15

  /** How the mask arithmetic of `count_paths` reads on a valid map: `mask` is
      cave `n`'s bit if it is small and zero otherwise, so a big cave always
      passes the "not yet visited" test and is never recorded. */
  lemma MaskFacts(m: CaveMap, visited: NodeSet, n: NodeIdx)
    requires ValidMap(m) && n < |m.nodes|
    ensures var mask := BitAnd(Mask(n), m.smallNodes);
      && (BitAnd(visited, mask) == Empty() <==> !(m.nodes[n].isSmall && visited[n]))
      && BitOr(visited, mask) == Visit(m, visited, n)
  {
    var mask := BitAnd(Mask(n), m.smallNodes);
    if !(m.nodes[n].isSmall && visited[n]) {
      assert forall i | 0 <= i < 16 :: BitAnd(visited, mask)[i] == Empty()[i];
    } else {
      assert BitAnd(visited, mask)[n];
    }
    assert forall i | 0 <= i < 16 :: BitOr(visited, mask)[i] == Visit(m, visited, n)[i];
  }

  lemma SigilFacts(visited: NodeSet)
    ensures BitAnd(visited, Mask(Sigil)) == Empty() <==> !visited[Sigil]
    ensures BitOr(visited, Mask(Sigil)) == visited[Sigil := true]
  {
    if !visited[Sigil] {
      assert forall i | 0 <= i < 16 :: BitAnd(visited, Mask(Sigil))[i] == Empty()[i];
    } else {
      assert BitAnd(visited, Mask(Sigil))[Sigil];
    }
    assert forall i | 0 <= i < 16 :: BitOr(visited, Mask(Sigil))[i] == visited[Sigil := true][i];
  }

  /** Stepping onto a neighbour that the visited set does not mark as a
      visited small cave lowers the measure. */
  lemma RankVisit(m: CaveMap, h: NodeIdx, v: NodeSet, n: NodeIdx)
    requires Ready(m) && h < |m.nodes| && m.edges[h][n]
    ensures n < |m.nodes|
    ensures !(m.nodes[n].isSmall && v[n]) ==> Rank(m, n, Visit(m, v, n)) < Rank(m, h, v)
  {
    if m.nodes[n].isSmall && !v[n] {
      var u := RemoveAll(m.smallNodes, v);
      assert RemoveAll(m.smallNodes, v[n := true]) == u[n := false];
      CountClear(u, n);
    }
  }

  /** `count_paths` as written, memo table left out: the number of ways to
      reach `end` from `head`, where the visited set carries the sigil bit. */
  function CountPaths(m: CaveMap, head: NodeIdx, visited: NodeSet): nat
    requires Ready(m) && head < |m.nodes|
    decreases if visited[Sigil] then 0 else 1, Rank(m, head, visited), 1, 0
  {
    ElementsMembers(m.edges[head]);
    CountVia(m, head, Elements(m.edges[head]), visited)
  }

  /** The `for next_head in map.edges[head]` loop of `count_paths`, over the
      neighbours not yet tried. */
  function CountVia(m: CaveMap, head: NodeIdx, ns: seq<NodeIdx>, visited: NodeSet): nat
    requires Ready(m) && head < |m.nodes| && forall k :: 0 <= k < |ns| ==> m.edges[head][ns[k]]
    decreases if visited[Sigil] then 0 else 1, Rank(m, head, visited), 0, |ns|
  {
    if |ns| == 0 then 0
    else
      var n := ns[0];
      var rest := CountVia(m, head, ns[1..], visited);
      RankVisit(m, head, visited, n);
      if n == m.end then 1 + rest
      else
        var mask := BitAnd(Mask(n), m.smallNodes);
        MaskFacts(m, visited, n);
        SigilFacts(visited);
        if BitAnd(visited, mask) == Empty() then CountPaths(m, n, BitOr(visited, mask)) + rest
        else if BitAnd(visited, Mask(Sigil)) == Empty() then CountPaths(m, n, BitOr(visited, Mask(Sigil))) + rest
        else rest
  }

  /** `part_2`: count from `start` with nothing visited. */
  function Part2(m: CaveMap): nat
    requires Ready(m)
  {
    CountPaths(m, m.start, Empty())
  }

  /** The intended count, with the spent second visit as a separate flag
      instead of a bit of the visited set. */
  function Count2(m: CaveMap, head: NodeIdx, v: NodeSet, twice: bool): nat
    requires Ready(m) && head < |m.nodes|
    decreases if twice then 0 else 1, Rank(m, head, v), 1, 0
  {
    ElementsMembers(m.edges[head]);
    Via2(m, head, Elements(m.edges[head]), v, twice)
  }

  function Via2(m: CaveMap, head: NodeIdx, ns: seq<NodeIdx>, v: NodeSet, twice: bool): nat
    requires Ready(m) && head < |m.nodes| && forall k :: 0 <= k < |ns| ==> m.edges[head][ns[k]]
    decreases if twice then 0 else 1, Rank(m, head, v), 0, |ns|
  {
    if |ns| == 0 then 0
    else
      var n := ns[0];
      var rest := Via2(m, head, ns[1..], v, twice);
      if n == m.end then 1 + rest
      else if !(m.nodes[n].isSmall && v[n]) then
        RankVisit(m, head, v, n);
        Count2(m, n, Visit(m, v, n), twice) + rest
      else if !twice then Count2(m, n, v, true) + rest
      else rest
  }

  /** The visited set with the sigil bit standing for the flag. */
  function Encode(v: NodeSet, twice: bool): NodeSet
  {
    if twice then v[Sigil := true] else v
  }

  /** On a map of at most 15 caves no cave owns bit 15, and the as-written
      count equals the intended one with the flag carried in the sigil bit. */
  lemma {:induction false} CountAgree(m: CaveMap, h: NodeIdx, v: NodeSet, twice: bool)
    requires Ready(m) && h < |m.nodes| && |m.nodes| <= 15 && !v[Sigil]
    ensures CountPaths(m, h, Encode(v, twice)) == Count2(m, h, v, twice)
    decreases if twice then 0 else 1, Rank(m, h, v), 1, 0
  {
    ElementsMembers(m.edges[h]);
    ViaAgree(m, h, Elements(m.edges[h]), v, twice);
  }

  lemma {:induction false} ViaAgree(m: CaveMap, h: NodeIdx, ns: seq<NodeIdx>, v: NodeSet, twice: bool)
    requires Ready(m) && h < |m.nodes| && |m.nodes| <= 15 && !v[Sigil]
    requires forall k :: 0 <= k < |ns| ==> m.edges[h][ns[k]]
    ensures CountVia(m, h, ns, Encode(v, twice)) == Via2(m, h, ns, v, twice)
    decreases if twice then 0 else 1, Rank(m, h, v), 0, |ns|
  {
    if |ns| > 0 {
      var n := ns[0];
      var e := Encode(v, twice);
      ViaAgree(m, h, ns[1..], v, twice);
      RankVisit(m, h, v, n);
      if n != m.end {
        MaskFacts(m, e, n);
        SigilFacts(e);
        if !(m.nodes[n].isSmall && v[n]) {
          assert Visit(m, e, n) == Encode(Visit(m, v, n), twice);
          CountAgree(m, n, Visit(m, v, n), twice);
        } else if !twice {
          CountAgree(m, n, v, true);
        }
      }
    }
  }

  /** For maps of at most 15 caves, `part_2` is the intended count: start
      with nothing visited and the second visit unspent. */
  lemma Part2Intended(m: CaveMap)
    requires Ready(m) && |m.nodes| <= 15
    ensures Part2(m) == Count2(m, m.start, Empty(), false)
  {
    CountAgree(m, m.start, Empty(), false);
  }

  /** Keeping the second visit in reserve never loses a path. */
  lemma {:induction false} SpareVisitMonotone(m: CaveMap, h: NodeIdx, v: NodeSet)
    requires Ready(m) && h < |m.nodes|
    ensures Count2(m, h, v, true) <= Count2(m, h, v, false)
    decreases Rank(m, h, v), 1, 0
  {
    ElementsMembers(m.edges[h]);
    ViaSpareMonotone(m, h, Elements(m.edges[h]), v);
  }

  lemma {:induction false} ViaSpareMonotone(m: CaveMap, h: NodeIdx, ns: seq<NodeIdx>, v: NodeSet)
    requires Ready(m) && h < |m.nodes| && forall k :: 0 <= k < |ns| ==> m.edges[h][ns[k]]
    ensures Via2(m, h, ns, v, true) <= Via2(m, h, ns, v, false)
    decreases Rank(m, h, v), 0, |ns|
  {
    if |ns| > 0 {
      var n := ns[0];
      ViaSpareMonotone(m, h, ns[1..], v);
      RankVisit(m, h, v, n);
      if n != m.end && !(m.nodes[n].isSmall && v[n]) {
        SpareVisitMonotone(m, n, Visit(m, v, n));
      }
    }
  }

  /** The caves of `ns` that `o` does not hold, in order. */
  function Unvisited(ns: seq<NodeIdx>, o: NodeSet): (r: seq<NodeIdx>)
    ensures forall x :: x in r <==> x in ns && !o[x]
  {
    if |ns| == 0 then []
    else (if o[ns[0]] then [] else [ns[0]]) + Unvisited(ns[1..], o)
  }

  /** A set whose lowest member is `i` yields `i` first. */
  lemma NextIs(s: NodeSet, i: NodeIdx)
    requires s[i] && forall j: NodeIdx :: j < i ==> !s[j]
    ensures Next(s) == Some((i, s[i := false]))
  {
  }

  /** Iterating a difference yields the first set's members that the second
      lacks, in the same order. */
  lemma {:induction false} ElementsRemoveAll(s: NodeSet, o: NodeSet)
    ensures Elements(RemoveAll(s, o)) == Unvisited(Elements(s), o)
    decreases Count(s)
  {
    var r := RemoveAll(s, o);
    match Next(s)
    case None =>
      assert r == Empty() by {
        assert s == Empty();
        assert forall i | 0 <= i < 16 :: r[i] == Empty()[i];
      }
      assert Elements(r) == [];
    case Some((i, t)) =>
      CountClear(s, i);
      ElementsRemoveAll(t, o);
      assert Elements(s) == [i] + Elements(t);
      assert ([i] + Elements(t))[1..] == Elements(t);
      if o[i] {
        assert r == RemoveAll(t, o) by {
          assert forall k | 0 <= k < 16 :: r[k] == RemoveAll(t, o)[k];
        }
      } else {
        NextIs(r, i);
        assert r[i := false] == RemoveAll(t, o) by {
          assert forall k | 0 <= k < 16 :: r[i := false][k] == RemoveAll(t, o)[k];
        }
        CountClear(r, i);
        assert Elements(r) == [i] + Elements(RemoveAll(t, o));
      }
  }

  /** The visited set holds small caves other than `end` only. */
  ghost predicate SmallOnly(m: CaveMap, v: NodeSet)
  {
    forall j: NodeIdx :: v[j] ==> j < |m.nodes| && m.nodes[j].isSmall && j != m.end
  }

  /** The unvisited neighbours are fresh. */
  lemma UnvisitedFresh(m: CaveMap, h: NodeIdx, ns: seq<NodeIdx>, w: NodeSet)
    requires h < |m.edges| && forall k :: 0 <= k < |ns| ==> m.edges[h][ns[k]]
    ensures forall k :: 0 <= k < |Unvisited(ns, w)| ==> Fresh(m, h, w)[Unvisited(ns, w)[k]]
  {
    var u := Unvisited(ns, w);
    forall k | 0 <= k < |u| ensures Fresh(m, h, w)[u[k]] {
      assert u[k] in u;
      var i :| 0 <= i < |ns| && ns[i] == u[k];
    }
  }

  /** With the second visit already spent, part two's count from `h` is part
      one's walk from `h`, whose visited set also holds `start`. */
  lemma {:induction false} SpentIsPart1(m: CaveMap, h: NodeIdx, v: NodeSet)
    requires Ready(m) && h < |m.nodes| && h != m.end && SmallOnly(m, v)
    ensures Count2(m, h, v, true) == Walk(m, h, v[m.start := true]).paths
    decreases Rank(m, h, v), 1, 0
  {
    var w := v[m.start := true];
    ElementsRemoveAll(m.edges[h], w);
    ElementsMembers(m.edges[h]);
    UnvisitedFresh(m, h, Elements(m.edges[h]), w);
    ViaSpentIsPart1(m, h, Elements(m.edges[h]), v, w);
  }

  /** The common setting of the three steps below: `ns` is a non-empty run
      of `h`'s neighbours and `w` is `v` plus `start`. */
  ghost predicate SpentStep(m: CaveMap, h: NodeIdx, ns: seq<NodeIdx>, v: NodeSet, w: NodeSet)
  {
    && Ready(m) && h < |m.nodes| && SmallOnly(m, v) && w == v[m.start := true]
    && |ns| > 0 && (forall k :: 0 <= k < |ns| ==> m.edges[h][ns[k]])
    && (forall k :: 0 <= k < |Unvisited(ns, w)| ==> Fresh(m, h, w)[Unvisited(ns, w)[k]])
    && (forall k :: 0 <= k < |Unvisited(ns[1..], w)| ==> Fresh(m, h, w)[Unvisited(ns[1..], w)[k]])
  }

  /** Reaching `end` counts one path on both sides. */
  lemma SpentStepEnd(m: CaveMap, h: NodeIdx, ns: seq<NodeIdx>, v: NodeSet, w: NodeSet)
    requires SpentStep(m, h, ns, v, w) && ns[0] == m.end
    ensures Via(m, h, Unvisited(ns, w), w).paths == 1 + Via(m, h, Unvisited(ns[1..], w), w).paths
    ensures Via2(m, h, ns, v, true) == 1 + Via2(m, h, ns[1..], v, true)
  {
    var n := ns[0];
    assert !w[n];
    var u, tail := Unvisited(ns, w), Unvisited(ns[1..], w);
    assert u == [n] + tail && u[1..] == tail;
    assert Walk(m, n, Visit(m, w, n)) == Tally(1, 1);
  }

  /** A visited small cave is skipped on both sides. */
  lemma SpentStepSkip(m: CaveMap, h: NodeIdx, ns: seq<NodeIdx>, v: NodeSet, w: NodeSet)
    requires SpentStep(m, h, ns, v, w) && ns[0] != m.end && m.nodes[ns[0]].isSmall && v[ns[0]]
    ensures Via(m, h, Unvisited(ns, w), w).paths == Via(m, h, Unvisited(ns[1..], w), w).paths
    ensures Via2(m, h, ns, v, true) == Via2(m, h, ns[1..], v, true)
  {
    var n := ns[0];
    assert m.nodes[n].isSmall && v[n];
    assert Via2(m, h, ns, v, true) == Via2(m, h, ns[1..], v, true);
    assert w[n];
    var tail := Unvisited(ns[1..], w);
    assert Unvisited(ns, w) == [] + tail;
    assert [] + tail == tail;
  }

  /** Any other neighbour is entered on both sides. */
  lemma SpentStepTake(m: CaveMap, h: NodeIdx, ns: seq<NodeIdx>, v: NodeSet, w: NodeSet)
    requires SpentStep(m, h, ns, v, w) && ns[0] != m.end && !(m.nodes[ns[0]].isSmall && v[ns[0]])
    ensures ns[0] < |m.nodes| && SmallOnly(m, Visit(m, v, ns[0]))
    ensures Via(m, h, Unvisited(ns, w), w).paths
      == Walk(m, ns[0], Visit(m, v, ns[0])[m.start := true]).paths + Via(m, h, Unvisited(ns[1..], w), w).paths
    ensures Via2(m, h, ns, v, true) == Count2(m, ns[0], Visit(m, v, ns[0]), true) + Via2(m, h, ns[1..], v, true)
  {
    var n := ns[0];
    assert !w[n];
    var u, tail := Unvisited(ns, w), Unvisited(ns[1..], w);
    assert u == [n] + tail && u[1..] == tail;
    assert Visit(m, w, n) == Visit(m, v, n)[m.start := true];
  }

  lemma {:induction false} ViaSpentIsPart1(m: CaveMap, h: NodeIdx, ns: seq<NodeIdx>, v: NodeSet, w: NodeSet)
    requires Ready(m) && h < |m.nodes| && SmallOnly(m, v) && w == v[m.start := true]
    requires forall k :: 0 <= k < |ns| ==> m.edges[h][ns[k]]
    requires forall k :: 0 <= k < |Unvisited(ns, w)| ==> Fresh(m, h, w)[Unvisited(ns, w)[k]]
    ensures Via(m, h, Unvisited(ns, w), w).paths == Via2(m, h, ns, v, true)
    decreases Rank(m, h, v), 0, |ns|
  {
    if |ns| > 0 {
      var n := ns[0];
      UnvisitedFresh(m, h, ns[1..], w);
      ViaSpentIsPart1(m, h, ns[1..], v, w);
      RankVisit(m, h, v, n);
      if n == m.end {
        SpentStepEnd(m, h, ns, v, w);
      } else if !(m.nodes[n].isSmall && v[n]) {
        SpentStepTake(m, h, ns, v, w);
        SpentIsPart1(m, n, Visit(m, v, n));
      } else {
        SpentStepSkip(m, h, ns, v, w);
      }
    }
  }

  /** Part two with its second visit spent from the outset is part one. */
  lemma Part1IsSpentPart2(m: CaveMap)
    requires Ready(m)
    ensures Count2(m, m.start, Empty(), true) == Paths1(m)
  {
    SpentIsPart1(m, m.start, Empty());
  }

  /** Every path of part one is a path of part two. */
  lemma Part2CountsMore(m: CaveMap)
    requires Ready(m) && |m.nodes| <= 15
    ensures Paths1(m) <= Part2(m)
  {
    Part1IsSpentPart2(m);
    SpareVisitMonotone(m, m.start, Empty());
    Part2Intended(m);
  }
}

=== FILE: chiton.dfy ===
/** Day 15 (Chiton): the risk grid, its neighbourhood, the five-by-five
    tiled enlargement, the parser, and the orderings the shortest-path
    search uses. The search itself is in module ChitonSearch. */
module Chiton {
  import opened Wrappers
  import opened Arith
  import opened Text
  import opened DigitGrid

  // ---------------------------------------------------------------------
  // Points and neighbours
  // ---------------------------------------------------------------------

  /** A grid position (`i16` coordinates in the original; unbounded here). */
  datatype Point = Point(x: int, y: int)

  predicate InBounds(dim: Point, p: Point)
  {
    0 <= p.x < dim.x && 0 <= p.y < dim.y
  }

  /** Orthogonal adjacency: the two points differ by one in exactly one coordinate. */
  predicate Adjacent(a: Point, b: Point)
  {
    (a.y == b.y && (a.x - b.x == 1 || b.x - a.x == 1))
    || (a.x == b.x && (a.y - b.y == 1 || b.y - a.y == 1))
  }

  /** The iterator's offset table: −x, +x, −y, +y. */
  function Offset(k: nat): Point
    requires k < 4
  {
    [Point(-1, 0), Point(1, 0), Point(0, -1), Point(0, 1)][k]
  }

  function Shift(p: Point, d: Point): Point
  {
    Point(p.x + d.x, p.y + d.y)
  }

  /** One call of `NeighboursIter::next` with the cursor at `idx`: the first
      in-bounds offset point at or after `idx`, with the advanced cursor. */
  function NextNeighbour(origin: Point, dim: Point, idx: nat): (r: Option<(Point, nat)>)
    requires idx <= 4
    ensures r.Some? ==> idx < r.value.1 <= 4 && InBounds(dim, r.value.0)
    ensures r.Some? ==> r.value.0 == Shift(origin, Offset(r.value.1 - 1))
    ensures r.Some? ==> forall k :: idx <= k < r.value.1 - 1 ==> !InBounds(dim, Shift(origin, Offset(k)))
    ensures r.None? ==> forall k :: idx <= k < 4 ==> !InBounds(dim, Shift(origin, Offset(k)))
    decreases 4 - idx
  {
    if idx >= 4 then None
    else
      var p := Shift(origin, Offset(idx));
      if InBounds(dim, p) then Some((p, idx + 1)) else NextNeighbour(origin, dim, idx + 1)
  }

  /** Everything the iterator still yields from cursor `idx`. */
  function NeighboursFrom(origin: Point, dim: Point, idx: nat): (r: seq<Point>)
    requires idx <= 4
    ensures |r| <= 4 - idx
    ensures forall q :: q in r ==> InBounds(dim, q)
    decreases 4 - idx
  {
    match NextNeighbour(origin, dim, idx)
    case None => []
    case Some((p, j)) => [p] + NeighboursFrom(origin, dim, j)
  }

  /** `Map::neighbours`: the iterator started at cursor 0. */
  function Neighbours(origin: Point, dim: Point): (r: seq<Point>)
    ensures |r| <= 4
    ensures forall q :: q in r ==> InBounds(dim, q)
  {
    NeighboursFrom(origin, dim, 0)
  }

  /** Reference definition: the four offset points in table order, the
      out-of-bounds ones dropped. */
  function Candidates(origin: Point, dim: Point, idx: nat): seq<Point>
    requires idx <= 4
    decreases 4 - idx
  {
    if idx == 4 then []
    else
      var p := Shift(origin, Offset(idx));
      (if InBounds(dim, p) then [p] else []) + Candidates(origin, dim, idx + 1)
  }

  lemma {:induction false} CandidatesSkip(origin: Point, dim: Point, idx: nat, j: nat)
    requires idx <= j <= 4
    requires forall k :: idx <= k < j ==> !InBounds(dim, Shift(origin, Offset(k)))
    ensures Candidates(origin, dim, idx) == Candidates(origin, dim, j)
    decreases j - idx
  {
    if idx < j {
      CandidatesSkip(origin, dim, idx + 1, j);
      assert [] + Candidates(origin, dim, idx + 1) == Candidates(origin, dim, idx + 1);
    }
  }

  lemma {:induction false} NeighboursFromCandidates(origin: Point, dim: Point, idx: nat)
    requires idx <= 4
    ensures NeighboursFrom(origin, dim, idx) == Candidates(origin, dim, idx)
    decreases 4 - idx
  {
    match NextNeighbour(origin, dim, idx)
    case None =>
      CandidatesSkip(origin, dim, idx, 4);
    case Some((p, j)) =>
      CandidatesSkip(origin, dim, idx, j - 1);
      NeighboursFromCandidates(origin, dim, j);
  }

  /** The iterator yields the in-bounds points among −x, +x, −y, +y, in that order. */
  lemma NeighboursInOrder(origin: Point, dim: Point)
    ensures Neighbours(origin, dim) == Candidates(origin, dim, 0)
  {
    NeighboursFromCandidates(origin, dim, 0);
  }

  lemma {:induction false} CandidatesMembers(origin: Point, dim: Point, idx: nat, q: Point)
    requires idx <= 4
    ensures q in Candidates(origin, dim, idx)
        <==> InBounds(dim, q) && exists k :: idx <= k < 4 && q == Shift(origin, Offset(k))
    decreases 4 - idx
  {
    if idx < 4 {
      CandidatesMembers(origin, dim, idx + 1, q);
      if q == Shift(origin, Offset(idx)) {
        assert idx <= idx < 4 && q == Shift(origin, Offset(idx));
      }
    }
  }

  lemma OffsetsAreAdjacent(origin: Point, q: Point)
    ensures Adjacent(origin, q) <==> exists k :: 0 <= k < 4 && q == Shift(origin, Offset(k))
  {
    if Adjacent(origin, q) {
      if q.y == origin.y && origin.x - q.x == 1 {
        assert q == Shift(origin, Offset(0));
      } else if q.y == origin.y {
        assert q == Shift(origin, Offset(1));
      } else if origin.y - q.y == 1 {
        assert q == Shift(origin, Offset(2));
      } else {
        assert q == Shift(origin, Offset(3));
      }
    }
  }

  /** A point is yielded exactly when it is in bounds and orthogonally adjacent. */
  lemma NeighboursMembers(origin: Point, dim: Point, q: Point)
    ensures q in Neighbours(origin, dim) <==> InBounds(dim, q) && Adjacent(origin, q)
  {
    NeighboursInOrder(origin, dim);
    CandidatesMembers(origin, dim, 0, q);
    OffsetsAreAdjacent(origin, q);
  }

  // ---------------------------------------------------------------------
  // Row-major grids (`SimpleMap<T>`)
  // ---------------------------------------------------------------------

  /** `SimpleMap<T>`: a `dim.x` by `dim.y` grid stored row by row. */
  datatype Grid<T> = Grid(dim: Point, data: seq<T>)

  /** The grid holds exactly one cell per in-bounds position. */
  predicate Fits<T>(g: Grid<T>)
  {
    g.dim.x >= 0 && g.dim.y >= 0 && |g.data| == g.dim.x * g.dim.y
  }

  /** `SimpleMap::idx`: row-major position. */
  function Index(dim: Point, p: Point): int
  {
    p.x + p.y * dim.x
  }

  /** Every in-bounds position indexes a cell of a fitting grid. */
  lemma IndexInRange(dim: Point, p: Point)
    requires InBounds(dim, p)
    ensures 0 <= Index(dim, p) < dim.x * dim.y
  {
    MulLe(p.y, dim.y - 1, dim.x);
    assert (dim.y - 1) * dim.x == dim.x * dim.y - dim.x;
  }

  /** Distinct in-bounds positions use distinct cells. */
  lemma IndexInjective(dim: Point, p: Point, q: Point)
    requires InBounds(dim, p) && InBounds(dim, q)
    requires Index(dim, p) == Index(dim, q)
    ensures p == q
  {
    if p.y != q.y {
      var lo, hi := if p.y < q.y then p else q, if p.y < q.y then q else p;
      MulLe(lo.y + 1, hi.y, dim.x);
    }
  }

  /** `Map::get` on a `SimpleMap`. */
  function Get<T>(g: Grid<T>, p: Point): T
    requires Fits(g) && InBounds(g.dim, p)
  {
    IndexInRange(g.dim, p);
    g.data[Index(g.dim, p)]
  }

  /** `*get_mut(p) = v`: only the cell at `p` changes. */
  function Put<T>(g: Grid<T>, p: Point, v: T): (r: Grid<T>)
    requires Fits(g) && InBounds(g.dim, p)
    ensures Fits(r) && r.dim == g.dim
    ensures Get(r, p) == v
    ensures forall q :: InBounds(g.dim, q) && q != p ==> Get(r, q) == Get(g, q)
  {
    IndexInRange(g.dim, p);
    var r := Grid(g.dim, g.data[Index(g.dim, p) := v]);
    forall q | InBounds(g.dim, q) && q != p
      ensures Get(r, q) == Get(g, q)
    {
      IndexInRange(g.dim, q);
      if Index(g.dim, q) == Index(g.dim, p) {
        IndexInjective(g.dim, p, q);
      }
    }
    r
  }

  // ---------------------------------------------------------------------
  // Risk maps: the plain grid and its tiled enlargement
  // ---------------------------------------------------------------------

  /** The two `Map<u8>` implementations the search runs on: a plain grid of
      risk levels, or `copies` of a tile laid side by side with every step
      right or down raising the risk by one (`TiledMap`). */
  datatype RiskMap = Simple(grid: Grid<nat>) | Tiled(tile: Grid<nat>, copies: Point)

  predicate ValidMap(m: RiskMap)
  {
    if m.Simple? then Fits(m.grid)
    else Fits(m.tile) && m.tile.dim.x > 0 && m.tile.dim.y > 0 && m.copies.x >= 0 && m.copies.y >= 0
  }

  /** `Map::dim`; a tiled map is the tile's size times the copy counts. */
  function MapDim(m: RiskMap): Point
  {
    if m.Simple? then m.grid.dim
    else Point(m.tile.dim.x * m.copies.x, m.tile.dim.y * m.copies.y)
  }

  /** Rust's `% 9`: the remainder takes the sign of the dividend. */
  function Rem9(a: int): (r: int)
    ensures -9 < r < 9 && (a - r) % 9 == 0
    ensures a >= 0 ==> 0 <= r
    ensures a < 0 ==> r <= 0
  {
    if a >= 0 then a % 9 else -((-a) % 9)
  }

  /** The tiled risk for a tile cell `inner` in the copy `incr` steps from the
      top-left one: `((inner + incr - 1) % 9 + 1) as u8`. */
  function TiledValue(inner: nat, incr: nat): nat
  {
    Rem9(inner + incr - 1) + 1
  }

  /** Which copy `p` lies in, and where inside the tile: `p % dim` and `p / dim`
      coordinate-wise (both operands are non-negative here). */
  function TileSplit(dim: Point, p: Point): (r: (Point, Point))
    requires dim.x > 0 && dim.y > 0 && p.x >= 0 && p.y >= 0
    ensures InBounds(dim, r.0) && r.1.x >= 0 && r.1.y >= 0
    ensures p == Point(r.1.x * dim.x + r.0.x, r.1.y * dim.y + r.0.y)
  {
    (Point(p.x % dim.x, p.y % dim.y), Point(p.x / dim.x, p.y / dim.y))
  }

  /** `TiledMap::get`. */
  function TiledRisk(t: Grid<nat>, p: Point): nat
    requires Fits(t) && t.dim.x > 0 && t.dim.y > 0 && p.x >= 0 && p.y >= 0
  {
    var (inner, tile) := TileSplit(t.dim, p);
    TiledValue(Get(t, inner), tile.x + tile.y)
  }

  /** `Map::get`: the risk level entered at `p`. */
  function Risk(m: RiskMap, p: Point): nat
    requires ValidMap(m) && InBounds(MapDim(m), p)
  {
    if m.Tiled? then TiledRisk(m.tile, p) else Get(m.grid, p)
  }

  /** With tile levels in 1..=9 every tiled level is in 1..=9 too. */
  lemma TiledValueRange(inner: nat, incr: nat)
    requires 1 <= inner <= 9
    ensures 1 <= TiledValue(inner, incr) <= 9
  {
  }

  /** The top-left copy reproduces the tile. */
  lemma TiledValueFirstCopy(inner: nat)
    requires 1 <= inner <= 9
    ensures TiledValue(inner, 0) == inner
  {
  }

  /** One copy further on raises the level by one, 9 wrapping round to 1. */
  lemma TiledValueNextCopy(inner: nat, incr: nat)
    requires 1 <= inner <= 9
    ensures TiledValue(inner, incr + 1) == TiledValue(inner, incr) % 9 + 1
  {
    var a := inner + incr - 1;
    assert a >= 0;
    assert TiledValue(inner, incr) == a % 9 + 1;
    assert TiledValue(inner, incr + 1) == (a + 1) % 9 + 1;
    if a % 9 == 8 {
      assert (a + 1) % 9 == 0;
    } else {
      assert (a + 1) % 9 == a % 9 + 1;
    }
  }

  /** A zero in the tile's top-left copy comes out as zero: the `- 1` goes
      negative and Rust's remainder keeps the sign. */
  lemma TiledValueZero(incr: nat)
    ensures TiledValue(0, incr) == if incr == 0 then 0 else (incr - 1) % 9 + 1
  {
  }

  predicate LevelsInRange(g: Grid<nat>)
  {
    forall k :: 0 <= k < |g.data| ==> 1 <= g.data[k] <= 9
  }

  /** Every level a tiled map reports is in 1..=9 when the tile's are. */
  lemma TiledRiskRange(m: RiskMap, p: Point)
    requires m.Tiled? && ValidMap(m) && InBounds(MapDim(m), p) && LevelsInRange(m.tile)
    ensures 1 <= Risk(m, p) <= 9
  {
    var (inner, tile) := TileSplit(m.tile.dim, p);
    IndexInRange(m.tile.dim, inner);
    TiledValueRange(Get(m.tile, inner), tile.x + tile.y);
  }

  /** Inside the first copy a tiled map reads the tile itself. */
  lemma TiledFirstCopy(m: RiskMap, p: Point)
    requires m.Tiled? && ValidMap(m) && InBounds(m.tile.dim, p) && LevelsInRange(m.tile)
    requires m.copies.x >= 1 && m.copies.y >= 1
    ensures InBounds(MapDim(m), p) && Risk(m, p) == Get(m.tile, p)
  {
    var t := m.tile;
    MulLe(1, m.copies.x, t.dim.x);
    MulLe(1, m.copies.y, t.dim.y);
    DivModUnique(p.x, t.dim.x, 0, p.x);
    DivModUnique(p.y, t.dim.y, 0, p.y);
    IndexInRange(t.dim, p);
    TiledValueFirstCopy(Get(t, p));
  }

  /** The copy one tile-width to the right is one level riskier, 9 wrapping to 1. */
  lemma TiledRightCopy(m: RiskMap, p: Point)
    requires m.Tiled? && ValidMap(m) && LevelsInRange(m.tile)
    requires InBounds(MapDim(m), p) && InBounds(MapDim(m), Point(p.x + m.tile.dim.x, p.y))
    ensures Risk(m, Point(p.x + m.tile.dim.x, p.y)) == Risk(m, p) % 9 + 1
  {
    var t := m.tile;
    var q := Point(p.x + t.dim.x, p.y);
    var (inner, tile) := TileSplit(t.dim, p);
    assert q.x == (tile.x + 1) * t.dim.x + inner.x;
    DivModUnique(q.x, t.dim.x, tile.x + 1, inner.x);
    assert TileSplit(t.dim, q) == (inner, Point(tile.x + 1, tile.y));
    IndexInRange(t.dim, inner);
    TiledValueNextCopy(Get(t, inner), tile.x + tile.y);
  }

  /** The copy one tile-height down is one level riskier, 9 wrapping to 1. */
  lemma TiledDownCopy(m: RiskMap, p: Point)
    requires m.Tiled? && ValidMap(m) && LevelsInRange(m.tile)
    requires InBounds(MapDim(m), p) && InBounds(MapDim(m), Point(p.x, p.y + m.tile.dim.y))
    ensures Risk(m, Point(p.x, p.y + m.tile.dim.y)) == Risk(m, p) % 9 + 1
  {
    var t := m.tile;
    var q := Point(p.x, p.y + t.dim.y);
    var (inner, tile) := TileSplit(t.dim, p);
    assert q.y == (tile.y + 1) * t.dim.y + inner.y;
    DivModUnique(q.y, t.dim.y, tile.y + 1, inner.y);
    assert TileSplit(t.dim, q) == (inner, Point(tile.x, tile.y + 1));
    IndexInRange(t.dim, inner);
    TiledValueNextCopy(Get(t, inner), tile.x + tile.y);
  }

  // ---------------------------------------------------------------------
  // Parsing
  // ---------------------------------------------------------------------

  /** `raw.lines().next().unwrap()` panics on empty input. */
  datatype ParseError = NoLines

  /** `parse_input`: the digits row-major, the width taken from the first
      line and the height from the number of lines. */
  function ParseInput(raw: string): (r: Result<Grid<nat>, ParseError>)
    ensures r.Err? <==> raw == []
    ensures r.Ok? ==> |Lines(raw)| > 0 && r.value.data == Digits(raw)
    ensures r.Ok? ==> r.value.dim == Point(|Lines(raw)[0]|, |Lines(raw)|)
  {
    var lines := Lines(raw);
    if |lines| == 0 then
      NoLinesMeansEmpty(raw);
      Err(NoLines)
    else Ok(Grid(Point(|lines[0]|, |lines|), Digits(raw)))
  }

  /** Parsing equal-length digit rows, with or without a final newline, gives
      a fitting grid whose cell (x, y) is the digit in row y, column x. */
  lemma ParseRows(rows: seq<string>, w: nat, trailing: bool, x: nat, y: nat)
    requires |rows| > 0 && w > 0 && DigitRows(rows, w)
    requires x < w && y < |rows|
    ensures var r := ParseInput(RowsText(rows, trailing));
      && r.Ok? && r.value.dim == Point(w, |rows|) && Fits(r.value)
      && InBounds(r.value.dim, Point(x, y)) && Get(r.value, Point(x, y)) == DigitValue(rows[y][x])
  {
    RowsTextFacts(rows, w, trailing);
    RowLevelsLength(rows, w);
    RowLevelsAt(rows, w, x, y);
    var g := ParseInput(RowsText(rows, trailing)).value;
    assert g.data == RowLevels(rows);
    assert Index(g.dim, Point(x, y)) == x + y * w;
  }

  // ---------------------------------------------------------------------
  // The orderings the search relies on
  // ---------------------------------------------------------------------

  datatype Ordering = Less | Equal | Greater

  function Reverse(o: Ordering): Ordering
  {
    match o
    case Less => Greater
    case Equal => Equal
    case Greater => Less
  }

  /** `Ord::cmp` on integers. */
  function CmpInt(a: int, b: int): (o: Ordering)
    ensures o == Less <==> a < b
    ensures o == Equal <==> a == b
    ensures o == Greater <==> a > b
  {
    if a < b then Less else if a == b then Equal else Greater
  }

  /** A tentative distance: not reached yet, or the best total risk so far. */
  datatype DjikstraValue = Infinite | Finite(n: nat)

  /** `Ord for DjikstraValue`. */
  function Cmp(a: DjikstraValue, b: DjikstraValue): Ordering
  {
    match (a, b)
    case (Infinite, Infinite) => Equal
    case (Infinite, _) => Greater
    case (_, Infinite) => Less
    case (Finite(x), Finite(y)) => CmpInt(x, y)
  }

  /** `PartialOrd<u32> for DjikstraValue`. */
  function CmpU32(a: DjikstraValue, b: nat): Ordering
  {
    match a
    case Infinite => Greater
    case Finite(x) => CmpInt(x, b)
  }

  /** `PartialEq<u32> for DjikstraValue`. */
  predicate EqU32(a: DjikstraValue, b: nat)
  {
    a.Finite? && a.n == b
  }

  /** Reference order: the naturals with one point above them all. */
  predicate ExtLe(a: DjikstraValue, b: DjikstraValue)
  {
    b.Infinite? || (a.Finite? && a.n <= b.n)
  }

  /** `Cmp` is the extended-naturals order: `Equal` exactly on equal values,
      antisymmetric, and `Greater` never against a value at least as large. */
  lemma CmpIsExtOrder(a: DjikstraValue, b: DjikstraValue)
    ensures Cmp(a, b) == Equal <==> a == b
    ensures Cmp(a, b) == Reverse(Cmp(b, a))
    ensures Cmp(a, b) != Greater <==> ExtLe(a, b)
  {
  }

  lemma CmpTransitive(a: DjikstraValue, b: DjikstraValue, c: DjikstraValue)
    requires Cmp(a, b) != Greater && Cmp(b, c) != Greater
    ensures Cmp(a, c) != Greater
    ensures Cmp(a, b) == Less || Cmp(b, c) == Less ==> Cmp(a, c) == Less
  {
  }

  /** Comparing with a `u32` is comparing with that finite value; in
      particular `Infinite` exceeds every `u32` and equals none. */
  lemma CmpU32IsCmp(a: DjikstraValue, b: nat)
    ensures CmpU32(a, b) == Cmp(a, Finite(b))
    ensures EqU32(a, b) <==> a == Finite(b)
  {
  }

  /** A heap entry: a point reached with a total risk. */
  datatype DjikstraUnvisited = Unvisited(point: Point, value: nat)

  /** `Ord for DjikstraUnvisited`, backwards on purpose. */
  function CmpUnvisited(a: DjikstraUnvisited, b: DjikstraUnvisited): Ordering
  {
    CmpInt(b.value, a.value)
  }

  /** An entry ranks above another exactly when its value is smaller, so a
      max-heap under this order hands out the cheapest entry first. */
  lemma UnvisitedReversed(a: DjikstraUnvisited, b: DjikstraUnvisited)
    ensures CmpUnvisited(a, b) == Greater <==> a.value < b.value
    ensures CmpUnvisited(a, b) == Reverse(CmpUnvisited(b, a))
  {
  }

  /** `BinaryHeap::pop` under the reversed order: the position of an entry no
      other entry ranks above (the earliest such, where there are ties). */
  function PopIndex(heap: seq<DjikstraUnvisited>): (k: nat)
    requires |heap| > 0
    ensures k < |heap|
    ensures forall j :: 0 <= j < |heap| ==> CmpUnvisited(heap[j], heap[k]) != Greater
    ensures forall j :: 0 <= j < k ==> CmpUnvisited(heap[k], heap[j]) == Greater
  {
    if |heap| == 1 then 0
    else
      var k := PopIndex(heap[..|heap| - 1]);
      if heap[|heap| - 1].value < heap[k].value then |heap| - 1 else k
  }

  /** The popped entry carries the least value in the heap. */
  lemma PopIsCheapest(heap: seq<DjikstraUnvisited>, j: nat)
    requires |heap| > 0 && j < |heap|
    ensures heap[PopIndex(heap)].value <= heap[j].value
  {
    var k := PopIndex(heap);
    UnvisitedReversed(heap[j], heap[k]);
  }
}

=== FILE: chiton_search.dfy ===
/** Day 15 (Chiton), the search: `djikstra` over a risk map with a
    tentative-distance grid and a priority queue of entries, proved to return
    the least total risk of any walk from the origin to the destination. */
module ChitonSearch {
  import opened Wrappers
  import opened Chiton
  import opened Arith

  // ---------------------------------------------------------------------
  // Walks and their risk
  // ---------------------------------------------------------------------

  predicate InMap(m: RiskMap, path: seq<Point>)
  {
    forall i :: 0 <= i < |path| ==> InBounds(MapDim(m), path[i])
  }

  /** A walk from `from` to `to`: in bounds throughout, one orthogonal step at a time. */
  predicate IsPath(m: RiskMap, path: seq<Point>, from: Point, to: Point)
  {
    |path| > 0 && path[0] == from && path[|path| - 1] == to && InMap(m, path)
    && forall i :: 0 <= i < |path| - 1 ==> Adjacent(path[i], path[i + 1])
  }

  /** The total risk of a walk: every cell entered counts, the starting cell does not. */
  function Cost(m: RiskMap, path: seq<Point>): nat
    requires ValidMap(m) && InMap(m, path)
  {
    if |path| <= 1 then 0 else Cost(m, path[..|path| - 1]) + Risk(m, path[|path| - 1])
  }

  /** `v` is the least total risk from `from` to `to`: some walk costs exactly
      `v` and none costs less. */
  ghost predicate LeastRisk(m: RiskMap, from: Point, to: Point, v: nat)
  {
    ValidMap(m)
    && (exists path :: IsPath(m, path, from, to) && Cost(m, path) == v)
    && (forall path :: IsPath(m, path, from, to) ==> v <= Cost(m, path))
  }

  /** One more step extends a walk and adds the entered cell's risk. */
  lemma PathExtend(m: RiskMap, path: seq<Point>, from: Point, to: Point, n: Point)
    requires ValidMap(m) && IsPath(m, path, from, to)
    requires InBounds(MapDim(m), n) && Adjacent(to, n)
    ensures IsPath(m, path + [n], from, n)
    ensures Cost(m, path + [n]) == Cost(m, path) + Risk(m, n)
  {
    var ext := path + [n];
    assert ext[..|ext| - 1] == path;
    assert forall i :: 0 <= i < |path| ==> ext[i] == path[i];
  }

  /** A prefix of a walk costs no more than the whole walk. */
  lemma {:induction false} CostPrefix(m: RiskMap, path: seq<Point>, n: nat)
    requires ValidMap(m) && InMap(m, path) && 1 <= n <= |path|
    ensures InMap(m, path[..n]) && Cost(m, path[..n]) <= Cost(m, path)
    decreases |path|
  {
    if n < |path| {
      var init := path[..|path| - 1];
      assert init[..n] == path[..n];
      CostPrefix(m, init, n);
    } else {
      assert path[..n] == path;
    }
  }

  // ---------------------------------------------------------------------
  // The search state and its invariant
  // ---------------------------------------------------------------------

  /** The tentative-distance grid has the map's shape and the origin is at 0. */
  predicate Shape(m: RiskMap, vals: Grid<DjikstraValue>, origin: Point)
  {
    ValidMap(m) && Fits(vals) && vals.dim == MapDim(m)
    && InBounds(vals.dim, origin) && Get(vals, origin) == Finite(0)
  }

  /** A heap entry is backed by a walk costing exactly its value, and its
      point's tentative distance is no worse than that value. */
  predicate EntryOk(m: RiskMap, vals: Grid<DjikstraValue>, e: DjikstraUnvisited, path: seq<Point>, origin: Point)
    requires Shape(m, vals, origin)
  {
    InBounds(vals.dim, e.point) && IsPath(m, path, origin, e.point) && Cost(m, path) == e.value
    && Get(vals, e.point).Finite? && Get(vals, e.point).n <= e.value
  }

  predicate EntriesOk(m: RiskMap, vals: Grid<DjikstraValue>, heap: seq<DjikstraUnvisited>,
                      paths: seq<seq<Point>>, origin: Point)
    requires Shape(m, vals, origin)
  {
    |paths| == |heap| && forall k :: 0 <= k < |heap| ==> EntryOk(m, vals, heap[k], paths[k], origin)
  }

  /** A relaxed point: every neighbour's tentative distance is at most the
      point's own plus the risk of entering that neighbour. */
  predicate Relaxed(m: RiskMap, vals: Grid<DjikstraValue>, p: Point)
    requires ValidMap(m) && Fits(vals) && vals.dim == MapDim(m) && InBounds(vals.dim, p)
  {
    Get(vals, p).Finite?
    && forall n :: n in Neighbours(p, vals.dim) ==>
         Get(vals, n).Finite? && Get(vals, n).n <= Get(vals, p).n + Risk(m, n)
  }

  /** The settled points (ghost bookkeeping): relaxed, and never the destination. */
  predicate SettledOk(m: RiskMap, vals: Grid<DjikstraValue>, settled: set<Point>, dest: Point)
    requires ValidMap(m) && Fits(vals) && vals.dim == MapDim(m)
  {
    forall p :: p in settled ==> InBounds(vals.dim, p) && p != dest && Relaxed(m, vals, p)
  }

  /** Every reached point outside `settled` has a heap entry carrying its
      tentative distance. */
  ghost predicate Covered(vals: Grid<DjikstraValue>, heap: seq<DjikstraUnvisited>, settled: set<Point>)
    requires Fits(vals)
  {
    forall p :: InBounds(vals.dim, p) && p !in settled && Get(vals, p).Finite? ==>
      Unvisited(p, Get(vals, p).n) in heap
  }

  /** The invariant of the main loop. */
  ghost predicate Frontier(m: RiskMap, vals: Grid<DjikstraValue>, heap: seq<DjikstraUnvisited>,
                     paths: seq<seq<Point>>, settled: set<Point>, origin: Point, dest: Point)
  {
    Shape(m, vals, origin) && EntriesOk(m, vals, heap, paths, origin)
    && SettledOk(m, vals, settled, dest) && Covered(vals, heap, settled)
  }

  // ---------------------------------------------------------------------
  // Why the first entry popped for the destination is optimal
  // ---------------------------------------------------------------------

  lemma {:induction false} FirstUnsettled(path: seq<Point>, settled: set<Point>) returns (j: nat)
    requires |path| > 0 && path[|path| - 1] !in settled
    ensures j < |path| && path[j] !in settled
    ensures forall l :: 0 <= l < j ==> path[l] in settled
    decreases |path|
  {
    if path[0] !in settled {
      j := 0;
    } else {
      var j' := FirstUnsettled(path[1..], settled);
      j := j' + 1;
      assert forall l :: 1 <= l < j ==> path[l] == path[1..][l - 1];
    }
  }

  /** Entering a neighbour of a relaxed point. */
  lemma RelaxedStep(m: RiskMap, vals: Grid<DjikstraValue>, p: Point, q: Point)
    requires ValidMap(m) && Fits(vals) && vals.dim == MapDim(m)
    requires InBounds(vals.dim, p) && InBounds(vals.dim, q) && Adjacent(p, q) && Relaxed(m, vals, p)
    ensures Get(vals, q).Finite? && Get(vals, q).n <= Get(vals, p).n + Risk(m, q)
  {
    NeighboursMembers(p, vals.dim, q);
  }

  lemma CostSnoc(m: RiskMap, path: seq<Point>, i: nat)
    requires ValidMap(m) && InMap(m, path) && 0 < i < |path|
    ensures InMap(m, path[..i]) && InMap(m, path[..i + 1])
    ensures Cost(m, path[..i + 1]) == Cost(m, path[..i]) + Risk(m, path[i])
  {
    var b := path[..i + 1];
    assert b[..i] == path[..i];
  }

  /** Along a walk from the origin whose first `i` points are all settled,
      the tentative distance of point `i` is at most the risk of the walk so far. */
  lemma {:induction false} PrefixBound(m: RiskMap, vals: Grid<DjikstraValue>, settled: set<Point>,
                                       origin: Point, dest: Point, path: seq<Point>, to: Point, i: nat)
    requires Shape(m, vals, origin) && SettledOk(m, vals, settled, dest)
    requires IsPath(m, path, origin, to) && i < |path|
    requires forall l :: 0 <= l < i ==> path[l] in settled
    ensures InMap(m, path[..i + 1])
    ensures Get(vals, path[i]).Finite? && Get(vals, path[i]).n <= Cost(m, path[..i + 1])
    decreases i
  {
    if i == 0 {
      assert path[..1] == [origin];
    } else {
      PrefixBound(m, vals, settled, origin, dest, path, to, i - 1);
      assert path[i - 1] in settled && Adjacent(path[i - 1], path[i]);
      RelaxedStep(m, vals, path[i - 1], path[i]);
      CostSnoc(m, path, i);
    }
  }

  /** Any walk from the origin to a point outside `settled` costs at least
      the value of some heap entry. */
  lemma ChainBound(m: RiskMap, vals: Grid<DjikstraValue>, heap: seq<DjikstraUnvisited>,
                   settled: set<Point>, origin: Point, dest: Point, path: seq<Point>, q: Point)
    returns (k: nat)
    requires Shape(m, vals, origin) && SettledOk(m, vals, settled, dest) && Covered(vals, heap, settled)
    requires IsPath(m, path, origin, q) && q !in settled
    ensures k < |heap| && heap[k].value <= Cost(m, path)
  {
    var j := FirstUnsettled(path, settled);
    PrefixBound(m, vals, settled, origin, dest, path, q, j);
    CostPrefix(m, path, j + 1);
    var e := Unvisited(path[j], Get(vals, path[j]).n);
    assert e in heap;
    k :| 0 <= k < |heap| && heap[k] == e;
  }

  /** The entry popped for the destination carries the least total risk. */
  lemma PoppedIsLeast(m: RiskMap, vals: Grid<DjikstraValue>, heap: seq<DjikstraUnvisited>,
                      paths: seq<seq<Point>>, settled: set<Point>, origin: Point, dest: Point)
    requires Frontier(m, vals, heap, paths, settled, origin, dest)
    requires |heap| > 0 && heap[PopIndex(heap)].point == dest
    ensures LeastRisk(m, origin, dest, heap[PopIndex(heap)].value)
  {
    var k := PopIndex(heap);
    assert EntryOk(m, vals, heap[k], paths[k], origin);
    forall path | IsPath(m, path, origin, dest)
      ensures heap[k].value <= Cost(m, path)
    {
      var j := ChainBound(m, vals, heap, settled, origin, dest, path, dest);
      PopIsCheapest(heap, j);
    }
  }

  /** With the heap empty no walk reaches the destination. */
  lemma ExhaustedMeansUnreachable(m: RiskMap, vals: Grid<DjikstraValue>, paths: seq<seq<Point>>,
                                  settled: set<Point>, origin: Point, dest: Point)
    requires Frontier(m, vals, [], paths, settled, origin, dest)
    ensures forall path :: !IsPath(m, path, origin, dest)
  {
    forall path | IsPath(m, path, origin, dest)
      ensures false
    {
      var k := ChainBound(m, vals, [], settled, origin, dest, path, dest);
    }
  }

  // ---------------------------------------------------------------------
  // Progress measure: fewer unreached cells, or the same and a smaller sum
  // ---------------------------------------------------------------------

  function Unreached(d: seq<DjikstraValue>): nat
  {
    if |d| == 0 then 0 else (if d[0].Infinite? then 1 else 0) + Unreached(d[1..])
  }

  function ReachedSum(d: seq<DjikstraValue>): nat
  {
    if |d| == 0 then 0 else (if d[0].Finite? then d[0].n else 0) + ReachedSum(d[1..])
  }

  predicate Improves(a: seq<DjikstraValue>, b: seq<DjikstraValue>)
  {
    Unreached(a) < Unreached(b) || (Unreached(a) == Unreached(b) && ReachedSum(a) < ReachedSum(b))
  }

  /** Lowering one tentative distance improves the measure. */
  lemma {:induction false} ImproveAt(d: seq<DjikstraValue>, i: nat, x: nat)
    requires i < |d| && (d[i].Infinite? || x < d[i].n)
    ensures Improves(d[i := Finite(x)], d)
    ensures d[i].Infinite? ==> Unreached(d[i := Finite(x)]) < Unreached(d)
    ensures d[i].Finite? ==>
      Unreached(d[i := Finite(x)]) == Unreached(d) && ReachedSum(d[i := Finite(x)]) < ReachedSum(d)
    decreases i
  {
    if i > 0 {
      assert d[i := Finite(x)][1..] == d[1..][i - 1 := Finite(x)];
      ImproveAt(d[1..], i - 1, x);
    } else {
      assert d[i := Finite(x)][1..] == d[1..];
    }
  }

  lemma ImprovePut(vals: Grid<DjikstraValue>, p: Point, x: nat)
    requires Fits(vals) && InBounds(vals.dim, p)
    requires Get(vals, p).Infinite? || x < Get(vals, p).n
    ensures Improves(Put(vals, p, Finite(x)).data, vals.data)
  {
    IndexInRange(vals.dim, p);
    ImproveAt(vals.data, Index(vals.dim, p), x);
  }

  // ---------------------------------------------------------------------
  // Relaxing the neighbours of a popped point
  // ---------------------------------------------------------------------

  /** No tentative distance got worse. */
  ghost predicate NoWorse(a: Grid<DjikstraValue>, b: Grid<DjikstraValue>)
    requires Fits(a) && Fits(b) && a.dim == b.dim
  {
    forall q :: InBounds(a.dim, q) ==> ExtLe(Get(a, q), Get(b, q))
  }

  lemma RelaxedKept(m: RiskMap, a: Grid<DjikstraValue>, b: Grid<DjikstraValue>, q: Point)
    requires ValidMap(m) && Fits(a) && Fits(b) && a.dim == b.dim && a.dim == MapDim(m)
    requires InBounds(a.dim, q) && NoWorse(a, b) && Get(a, q) == Get(b, q) && Relaxed(m, b, q)
    ensures Relaxed(m, a, q)
  {
  }

  lemma EntriesAfterPush(m: RiskMap, vals: Grid<DjikstraValue>, vals': Grid<DjikstraValue>,
                         heap: seq<DjikstraUnvisited>, paths: seq<seq<Point>>, origin: Point,
                         entry: DjikstraUnvisited, path: seq<Point>)
    requires Shape(m, vals, origin) && Shape(m, vals', origin) && vals'.dim == vals.dim
    requires EntriesOk(m, vals, heap, paths, origin) && NoWorse(vals', vals)
    requires EntryOk(m, vals', entry, path, origin)
    ensures EntriesOk(m, vals', heap + [entry], paths + [path], origin)
  {
    var h := heap + [entry];
    var ps := paths + [path];
    forall k | 0 <= k < |h|
      ensures EntryOk(m, vals', h[k], ps[k], origin)
    {
      if k < |heap| {
        assert h[k] == heap[k] && ps[k] == paths[k];
        assert EntryOk(m, vals, heap[k], paths[k], origin);
        assert ExtLe(Get(vals', heap[k].point), Get(vals, heap[k].point));
      }
    }
  }

  lemma SettledAfterPut(m: RiskMap, vals: Grid<DjikstraValue>, vals': Grid<DjikstraValue>,
                        settled: set<Point>, dest: Point, n: Point)
    requires ValidMap(m) && Fits(vals) && Fits(vals') && vals.dim == MapDim(m) && vals'.dim == vals.dim
    requires SettledOk(m, vals, settled, dest) && NoWorse(vals', vals)
    requires forall q :: InBounds(vals.dim, q) && q != n ==> Get(vals', q) == Get(vals, q)
    ensures SettledOk(m, vals', settled - {n}, dest)
  {
    forall q | q in settled - {n}
      ensures InBounds(vals.dim, q) && q != dest && Relaxed(m, vals', q)
    {
      RelaxedKept(m, vals', vals, q);
    }
  }

  /** One neighbour of the popped entry `e`: if the route through `e` is
      cheaper than its tentative distance, record it and push an entry. */
  method Step(m: RiskMap, vals: Grid<DjikstraValue>, heap: seq<DjikstraUnvisited>,
              ghost paths: seq<seq<Point>>, ghost settled: set<Point>, e: DjikstraUnvisited,
              ghost epath: seq<Point>, origin: Point, ghost dest: Point, n: Point)
    returns (vals': Grid<DjikstraValue>, heap': seq<DjikstraUnvisited>,
             ghost paths': seq<seq<Point>>, ghost settled': set<Point>)
    requires Shape(m, vals, origin) && EntriesOk(m, vals, heap, paths, origin)
    requires SettledOk(m, vals, settled, dest) && Covered(vals, heap, settled + {e.point})
    requires InBounds(vals.dim, e.point) && Get(vals, e.point) == Finite(e.value)
    requires IsPath(m, epath, origin, e.point) && Cost(m, epath) == e.value
    requires n in Neighbours(e.point, vals.dim)
    ensures Shape(m, vals', origin) && vals'.dim == vals.dim && EntriesOk(m, vals', heap', paths', origin)
    ensures SettledOk(m, vals', settled', dest) && Covered(vals', heap', settled' + {e.point})
    ensures Get(vals', e.point) == Finite(e.value) && NoWorse(vals', vals)
    ensures Get(vals', n).Finite? && Get(vals', n).n <= e.value + Risk(m, n)
    ensures |heap'| >= |heap|
    ensures |heap'| == |heap| ==> vals' == vals
    ensures |heap'| > |heap| ==> Improves(vals'.data, vals.data)
  {
    NeighboursMembers(e.point, vals.dim, n);
    var next := e.value + Risk(m, n);
    if CmpU32(Get(vals, n), next) == Greater {
      var entry := Unvisited(n, next);
      vals' := Put(vals, n, Finite(next));
      heap' := heap + [entry];
      paths' := paths + [epath + [n]];
      settled' := settled - {n};
      ImprovePut(vals, n, next);
      PathExtend(m, epath, origin, e.point, n);
      EntriesAfterPush(m, vals, vals', heap, paths, origin, entry, epath + [n]);
      SettledAfterPut(m, vals, vals', settled, dest, n);
    } else {
      vals', heap', paths', settled' := vals, heap, paths, settled;
    }
  }

  /** The first `i` neighbours are within `base` plus their risk. */
  predicate Done(m: RiskMap, vals: Grid<DjikstraValue>, ns: seq<Point>, i: nat, base: nat)
    requires ValidMap(m) && Fits(vals) && vals.dim == MapDim(m) && i <= |ns|
    requires forall q :: q in ns ==> InBounds(vals.dim, q)
  {
    forall j :: 0 <= j < i ==> Get(vals, ns[j]).Finite? && Get(vals, ns[j]).n <= base + Risk(m, ns[j])
  }

  lemma DoneStep(m: RiskMap, a: Grid<DjikstraValue>, b: Grid<DjikstraValue>, ns: seq<Point>, i: nat, base: nat)
    requires ValidMap(m) && Fits(a) && Fits(b) && a.dim == b.dim && a.dim == MapDim(m) && i < |ns|
    requires forall q :: q in ns ==> InBounds(a.dim, q)
    requires Done(m, b, ns, i, base) && NoWorse(a, b)
    requires Get(a, ns[i]).Finite? && Get(a, ns[i]).n <= base + Risk(m, ns[i])
    ensures Done(m, a, ns, i + 1, base)
  {
    forall j | 0 <= j < i + 1
      ensures Get(a, ns[j]).Finite? && Get(a, ns[j]).n <= base + Risk(m, ns[j])
    {
      if j < i {
        assert ExtLe(Get(a, ns[j]), Get(b, ns[j]));
      }
    }
  }

  /** The `for neighbour_point in map.neighbours(point)` loop. */
  method Relax(m: RiskMap, vals0: Grid<DjikstraValue>, heap0: seq<DjikstraUnvisited>,
               ghost paths0: seq<seq<Point>>, ghost settled0: set<Point>, e: DjikstraUnvisited,
               ghost epath: seq<Point>, origin: Point, ghost dest: Point)
    returns (vals: Grid<DjikstraValue>, heap: seq<DjikstraUnvisited>,
             ghost paths: seq<seq<Point>>, ghost settled: set<Point>)
    requires Shape(m, vals0, origin) && EntriesOk(m, vals0, heap0, paths0, origin)
    requires SettledOk(m, vals0, settled0, dest) && Covered(vals0, heap0, settled0 + {e.point})
    requires InBounds(vals0.dim, e.point) && e.point != dest && Get(vals0, e.point) == Finite(e.value)
    requires IsPath(m, epath, origin, e.point) && Cost(m, epath) == e.value
    ensures Frontier(m, vals, heap, paths, settled, origin, dest)
    ensures |heap| >= |heap0|
    ensures |heap| == |heap0| ==> vals == vals0
    ensures |heap| > |heap0| ==> Improves(vals.data, vals0.data)
  {
    var p := e.point;
    var ns := Neighbours(p, vals0.dim);
    vals, heap, paths, settled := vals0, heap0, paths0, settled0;
    var i := 0;
    while i < |ns|
      invariant 0 <= i <= |ns| && vals.dim == vals0.dim
      invariant Shape(m, vals, origin) && EntriesOk(m, vals, heap, paths, origin)
      invariant SettledOk(m, vals, settled, dest) && Covered(vals, heap, settled + {p})
      invariant Get(vals, p) == Finite(e.value)
      invariant Done(m, vals, ns, i, e.value)
      invariant |heap| >= |heap0|
      invariant |heap| == |heap0| ==> vals == vals0
      invariant |heap| > |heap0| ==> Improves(vals.data, vals0.data)
    {
      ghost var before := vals;
      vals, heap, paths, settled := Step(m, vals, heap, paths, settled, e, epath, origin, dest, ns[i]);
      DoneStep(m, vals, before, ns, i, e.value);
      i := i + 1;
    }
    forall n | n in ns
      ensures Get(vals, n).Finite? && Get(vals, n).n <= Get(vals, p).n + Risk(m, n)
    {
      var j :| 0 <= j < |ns| && ns[j] == n;
    }
    assert Relaxed(m, vals, p);
    settled := settled + {p};
  }

  // ---------------------------------------------------------------------
  // The search
  // ---------------------------------------------------------------------

  /** Removing the popped entry keeps every other entry's facts. */
  lemma EntriesAfterPop(m: RiskMap, vals: Grid<DjikstraValue>, heap: seq<DjikstraUnvisited>,
                        paths: seq<seq<Point>>, origin: Point, k: nat)
    requires Shape(m, vals, origin) && EntriesOk(m, vals, heap, paths, origin) && k < |heap|
    ensures EntriesOk(m, vals, heap[..k] + heap[k + 1..], paths[..k] + paths[k + 1..], origin)
  {
    var h := heap[..k] + heap[k + 1..];
    var ps := paths[..k] + paths[k + 1..];
    forall j | 0 <= j < |h|
      ensures EntryOk(m, vals, h[j], ps[j], origin)
    {
      var src := if j < k then j else j + 1;
      assert h[j] == heap[src] && ps[j] == paths[src];
      assert EntryOk(m, vals, heap[src], paths[src], origin);
    }
  }

  /** Removing the popped entry keeps every other point covered. */
  lemma CoveredAfterPop(vals: Grid<DjikstraValue>, heap: seq<DjikstraUnvisited>, settled: set<Point>,
                        k: nat, extra: set<Point>)
    requires Fits(vals) && Covered(vals, heap, settled) && k < |heap|
    requires forall p :: InBounds(vals.dim, p) && Get(vals, p).Finite? && Unvisited(p, Get(vals, p).n) == heap[k]
                ==> p in extra
    ensures Covered(vals, heap[..k] + heap[k + 1..], settled + extra)
  {
    var h := heap[..k] + heap[k + 1..];
    forall p | InBounds(vals.dim, p) && p !in settled + extra && Get(vals, p).Finite?
      ensures Unvisited(p, Get(vals, p).n) in h
    {
      var x := Unvisited(p, Get(vals, p).n);
      var j :| 0 <= j < |heap| && heap[j] == x;
      assert j != k;
      if j < k {
        assert h[j] == x;
      } else {
        assert h[j - 1] == x;
      }
    }
  }

  /** `djikstra`: `Some(least total risk)` from `origin` to `dest`, or
      `None` where the original panics because the destination was never popped. */
  method Djikstra(m: RiskMap, origin: Point, dest: Point) returns (r: Option<nat>)
    requires ValidMap(m) && InBounds(MapDim(m), origin)
    ensures r.Some? ==> LeastRisk(m, origin, dest, r.value)
    ensures r.None? ==> forall path :: !IsPath(m, path, origin, dest)
  {
    var dim := MapDim(m);
    MulLe(1, dim.y, dim.x);
    var unset := Grid(dim, seq(dim.x * dim.y, _ => Infinite));
    var vals := Put(unset, origin, Finite(0));
    var heap := [Unvisited(origin, 0)];
    ghost var paths := [[origin]];
    ghost var settled: set<Point> := {};
    forall p | InBounds(dim, p) && p != origin
      ensures Get(vals, p) == Infinite
    {
      IndexInRange(dim, p);
    }
    assert EntryOk(m, vals, heap[0], paths[0], origin);
    while |heap| > 0
      invariant Frontier(m, vals, heap, paths, settled, origin, dest)
      decreases Unreached(vals.data), ReachedSum(vals.data), |heap|
    {
      var k := PopIndex(heap);
      var e := heap[k];
      if e.point == dest {
        PoppedIsLeast(m, vals, heap, paths, settled, origin, dest);
        return Some(e.value);
      }
      assert EntryOk(m, vals, e, paths[k], origin);
      ghost var epath := paths[k];
      EntriesAfterPop(m, vals, heap, paths, origin, k);
      if CmpU32(Get(vals, e.point), e.value) == Less {
        CoveredAfterPop(vals, heap, settled, k, {});
        heap := heap[..k] + heap[k + 1..];
        paths := paths[..k] + paths[k + 1..];
        assert settled + {} == settled;
        continue;
      }
      CoveredAfterPop(vals, heap, settled, k, {e.point});
      heap := heap[..k] + heap[k + 1..];
      paths := paths[..k] + paths[k + 1..];
      vals, heap, paths, settled := Relax(m, vals, heap, paths, settled, e, epath, origin, dest);
    }
    ExhaustedMeansUnreachable(m, vals, paths, settled, origin, dest);
    return None;
  }

  // ---------------------------------------------------------------------
  // The two parts
  // ---------------------------------------------------------------------

  /** Right along the top row, then down the column: a walk from the corner to any cell. */
  function Staircase(to: Point): seq<Point>
    requires to.x >= 0 && to.y >= 0
  {
    seq(to.x + to.y + 1, i => if i <= to.x then Point(i, 0) else Point(to.x, i - to.x))
  }

  /** Every cell of a map is reachable from the top-left corner. */
  lemma StaircaseIsPath(m: RiskMap, to: Point)
    requires InBounds(MapDim(m), to)
    ensures IsPath(m, Staircase(to), Point(0, 0), to)
  {
    var s := Staircase(to);
    forall i | 0 <= i < |s| - 1
      ensures Adjacent(s[i], s[i + 1])
    {
    }
  }

  /** `part_1`: the least total risk from the top-left to the bottom-right
      cell of the grid; the search always finds one. */
  method Part1(g: Grid<nat>) returns (risk: nat)
    requires Fits(g) && g.dim.x > 0 && g.dim.y > 0
    ensures LeastRisk(Simple(g), Point(0, 0), Point(g.dim.x - 1, g.dim.y - 1), risk)
  {
    var m := Simple(g);
    var dest := Point(g.dim.x - 1, g.dim.y - 1);
    var r := Djikstra(m, Point(0, 0), dest);
    StaircaseIsPath(m, dest);
    risk := r.value;
  }

  /** `part_2`: the same on the map tiled five times in each direction. */
  method Part2(g: Grid<nat>) returns (risk: nat)
    requires Fits(g) && g.dim.x > 0 && g.dim.y > 0
    ensures LeastRisk(Tiled(g, Point(5, 5)), Point(0, 0), Point(g.dim.x * 5 - 1, g.dim.y * 5 - 1), risk)
  {
    var m := Tiled(g, Point(5, 5));
    var dest := Point(g.dim.x * 5 - 1, g.dim.y * 5 - 1);
    var r := Djikstra(m, Point(0, 0), dest);
    StaircaseIsPath(m, dest);
    risk := r.value;
  }
}

=== FILE: common.dfy ===
/** Failure-carrying wrappers shared by every puzzle module: a panic or an
    `Err` of the original program is an `Err`/`None` here. */
module Wrappers {

  datatype Option<+T> = None | Some(value: T)

  datatype Result<+T, +E> = Ok(value: T) | Err(error: E)
}

/** Powers of two and big-endian bit strings, the arithmetic behind every
    bit-mask and bit-stream in the model. */
module Arith {

  function Pow2(n: nat): (r: nat)
    ensures r >= 1
  {
    if n == 0 then 1 else 2 * Pow2(n - 1)
  }

  lemma {:induction false} Pow2Add(a: nat, b: nat)
    ensures Pow2(a + b) == Pow2(a) * Pow2(b)
    decreases a
  {
    if a > 0 {
      Pow2Add(a - 1, b);
    }
  }

  lemma {:induction false} Pow2Monotone(a: nat, b: nat)
    requires a <= b
    ensures Pow2(a) <= Pow2(b)
    decreases b
  {
    if a < b {
      Pow2Monotone(a, b - 1);
    }
  }

  type Bit = b: nat | b < 2

  /** The value of a bit string read most-significant bit first. */
  function BitsValue(bs: seq<Bit>): (r: nat)
    ensures r < Pow2(|bs|)
  {
    if |bs| == 0 then 0
    else (if bs[0] == 1 then Pow2(|bs| - 1) else 0) + BitsValue(bs[1..])
  }

  /** The `n`-bit big-endian representation of `v`. */
  function ToBits(v: nat, n: nat): (bs: seq<Bit>)
    requires v < Pow2(n)
    ensures |bs| == n
    ensures BitsValue(bs) == v
    decreases n
  {
    if n == 0 then []
    else
      var high := Pow2(n - 1);
      var top: Bit := if v >= high then 1 else 0;
      var rest := ToBits(if v >= high then v - high else v, n - 1);
      assert ([top] + rest)[1..] == rest;
      [top] + rest
  }

  lemma {:induction false} BitsValueAppend(a: seq<Bit>, b: seq<Bit>)
    ensures BitsValue(a + b) == BitsValue(a) * Pow2(|b|) + BitsValue(b)
    decreases |a|
  {
    if |a| > 0 {
      var ab := a + b;
      assert ab[0] == a[0];
      assert ab[1..] == a[1..] + b;
      BitsValueAppend(a[1..], b);
      var top := if a[0] == 1 then Pow2(|a| - 1) else 0;
      var pb := Pow2(|b|);
      var ra := BitsValue(a[1..]);
      assert BitsValue(a) == top + ra;
      assert BitsValue(ab[1..]) == ra * pb + BitsValue(b);
      assert (if ab[0] == 1 then Pow2(|ab| - 1) else 0) == top * pb by {
        Pow2Add(|a| - 1, |b|);
      }
      assert BitsValue(ab) == top * pb + ra * pb + BitsValue(b);
      Distribute(top, ra, pb);
    } else {
      assert a + b == b;
    }
  }

  lemma Distribute(x: int, y: int, z: int)
    ensures (x + y) * z == x * z + y * z
  {
  }

  /** Equal-length bit strings with equal values are equal: the representation is unique. */
  lemma {:induction false} BitsValueInjective(a: seq<Bit>, b: seq<Bit>)
    requires |a| == |b|
    requires BitsValue(a) == BitsValue(b)
    ensures a == b
    decreases |a|
  {
    if |a| > 0 {
      var h := Pow2(|a| - 1);
      assert a[0] == 1 <==> BitsValue(a) >= h;
      assert b[0] == 1 <==> BitsValue(b) >= h;
      BitsValueInjective(a[1..], b[1..]);
      assert a == [a[0]] + a[1..];
      assert b == [b[0]] + b[1..];
    }
  }

  // ---------------------------------------------------------------------
  // Sums, products and extremes of sequences of naturals
  // ---------------------------------------------------------------------

  function SeqSum(xs: seq<nat>): nat
  {
    if |xs| == 0 then 0 else xs[0] + SeqSum(xs[1..])
  }

  function SeqProduct(xs: seq<nat>): nat
  {
    if |xs| == 0 then 1 else xs[0] * SeqProduct(xs[1..])
  }

  /** The least element of a non-empty sequence. */
  function SeqMin(xs: seq<nat>): (m: nat)
    requires |xs| > 0
    ensures m in xs && forall k :: 0 <= k < |xs| ==> m <= xs[k]
  {
    if |xs| == 1 then xs[0]
    else
      var rest := SeqMin(xs[1..]);
      assert forall k :: 1 <= k < |xs| ==> xs[k] == xs[1..][k - 1];
      if xs[0] <= rest then xs[0] else rest
  }

  /** The greatest element of a non-empty sequence. */
  function SeqMax(xs: seq<nat>): (m: nat)
    requires |xs| > 0
    ensures m in xs && forall k :: 0 <= k < |xs| ==> xs[k] <= m
  {
    if |xs| == 1 then xs[0]
    else
      var rest := SeqMax(xs[1..]);
      assert forall k :: 1 <= k < |xs| ==> xs[k] == xs[1..][k - 1];
      if xs[0] >= rest then xs[0] else rest
  }

  lemma {:induction false} SeqSumUpdate(xs: seq<nat>, j: nat, x: nat)
    requires j < |xs|
    ensures SeqSum(xs[j := x]) == SeqSum(xs) - xs[j] + x
    decreases |xs|
  {
    if j > 0 {
      assert xs[j := x][1..] == xs[1..][j - 1 := x];
      SeqSumUpdate(xs[1..], j - 1, x);
    } else {
      assert xs[j := x][1..] == xs[1..];
    }
  }

  /** Adding `x` to one element adds `x` to the sum. */
  lemma SeqSumAddAt(xs: seq<nat>, j: nat, x: nat)
    requires j < |xs|
    ensures SeqSum(xs[j := xs[j] + x]) == SeqSum(xs) + x
  {
    SeqSumUpdate(xs, j, xs[j] + x);
  }

  lemma {:induction false} SeqSumAppend(xs: seq<nat>, ys: seq<nat>)
    ensures SeqSum(xs + ys) == SeqSum(xs) + SeqSum(ys)
    decreases |xs|
  {
    if |xs| > 0 {
      assert (xs + ys)[1..] == xs[1..] + ys;
      SeqSumAppend(xs[1..], ys);
    } else {
      assert xs + ys == ys;
    }
  }

  /** Taking one element out of a sequence: the sum loses it as a term and
      the product as a factor, wherever it stood. */
  lemma {:induction false} SeqRemove(xs: seq<nat>, j: nat)
    requires j < |xs|
    ensures SeqSum(xs) == xs[j] + SeqSum(xs[..j] + xs[j + 1..])
    ensures SeqProduct(xs) == xs[j] * SeqProduct(xs[..j] + xs[j + 1..])
    decreases |xs|
  {
    if j > 0 {
      var rest := xs[1..];
      SeqRemove(rest, j - 1);
      var without := rest[..j - 1] + rest[j..];
      assert xs[..j] + xs[j + 1..] == [xs[0]] + without;
      assert ([xs[0]] + without)[1..] == without;
      assert rest[j - 1] == xs[j];
      MulSwap(xs[0], xs[j], SeqProduct(without));
    } else {
      assert xs[..j] + xs[j + 1..] == xs[1..];
    }
  }

  /** The images of two sequences holding the same elements, in any order,
      have the same sum and the same product. */
  lemma {:induction false} PermutedImages(a: seq<nat>, b: seq<nat>, va: seq<nat>, vb: seq<nat>, f: nat -> nat)
    requires multiset(a) == multiset(b)
    requires |va| == |a| && forall k :: 0 <= k < |a| ==> va[k] == f(a[k])
    requires |vb| == |b| && forall k :: 0 <= k < |b| ==> vb[k] == f(b[k])
    ensures SeqSum(va) == SeqSum(vb) && SeqProduct(va) == SeqProduct(vb)
    decreases |a|
  {
    if |a| == 0 {
      assert |multiset(b)| == 0;
    } else {
      assert a[0] in multiset(b);
      var j :| 0 <= j < |b| && b[j] == a[0];
      MultisetRemove(a, b, j);
      var b', vb' := b[..j] + b[j + 1..], vb[..j] + vb[j + 1..];
      ImagesRemove(b, vb, j, f, b', vb');
      PermutedImages(a[1..], b', va[1..], vb', f);
      SeqRemove(vb, j);
      assert va[0] == vb[j];
      assert SeqSum(va) == va[0] + SeqSum(va[1..]);
      assert SeqProduct(va) == va[0] * SeqProduct(va[1..]);
    }
  }

  lemma MultisetRemove(a: seq<nat>, b: seq<nat>, j: nat)
    requires multiset(a) == multiset(b) && |a| > 0 && j < |b| && b[j] == a[0]
    ensures multiset(a[1..]) == multiset(b[..j] + b[j + 1..])
  {
    assert b == b[..j] + [b[j]] + b[j + 1..];
    assert multiset(b) == multiset(b[..j]) + multiset{a[0]} + multiset(b[j + 1..]);
    assert a == [a[0]] + a[1..];
    assert multiset(a[1..]) == multiset(a) - multiset{a[0]};
  }

  lemma ImagesRemove(b: seq<nat>, vb: seq<nat>, j: nat, f: nat -> nat, b': seq<nat>, vb': seq<nat>)
    requires |vb| == |b| && j < |b| && forall k :: 0 <= k < |b| ==> vb[k] == f(b[k])
    requires b' == b[..j] + b[j + 1..] && vb' == vb[..j] + vb[j + 1..]
    ensures |vb'| == |b'| && forall k :: 0 <= k < |b'| ==> vb'[k] == f(b'[k])
  {
    forall k | 0 <= k < |b'|
      ensures vb'[k] == f(b'[k])
    {
      if k < j {
        assert b'[k] == b[k];
      } else {
        assert b'[k] == b[k + 1];
      }
    }
  }

  lemma MulSwap(a: int, b: int, c: int)
    ensures a * (b * c) == b * (a * c)
  {
  }

  lemma MulLe(a: int, b: int, c: int)
    requires 0 <= a <= b && c >= 0
    ensures a * c <= b * c
  {
  }

  /** Euclidean division is determined by quotient and remainder. */
  lemma DivModUnique(n: int, w: int, a: int, r: int)
    requires w > 0 && a >= 0 && 0 <= r < w && n == a * w + r
    ensures n / w == a && n % w == r
  {
    var q := n / w;
    assert n == q * w + n % w;
    if q < a {
      MulLe(q + 1, a, w);
    } else if a < q {
      MulLe(a + 1, q, w);
    }
  }
}


/** Lists without repeats, positions in them, and first-appearance deduplication. */
module Seqs {
  import opened Wrappers

  predicate Distinct<T(==)>(xs: seq<T>)
  {
    forall i, j :: 0 <= i < j < |xs| ==> xs[i] != xs[j]
  }

  /** The position of the first `x` in `xs` (`Iterator::position`). */
  function IndexOf<T(==)>(xs: seq<T>, x: T): (r: Option<nat>)
    ensures r.Some? ==> r.value < |xs| && xs[r.value] == x && x !in xs[..r.value]
    ensures r.None? <==> x !in xs
  {
    if |xs| == 0 then None
    else if xs[0] == x then Some(0)
    else
      match IndexOf(xs[1..], x)
      case None => None
      case Some(i) =>
        assert xs[..i + 1] == [xs[0]] + xs[1..][..i];
        Some(i + 1)
  }

  lemma IndexOfDistinct<T>(xs: seq<T>, i: nat)
    requires Distinct(xs) && i < |xs|
    ensures IndexOf(xs, xs[i]) == Some(i)
  {
    var r := IndexOf(xs, xs[i]);
    assert xs[i] in xs;
  }

  /** The distinct elements of `xs` after `seen`, each at its first appearance. */
  function DedupFrom<T(==,!new)>(xs: seq<T>, seen: seq<T>): (r: seq<T>)
    requires Distinct(seen)
    ensures Distinct(r) && |seen| <= |r| && r[..|seen|] == seen
    ensures forall x :: x in r <==> x in seen || x in xs
    decreases |xs|
  {
    if |xs| == 0 then seen
    else if xs[0] in seen then DedupFrom(xs[1..], seen)
    else
      var next := seen + [xs[0]];
      var r := DedupFrom(xs[1..], next);
      assert r[..|seen|] == r[..|next|][..|seen|];
      r
  }

  /** `xs` without repeats, in order of first appearance. */
  function Dedup<T(==,!new)>(xs: seq<T>): (r: seq<T>)
    ensures Distinct(r) && forall x :: x in r <==> x in xs
  {
    DedupFrom(xs, [])
  }

  /** The numbers below `n`, `(0..n).collect()` into a set. */
  function Range(n: nat): (r: set<nat>)
    ensures forall k: nat :: k in r <==> k < n
  {
    if n == 0 then {} else Range(n - 1) + {n - 1}
  }

  lemma {:induction false} RangeCard(n: nat)
    ensures |Range(n)| == n
  {
    if n > 0 {
      RangeCard(n - 1);
    }
  }

  /** A subset is no larger than its superset. */
  lemma {:induction false} SubsetCard<T>(a: set<T>, b: set<T>)
    requires a <= b
    ensures |a| <= |b|
    decreases |b|
  {
    if b != {} {
      var x :| x in b;
      SubsetCard(a - {x}, b - {x});
    }
  }

  /** Ascending order. */
  predicate Sorted(xs: seq<nat>)
  {
    forall i, j :: 0 <= i < j < |xs| ==> xs[i] <= xs[j]
  }

  function Insert(x: nat, xs: seq<nat>): (r: seq<nat>)
    requires Sorted(xs)
    ensures Sorted(r) && multiset(r) == multiset(xs) + multiset{x}
    ensures |r| > 0 && (r[0] == x || (|xs| > 0 && r[0] == xs[0]))
  {
    if |xs| == 0 then [x]
    else if x <= xs[0] then [x] + xs
    else
      var rest := Insert(x, xs[1..]);
      assert xs == [xs[0]] + xs[1..];
      SortedCons(xs[0], rest);
      [xs[0]] + rest
  }

  lemma SortedCons(x: nat, xs: seq<nat>)
    requires Sorted(xs) && (|xs| > 0 ==> x <= xs[0])
    ensures Sorted([x] + xs)
  {
    forall i, j | 0 <= i < j < |xs| + 1
      ensures ([x] + xs)[i] <= ([x] + xs)[j]
    {
      if i > 0 {
        assert xs[i - 1] <= xs[j - 1];
      } else {
        assert xs[0] <= xs[j - 1];
      }
    }
  }

  /** `slice::sort`: the same numbers in ascending order. */
  function Sort(xs: seq<nat>): (r: seq<nat>)
    ensures Sorted(r) && multiset(r) == multiset(xs)
  {
    if |xs| == 0 then []
    else
      assert xs == [xs[0]] + xs[1..];
      Insert(xs[0], Sort(xs[1..]))
  }

  /** There is only one ascending arrangement of a multiset. */
  lemma {:induction false} SortedUnique(a: seq<nat>, b: seq<nat>)
    requires Sorted(a) && Sorted(b) && multiset(a) == multiset(b)
    ensures a == b
    decreases |a|
  {
    assert |a| == |multiset(a)| == |b|;
    if |a| > 0 {
      assert a[0] in multiset(b) && b[0] in multiset(a);
      var i :| 0 <= i < |b| && b[i] == a[0];
      var j :| 0 <= j < |a| && a[j] == b[0];
      assert b[0] <= b[i] && a[0] <= a[j];
      assert a[0] == b[0];
      assert a == [a[0]] + a[1..] && b == [b[0]] + b[1..];
      MultisetCons(a[0], a[1..], b[1..]);
      SortedUnique(a[1..], b[1..]);
    }
  }

  lemma MultisetCons<T>(x: T, a: seq<T>, b: seq<T>)
    requires multiset([x] + a) == multiset([x] + b)
    ensures multiset(a) == multiset(b)
  {
    assert multiset([x] + a) == multiset{x} + multiset(a);
    assert multiset([x] + b) == multiset{x} + multiset(b);
    assert multiset(a) == multiset([x] + a) - multiset{x};
  }
}

=== FILE: crabs.dfy ===
/** Day 7, "The Treachery of Whales" (src/day_7/mod.rs and its standalone
    copy day_7/src/main.rs): the crab submarines line up on one horizontal
    position, and each part asks for the least total fuel. Part 1 pays one
    unit per step, part 2 pays `fuel_req`, the triangular number of the
    distance. The original searches the candidate positions `min..max`,
    which leaves out the greatest position; `Solve` models that search as
    written and `SolveInclusive` the search over `min..=max`. Positions are
    `i32` in the original; sums are unbounded here. */
module Crabs {
  import opened Wrappers
  import opened Text

  /** How a crab pays for moving: part 1 one unit per step, part 2 one more
      unit for each further step. */
  datatype Rate = Constant | Increasing

  function Abs(x: int): nat
  {
    if x < 0 then -x else x
  }

  /** 1 + 2 + ... + n, the cost of `n` steps in part 2 as the puzzle defines it. */
  function Triangle(n: nat): nat
  {
    if n == 0 then 0 else n + Triangle(n - 1)
  }

  lemma {:induction false} TriangleClosedForm(n: nat)
    ensures 2 * Triangle(n) == n * (n + 1)
    decreases n
  {
    if n > 0 {
      TriangleClosedForm(n - 1);
    }
  }

  /** `fuel_req`: n(n + 1) / 2 for n = |a - b|, which is the triangular number. */
  function FuelReq(a: int, b: int): (r: nat)
    ensures r == Triangle(Abs(a - b))
  {
    var n := Abs(a - b);
    TriangleClosedForm(n);
    (n * (n + 1)) / 2
  }

  /** Moving costs the same in both directions, and nothing exactly when
      the crab stays. */
  lemma FuelReqSymmetric(a: int, b: int)
    ensures FuelReq(a, b) == FuelReq(b, a)
    ensures FuelReq(a, b) == 0 <==> a == b
  {
    assert Abs(a - b) == Abs(b - a);
  }

  lemma {:induction false} TriangleMonotone(m: nat, n: nat)
    requires m <= n
    ensures Triangle(m) <= Triangle(n)
    decreases n
  {
    if m < n {
      TriangleMonotone(m, n - 1);
    }
  }

  /** The fuel one crab at `b` spends to reach `a`. */
  function Cost(rate: Rate, a: int, b: int): nat
  {
    match rate
    case Constant => Abs(a - b)
    case Increasing => FuelReq(a, b)
  }

  /** A crab never pays less for a longer move. */
  lemma CostMonotone(rate: Rate, a: int, a': int, b: int)
    requires Abs(a - b) <= Abs(a' - b)
    ensures Cost(rate, a, b) <= Cost(rate, a', b)
  {
    if rate.Increasing? {
      TriangleMonotone(Abs(a - b), Abs(a' - b));
    }
  }

  /** The fuel all crabs spend to line up at `a`. */
  function Total(xs: seq<int>, rate: Rate, a: int): nat
  {
    if |xs| == 0 then 0 else Cost(rate, a, xs[0]) + Total(xs[1..], rate, a)
  }

  /** `iter().min()` on a non-empty slice. */
  function Least(xs: seq<int>): (m: int)
    requires |xs| > 0
    ensures m in xs && forall k :: 0 <= k < |xs| ==> m <= xs[k]
  {
    if |xs| == 1 then xs[0]
    else
      var rest := Least(xs[1..]);
      assert forall k :: 1 <= k < |xs| ==> xs[k] == xs[1..][k - 1];
      if xs[0] <= rest then xs[0] else rest
  }

  /** `iter().max()` on a non-empty slice. */
  function Greatest(xs: seq<int>): (m: int)
    requires |xs| > 0
    ensures m in xs && forall k :: 0 <= k < |xs| ==> xs[k] <= m
  {
    if |xs| == 1 then xs[0]
    else
      var rest := Greatest(xs[1..]);
      assert forall k :: 1 <= k < |xs| ==> xs[k] == xs[1..][k - 1];
      if xs[0] >= rest then xs[0] else rest
  }

  /** The least total over the `n` candidate positions `lo..lo + n`. */
  function MinTotal(xs: seq<int>, rate: Rate, lo: int, n: nat): (r: nat)
    requires n > 0
    ensures exists a :: lo <= a < lo + n && Total(xs, rate, a) == r
    ensures forall a :: lo <= a < lo + n ==> r <= Total(xs, rate, a)
    decreases n
  {
    var here := Total(xs, rate, lo + n - 1);
    if n == 1 then here
    else
      var rest := MinTotal(xs, rate, lo, n - 1);
      if here < rest then here else rest
  }

  /** `part_1` (rate `Constant`) and `part_2` (rate `Increasing`) as
      written: the least total over `min..max`. The greatest position is not
      a candidate, and `None` is the panic on an empty input or when every
      crab already shares one position (an empty candidate range). */
  function Solve(xs: seq<int>, rate: Rate): (r: Option<nat>)
    ensures r.None? <==> |xs| == 0 || Least(xs) == Greatest(xs)
    ensures r.Some? ==> exists a :: Least(xs) <= a < Greatest(xs) && Total(xs, rate, a) == r.value
    ensures r.Some? ==> forall a :: Least(xs) <= a < Greatest(xs) ==> r.value <= Total(xs, rate, a)
  {
    if |xs| == 0 then None
    else
      var lo, hi := Least(xs), Greatest(xs);
      if lo == hi then None else Some(MinTotal(xs, rate, lo, hi - lo))
  }

  function Part1(xs: seq<int>): Option<nat>
  {
    Solve(xs, Constant)
  }

  function Part2(xs: seq<int>): Option<nat>
  {
    Solve(xs, Increasing)
  }

  /** With crabs at 0, 1 and 1 the best position is 1, the greatest one;
      `part_1` as written never tries it and answers 2 instead of 1. */
  lemma Part1MissesGreatest()
    ensures Part1([0, 1, 1]) == Some(2)
    ensures Total([0, 1, 1], Constant, 1) == 1
  {
    var xs := [0, 1, 1];
    assert Least(xs) == 0 && Greatest(xs) == 1;
    assert Total(xs, Constant, 0) == 2;
  }

  /** The search over `min..=max`: the same as `Solve` with the greatest
      position included, so an input whose crabs all share a position gives
      0 rather than a panic. */
  function SolveInclusive(xs: seq<int>, rate: Rate): (r: Option<nat>)
    ensures r.None? <==> |xs| == 0
    ensures r.Some? ==> exists a :: Least(xs) <= a <= Greatest(xs) && Total(xs, rate, a) == r.value
    ensures r.Some? ==> forall a :: Least(xs) <= a <= Greatest(xs) ==> r.value <= Total(xs, rate, a)
  {
    if |xs| == 0 then None
    else
      var lo, hi := Least(xs), Greatest(xs);
      Some(MinTotal(xs, rate, lo, hi - lo + 1))
  }

  /** Moving every crab's target towards the crabs never costs more: a
      position left of all crabs costs at least as much as the leftmost crab's. */
  lemma {:induction false} TotalLeftOf(xs: seq<int>, rate: Rate, a: int, lo: int)
    requires a <= lo && forall k :: 0 <= k < |xs| ==> lo <= xs[k]
    ensures Total(xs, rate, lo) <= Total(xs, rate, a)
    decreases |xs|
  {
    if |xs| > 0 {
      CostMonotone(rate, lo, a, xs[0]);
      TotalLeftOf(xs[1..], rate, a, lo);
    }
  }

  /** The mirror image: right of all crabs costs at least as much as the rightmost crab's. */
  lemma {:induction false} TotalRightOf(xs: seq<int>, rate: Rate, a: int, hi: int)
    requires hi <= a && forall k :: 0 <= k < |xs| ==> xs[k] <= hi
    ensures Total(xs, rate, hi) <= Total(xs, rate, a)
    decreases |xs|
  {
    if |xs| > 0 {
      CostMonotone(rate, hi, a, xs[0]);
      TotalRightOf(xs[1..], rate, a, hi);
    }
  }

  /** The inclusive search finds the least fuel over every position
      whatsoever, which is what the puzzle asks for. */
  lemma SolveInclusiveOptimal(xs: seq<int>, rate: Rate, a: int)
    requires |xs| > 0
    ensures SolveInclusive(xs, rate).Some? && SolveInclusive(xs, rate).value <= Total(xs, rate, a)
  {
    var lo, hi := Least(xs), Greatest(xs);
    if a < lo {
      TotalLeftOf(xs, rate, a, lo);
    } else if a > hi {
      TotalRightOf(xs, rate, a, hi);
    }
  }

  /** Where the as-written search does answer, it never beats the inclusive one. */
  lemma SolveAtLeastInclusive(xs: seq<int>, rate: Rate)
    requires Solve(xs, rate).Some?
    ensures SolveInclusive(xs, rate).value <= Solve(xs, rate).value
  {
  }

  /** `parse_input`: comma-separated `i32`s, each `unwrap`ped (`None` on failure). */
  function ParseInput(raw: string): (r: Option<seq<int>>)
    ensures var pieces := Split(raw, ',');
      r.Some? <==> forall k :: 0 <= k < |pieces| ==> ParseI32(pieces[k]).Some?
    ensures r.Some? ==> |r.value| == |Split(raw, ',')|
    ensures r.Some? ==> forall k :: 0 <= k < |r.value| ==> ParseI32(Split(raw, ',')[k]) == Some(r.value[k])
  {
    ParseAll(Split(raw, ','), ParseI32)
  }

  /** The positions written out with commas between them. */
  function Render(xs: seq<int>): string
    requires |xs| > 0
  {
    Join(seq(|xs|, k requires 0 <= k < |xs| => IntString(xs[k])), ',')
  }

  /** Parsing reads back any non-empty list of `i32` positions. */
  lemma ParseRender(xs: seq<int>)
    requires |xs| > 0 && forall k :: 0 <= k < |xs| ==> I32Min <= xs[k] <= I32Max
    ensures ParseInput(Render(xs)) == Some(xs)
  {
    var parts := seq(|xs|, k requires 0 <= k < |xs| => IntString(xs[k]));
    forall k | 0 <= k < |parts|
      ensures ',' !in parts[k] && ParseI32(parts[k]) == Some(xs[k])
    {
      IntStringHasNo(xs[k], ',');
      ParseIntString(xs[k]);
    }
    JoinSplit(parts, ',');
    ParseAllEach(parts, ParseI32, xs);
  }
}

=== FILE: diagnostic.dfy ===
/** Day 3, "Binary Diagnostic" (day_3/src/main.rs): a report of binary
    numbers, one `u16` per line. Part 1 builds the gamma rate from the most
    common value of each of twelve bits and multiplies it by the epsilon
    rate, its complement. Part 2 narrows the report bit by bit, from the top,
    to one number: the oxygen rating keeps the more common bit, the CO2
    rating the less common one. Bits are counted from the least significant
    (bit 0). */
module Diagnostic {
  import opened Wrappers
  import opened Arith
  import opened Text

  type U16 = x: nat | x < 0x1_0000

  // ---------------------------------------------------------------------
  // Bits
  // ---------------------------------------------------------------------

  /** Bit `b` of `v`: `v >> b & 1`. */
  function Bit(v: nat, b: nat): (r: nat)
    ensures r < 2
  {
    if b == 0 then v % 2 else Bit(v / 2, b - 1)
  }

  /** `v >> b`. */
  function Shr(v: nat, b: nat): nat
  {
    if b == 0 then v else Shr(v / 2, b - 1)
  }

  /** `v` with its `b` lowest bits cleared: `v & (0xFFFF << b)` for a `u16`. */
  function ClearLow(v: nat, b: nat): nat
  {
    if b == 0 then v else 2 * ClearLow(v / 2, b - 1)
  }

  predicate IsBits(bs: seq<nat>)
  {
    forall k :: 0 <= k < |bs| ==> bs[k] < 2
  }

  /** The number whose bit `k` is `bs[k]`. */
  function Value(bs: seq<nat>): nat
    requires IsBits(bs)
  {
    if |bs| == 0 then 0 else bs[0] + 2 * Value(bs[1..])
  }

  lemma {:induction false} BitOfValue(bs: seq<nat>, b: nat)
    requires IsBits(bs)
    ensures Bit(Value(bs), b) == if b < |bs| then bs[b] else 0
    decreases b
  {
    if |bs| > 0 {
      var v := Value(bs);
      assert v % 2 == bs[0] && v / 2 == Value(bs[1..]);
      if b > 0 {
        BitOfValue(bs[1..], b - 1);
      }
    } else if b > 0 {
      assert 0 / 2 == 0;
      BitOfValue(bs, b - 1);
    }
  }

  lemma {:induction false} ValueBound(bs: seq<nat>)
    requires IsBits(bs)
    ensures Value(bs) < Pow2(|bs|)
    decreases |bs|
  {
    if |bs| > 0 {
      ValueBound(bs[1..]);
    }
  }

  lemma Pow2Widths()
    ensures Pow2(12) == 0x1000 && Pow2(16) == 0x1_0000
  {
    assert Pow2(4) == 16;
    Pow2Add(4, 4);
    Pow2Add(8, 4);
    Pow2Add(8, 8);
  }

  /** A number below `2^n` has no bit from `n` up. */
  lemma {:induction false} BitsAbove(v: nat, n: nat, b: nat)
    requires v < Pow2(n) && n <= b
    ensures Bit(v, b) == 0
    decreases b
  {
    if b > 0 {
      if n > 0 {
        BitsAbove(v / 2, n - 1, b - 1);
      } else {
        assert v == 0;
        BitsAbove(0, 0, b - 1);
      }
    }
  }

  /** `!v` on `n` bits: `2^n - 1 - v` flips each of the `n` bits. */
  lemma {:induction false} ComplementBits(v: nat, n: nat, b: nat)
    requires v < Pow2(n) && b < n
    ensures Bit(Pow2(n) - 1 - v, b) == 1 - Bit(v, b)
    decreases n
  {
    var w := Pow2(n) - 1 - v;
    assert Pow2(n) == 2 * Pow2(n - 1);
    assert w % 2 == 1 - v % 2;
    assert w / 2 == Pow2(n - 1) - 1 - v / 2;
    if b > 0 {
      ComplementBits(v / 2, n - 1, b - 1);
    }
  }

  lemma {:induction false} ShrStep(v: nat, b: nat)
    ensures Shr(v, b) == 2 * Shr(v, b + 1) + Bit(v, b)
    decreases b
  {
    if b > 0 {
      ShrStep(v / 2, b - 1);
    }
  }

  lemma {:induction false} ShrBelow(v: nat, b: nat)
    ensures Shr(v, b) == 0 <==> v < Pow2(b)
    decreases b
  {
    if b > 0 {
      ShrBelow(v / 2, b - 1);
    }
  }

  lemma {:induction false} ClearLowIsShift(v: nat, b: nat)
    ensures ClearLow(v, b) == Shr(v, b) * Pow2(b)
    decreases b
  {
    if b > 0 {
      ClearLowIsShift(v / 2, b - 1);
      var s, p := Shr(v / 2, b - 1), Pow2(b - 1);
      assert ClearLow(v, b) == 2 * (s * p);
      assert Shr(v, b) * Pow2(b) == s * (2 * p);
    }
  }

  lemma Cancel(x: nat, y: nat, p: nat)
    requires p > 0 && x * p == y * p
    ensures x == y
  {
    if x < y {
      MulLe(p, x + 1, y);
      Distribute(x, 1, p);
    } else if y < x {
      MulLe(p, y + 1, x);
      Distribute(y, 1, p);
    }
  }

  /** The original's test `line & existing_mask == val`, with `val` the
      chosen bits `prefix` shifted up by `b`, holds exactly when the line's
      bits from `b` up spell `prefix`. */
  lemma MaskTest(line: nat, b: nat, prefix: nat)
    ensures ClearLow(line, b) == prefix * Pow2(b) <==> Shr(line, b) == prefix
  {
    ClearLowIsShift(line, b);
    if ClearLow(line, b) == prefix * Pow2(b) {
      Cancel(Shr(line, b), prefix, Pow2(b));
    }
  }

  /** `val |= 1 << bit` on a `val` whose bits below `bit + 1` are clear is
      appending a 1 to the chosen prefix. */
  lemma ValUpdate(prefix: nat, bit: nat)
    ensures prefix * Pow2(bit + 1) + Pow2(bit) == (2 * prefix + 1) * Pow2(bit)
  {
    var p := Pow2(bit);
    assert Pow2(bit + 1) == 2 * p;
    Distribute(2 * prefix, 1, p);
    assert prefix * (2 * p) == (2 * prefix) * p;
  }

  // ---------------------------------------------------------------------
  // Part 1
  // ---------------------------------------------------------------------

  /** `one_freqs[b]`: how many lines have bit `b` set. */
  function Ones(input: seq<U16>, b: nat): (n: nat)
    ensures n <= |input|
  {
    if |input| == 0 then 0 else Bit(input[0], b) + Ones(input[1..], b)
  }

  /** `input.len() as u16 / 2`: the length is truncated to 16 bits first. */
  function Half(input: seq<U16>): nat
  {
    (|input| % 0x1_0000) / 2
  }

  function GammaBits(input: seq<U16>): (bs: seq<nat>)
    ensures |bs| == 12 && IsBits(bs)
  {
    seq(12, b requires 0 <= b < 12 => if Ones(input, b) >= Half(input) then 1 else 0)
  }

  /** The gamma rate: bit `b` (below 12) is set when at least half the
      lines, rounded down, have it set; no higher bit is. */
  function Gamma(input: seq<U16>): (g: nat)
    ensures g < 0x1000
    ensures forall b :: 0 <= b < 12 ==> (Bit(g, b) == 1 <==> Ones(input, b) >= Half(input))
    ensures forall b :: 12 <= b ==> Bit(g, b) == 0
  {
    var bs := GammaBits(input);
    ValueBound(bs);
    Pow2Widths();
    forall b | 0 <= b
      ensures Bit(Value(bs), b) == if b < 12 then bs[b] else 0
    {
      BitOfValue(bs, b);
    }
    Value(bs)
  }

  /** `!gamma` on a `u16`: every one of the sixteen bits flipped, the four
      above the report's twelve included. */
  function Not16(g: U16): (e: U16)
    ensures forall b :: 0 <= b < 16 ==> Bit(e, b) == 1 - Bit(g, b)
  {
    Pow2Widths();
    forall b | 0 <= b < 16
      ensures Bit(0xFFFF - g, b) == 1 - Bit(g, b)
    {
      ComplementBits(g, 16, b);
    }
    0xFFFF - g
  }

  /** Whether a `one_freqs` counter passes 65535, which panics in `u16`. */
  predicate CounterOverflows(input: seq<U16>)
  {
    exists b :: 0 <= b < 12 && Ones(input, b) > 0xFFFF
  }

  /** `part_1`: gamma times `!gamma`, in `u32` (the product of two `u16`
      values always fits). `None` is the overflow of a counter, which needs
      more than 65535 lines. */
  function Part1(input: seq<U16>): (r: Option<nat>)
    ensures |input| <= 0xFFFF ==> r.Some?
    ensures r.None? ==> |input| > 0xFFFF
    ensures r.Some? ==> r.value == Gamma(input) * Not16(Gamma(input))
  {
    if CounterOverflows(input) then None
    else
      var g := Gamma(input);
      Some(g * Not16(g))
  }

  /** The rates the puzzle asks for: bit `b` of gamma is the more common
      value of bit `b` (1 on a tie), and epsilon is the 12-bit complement. */
  function MajorityGamma(input: seq<U16>): (g: nat)
    ensures g < 0x1000
    ensures forall b :: 0 <= b < 12 ==> (Bit(g, b) == 1 <==> Ones(input, b) >= |input| - Ones(input, b))
  {
    var bs := seq(12, b requires 0 <= b < 12 => if 2 * Ones(input, b) >= |input| then 1 else 0);
    ValueBound(bs);
    Pow2Widths();
    forall b | 0 <= b < 12
      ensures Bit(Value(bs), b) == bs[b]
    {
      BitOfValue(bs, b);
    }
    Value(bs)
  }

  /** The complement on the report's twelve bits. */
  function Not12(g: nat): (e: nat)
    requires g < 0x1000
    ensures e < 0x1000
    ensures forall b :: 0 <= b < 12 ==> Bit(e, b) == 1 - Bit(g, b)
  {
    Pow2Widths();
    forall b | 0 <= b < 12
      ensures Bit(0xFFF - g, b) == 1 - Bit(g, b)
    {
      ComplementBits(g, 12, b);
    }
    0xFFF - g
  }

  /** Part 1 as the puzzle means it: gamma holds the more common bits and
      epsilon the less common ones, so together they cover the twelve bits
      exactly once. */
  function Part1Intended(input: seq<U16>): (r: nat)
    ensures var g := MajorityGamma(input);
      && r == g * (0xFFF - g)
      && forall b :: 0 <= b < 12 ==> (Bit(0xFFF - g, b) == 1 <==> Ones(input, b) < |input| - Ones(input, b))
  {
    var g := MajorityGamma(input);
    g * Not12(g)
  }

  /** `!gamma` flips the four unused top bits as well, so epsilon comes out
      61440 too large and part 1 overshoots by gamma * 61440 whenever gamma
      is not 0. */
  lemma EpsilonTooWide(input: seq<U16>)
    requires |input| <= 0xFFFF
    ensures var g := Gamma(input);
      Part1(input) == Some(g * Not16(g)) && Not16(g) == Not12(g) + 0xF000
  {
  }

  /** Numbers below `2^n` with the same `n` bits are equal. */
  lemma {:induction false} SameBits(x: nat, y: nat, n: nat)
    requires x < Pow2(n) && y < Pow2(n)
    requires forall b :: 0 <= b < n ==> Bit(x, b) == Bit(y, b)
    ensures x == y
    decreases n
  {
    if n > 0 {
      forall b | 0 <= b < n - 1
        ensures Bit(x / 2, b) == Bit(y / 2, b)
      {
        assert Bit(x, b + 1) == Bit(x / 2, b) && Bit(y, b + 1) == Bit(y / 2, b);
      }
      SameBits(x / 2, y / 2, n - 1);
      assert x % 2 == Bit(x, 0) && y % 2 == Bit(y, 0);
    }
  }

  /** With an odd number of lines, half rounded down is a minority: a
      one-line report has every gamma bit set, whatever the line, where its
      most common bits are the line's own. */
  lemma SingleLineGamma(v: U16)
    ensures Gamma([v]) == 0xFFF
    ensures v < 0x1000 ==> MajorityGamma([v]) == v
  {
    var input := [v];
    assert Half(input) == 0;
    Pow2Widths();
    forall b | 0 <= b < 12
      ensures Bit(Gamma(input), b) == Bit(0xFFF, b)
    {
      ComplementBits(0, 12, b);
      BitsAbove(0, 0, b);
    }
    SameBits(Gamma(input), 0xFFF, 12);
    if v < 0x1000 {
      forall b | 0 <= b < 12
        ensures Bit(MajorityGamma(input), b) == Bit(v, b)
      {
        assert Ones(input, b) == Bit(v, b) by { assert input[1..] == []; }
      }
      SameBits(MajorityGamma(input), v, 12);
    }
  }

  // ---------------------------------------------------------------------
  // Part 2
  // ---------------------------------------------------------------------

  /** The two bit criteria: the `set_bit` closures of `part_2`. */
  datatype Criterion = MostCommon | LeastCommon

  /** Whether the next bit of the rating is 1: oxygen `ones >= zeros`,
      CO2 `ones < zeros`. */
  predicate SetBit(c: Criterion, ones: nat, zeros: nat)
  {
    match c
    case MostCommon => ones >= zeros
    case LeastCommon => ones < zeros
  }

  /** The lines whose bits from `b` up spell `prefix`, in input order: the
      `filter` on `existing_mask` (see `MaskTest`). */
  function Matching(input: seq<U16>, b: nat, prefix: nat): (r: seq<U16>)
    ensures |r| <= |input|
  {
    if |input| == 0 then []
    else
      var rest := Matching(input[1..], b, prefix);
      if Shr(input[0], b) == prefix then [input[0]] + rest else rest
  }

  /** `find` from the step whose `bit` is `b - 1`, with the bits above it
      chosen as `prefix` (the original's `val` is `prefix << b`). The counts
      are truncated to `u16`. A count of 1 returns the one line left; `None`
      is the `u16` underflow of `count - ones`. */
  function FindFrom(input: seq<U16>, c: Criterion, b: nat, prefix: nat): Option<nat>
    decreases b
  {
    if b == 0 then Some(prefix)
    else
      var bit := b - 1;
      var cands := Matching(input, b, prefix);
      var count := |cands| % 0x1_0000;
      var ones := Ones(cands, bit) % 0x1_0000;
      if count == 1 then Some(cands[0])
      else if ones > count then None
      else FindFrom(input, c, bit, 2 * prefix + (if SetBit(c, ones, count - ones) then 1 else 0))
  }

  /** `find(input, bits, set_bit)`: `None` for 16 bits or more, where
      `0xFFFF << (bit + 1)` shifts a `u16` by 16 and panics. */
  function Find(input: seq<U16>, bits: nat, c: Criterion): Option<nat>
  {
    if bits >= 16 then None else FindFrom(input, c, bits, 0)
  }

  /** `part_2`: the oxygen rating times the CO2 rating. */
  function Part2(input: seq<U16>, bits: nat): (r: Option<nat>)
    ensures r.Some? <==> Find(input, bits, MostCommon).Some? && Find(input, bits, LeastCommon).Some?
    ensures bits >= 16 ==> r.None?
    ensures r.Some? ==> r.value == Find(input, bits, MostCommon).value * Find(input, bits, LeastCommon).value
  {
    match (Find(input, bits, MostCommon), Find(input, bits, LeastCommon))
    case (Some(oxy), Some(co2)) => Some(oxy * co2)
    case _ => None
  }

  /** Choosing the next bit splits the lines that match: those with the bit
      set match the longer prefix ending in 1, the others the one ending in 0. */
  lemma {:induction false} MatchingSplit(input: seq<U16>, b: nat, prefix: nat)
    requires b > 0
    ensures |Matching(input, b - 1, 2 * prefix + 1)| == Ones(Matching(input, b, prefix), b - 1)
    ensures |Matching(input, b - 1, 2 * prefix)| == |Matching(input, b, prefix)| - Ones(Matching(input, b, prefix), b - 1)
    decreases |input|
  {
    if |input| > 0 {
      MatchingSplit(input[1..], b, prefix);
      ShrStep(input[0], b - 1);
      var m := Matching(input, b, prefix);
      if Shr(input[0], b) == prefix {
        assert m[1..] == Matching(input[1..], b, prefix);
      }
    }
  }

  /** The oxygen rating of a non-empty report is one of its lines, as long
      as every line fits in `bits` bits and the counts do not wrap. */
  lemma OxygenInInput(input: seq<U16>, bits: nat)
    requires 0 < |input| < 0x1_0000 && bits < 16
    requires forall k :: 0 <= k < |input| ==> input[k] < Pow2(bits)
    ensures Find(input, bits, MostCommon).Some? && Find(input, bits, MostCommon).value in input
  {
    ShrBelow(input[0], bits);
    assert input[0] in Matching(input, bits, 0) by { MatchingHas(input, bits, 0, 0); }
    OxygenFrom(input, bits, 0);
  }

  /** The lines that match come from the report and do spell the prefix. */
  lemma {:induction false} MatchingFrom(input: seq<U16>, b: nat, prefix: nat)
    ensures forall x :: x in Matching(input, b, prefix) ==> x in input && Shr(x, b) == prefix
    decreases |input|
  {
    if |input| > 0 {
      MatchingFrom(input[1..], b, prefix);
      assert forall x :: x in input[1..] ==> x in input;
    }
  }

  lemma {:induction false} MatchingHas(input: seq<U16>, b: nat, prefix: nat, k: nat)
    requires k < |input| && Shr(input[k], b) == prefix
    ensures input[k] in Matching(input, b, prefix)
    decreases k
  {
    if k > 0 {
      MatchingHas(input[1..], b, prefix, k - 1);
    }
  }

  lemma {:induction false} OxygenFrom(input: seq<U16>, b: nat, prefix: nat)
    requires |input| < 0x1_0000 && |Matching(input, b, prefix)| > 0
    ensures FindFrom(input, MostCommon, b, prefix).Some? && FindFrom(input, MostCommon, b, prefix).value in input
    decreases b
  {
    var cands := Matching(input, b, prefix);
    var r := FindFrom(input, MostCommon, b, prefix);
    MatchingFrom(input, b, prefix);
    if b == 0 {
      assert Shr(cands[0], 0) == cands[0];
      assert r == Some(cands[0]);
      assert cands[0] in input;
    } else if |cands| != 1 {
      var ones := Ones(cands, b - 1);
      var next := 2 * prefix + (if SetBit(MostCommon, ones, |cands| - ones) then 1 else 0);
      FindStep(input, MostCommon, b, prefix, next);
      MatchingSplit(input, b, prefix);
      assert |Matching(input, b - 1, next)| > 0;
      OxygenFrom(input, b - 1, next);
      var r' := FindFrom(input, MostCommon, b - 1, next);
      assert r == r' && r'.Some? && r'.value in input;
    } else {
      assert r == Some(cands[0]);
      assert cands[0] in input;
    }
  }

  /** One step of `find` on a report short enough that its counts do not
      wrap: `next` is `prefix` followed by the bit the criterion picks. */
  lemma FindStep(input: seq<U16>, c: Criterion, b: nat, prefix: nat, next: nat)
    requires b > 0 && |input| < 0x1_0000
    requires |Matching(input, b, prefix)| != 1
    requires var cands := Matching(input, b, prefix);
      var ones := Ones(cands, b - 1);
      next == 2 * prefix + (if SetBit(c, ones, |cands| - ones) then 1 else 0)
    ensures FindFrom(input, c, b, prefix) == FindFrom(input, c, b - 1, next)
  {
    var cands := Matching(input, b, prefix);
    var ones := Ones(cands, b - 1);
    SmallMod(|cands|);
    SmallMod(ones);
  }

  lemma SmallMod(n: nat)
    requires n < 0x1_0000
    ensures n % 0x1_0000 == n
  {
  }

  /** The CO2 criterion can choose a bit no remaining line has: for the lines
      0 and 1 on two bits, no line has bit 1 set, the rarer value is 1, and
      the rating comes out as 2, which is not in the report. */
  lemma Co2LeavesInput()
    ensures Find([0, 1], 2, LeastCommon) == Some(2)
  {
    var input: seq<U16> := [0, 1];
    assert Matching(input, 2, 0) == input;
    assert Bit(0, 1) == 0 && Bit(1, 1) == 0;
    assert Ones(input, 1) == 0;
    assert Shr(0, 1) == 0 && Shr(1, 1) == 0;
    assert Matching(input, 1, 1) == [];
  }

  // ---------------------------------------------------------------------
  // Input
  // ---------------------------------------------------------------------

  predicate AllBinary(s: string)
  {
    forall k :: 0 <= k < |s| ==> s[k] == '0' || s[k] == '1'
  }

  /** The value of a string of binary digits, most significant first. */
  function BinaryValue(s: string): nat
    requires AllBinary(s)
  {
    if |s| == 0 then 0 else 2 * BinaryValue(s[..|s| - 1]) + (if s[|s| - 1] == '1' then 1 else 0)
  }

  /** `u16::from_str_radix(line, 2)`: an optional `+`, then one or more
      binary digits whose value fits in 16 bits. */
  function ParseBinary(s: string): (r: Option<U16>)
    ensures var digits := if |s| > 0 && s[0] == '+' then s[1..] else s;
      r.Some? <==> |digits| > 0 && AllBinary(digits) && BinaryValue(digits) < 0x1_0000
    ensures var digits := if |s| > 0 && s[0] == '+' then s[1..] else s;
      r.Some? ==> r.value == BinaryValue(digits)
  {
    var digits := if |s| > 0 && s[0] == '+' then s[1..] else s;
    if |digits| > 0 && AllBinary(digits) && BinaryValue(digits) < 0x1_0000 then Some(BinaryValue(digits)) else None
  }

  /** `v` written with `n` binary digits, leading zeros included. */
  function BinaryString(v: nat, n: nat): (s: string)
    ensures |s| == n && AllBinary(s)
  {
    if n == 0 then [] else BinaryString(v / 2, n - 1) + [if v % 2 == 1 then '1' else '0']
  }

  lemma {:induction false} BinaryValueString(v: nat, n: nat)
    requires v < Pow2(n)
    ensures BinaryValue(BinaryString(v, n)) == v
    decreases n
  {
    if n > 0 {
      BinaryValueString(v / 2, n - 1);
      var s := BinaryString(v, n);
      assert s[..|s| - 1] == BinaryString(v / 2, n - 1);
    }
  }

  /** A report line of `n` digits parses back to its number. */
  lemma ParseBinaryString(v: U16, n: nat)
    requires n > 0 && v < Pow2(n)
    ensures ParseBinary(BinaryString(v, n)) == Some(v)
  {
    BinaryValueString(v, n);
  }

  /** `input`: each line parsed, any failure an `unwrap` panic. */
  function ParseInput(raw: string): (r: Option<seq<U16>>)
    ensures var lines := Lines(raw);
      r.Some? <==> forall k :: 0 <= k < |lines| ==> ParseBinary(lines[k]).Some?
    ensures var lines := Lines(raw);
      r.Some? ==> |r.value| == |lines| && forall k :: 0 <= k < |lines| ==> ParseBinary(lines[k]) == Some(r.value[k])
  {
    ParseAll(Lines(raw), ParseBinary)
  }
}

=== FILE: digit_grid.dfy ===
/** Grids of single digits laid out as lines of text (days 9, 11 and 15):
    the digits of a text in order, and what they are when the text is rows
    of equal length joined by newlines. */
module DigitGrid {
  import opened Text

  /** The digit characters of `s` as levels, in order; everything else is skipped. */
  function Digits(s: string): (r: seq<nat>)
    ensures |r| <= |s|
  {
    if |s| == 0 then []
    else (if IsDigit(s[0]) then [DigitValue(s[0])] else []) + Digits(s[1..])
  }

  /** `str::lines` yields nothing only for the empty string. */
  lemma NoLinesMeansEmpty(raw: string)
    requires Lines(raw) == []
    ensures raw == []
  {
    var pieces := Split(raw, '\n');
    assert |pieces| == 1 && pieces[0] == [];
    SplitJoin(raw, '\n');
  }

  /** Levels of equal-length digit rows, row after row. */
  function RowLevels(rows: seq<string>): seq<nat>
  {
    if |rows| == 0 then [] else Digits(rows[0]) + RowLevels(rows[1..])
  }

  predicate DigitRows(rows: seq<string>, w: nat)
  {
    forall k :: 0 <= k < |rows| ==> |rows[k]| == w && AllDigits(rows[k])
  }

  lemma {:induction false} DigitsAppend(a: string, b: string)
    ensures Digits(a + b) == Digits(a) + Digits(b)
    decreases |a|
  {
    if |a| == 0 {
      assert a + b == b;
    } else {
      var h := if IsDigit(a[0]) then [DigitValue(a[0])] else [];
      assert (a + b)[0] == a[0];
      assert (a + b)[1..] == a[1..] + b;
      assert Digits(a + b) == h + Digits(a[1..] + b);
      DigitsAppend(a[1..], b);
      assert Digits(a) == h + Digits(a[1..]);
      assert h + (Digits(a[1..]) + Digits(b)) == (h + Digits(a[1..])) + Digits(b);
    }
  }

  lemma {:induction false} DigitsOfDigits(s: string)
    requires AllDigits(s)
    ensures |Digits(s)| == |s|
    ensures forall k :: 0 <= k < |s| ==> Digits(s)[k] == DigitValue(s[k])
    decreases |s|
  {
    if |s| > 0 {
      DigitsOfDigits(s[1..]);
    }
  }

  lemma {:induction false} DigitsOfJoin(rows: seq<string>)
    requires |rows| > 0
    ensures Digits(Join(rows, '\n')) == RowLevels(rows)
    decreases |rows|
  {
    if |rows| == 1 {
      assert Join(rows, '\n') == rows[0];
      assert RowLevels(rows[1..]) == [];
      assert RowLevels(rows) == Digits(rows[0]) + [];
    } else {
      var tail := Join(rows[1..], '\n');
      assert Join(rows, '\n') == rows[0] + ("\n" + tail);
      DigitsAppend(rows[0], "\n" + tail);
      DigitsAppend("\n", tail);
      assert Digits("\n") == [];
      DigitsOfJoin(rows[1..]);
      assert RowLevels(rows) == Digits(rows[0]) + RowLevels(rows[1..]);
    }
  }

  lemma {:induction false} RowLevelsLength(rows: seq<string>, w: nat)
    requires DigitRows(rows, w)
    ensures |RowLevels(rows)| == w * |rows|
    decreases |rows|
  {
    if |rows| > 0 {
      DigitsOfDigits(rows[0]);
      assert DigitRows(rows[1..], w);
      RowLevelsLength(rows[1..], w);
      assert w * |rows| == w + w * (|rows| - 1);
    }
  }

  lemma {:induction false} RowLevelsAt(rows: seq<string>, w: nat, x: nat, y: nat)
    requires DigitRows(rows, w) && x < w && y < |rows|
    ensures x + y * w < |RowLevels(rows)| && RowLevels(rows)[x + y * w] == DigitValue(rows[y][x])
    decreases |rows|
  {
    DigitsOfDigits(rows[0]);
    var tail := rows[1..];
    assert DigitRows(tail, w);
    assert RowLevels(rows) == Digits(rows[0]) + RowLevels(tail);
    if y > 0 {
      RowLevelsAt(tail, w, x, y - 1);
      assert x + y * w == w + (x + (y - 1) * w);
    }
  }

  lemma {:induction false} LinesOfJoin(rows: seq<string>, trailing: bool)
    requires |rows| > 0 && |rows[|rows| - 1]| > 0
    requires forall k :: 0 <= k < |rows| ==> AllDigits(rows[k])
    ensures Lines(Join(if trailing then rows + [[]] else rows, '\n')) == rows
  {
    var parts := if trailing then rows + [[]] else rows;
    forall k | 0 <= k < |parts|
      ensures '\n' !in parts[k]
    {
      if k < |rows| {
        assert forall c :: c in parts[k] ==> IsDigit(c);
      }
    }
    JoinSplit(parts, '\n');
    forall k | 0 <= k < |rows|
      ensures StripCr(rows[k]) == rows[k]
    {
      if |rows[k]| > 0 {
        assert IsDigit(rows[k][|rows[k]| - 1]);
      }
    }
  }

  lemma {:induction false} JoinTrailing(rows: seq<string>)
    requires |rows| > 0
    ensures Join(rows + [[]], '\n') == Join(rows, '\n') + "\n"
    decreases |rows|
  {
    var parts := rows + [[]];
    if |rows| == 1 {
      assert parts[1..] == [[]];
    } else {
      assert parts[1..] == rows[1..] + [[]];
      JoinTrailing(rows[1..]);
    }
  }

  /** The input text for `rows`, with or without a final newline. */
  function RowsText(rows: seq<string>, trailing: bool): string
    requires |rows| > 0
  {
    Join(rows, '\n') + (if trailing then "\n" else "")
  }

  lemma RowsTextFacts(rows: seq<string>, w: nat, trailing: bool)
    requires |rows| > 0 && w > 0 && DigitRows(rows, w)
    ensures Lines(RowsText(rows, trailing)) == rows
    ensures Digits(RowsText(rows, trailing)) == RowLevels(rows)
  {
    var parts := if trailing then rows + [[]] else rows;
    var raw := RowsText(rows, trailing);
    if trailing {
      JoinTrailing(rows);
      assert raw == Join(parts, '\n');
      DigitsOfJoin(parts);
      RowLevelsAppendEmpty(rows);
    } else {
      assert raw == Join(rows, '\n') + "";
      assert raw == Join(parts, '\n');
      DigitsOfJoin(rows);
    }
    assert forall k :: 0 <= k < |rows| ==> AllDigits(rows[k]);
    LinesOfJoin(rows, trailing);
  }

  lemma {:induction false} RowLevelsAppendEmpty(rows: seq<string>)
    ensures RowLevels(rows + [[]]) == RowLevels(rows)
    decreases |rows|
  {
    if |rows| == 0 {
      assert RowLevels([[]]) == Digits([]) + RowLevels([]);
    } else {
      assert (rows + [[]])[1..] == rows[1..] + [[]];
      RowLevelsAppendEmpty(rows[1..]);
    }
  }
}

=== FILE: dive.dfy ===
/** Day 2, "Dive!" (src/day_2/mod.rs): a list of submarine commands,
    `forward n`, `up n` and `down n`. Part 1 reads `up` and `down` as
    changes of depth; part 2 reads them as changes of aim, and `forward n`
    then also dives by `n` times the aim. Both answers are the final
    horizontal position times the final depth. The original computes in
    `i32`; the sums and products are unbounded here. */
module Dive {
  import opened Wrappers
  import opened Text
  import opened Arith

  datatype Dir = Forward | Up | Down

  datatype Command = Command(dir: Dir, num: int)

  // ---------------------------------------------------------------------
  // Parsing
  // ---------------------------------------------------------------------

  function DirWord(d: Dir): (w: string)
    ensures |w| > 0 && ' ' !in w && 'a' <= w[0] <= 'z'
  {
    match d
    case Forward => "forward"
    case Up => "up"
    case Down => "down"
  }

  /** The `match dir_str` of `parse_line`: one of the three words, or an error. */
  function ParseDir(w: string): (r: Option<Dir>)
    ensures r.Some? ==> DirWord(r.value) == w
    ensures forall d :: w == DirWord(d) ==> r == Some(d)
  {
    if w == "forward" then Some(Forward)
    else if w == "up" then Some(Up)
    else if w == "down" then Some(Down)
    else None
  }

  /** `parse_line`: `splitn(2, ' ')` cuts at the first space; the word before
      it names the direction and everything after it must parse as an `i32`.
      A line without a space is an error. */
  function ParseLine(line: string): (r: Option<Command>)
    ensures r.Some? ==> Find(line, " ").Some? && DirWord(r.value.dir) == PieceBefore(line, " ")
    ensures r.Some? ==> I32Min <= r.value.num <= I32Max && ParseInt(After(line, " ").value) == Some(r.value.num)
    ensures Find(line, " ").None? ==> r.None?
  {
    match After(line, " ")
    case None => None
    case Some(rest) =>
      match ParseDir(PieceBefore(line, " "))
      case None => None
      case Some(dir) =>
        match ParseIntIn(rest, I32Min, I32Max)
        case None => None
        case Some(num) => Some(Command(dir, num))
  }

  /** A command as the puzzle input writes it. */
  function Render(c: Command): (s: string)
    ensures |s| > 0 && !IsWhitespace(s[0]) && !IsWhitespace(s[|s| - 1])
  {
    var s := DirWord(c.dir) + " " + IntString(c.num);
    assert s[|s| - 1] == IntString(c.num)[|IntString(c.num)| - 1];
    IntStringEnd(c.num);
    s
  }

  /** A formatted integer ends with a digit. */
  lemma IntStringEnd(x: int)
    ensures var s := IntString(x); IsDigit(s[|s| - 1])
  {
    var s := IntString(x);
    if x < 0 {
      var d := NatString(-x);
      assert s[|s| - 1] == d[|d| - 1];
    }
  }

  /** Parsing reads back every command whose number fits in an `i32`. */
  lemma ParseLineRender(c: Command)
    requires I32Min <= c.num <= I32Max
    ensures ParseLine(Render(c)) == Some(c)
  {
    var w := DirWord(c.dir);
    SplitAt(w, " ", IntString(c.num));
    ParseIntString(c.num);
  }

  /** `parse_input`: the trimmed text split at every `\n`, each line parsed;
      `None` is the `expect` panic when a line fails. */
  function ParseInput(s: string): (r: Option<seq<Command>>)
    ensures var lines := Split(Trim(s), '\n');
      r.Some? <==> forall k :: 0 <= k < |lines| ==> ParseLine(lines[k]).Some?
    ensures var lines := Split(Trim(s), '\n');
      r.Some? ==> |r.value| == |lines| && forall k :: 0 <= k < |lines| ==> ParseLine(lines[k]) == Some(r.value[k])
  {
    ParseAll(Split(Trim(s), '\n'), ParseLine)
  }

  /** The commands written one per line. */
  function RenderAll(cmds: seq<Command>): string
    requires |cmds| > 0
  {
    Join(seq(|cmds|, k requires 0 <= k < |cmds| => Render(cmds[k])), '\n')
  }

  /** A text with no whitespace at either end is its own trim. */
  lemma TrimKeeps(s: string)
    requires |s| > 0 && !IsWhitespace(s[0]) && !IsWhitespace(s[|s| - 1])
    ensures Trim(s) == s
  {
  }

  /** The first and last characters of a join are those of the first and last pieces. */
  lemma {:induction false} JoinEnds(parts: seq<string>, sep: char)
    requires |parts| > 0 && forall k :: 0 <= k < |parts| ==> |parts[k]| > 0
    ensures var s := Join(parts, sep);
      |s| > 0 && s[0] == parts[0][0] && s[|s| - 1] == parts[|parts| - 1][|parts[|parts| - 1]| - 1]
    decreases |parts|
  {
    if |parts| > 1 {
      JoinEnds(parts[1..], sep);
    }
  }

  /** The rendered lines: each non-empty, free of `\n`, and parsing back. */
  lemma RenderedLines(cmds: seq<Command>, parts: seq<string>)
    requires |parts| == |cmds| && forall k :: 0 <= k < |cmds| ==> I32Min <= cmds[k].num <= I32Max && parts[k] == Render(cmds[k])
    ensures forall k :: 0 <= k < |parts| ==> |parts[k]| > 0 && '\n' !in parts[k] && ParseLine(parts[k]) == Some(cmds[k])
  {
    forall k | 0 <= k < |parts|
      ensures |parts[k]| > 0 && '\n' !in parts[k] && ParseLine(parts[k]) == Some(cmds[k])
    {
      RenderedLine(cmds[k]);
    }
  }

  lemma RenderedLine(c: Command)
    requires I32Min <= c.num <= I32Max
    ensures '\n' !in Render(c) && ParseLine(Render(c)) == Some(c)
  {
    ParseLineRender(c);
    RenderNoNewline(c);
  }

  lemma RenderNoNewline(c: Command)
    ensures '\n' !in Render(c)
  {
    var w, n := DirWord(c.dir), IntString(c.num);
    IntStringHasNo(c.num, '\n');
    assert Render(c) == w + " " + n;
    assert '\n' !in w + " ";
  }

  /** Parsing reads back any non-empty list of commands with `i32` numbers. */
  lemma ParseRenderAll(cmds: seq<Command>)
    requires |cmds| > 0 && forall k :: 0 <= k < |cmds| ==> I32Min <= cmds[k].num <= I32Max
    ensures ParseInput(RenderAll(cmds)) == Some(cmds)
  {
    var parts := seq(|cmds|, k requires 0 <= k < |cmds| => Render(cmds[k]));
    RenderedLines(cmds, parts);
    var text := Join(parts, '\n');
    assert text == RenderAll(cmds);
    JoinEnds(parts, '\n');
    TrimKeeps(text);
    JoinSplit(parts, '\n');
    ParseAllEach(parts, ParseLine, cmds);
  }

  // ---------------------------------------------------------------------
  // Positions
  // ---------------------------------------------------------------------

  /** The total of the numbers of the commands in direction `d`. */
  function SumOf(cmds: seq<Command>, d: Dir): int
  {
    if |cmds| == 0 then 0
    else SumOf(cmds[..|cmds| - 1], d) + (if cmds[|cmds| - 1].dir == d then cmds[|cmds| - 1].num else 0)
  }

  /** Part 2's running aim after `cmds`: every `down` raises it, every `up`
      lowers it, and `forward` leaves it alone. */
  function Aim(cmds: seq<Command>): int
  {
    if |cmds| == 0 then 0
    else
      var init, last := cmds[..|cmds| - 1], cmds[|cmds| - 1];
      match last.dir
      case Down => Aim(init) + last.num
      case Up => Aim(init) - last.num
      case Forward => Aim(init)
  }

  /** Part 2's depth after `cmds`: each `forward n` dives by `n` times the aim
      the commands before it have set. */
  function Depth(cmds: seq<Command>): int
  {
    if |cmds| == 0 then 0
    else
      var init, last := cmds[..|cmds| - 1], cmds[|cmds| - 1];
      Depth(init) + (if last.dir == Forward then last.num * Aim(init) else 0)
  }

  /** `part_1`: forward moves add up to the horizontal position, `down` and
      `up` to the depth; the answer is their product. */
  method Part1(cmds: seq<Command>) returns (r: int)
    ensures r == SumOf(cmds, Forward) * (SumOf(cmds, Down) - SumOf(cmds, Up))
  {
    var horizontal := 0;
    var depth := 0;
    for i := 0 to |cmds|
      invariant horizontal == SumOf(cmds[..i], Forward)
      invariant depth == SumOf(cmds[..i], Down) - SumOf(cmds[..i], Up)
    {
      assert cmds[..i + 1][..i] == cmds[..i];
      match cmds[i].dir
      case Forward => horizontal := horizontal + cmds[i].num;
      case Up => depth := depth - cmds[i].num;
      case Down => depth := depth + cmds[i].num;
    }
    assert cmds[..|cmds|] == cmds;
    r := horizontal * depth;
  }

  /** `part_2`: the same walk with an aim. */
  method Part2(cmds: seq<Command>) returns (r: int)
    ensures r == SumOf(cmds, Forward) * Depth(cmds)
  {
    var aim := 0;
    var horizontal := 0;
    var depth := 0;
    for i := 0 to |cmds|
      invariant aim == Aim(cmds[..i])
      invariant horizontal == SumOf(cmds[..i], Forward)
      invariant depth == Depth(cmds[..i])
    {
      assert cmds[..i + 1][..i] == cmds[..i];
      match cmds[i].dir
      case Forward =>
        horizontal := horizontal + cmds[i].num;
        depth := depth + cmds[i].num * aim;
      case Up => aim := aim - cmds[i].num;
      case Down => aim := aim + cmds[i].num;
    }
    assert cmds[..|cmds|] == cmds;
    r := horizontal * depth;
  }

  lemma {:induction false} SumOfAppend(a: seq<Command>, b: seq<Command>, d: Dir)
    ensures SumOf(a + b, d) == SumOf(a, d) + SumOf(b, d)
    decreases |b|
  {
    if |b| > 0 {
      assert (a + b)[..|a + b| - 1] == a + b[..|b| - 1];
      SumOfAppend(a, b[..|b| - 1], d);
    } else {
      assert a + b == a;
    }
  }

  /** How far a command moves forward: its number, or 0 for `up` and `down`. */
  function Advance(c: Command): int
  {
    if c.dir == Forward then c.num else 0
  }

  /** One more command: forward moves and depth grow by its advance. */
  lemma LastStep(cmds: seq<Command>)
    requires |cmds| > 0
    ensures var init, last := cmds[..|cmds| - 1], cmds[|cmds| - 1];
      && SumOf(cmds, Forward) == SumOf(init, Forward) + Advance(last)
      && Depth(cmds) == Depth(init) + Advance(last) * Aim(init)
  {
  }

  /** Running `b` after `a` dives as deep as `b` alone would, plus `b`'s
      forward moves taken at the aim `a` left behind. */
  lemma {:induction false} DepthAppend(a: seq<Command>, b: seq<Command>)
    ensures Depth(a + b) == Depth(a) + Depth(b) + SumOf(b, Forward) * Aim(a)
    decreases |b|
  {
    if |b| > 0 {
      var init, last := b[..|b| - 1], b[|b| - 1];
      assert (a + b)[..|a + b| - 1] == a + init;
      assert (a + b)[|a + b| - 1] == last;
      DepthAppend(a, init);
      AimAppend(a, init);
      LastStep(a + b);
      LastStep(b);
      var step, aimA, aimI, fwd := Advance(last), Aim(a), Aim(init), SumOf(init, Forward);
      assert Aim(a + init) == aimA + aimI;
      Distribute(aimA, aimI, step);
      Distribute(fwd, step, aimA);
      assert step * (aimA + aimI) == (aimA + aimI) * step;
      assert step * aimA == aimA * step && step * aimI == aimI * step;
    } else {
      assert a + b == a;
    }
  }

  /** The aim after one list and then another is the sum of their aims. */
  lemma {:induction false} AimAppend(a: seq<Command>, b: seq<Command>)
    ensures Aim(a + b) == Aim(a) + Aim(b)
    decreases |b|
  {
    if |b| > 0 {
      assert (a + b)[..|a + b| - 1] == a + b[..|b| - 1];
      assert (a + b)[|a + b| - 1] == b[|b| - 1];
      AimAppend(a, b[..|b| - 1]);
    } else {
      assert a + b == a;
    }
  }

  /** Part 1's depth is part 2's final aim: the running aim ends at the
      `down` total less the `up` total. */
  lemma {:induction false} AimIsPart1Depth(cmds: seq<Command>)
    ensures Aim(cmds) == SumOf(cmds, Down) - SumOf(cmds, Up)
  {
    if |cmds| > 0 {
      AimIsPart1Depth(cmds[..|cmds| - 1]);
    }
  }
}

=== FILE: lanternfish.dfy ===
/** Day 6, "Lanternfish" (src/day_6/mod.rs and its standalone copy
    day_6/src/main.rs). Every fish carries a timer; each day a timer of 0
    resets to 6 and spawns a new fish with timer 8, and every other timer
    counts down. The original keeps only the number of fish per timer value,
    in a ring buffer of nine `u64` slots whose `head` slot holds the fish
    with timer 0, so a day is a rotation plus one addition. Counts are
    unbounded here. */
module Lanternfish {
  import opened Wrappers
  import opened Arith
  import opened Text

  /** `FishState`: the ring of nine counts and the index of its first slot. */
  datatype FishState = FishState(counts: seq<nat>, head: nat)

  /** Nine slots and a head inside them: what `step` keeps true. */
  predicate Valid(s: FishState)
  {
    |s.counts| == 9 && s.head < 9
  }

  /** The slot `age` places after `head` in the ring of nine: `(head + age) % 9`. */
  function Slot(head: nat, age: nat): (r: nat)
    requires head < 9 && age < 9
    ensures r == (head + age) % 9
  {
    if head + age < 9 then head + age else head + age - 9
  }

  /** The number of fish whose timer is `age`: slot `age` counted from the head. */
  function At(s: FishState, age: nat): nat
    requires Valid(s) && age < 9
  {
    s.counts[Slot(s.head, age)]
  }

  /** The counts by timer value, 0 to 8. */
  function Ages(s: FishState): (r: seq<nat>)
    requires Valid(s)
    ensures |r| == 9 && forall age :: 0 <= age < 9 ==> r[age] == At(s, age)
  {
    seq(9, age requires 0 <= age < 9 => At(s, age))
  }

  /** `FishState::step`: pop the head count (the fish at timer 0), move the
      head on, store the popped count in the new last slot (timer 8) and add
      it to the slot of timer 6. */
  function Step(s: FishState): (r: FishState)
    requires Valid(s)
    ensures Valid(r)
  {
    var spawning := s.counts[s.head];
    var head := Slot(s.head, 1);
    var tail8 := Slot(head, 8);
    var counts := s.counts[tail8 := spawning];
    var tail6 := Slot(head, 6);
    FishState(counts[tail6 := counts[tail6] + spawning], head)
  }

  /** A day counted from the head: every count moves one timer value down,
      timer 8 receives the spawning fish and timer 6 gets them back too. */
  lemma StepRotates(s: FishState)
    requires Valid(s)
    ensures var r := Step(s);
      && (forall age :: 0 <= age < 9 && age != 6 && age != 8 ==> At(r, age) == At(s, age + 1))
      && At(r, 6) == At(s, 7) + At(s, 0)
      && At(r, 8) == At(s, 0)
  {
    var r := Step(s);
    forall age | 0 <= age < 9 && age != 8
      ensures Slot(r.head, age) == Slot(s.head, age + 1)
    {
    }
    assert Slot(r.head, 8) == s.head == Slot(s.head, 0);
  }

  /** The sum of the counts. */
  function TotalCount(s: FishState): nat
  {
    SeqSum(s.counts)
  }

  /** A day adds exactly the spawning fish. */
  lemma StepTotal(s: FishState)
    requires Valid(s)
    ensures TotalCount(Step(s)) == TotalCount(s) + At(s, 0)
  {
    var spawning := s.counts[s.head];
    var head := Slot(s.head, 1);
    var tail8 := Slot(head, 8);
    assert tail8 == s.head;
    var counts := s.counts[tail8 := spawning];
    assert counts == s.counts;
    var tail6 := Slot(head, 6);
    SeqSumAddAt(counts, tail6, spawning);
    assert Slot(s.head, 0) == s.head;
  }

  /** `n` days, one after the other. */
  function Steps(s: FishState, n: nat): (r: FishState)
    requires Valid(s)
    ensures Valid(r)
  {
    if n == 0 then s else Step(Steps(s, n - 1))
  }

  /** `FishState::step_n`: the loop of `n` steps. */
  method StepN(s: FishState, n: nat) returns (r: FishState)
    requires Valid(s)
    ensures Valid(r) && r == Steps(s, n)
    ensures TotalCount(s) <= TotalCount(r)
  {
    r := s;
    for i := 0 to n
      invariant Valid(r) && r == Steps(s, i)
      invariant TotalCount(s) <= TotalCount(r)
    {
      StepTotal(r);
      r := Step(r);
    }
  }

  /** `part_1`: the number of fish after 80 days. */
  method Part1(s: FishState) returns (total: nat)
    requires Valid(s)
    ensures total == TotalCount(Steps(s, 80)) && TotalCount(s) <= total
  {
    var r := StepN(s, 80);
    total := TotalCount(r);
  }

  /** `part_2`: the number of fish after 256 days. */
  method Part2(s: FishState) returns (total: nat)
    requires Valid(s)
    ensures total == TotalCount(Steps(s, 256)) && TotalCount(s) <= total
  {
    var r := StepN(s, 256);
    total := TotalCount(r);
  }

  // ---------------------------------------------------------------------
  // The fish one by one, as the puzzle tells it
  // ---------------------------------------------------------------------

  /** How many of `xs` equal `a`. */
  function Count(xs: seq<nat>, a: nat): nat
  {
    if |xs| == 0 then 0 else (if xs[0] == a then 1 else 0) + Count(xs[1..], a)
  }

  /** The counts of the timer values 0 to 8 among the fish `xs`. */
  function Histogram(xs: seq<nat>): (r: seq<nat>)
    ensures |r| == 9 && forall age :: 0 <= age < 9 ==> r[age] == Count(xs, age)
  {
    seq(9, age requires 0 <= age < 9 => Count(xs, age))
  }

  predicate Timers(xs: seq<nat>)
  {
    forall k :: 0 <= k < |xs| ==> xs[k] < 9
  }

  /** Every fish's timer after a day: 0 wraps to 6, the rest count down. */
  function Decrement(xs: seq<nat>): (r: seq<nat>)
    ensures |r| == |xs|
  {
    if |xs| == 0 then [] else [if xs[0] == 0 then 6 else xs[0] - 1] + Decrement(xs[1..])
  }

  /** One newborn with timer 8 per fish at timer 0. */
  function Newborn(xs: seq<nat>): seq<nat>
  {
    if |xs| == 0 then [] else (if xs[0] == 0 then [8] else []) + Newborn(xs[1..])
  }

  /** The school after a day: the old fish, then the newborn at the end. */
  function Tick(xs: seq<nat>): seq<nat>
  {
    Decrement(xs) + Newborn(xs)
  }

  function Ticks(xs: seq<nat>, n: nat): seq<nat>
  {
    if n == 0 then xs else Tick(Ticks(xs, n - 1))
  }

  lemma {:induction false} CountAppend(xs: seq<nat>, ys: seq<nat>, a: nat)
    ensures Count(xs + ys, a) == Count(xs, a) + Count(ys, a)
    decreases |xs|
  {
    if |xs| > 0 {
      assert (xs + ys)[1..] == xs[1..] + ys;
      CountAppend(xs[1..], ys, a);
    } else {
      assert xs + ys == ys;
    }
  }

  /** The fish are all counted by the histogram. */
  lemma {:induction false} HistogramTotal(xs: seq<nat>)
    requires Timers(xs)
    ensures SeqSum(Histogram(xs)) == |xs|
    decreases |xs|
  {
    if |xs| > 0 {
      HistogramTotal(xs[1..]);
      var h, t := Histogram(xs), Histogram(xs[1..]);
      assert h == t[xs[0] := t[xs[0]] + 1];
      SeqSumAddAt(t, xs[0], 1);
    } else {
      ZeroSum(Histogram(xs));
    }
  }

  lemma {:induction false} ZeroSum(xs: seq<nat>)
    requires forall k :: 0 <= k < |xs| ==> xs[k] == 0
    ensures SeqSum(xs) == 0
    decreases |xs|
  {
    if |xs| > 0 {
      ZeroSum(xs[1..]);
    }
  }

  lemma {:induction false} DecrementCount(xs: seq<nat>, a: nat)
    requires Timers(xs) && a < 9
    ensures Count(Decrement(xs), a) == Count(xs, a + 1) + (if a == 6 then Count(xs, 0) else 0)
    decreases |xs|
  {
    if |xs| > 0 {
      DecrementCount(xs[1..], a);
    }
  }

  lemma {:induction false} NewbornCount(xs: seq<nat>, a: nat)
    ensures Count(Newborn(xs), a) == (if a == 8 then Count(xs, 0) else 0)
    decreases |xs|
  {
    if |xs| > 0 {
      NewbornCount(xs[1..], a);
      CountAppend(if xs[0] == 0 then [8] else [], Newborn(xs[1..]), a);
    }
  }

  lemma {:induction false} TickTimers(xs: seq<nat>)
    requires Timers(xs)
    ensures Timers(Tick(xs))
    decreases |xs|
  {
    if |xs| > 0 {
      TickTimers(xs[1..]);
      var d, n := Decrement(xs), Newborn(xs);
      assert d == [d[0]] + Decrement(xs[1..]);
      assert n == (if xs[0] == 0 then [8] else []) + Newborn(xs[1..]);
      assert Tick(xs[1..]) == Decrement(xs[1..]) + Newborn(xs[1..]);
      forall k | 0 <= k < |Tick(xs)|
        ensures Tick(xs)[k] < 9
      {
        if k >= |d| {
          var j := k - |d|;
          if xs[0] == 0 && j == 0 {
          } else {
            var j' := if xs[0] == 0 then j - 1 else j;
            assert Tick(xs)[k] == Newborn(xs[1..])[j'];
            assert Tick(xs[1..])[|xs| - 1 + j'] == Newborn(xs[1..])[j'];
          }
        } else if k > 0 {
          assert Tick(xs)[k] == Decrement(xs[1..])[k - 1] == Tick(xs[1..])[k - 1];
        }
      }
    }
  }

  /** The histogram after a day of the fish one by one is the day's step of
      the histogram: the ring buffer counts the puzzle's school. */
  lemma StepIsTick(s: FishState, xs: seq<nat>)
    requires Valid(s) && Timers(xs) && Ages(s) == Histogram(xs)
    ensures Ages(Step(s)) == Histogram(Tick(xs)) && Timers(Tick(xs))
  {
    StepRotates(s);
    TickTimers(xs);
    forall age | 0 <= age < 9
      ensures Ages(Step(s))[age] == Histogram(Tick(xs))[age]
    {
      CountAppend(Decrement(xs), Newborn(xs), age);
      DecrementCount(xs, age);
      NewbornCount(xs, age);
      assert Ages(s)[age] == At(s, age) == Count(xs, age);
      if age < 8 {
        assert Ages(s)[age + 1] == At(s, age + 1) == Count(xs, age + 1);
      } else {
        assert Count(xs, 9) == 0 by { CountAbsent(xs, 9); }
      }
      assert Ages(s)[0] == At(s, 0) == Count(xs, 0);
    }
  }

  lemma {:induction false} CountAbsent(xs: seq<nat>, a: nat)
    requires Timers(xs) && a >= 9
    ensures Count(xs, a) == 0
    decreases |xs|
  {
    if |xs| > 0 {
      CountAbsent(xs[1..], a);
    }
  }

  /** The total of the ring is the number of fish it stands for. */
  lemma TotalIsSize(s: FishState, xs: seq<nat>)
    requires Valid(s) && Timers(xs) && Ages(s) == Histogram(xs)
    ensures TotalCount(s) == |xs|
  {
    HistogramTotal(xs);
    RotatedSum(s);
  }

  /** Reading the ring from its head does not change its sum. */
  lemma RotatedSum(s: FishState)
    requires Valid(s)
    ensures SeqSum(Ages(s)) == TotalCount(s)
  {
    var c, h := s.counts, s.head;
    var a := Ages(s);
    assert a == c[h..] + c[..h] by {
      forall age | 0 <= age < 9
        ensures a[age] == (c[h..] + c[..h])[age]
      {
      }
    }
    SeqSumAppend(c[h..], c[..h]);
    SeqSumAppend(c[..h], c[h..]);
    assert c == c[..h] + c[h..];
  }

  /** After `n` days the ring stands for the school after `n` ticks, and its
      total is that school's size: the answers count the puzzle's fish. */
  lemma {:induction false} StepsAreTicks(s: FishState, xs: seq<nat>, n: nat)
    requires Valid(s) && Timers(xs) && Ages(s) == Histogram(xs)
    ensures Timers(Ticks(xs, n)) && Ages(Steps(s, n)) == Histogram(Ticks(xs, n))
    ensures TotalCount(Steps(s, n)) == |Ticks(xs, n)|
    decreases n
  {
    if n > 0 {
      StepsAreTicks(s, xs, n - 1);
      StepIsTick(Steps(s, n - 1), Ticks(xs, n - 1));
    }
    TotalIsSize(Steps(s, n), Ticks(xs, n));
  }

  // ---------------------------------------------------------------------
  // Input
  // ---------------------------------------------------------------------

  /** `str::parse::<usize>` on a 64-bit target. */
  function ParseUsize(s: string): (r: Option<nat>)
    ensures r == ParseNatBelow(s, 0x1_0000_0000_0000_0000)
  {
    ParseNatBelow(s, 0x1_0000_0000_0000_0000)
  }

  /** `counts[age] += 1` for each age in turn. */
  function AddAll(counts: seq<nat>, ages: seq<nat>): (r: seq<nat>)
    requires |counts| == 9 && Timers(ages)
    ensures |r| == 9 && forall a :: 0 <= a < 9 ==> r[a] == counts[a] + Count(ages, a)
    decreases |ages|
  {
    if |ages| == 0 then counts
    else AddAll(counts[ages[0] := counts[ages[0]] + 1], ages[1..])
  }

  /** `parse_input`: the comma-separated ages, counted into a ring whose head
      is slot 0. `None` is a panic: a piece that is not a `usize`, or an age
      of 9 or more, which indexes past the nine slots. */
  function ParseInput(raw: string): (r: Option<FishState>)
    ensures var ages := ParseAll(Split(raw, ','), ParseUsize);
      r.Some? <==> ages.Some? && Timers(ages.value)
    ensures var ages := ParseAll(Split(raw, ','), ParseUsize);
      r.Some? ==> Valid(r.value) && r.value.head == 0 && Ages(r.value) == Histogram(ages.value)
  {
    match ParseAll(Split(raw, ','), ParseUsize)
    case None => None
    case Some(ages) =>
      if !Timers(ages) then None
      else
        Some(FishState(AddAll([0, 0, 0, 0, 0, 0, 0, 0, 0], ages), 0))
  }
}

=== FILE: octopus.dfy ===
/** Day 11 (Dumbo Octopus): a grid of energy levels; each step raises every
    level by one, every octopus above 9 flashes once and raises its eight
    neighbours, possibly making them flash in turn, and the flashed ones
    drop to 0. */
module Octopus {
  import opened Wrappers
  import opened Arith
  import opened Seqs
  import opened Text
  import opened DigitGrid

  /** `OctopusGrid`: row-major levels, `dim_x` wide and `dim_y` tall. */
  datatype Grid = Grid(levels: seq<int>, dimX: int, dimY: int)

  /** One level per cell, none negative (the levels are `u8`). */
  predicate Valid(g: Grid)
  {
    && 0 <= g.dimX && 0 <= g.dimY && |g.levels| == g.dimX * g.dimY
    && forall i :: 0 <= i < |g.levels| ==> 0 <= g.levels[i]
  }

  // ---------------------------------------------------------------------
  // Geometry
  // ---------------------------------------------------------------------

  /** `OctopusGrid::index`: the cell at `(x, y)`, if it is on the grid. */
  function Index(g: Grid, x: int, y: int): (r: Option<nat>)
    requires 0 <= g.dimX && 0 <= g.dimY
    ensures r.Some? <==> 0 <= x < g.dimX && 0 <= y < g.dimY
    ensures r.Some? ==> r.value < g.dimX * g.dimY
  {
    if x < 0 || x >= g.dimX then None
    else if y < 0 || y >= g.dimY then None
    else
      MulLe(y, g.dimY - 1, g.dimX);
      Some(x + y * g.dimX)
  }

  /** The coordinates of cell `i`, as the flash loop computes them (a grid
      with no columns has no cells, so its case is never used). */
  function Coord(g: Grid, i: nat): (int, int)
  {
    if g.dimX > 0 then (i % g.dimX, i / g.dimX) else (0, 0)
  }

  /** A cell's coordinates lead back to it. */
  lemma CoordIndex(g: Grid, i: nat)
    requires 0 < g.dimX && 0 <= g.dimY && i < g.dimX * g.dimY
    ensures Index(g, Coord(g, i).0, Coord(g, i).1) == Some(i)
  {
    var (x, y) := Coord(g, i);
    if y >= g.dimY {
      MulLe(g.dimY, y, g.dimX);
    }
  }

  /** The cell at on-grid coordinates has those coordinates. */
  lemma IndexCoord(g: Grid, x: int, y: int)
    requires 0 < g.dimX && 0 <= g.dimY && Index(g, x, y).Some?
    ensures Coord(g, Index(g, x, y).value) == (x, y)
  {
    DivModUnique(x + y * g.dimX, g.dimX, y, x);
  }

  /** `neighbours`: the eight surrounding positions, in the original's order. */
  function Neighbours(x: int, y: int): (r: seq<(int, int)>)
    ensures |r| == 8
  {
    [(x - 1, y - 1), (x - 1, y), (x - 1, y + 1), (x, y - 1),
     (x, y + 1), (x + 1, y - 1), (x + 1, y), (x + 1, y + 1)]
  }

  /** The eight neighbours are exactly the other positions at most one step
      away in each direction, each listed once. */
  lemma NeighboursAround(x: int, y: int, p: (int, int))
    ensures p in Neighbours(x, y) <==> p != (x, y) && -1 <= p.0 - x <= 1 && -1 <= p.1 - y <= 1
  {
  }

  lemma NeighboursDistinct(x: int, y: int)
    ensures Distinct(Neighbours(x, y))
  {
  }

  /** The cell the `k`-th neighbour of cell `f` names, if it is on the grid. */
  function Nbr(g: Grid, f: nat, k: nat): Option<nat>
    requires 0 <= g.dimX && 0 <= g.dimY && k < 8
  {
    var (x, y) := Coord(g, f);
    var p := Neighbours(x, y)[k];
    Index(g, p.0, p.1)
  }

  /** Two cells of the grid touch: distinct, and at most one row and one
      column apart. */
  predicate Adj(g: Grid, f: int, c: int)
  {
    && 0 <= f < |g.levels| && 0 <= c < |g.levels| && f != c
    && -1 <= Coord(g, f).0 - Coord(g, c).0 <= 1
    && -1 <= Coord(g, f).1 - Coord(g, c).1 <= 1
  }

  /** Among the first `k` neighbours of `f` is cell `c`. */
  predicate HitBy(g: Grid, f: nat, k: nat, c: nat)
    requires 0 <= g.dimX && 0 <= g.dimY && k <= 8
  {
    k > 0 && (HitBy(g, f, k - 1, c) || Nbr(g, f, k - 1) == Some(c))
  }

  lemma {:induction false} HitByIs(g: Grid, f: nat, k: nat, c: nat)
    requires 0 <= g.dimX && 0 <= g.dimY && k <= 8
    ensures HitBy(g, f, k, c) <==> exists j :: 0 <= j < k && Nbr(g, f, j) == Some(c)
  {
    if k > 0 {
      HitByIs(g, f, k - 1, c);
    }
  }

  /** The on-grid neighbours of a cell are the cells it touches. */
  lemma NbrIsAdj(g: Grid, f: nat, c: nat)
    requires Valid(g) && 0 < g.dimX && f < |g.levels| && c < |g.levels|
    ensures HitBy(g, f, 8, c) <==> Adj(g, f, c)
  {
    HitByIs(g, f, 8, c);
    var (x, y) := Coord(g, f);
    var (cx, cy) := Coord(g, c);
    CoordIndex(g, f);
    CoordIndex(g, c);
    if HitBy(g, f, 8, c) {
      var j :| 0 <= j < 8 && Nbr(g, f, j) == Some(c);
      var p := Neighbours(x, y)[j];
      IndexCoord(g, p.0, p.1);
      NeighboursAround(x, y, p);
    }
    if Adj(g, f, c) {
      NeighboursAround(x, y, (cx, cy));
      var j :| 0 <= j < 8 && Neighbours(x, y)[j] == (cx, cy);
      assert Nbr(g, f, j) == Some(c);
    }
  }

  /** Distinct neighbours of a cell are distinct cells. */
  lemma NbrInjective(g: Grid, f: nat, j: nat, k: nat)
    requires Valid(g) && 0 < g.dimX && j < 8 && k < 8 && j != k
    requires Nbr(g, f, j).Some?
    ensures Nbr(g, f, j) != Nbr(g, f, k)
  {
    var (x, y) := Coord(g, f);
    var p, q := Neighbours(x, y)[j], Neighbours(x, y)[k];
    NeighboursDistinct(x, y);
    if Nbr(g, f, k) == Nbr(g, f, j) {
      IndexCoord(g, p.0, p.1);
      IndexCoord(g, q.0, q.1);
    }
  }

  // ---------------------------------------------------------------------
  // The flash rule, stated on its own
  // ---------------------------------------------------------------------

  /** The cells of `s` that touch cell `c`. */
  function AdjSet(g: Grid, s: set<nat>, c: nat): set<nat>
  {
    set f | f in s && Adj(g, f, c)
  }

  /** The number of flashing neighbours of `c`, if `s` flashes. */
  function AdjCount(g: Grid, s: set<nat>, c: nat): nat
  {
    |AdjSet(g, s, c)|
  }

  /** Cell `c` reaches 10 once raised by one and by each flashing neighbour in `s`. */
  predicate Ignites(g: Grid, s: set<nat>, c: nat)
    requires c < |g.levels|
  {
    g.levels[c] + 1 + AdjCount(g, s, c) >= 10
  }

  /** `s` holds every cell the flashes of `s` would ignite. */
  predicate Closed(g: Grid, s: set<nat>)
  {
    forall c: nat :: c < |g.levels| && Ignites(g, s, c) ==> c in s
  }

  lemma AdjCountAdd(g: Grid, s: set<nat>, f: nat, c: nat)
    requires f !in s
    ensures AdjCount(g, s + {f}, c) == AdjCount(g, s, c) + (if Adj(g, f, c) then 1 else 0)
  {
    if Adj(g, f, c) {
      assert AdjSet(g, s + {f}, c) == AdjSet(g, s, c) + {f};
    } else {
      assert AdjSet(g, s + {f}, c) == AdjSet(g, s, c);
    }
  }

  lemma AdjCountMonotone(g: Grid, s: set<nat>, t: set<nat>, c: nat)
    requires s <= t
    ensures AdjCount(g, s, c) <= AdjCount(g, t, c)
  {
    SubsetCard(AdjSet(g, s, c), AdjSet(g, t, c));
  }

  // ---------------------------------------------------------------------
  // The step, as the original computes it
  // ---------------------------------------------------------------------

  /** The cells still below 10; they bound how many more flashes a step can queue. */
  function Under(lv: seq<int>): set<nat>
  {
    set i: nat | i < |lv| && lv[i] < 10
  }

  /** Raising cell `n` by one, queueing it if it has just reached 10. */
  function Bump(lv: seq<int>, queue: seq<nat>, n: nat): (r: (seq<int>, seq<nat>))
    requires n < |lv|
    ensures |r.0| == |lv| && |Under(r.0)| + |r.1| == |Under(lv)| + |queue|
    ensures forall c :: 0 <= c < |lv| ==> r.0[c] >= lv[c]
  {
    var lv' := lv[n := lv[n] + 1];
    UnderBump(lv, n);
    if lv[n] == 9 then (lv', queue + [n]) else (lv', queue)
  }

  /** A cell reaching 10 leaves the cells below 10; no other raise changes them. */
  lemma UnderBump(lv: seq<int>, n: nat)
    requires n < |lv|
    ensures |Under(lv[n := lv[n] + 1])| == |Under(lv)| - (if lv[n] == 9 then 1 else 0)
  {
    var lv' := lv[n := lv[n] + 1];
    if lv[n] == 9 {
      assert n in Under(lv);
      assert Under(lv') == Under(lv) - {n};
    } else {
      assert Under(lv') == Under(lv);
    }
  }

  /** The loop over the neighbours of the flashing cell `f`, from the `k`-th on. */
  function Spread(g: Grid, lv: seq<int>, queue: seq<nat>, f: nat, k: nat): (r: (seq<int>, seq<nat>))
    requires 0 <= g.dimX && 0 <= g.dimY && |lv| == g.dimX * g.dimY && k <= 8
    requires forall i :: 0 <= i < |queue| ==> queue[i] < |lv|
    ensures |r.0| == |lv| && forall i :: 0 <= i < |r.1| ==> r.1[i] < |lv|
    ensures |Under(r.0)| + |r.1| == |Under(lv)| + |queue|
    ensures forall c :: 0 <= c < |lv| ==> r.0[c] >= lv[c]
    decreases 8 - k
  {
    if k == 8 then (lv, queue)
    else
      match Nbr(g, f, k)
      case None => Spread(g, lv, queue, f, k + 1)
      case Some(n) =>
        var (lv', queue') := Bump(lv, queue, n);
        Spread(g, lv', queue', f, k + 1)
  }

  /** The flash loop: pop a cell, raise its neighbours, until nothing is
      queued. It ends because every pass either shortens the queue or
      moves a cell past 9 for good. */
  function Propagate(g: Grid, lv: seq<int>, queue: seq<nat>): (r: seq<int>)
    requires 0 <= g.dimX && 0 <= g.dimY && |lv| == g.dimX * g.dimY
    requires forall i :: 0 <= i < |queue| ==> queue[i] < |lv|
    ensures |r| == |lv| && forall c :: 0 <= c < |lv| ==> r[c] >= lv[c]
    decreases |Under(lv)| + |queue|
  {
    if |queue| == 0 then lv
    else
      var f := queue[|queue| - 1];
      var (lv', queue') := Spread(g, lv, queue[..|queue| - 1], f, 0);
      Propagate(g, lv', queue')
  }

  /** Every level raised by one. */
  function Raise(levels: seq<int>): (r: seq<int>)
    ensures |r| == |levels| && forall i :: 0 <= i < |levels| ==> r[i] == levels[i] + 1
  {
    seq(|levels|, i requires 0 <= i < |levels| => levels[i] + 1)
  }

  /** The cells from `i` on above 9, in increasing order: the first queue. */
  function Overfull(lv: seq<int>, i: nat): (r: seq<nat>)
    requires i <= |lv|
    ensures forall j :: 0 <= j < |r| ==> i <= r[j] < |lv| && lv[r[j]] > 9
    ensures forall c :: i <= c < |lv| && lv[c] > 9 ==> c in r
    ensures forall j, k :: 0 <= j < k < |r| ==> r[j] < r[k]
    decreases |lv| - i
  {
    if i == |lv| then []
    else if lv[i] > 9 then [i] + Overfull(lv, i + 1)
    else Overfull(lv, i + 1)
  }

  /** The cells at 10 or more. */
  function Full(lv: seq<int>): set<nat>
  {
    set i: nat | i < |lv| && lv[i] >= 10
  }

  /** The reset loop's count: how many cells are at 10 or more. */
  function CountFull(lv: seq<int>): nat
  {
    if |lv| == 0 then 0 else CountFull(lv[..|lv| - 1]) + (if lv[|lv| - 1] >= 10 then 1 else 0)
  }

  /** Flashed cells drop to 0. */
  function Reset(lv: seq<int>): (r: seq<int>)
    ensures |r| == |lv|
  {
    seq(|lv|, i requires 0 <= i < |lv| => if lv[i] >= 10 then 0 else lv[i])
  }

  /** `OctopusGrid::step`: the grid after one step and the number of
      flashes; every level ends between 0 and 9. */
  function Step(g: Grid): (r: (Grid, nat))
    requires Valid(g)
    ensures Valid(r.0) && r.0.dimX == g.dimX && r.0.dimY == g.dimY
    ensures forall c :: 0 <= c < |g.levels| ==> r.0.levels[c] <= 9
  {
    var lv := Raise(g.levels);
    var after := Propagate(g, lv, Overfull(lv, 0));
    (Grid(Reset(after), g.dimX, g.dimY), CountFull(after))
  }

  // ---------------------------------------------------------------------
  // What the flash loop keeps true
  // ---------------------------------------------------------------------

  /** The queue holds distinct cells that have not flashed yet; `done` holds cells. */
  ghost predicate QueueOk(lv: seq<int>, queue: seq<nat>, done: set<nat>)
  {
    && Distinct(queue)
    && (forall i :: 0 <= i < |queue| ==> queue[i] < |lv| && queue[i] !in done)
    && (forall c :: c in done ==> c < |lv|)
  }

  /** A cell is at 10 or more exactly when it has flashed or waits to. */
  ghost predicate Marked(lv: seq<int>, queue: seq<nat>, done: set<nat>)
  {
    forall c :: 0 <= c < |lv| ==> (lv[c] >= 10 <==> c in done || c in queue)
  }

  /** Every cell the loop has flashed or queued flashes in every closed set. */
  ghost predicate Forced(g: Grid, queue: seq<nat>, done: set<nat>)
  {
    forall s :: Closed(g, s) ==> done <= s && forall i :: 0 <= i < |queue| ==> queue[i] in s
  }

  /** Between two pops: each level is its start plus one plus one per flashed neighbour. */
  ghost predicate PropInv(g: Grid, lv: seq<int>, queue: seq<nat>, done: set<nat>)
  {
    && |lv| == |g.levels| && QueueOk(lv, queue, done) && Marked(lv, queue, done) && Forced(g, queue, done)
    && forall c :: 0 <= c < |lv| ==> lv[c] == g.levels[c] + 1 + AdjCount(g, done, c)
  }

  /** While cell `f` raises its neighbours, only the first `k` of them are counted. */
  ghost predicate SpreadInv(g: Grid, lv: seq<int>, queue: seq<nat>, done: set<nat>, f: nat, k: nat)
    requires 0 <= g.dimX && 0 <= g.dimY && k <= 8
  {
    && f in done
    && |lv| == |g.levels| && QueueOk(lv, queue, done) && Marked(lv, queue, done) && Forced(g, queue, done)
    && forall c :: 0 <= c < |lv| ==>
         lv[c] == g.levels[c] + 1 + AdjCount(g, done - {f}, c) + (if HitBy(g, f, k, c) then 1 else 0)
  }

  /** The `k`-th neighbour of `f` is one not counted before. */
  lemma NbrFresh(g: Grid, f: nat, k: nat, n: nat)
    requires Valid(g) && f < |g.levels| && k < 8 && Nbr(g, f, k) == Some(n)
    ensures !HitBy(g, f, k, n) && HitBy(g, f, 8, n) && Adj(g, f, n)
  {
    HitByIs(g, f, k, n);
    if HitBy(g, f, k, n) {
      var j :| 0 <= j < k && Nbr(g, f, j) == Some(n);
      NbrInjective(g, f, j, k);
    }
    HitByIs(g, f, 8, n);
    assert Nbr(g, f, k) == Some(n);
    NbrIsAdj(g, f, n);
  }

  /** A cell pushed by a bump is forced: it reached 10 from flashed neighbours alone. */
  lemma BumpForced(g: Grid, lv: seq<int>, queue: seq<nat>, done: set<nat>, f: nat, k: nat, n: nat)
    requires Valid(g) && k < 8 && SpreadInv(g, lv, queue, done, f, k)
    requires Nbr(g, f, k) == Some(n) && lv[n] == 9
    ensures Forced(g, queue + [n], done)
  {
    NbrFresh(g, f, k, n);
    AdjCountAdd(g, done - {f}, f, n);
    assert done - {f} + {f} == done;
    forall s | Closed(g, s)
      ensures done <= s && forall i :: 0 <= i < |queue + [n]| ==> (queue + [n])[i] in s
    {
      AdjCountMonotone(g, done, s, n);
      assert Ignites(g, s, n);
    }
  }

  /** One bump keeps the spread invariant, with one more neighbour counted. */
  lemma BumpStep(g: Grid, lv: seq<int>, queue: seq<nat>, done: set<nat>, f: nat, k: nat, n: nat)
    requires Valid(g) && k < 8 && SpreadInv(g, lv, queue, done, f, k)
    requires Nbr(g, f, k) == Some(n)
    ensures var (lv', queue') := Bump(lv, queue, n); SpreadInv(g, lv', queue', done, f, k + 1)
  {
    var (lv', queue') := Bump(lv, queue, n);
    NbrFresh(g, f, k, n);
    forall c | 0 <= c < |lv|
      ensures HitBy(g, f, k + 1, c) <==> HitBy(g, f, k, c) || c == n
    {
    }
    if lv[n] == 9 {
      BumpForced(g, lv, queue, done, f, k, n);
      assert n !in queue && n !in done;
      assert Distinct(queue + [n]) by {
        forall i, j | 0 <= i < j < |queue + [n]|
          ensures (queue + [n])[i] != (queue + [n])[j]
        {
          if j == |queue| {
            assert (queue + [n])[i] == queue[i];
          }
        }
      }
      assert forall c :: c in queue' <==> c in queue || c == n;
    }
  }

  /** The neighbour loop keeps the invariant to its end. */
  lemma {:induction false} SpreadSpec(g: Grid, lv: seq<int>, queue: seq<nat>, done: set<nat>, f: nat, k: nat)
    requires Valid(g) && k <= 8 && SpreadInv(g, lv, queue, done, f, k)
    ensures var (lv', queue') := Spread(g, lv, queue, f, k); SpreadInv(g, lv', queue', done, f, 8)
    decreases 8 - k
  {
    if k < 8 {
      match Nbr(g, f, k)
      case None => {
        assert forall c :: 0 <= c < |lv| ==> (HitBy(g, f, k + 1, c) <==> HitBy(g, f, k, c));
        SpreadSpec(g, lv, queue, done, f, k + 1);
      }
      case Some(n) => {
        BumpStep(g, lv, queue, done, f, k, n);
        var (lv', queue') := Bump(lv, queue, n);
        SpreadSpec(g, lv', queue', done, f, k + 1);
      }
    }
  }

  /** Popping `f` starts a spread: it counts as flashed, none of its neighbours yet. */
  lemma PopStart(g: Grid, lv: seq<int>, queue: seq<nat>, done: set<nat>)
    requires Valid(g) && |queue| > 0 && PropInv(g, lv, queue, done)
    ensures var f := queue[|queue| - 1];
      SpreadInv(g, lv, queue[..|queue| - 1], done + {f}, f, 0)
  {
    var f := queue[|queue| - 1];
    var rest := queue[..|queue| - 1];
    assert queue == rest + [f];
    assert f !in rest;
    assert done + {f} - {f} == done;
    assert forall c :: c in queue <==> c in rest || c == f;
  }

  /** A finished spread is back to the loop invariant with `f` flashed. */
  lemma SpreadEnd(g: Grid, lv: seq<int>, queue: seq<nat>, done: set<nat>, f: nat)
    requires Valid(g) && SpreadInv(g, lv, queue, done, f, 8)
    ensures PropInv(g, lv, queue, done)
  {
    forall c | 0 <= c < |lv|
      ensures lv[c] == g.levels[c] + 1 + AdjCount(g, done, c)
    {
      NbrIsAdj(g, f, c);
      AdjCountAdd(g, done - {f}, f, c);
      assert done - {f} + {f} == done;
    }
  }

  /** The flash loop ends with nothing queued and the invariant kept. */
  lemma {:induction false} PropagateSpec(g: Grid, lv: seq<int>, queue: seq<nat>, done: set<nat>)
    requires Valid(g) && PropInv(g, lv, queue, done)
    ensures PropInv(g, Propagate(g, lv, queue), [], Full(Propagate(g, lv, queue)))
    decreases |Under(lv)| + |queue|
  {
    if |queue| == 0 {
      assert done == Full(lv);
    } else {
      var f := queue[|queue| - 1];
      var rest := queue[..|queue| - 1];
      PopStart(g, lv, queue, done);
      SpreadSpec(g, lv, rest, done + {f}, f, 0);
      var (lv', queue') := Spread(g, lv, rest, f, 0);
      SpreadEnd(g, lv', queue', done + {f}, f);
      PropagateSpec(g, lv', queue', done + {f});
    }
  }

  /** Before the loop nothing has flashed and the queue holds the cells above 9. */
  lemma PropStart(g: Grid)
    requires Valid(g)
    ensures var lv := Raise(g.levels); PropInv(g, lv, Overfull(lv, 0), {})
  {
    var lv := Raise(g.levels);
    var q := Overfull(lv, 0);
    forall c | 0 <= c < |lv|
      ensures AdjCount(g, {}, c) == 0
    {
      assert AdjSet(g, {}, c) == {};
    }
    forall s | Closed(g, s)
      ensures forall i :: 0 <= i < |q| ==> q[i] in s
    {
      forall i | 0 <= i < |q|
        ensures q[i] in s
      {
        assert Ignites(g, s, q[i]);
      }
    }
  }

  /** The number of cells at 10 or more, counted one by one. */
  lemma {:induction false} CountFullIs(lv: seq<int>)
    ensures CountFull(lv) == |Full(lv)|
    decreases |lv|
  {
    if |lv| > 0 {
      var init := lv[..|lv| - 1];
      CountFullIs(init);
      if lv[|lv| - 1] >= 10 {
        assert Full(lv) == Full(init) + {|lv| - 1};
      } else {
        assert Full(lv) == Full(init);
      }
    }
  }

  /** The cells that flash in one step of `g`. */
  function Flashed(g: Grid): set<nat>
    requires Valid(g)
  {
    var lv := Raise(g.levels);
    Full(Propagate(g, lv, Overfull(lv, 0)))
  }

  /** The flashed cells are those the step leaves at 0. */
  lemma FlashedIs(g: Grid)
    requires Valid(g)
    ensures forall c :: c in Flashed(g) <==> 0 <= c < |g.levels| && Step(g).0.levels[c] == 0
  {
    var lv := Raise(g.levels);
    var after := Propagate(g, lv, Overfull(lv, 0));
    assert forall c :: 0 <= c < |after| ==> after[c] >= 1;
  }

  /** One step, stated without the queue: the flashing cells are the least
      set closed under the flash rule, each of them ignites from the others,
      they are counted, they drop to 0, and every other cell ends at its
      level plus one plus its number of flashing neighbours. */
  lemma StepSpec(g: Grid)
    requires Valid(g)
    ensures var fl := Flashed(g);
      && Closed(g, fl)
      && (forall s :: Closed(g, s) ==> fl <= s)
      && (forall c :: 0 <= c < |g.levels| ==> (c in fl <==> Ignites(g, fl, c)))
      && Step(g).1 == |fl|
      && forall c :: 0 <= c < |g.levels| && c !in fl ==>
           Step(g).0.levels[c] == g.levels[c] + 1 + AdjCount(g, fl, c)
  {
    var lv := Raise(g.levels);
    var after := Propagate(g, lv, Overfull(lv, 0));
    PropStart(g);
    PropagateSpec(g, lv, Overfull(lv, 0), {});
    StepCount(g);
    assert Flashed(g) == Full(after);
  }

  /** The step's count is the number of flashed cells. */
  lemma StepCount(g: Grid)
    requires Valid(g)
    ensures Step(g).1 == |Flashed(g)|
  {
    var lv := Raise(g.levels);
    CountFullIs(Propagate(g, lv, Overfull(lv, 0)));
  }

  /** A set of cells below `n` has `n` members exactly when it holds them all. */
  lemma CoversAll(s: set<nat>, n: nat)
    requires forall c :: c in s ==> c < n
    ensures |s| == n <==> forall c: nat :: c < n ==> c in s
  {
    RangeCard(n);
    if forall c: nat :: c < n ==> c in s {
      assert s == Range(n);
    } else {
      var c: nat :| c < n && c !in s;
      SubsetCard(s, Range(n) - {c});
    }
  }

  /** Every octopus flashes in a step exactly when the count equals the
      number of cells, which is when the whole grid is left at 0. */
  lemma AllFlash(g: Grid)
    requires Valid(g)
    ensures Step(g).1 == |g.levels| <==> forall c :: 0 <= c < |g.levels| ==> Step(g).0.levels[c] == 0
  {
    StepCount(g);
    FlashedIs(g);
    CoversAll(Flashed(g), |g.levels|);
  }

  lemma FlashedBound(g: Grid)
    requires Valid(g)
    ensures |Flashed(g)| <= |g.levels|
  {
    FlashedIs(g);
    SubsetCard(Flashed(g), Range(|g.levels|));
    RangeCard(|g.levels|);
  }

  // ---------------------------------------------------------------------
  // Many steps
  // ---------------------------------------------------------------------

  /** Every octopus is at 0: they have all just flashed together. */
  predicate AllZero(g: Grid)
  {
    forall c :: 0 <= c < |g.levels| ==> g.levels[c] == 0
  }

  /** What the repeated-step bookkeeping needs of a step at a valid grid:
      it keeps the grid valid and its size, counts no more flashes than
      cells, and counts every cell exactly when it leaves them all at 0. */
  ghost predicate StepOk(step: Grid --> (Grid, nat), h: Grid)
  {
    Valid(h) ==>
      && step.requires(h) && Valid(step(h).0) && |step(h).0.levels| == |h.levels|
      && step(h).1 <= |h.levels| && (step(h).1 == |h.levels| <==> AllZero(step(h).0))
  }

  ghost predicate Stepper(step: Grid --> (Grid, nat))
  {
    forall h :: StepOk(step, h)
  }

  lemma StepIsStepper()
    ensures Stepper(Step)
  {
    forall h
      ensures StepOk(Step, h)
    {
      if Valid(h) {
        StepCount(h);
        FlashedBound(h);
        AllFlash(h);
      }
    }
  }

  lemma StepAt(step: Grid --> (Grid, nat), h: Grid)
    requires Stepper(step) && Valid(h)
    ensures step.requires(h) && Valid(step(h).0) && |step(h).0.levels| == |h.levels|
    ensures step(h).1 <= |h.levels| && (step(h).1 == |h.levels| <==> AllZero(step(h).0))
  {
    assert StepOk(step, h);
  }

  /** The grid after `n` steps. */
  function Iterate(step: Grid --> (Grid, nat), g: Grid, n: nat): (r: Grid)
    requires Stepper(step) && Valid(g)
    ensures Valid(r) && |r.levels| == |g.levels| && step.requires(r)
    decreases n
  {
    StepAt(step, g);
    if n == 0 then g
    else
      Iterate(step, step(g).0, n - 1)
  }

  /** Stepping the grid after `n` steps gives the grid after `n + 1`. */
  lemma {:induction false} IterateNext(step: Grid --> (Grid, nat), g: Grid, n: nat)
    requires Stepper(step) && Valid(g)
    ensures Iterate(step, g, n + 1) == step(Iterate(step, g, n)).0
    decreases n
  {
    StepAt(step, g);
    if n > 0 {
      IterateNext(step, step(g).0, n - 1);
    }
  }

  /** The number of flashes in the first `n` steps. */
  function Flashes(step: Grid --> (Grid, nat), g: Grid, n: nat): nat
    requires Stepper(step) && Valid(g)
  {
    if n == 0 then 0
    else
      StepAt(step, Iterate(step, g, n - 1));
      Flashes(step, g, n - 1) + step(Iterate(step, g, n - 1)).1
  }

  /** No step flashes a cell twice, so `n` steps flash at most `n` times per cell. */
  lemma {:induction false} FlashesBound(step: Grid --> (Grid, nat), g: Grid, n: nat)
    requires Stepper(step) && Valid(g)
    ensures Flashes(step, g, n) <= n * |g.levels|
  {
    if n > 0 {
      FlashesBound(step, g, n - 1);
      StepAt(step, Iterate(step, g, n - 1));
      SumBound(Flashes(step, g, n - 1), step(Iterate(step, g, n - 1)).1, n, |g.levels|);
    }
  }

  lemma SumBound(before: nat, now: nat, n: nat, len: nat)
    requires n > 0 && before <= (n - 1) * len && now <= len
    ensures before + now <= n * len
  {
    assert (n - 1) * len + len == n * len;
  }

  /** `part_1`: the total number of flashes over the first 100 steps. */
  method Part1(g: Grid) returns (flashes: nat)
    requires Valid(g)
    ensures Stepper(Step) && flashes == Flashes(Step, g, 100) && flashes <= 100 * |g.levels|
  {
    StepIsStepper();
    var state := g;
    flashes := 0;
    for i := 0 to 100
      invariant state == Iterate(Step, g, i) && flashes == Flashes(Step, g, i)
    {
      IterateNext(Step, g, i);
      var (next, n) := Step(state);
      flashes := flashes + n;
      state := next;
    }
    FlashesBound(Step, g, 100);
  }

  /** None of steps `1..n` (exclusive) leaves every octopus at 0. */
  ghost predicate NoSyncBefore(step: Grid --> (Grid, nat), g: Grid, n: nat)
    requires Stepper(step) && Valid(g)
  {
    forall t :: 1 <= t < n ==> !AllZero(Iterate(step, g, t))
  }

  lemma NoSyncExtend(step: Grid --> (Grid, nat), g: Grid, n: nat)
    requires Stepper(step) && Valid(g) && n >= 1
    requires NoSyncBefore(step, g, n) && !AllZero(Iterate(step, g, n))
    ensures NoSyncBefore(step, g, n + 1)
  {
  }

  /** Step `n + 1` counts every cell exactly when it leaves them all at 0. */
  lemma SyncStep(step: Grid --> (Grid, nat), g: Grid, n: nat)
    requires Stepper(step) && Valid(g)
    ensures var h := Iterate(step, g, n);
      step(h).0 == Iterate(step, g, n + 1) && (step(h).1 == |h.levels| <==> AllZero(Iterate(step, g, n + 1)))
  {
    IterateNext(step, g, n);
    StepAt(step, Iterate(step, g, n));
  }

  /** The first of steps `1..limit` after which every octopus has just
      flashed, stepping with `step`. */
  method FirstSync(step: Grid --> (Grid, nat), g: Grid, limit: nat) returns (r: Option<nat>)
    requires Stepper(step) && Valid(g)
    ensures r.Some? ==> 1 <= r.value <= limit && AllZero(Iterate(step, g, r.value)) && NoSyncBefore(step, g, r.value)
    ensures r.None? ==> NoSyncBefore(step, g, limit + 1)
  {
    var state := g;
    var steps := 1;
    while steps <= limit
      invariant 1 <= steps <= limit + 1 && state == Iterate(step, g, steps - 1)
      invariant NoSyncBefore(step, g, steps)
    {
      SyncStep(step, g, steps - 1);
      var (next, n) := step(state);
      if n == |state.levels| {
        return Some(steps);
      }
      NoSyncExtend(step, g, steps);
      state := next;
      steps := steps + 1;
    }
    return None;
  }

  /** `part_2`: the first step after which every octopus has just flashed.
      The original steps until that happens; here the search gives up with
      `None` after `limit` steps. */
  method Part2(g: Grid, limit: nat) returns (r: Option<nat>)
    requires Valid(g)
    ensures Stepper(Step)
    ensures r.Some? ==> 1 <= r.value <= limit && AllZero(Iterate(Step, g, r.value)) && NoSyncBefore(Step, g, r.value)
    ensures r.None? ==> NoSyncBefore(Step, g, limit + 1)
  {
    StepIsStepper();
    r := FirstSync(Step, g, limit);
  }

  // ---------------------------------------------------------------------
  // Parsing
  // ---------------------------------------------------------------------

  /** `parse_grid`: the digits row-major; the width is the length of the
      first line and the height the number of lines, both cut to `u8`.
      `None` where `lines().next().unwrap()` panics. */
  function ParseGrid(raw: string): (r: Option<Grid>)
    ensures r.Some? <==> raw != []
    ensures r.Some? ==> r.value.levels == Digits(raw)
    ensures r.Some? ==> |Lines(raw)| > 0 && r.value.dimX == |Lines(raw)[0]| % 256 && r.value.dimY == |Lines(raw)| % 256
  {
    var lines := Lines(raw);
    if |lines| == 0 then
      NoLinesMeansEmpty(raw);
      None
    else Some(Grid(Digits(raw), |lines[0]| % 256, |lines| % 256))
  }

  /** Equal-length digit rows, fewer than 256 of at most 255 digits, parse
      back to a valid grid holding digit (x, y) at cell `x + y * width`. */
  lemma ParseRows(rows: seq<string>, w: nat, trailing: bool, x: nat, y: nat)
    requires |rows| > 0 && 0 < w < 256 && |rows| < 256 && DigitRows(rows, w)
    requires x < w && y < |rows|
    ensures var r := ParseGrid(RowsText(rows, trailing));
      && r.Some? && Valid(r.value) && r.value.dimX == w && r.value.dimY == |rows|
      && Index(r.value, x, y).Some? && r.value.levels[Index(r.value, x, y).value] == DigitValue(rows[y][x])
  {
    RowsTextFacts(rows, w, trailing);
    RowLevelsLength(rows, w);
    RowLevelsAt(rows, w, x, y);
    var raw := RowsText(rows, trailing);
    assert raw != [];
  }
}

=== FILE: origami.dfy ===
/** Day 13 (Transparent Origami): a set of dots on transparent paper is
    folded up along vertical (`x=`) and horizontal (`y=`) lines; a dot past
    the line lands on its mirror image, and dots that meet merge. */
module Origami {
  import opened Wrappers
  import opened Text

  datatype Point = Point(x: int, y: int)

  /** `fold along x=N` or `fold along y=N`. */
  datatype Fold = X(line: int) | Y(line: int)

  datatype Input = Input(points: set<Point>, folds: seq<Fold>)

  // ---------------------------------------------------------------------
  // One fold
  // ---------------------------------------------------------------------

  /** The dot is on the side of the line that stays put (the line included). */
  predicate Kept(p: Point, f: Fold)
  {
    match f
    case X(l) => p.x <= l
    case Y(l) => p.y <= l
  }

  /** The mirror image of a dot across the fold line. */
  function Mirror(p: Point, f: Fold): Point
  {
    match f
    case X(l) => Point(2 * l - p.x, p.y)
    case Y(l) => Point(p.x, 2 * l - p.y)
  }

  /** Where one dot lands: unchanged on the kept side, mirrored from the other. */
  function FoldPoint(p: Point, f: Fold): (q: Point)
    ensures Kept(q, f)
    ensures f.X? ==> q.y == p.y && q.x <= p.x
    ensures f.Y? ==> q.x == p.x && q.y <= p.y
    ensures Kept(p, f) ==> q == p
    ensures !Kept(p, f) ==> q == Mirror(p, f)
  {
    match f
    case X(l) => if p.x <= l then p else Point(2 * l - p.x, p.y)
    case Y(l) => if p.y <= l then p else Point(p.x, 2 * l - p.y)
  }

  lemma MirrorMirror(p: Point, f: Fold)
    ensures Mirror(Mirror(p, f), f) == p
  {
  }

  /** A dot and its mirror image land on the same place. */
  lemma FoldMirror(p: Point, f: Fold)
    ensures FoldPoint(Mirror(p, f), f) == FoldPoint(p, f)
  {
  }

  /** Folding a second time along the same line moves nothing. */
  lemma FoldPointIdempotent(p: Point, f: Fold)
    ensures FoldPoint(FoldPoint(p, f), f) == FoldPoint(p, f)
  {
  }

  /** `do_fold`: every dot moved by the fold, duplicates merged by the set. */
  function DoFold(points: set<Point>, f: Fold): set<Point>
  {
    set p | p in points :: FoldPoint(p, f)
  }

  /** A dot is present after a fold exactly when it is on the kept side and
      it, or its mirror image, was present before. */
  lemma FoldMembers(points: set<Point>, f: Fold, q: Point)
    ensures q in DoFold(points, f) <==> Kept(q, f) && (q in points || Mirror(q, f) in points)
  {
    if q in DoFold(points, f) {
      var p :| p in points && FoldPoint(p, f) == q;
      if !Kept(p, f) {
        MirrorMirror(p, f);
      }
    }
    if Kept(q, f) && Mirror(q, f) in points {
      FoldMirror(q, f);
      assert FoldPoint(Mirror(q, f), f) in DoFold(points, f);
    }
    if Kept(q, f) && q in points {
      assert FoldPoint(q, f) in DoFold(points, f);
    }
  }

  /** A fold never adds dots. */
  lemma {:induction false} FoldCount(points: set<Point>, f: Fold)
    ensures |DoFold(points, f)| <= |points|
    decreases |points|
  {
    if points != {} {
      var p :| p in points;
      var rest := points - {p};
      FoldCount(rest, f);
      assert DoFold(points, f) == DoFold(rest, f) + {FoldPoint(p, f)};
    }
  }

  /** Folding the folded paper again along the same line changes nothing. */
  lemma FoldIdempotent(points: set<Point>, f: Fold)
    ensures DoFold(DoFold(points, f), f) == DoFold(points, f)
  {
    forall q | q in DoFold(DoFold(points, f), f)
      ensures q in DoFold(points, f)
    {
      var p :| p in DoFold(points, f) && FoldPoint(p, f) == q;
      assert Kept(p, f);
    }
    forall q | q in DoFold(points, f)
      ensures q in DoFold(DoFold(points, f), f)
    {
      assert FoldPoint(q, f) == q;
    }
  }

  /** `do_fold` as the loop draining the old set into a new one. */
  method DoFoldLoop(points: set<Point>, f: Fold) returns (r: set<Point>)
    ensures forall q :: q in r <==> Kept(q, f) && (q in points || Mirror(q, f) in points)
    ensures |r| <= |points|
  {
    var rest := points;
    r := {};
    while rest != {}
      invariant rest <= points
      invariant r == DoFold(points - rest, f)
      decreases |rest|
    {
      var p :| p in rest;
      r := r + {FoldPoint(p, f)};
      rest := rest - {p};
    }
    assert points - rest == points;
    forall q
      ensures q in r <==> Kept(q, f) && (q in points || Mirror(q, f) in points)
    {
      FoldMembers(points, f, q);
    }
    FoldCount(points, f);
  }

  // ---------------------------------------------------------------------
  // Several folds
  // ---------------------------------------------------------------------

  /** The folds applied in order. */
  function FoldAll(points: set<Point>, folds: seq<Fold>): set<Point>
    decreases |folds|
  {
    if |folds| == 0 then points else FoldAll(DoFold(points, folds[0]), folds[1..])
  }

  /** Folding along `a` and then along `b` is folding along `a + b`. */
  lemma {:induction false} FoldAllAppend(points: set<Point>, a: seq<Fold>, b: seq<Fold>)
    ensures FoldAll(points, a + b) == FoldAll(FoldAll(points, a), b)
    decreases |a|
  {
    if |a| > 0 {
      assert (a + b)[0] == a[0] && (a + b)[1..] == a[1..] + b;
      FoldAllAppend(DoFold(points, a[0]), a[1..], b);
      assert FoldAll(points, a + b) == FoldAll(DoFold(points, a[0]), a[1..] + b);
    } else {
      assert a + b == b;
    }
  }

  lemma {:induction false} FoldAllCount(points: set<Point>, folds: seq<Fold>)
    ensures |FoldAll(points, folds)| <= |points|
    decreases |folds|
  {
    if |folds| > 0 {
      FoldCount(points, folds[0]);
      FoldAllCount(DoFold(points, folds[0]), folds[1..]);
    }
  }

  /** A fold only ever moves a coordinate down, so a dot on the kept side
      of a line stays there through any later fold. */
  lemma {:induction false} FoldAllKeeps(points: set<Point>, folds: seq<Fold>, f: Fold)
    requires forall p :: p in points ==> Kept(p, f)
    ensures forall q :: q in FoldAll(points, folds) ==> Kept(q, f)
    decreases |folds|
  {
    if |folds| > 0 {
      forall q | q in DoFold(points, folds[0])
        ensures Kept(q, f)
      {
        var p :| p in points && FoldPoint(p, folds[0]) == q;
      }
      FoldAllKeeps(DoFold(points, folds[0]), folds[1..], f);
    }
  }

  /** After all the folds every dot is on the kept side of every fold line. */
  lemma {:induction false} FoldAllKept(points: set<Point>, folds: seq<Fold>)
    ensures forall q, k :: q in FoldAll(points, folds) && 0 <= k < |folds| ==> Kept(q, folds[k])
    decreases |folds|
  {
    if |folds| > 0 {
      var after := DoFold(points, folds[0]);
      FoldAllKept(after, folds[1..]);
      FoldAllKeeps(after, folds[1..], folds[0]);
      assert FoldAll(points, folds) == FoldAll(after, folds[1..]);
      forall q, k | q in FoldAll(points, folds) && 0 <= k < |folds|
        ensures Kept(q, folds[k])
      {
        if k > 0 {
          assert folds[k] == folds[1..][k - 1];
        }
      }
    }
  }

  /** `part_1`: the number of dots after the first fold; `None` where the
      original panics because there is no fold. */
  function Part1(input: Input): (r: Option<nat>)
    ensures r.None? <==> |input.folds| == 0
    ensures r.Some? ==> r.value <= |input.points|
    ensures r.Some? ==> r.value == |FoldAll(input.points, input.folds[..1])|
  {
    if |input.folds| == 0 then None
    else
      FoldCount(input.points, input.folds[0]);
      assert FoldAll(input.points, input.folds[..1]) == DoFold(input.points, input.folds[0]);
      Some(|DoFold(input.points, input.folds[0])|)
  }

  /** `part_2_impl`: every fold applied in order to the dots. */
  method Part2Impl(points: set<Point>, folds: seq<Fold>) returns (r: set<Point>)
    ensures r == FoldAll(points, folds)
    ensures |r| <= |points|
    ensures forall q, k :: q in r && 0 <= k < |folds| ==> Kept(q, folds[k])
  {
    r := points;
    for i := 0 to |folds|
      invariant r == FoldAll(points, folds[..i])
    {
      FoldAllAppend(points, folds[..i], [folds[i]]);
      assert folds[..i + 1] == folds[..i] + [folds[i]];
      r := DoFoldLoop(r, folds[i]);
      forall q
        ensures q in r <==> q in DoFold(FoldAll(points, folds[..i]), folds[i])
      {
        FoldMembers(FoldAll(points, folds[..i]), folds[i], q);
      }
    }
    assert folds[..|folds|] == folds;
    FoldAllCount(points, folds);
    FoldAllKept(points, folds);
  }

  // ---------------------------------------------------------------------
  // Parsing
  // ---------------------------------------------------------------------

  /** A dot line `x,y`; text after a second comma is ignored. */
  function ParsePoint(line: string): Option<Point>
  {
    var parts := Split(line, ',');
    match ParseI64(parts[0])
    case None => None
    case Some(x) =>
      if |parts| < 2 then None
      else
        match ParseI64(parts[1])
        case None => None
        case Some(y) => Some(Point(x, y))
  }

  /** Where the fold line's axis letter sits: `"fold along ".len()`. */
  const AxisAt: nat := 11

  /** A fold line: the number after the first `=`, the axis letter at byte 11. */
  function ParseFold(line: string): Option<Fold>
  {
    var parts := Split(line, '=');
    if |parts| < 2 then None
    else
      match ParseI64(parts[1])
      case None => None
      case Some(v) =>
        if |line| <= AxisAt then None
        else if line[AxisAt] == 'x' then Some(X(v))
        else if line[AxisAt] == 'y' then Some(Y(v))
        else None
  }

  /** The dot lines, collected into a set. */
  function ParsePoints(lines: seq<string>): (r: Option<set<Point>>)
    ensures r.Some? <==> forall k :: 0 <= k < |lines| ==> ParsePoint(lines[k]).Some?
    ensures r.Some? ==> forall p :: p in r.value <==> exists k :: 0 <= k < |lines| && ParsePoint(lines[k]) == Some(p)
  {
    if |lines| == 0 then Some({})
    else
      match ParsePoint(lines[0])
      case None => None
      case Some(p) =>
        match ParsePoints(lines[1..])
        case None => None
        case Some(rest) =>
          assert forall k :: 1 <= k < |lines| ==> lines[k] == lines[1..][k - 1];
          Some({p} + rest)
  }

  /** The fold lines, in order. */
  function ParseFolds(lines: seq<string>): (r: Option<seq<Fold>>)
    ensures r.Some? <==> forall k :: 0 <= k < |lines| ==> ParseFold(lines[k]).Some?
    ensures r.Some? ==> |r.value| == |lines| && forall k :: 0 <= k < |lines| ==> ParseFold(lines[k]) == Some(r.value[k])
  {
    if |lines| == 0 then Some([])
    else
      match ParseFold(lines[0])
      case None => None
      case Some(f) =>
        match ParseFolds(lines[1..])
        case None => None
        case Some(rest) =>
          assert forall k :: 1 <= k < |lines| ==> lines[k] == lines[1..][k - 1];
          Some([f] + rest)
  }

  /** The index of the first empty line, or the number of lines. */
  function FirstBlank(lines: seq<string>): (i: nat)
    ensures i <= |lines|
    ensures i < |lines| ==> lines[i] == []
    ensures forall k :: 0 <= k < i ==> lines[k] != []
  {
    if |lines| == 0 then 0
    else if lines[0] == [] then 0
    else 1 + FirstBlank(lines[1..])
  }

  lemma SectionsParse(lines: seq<string>, i: nat, rest: seq<string>)
    requires i <= |lines| && rest == if i < |lines| then lines[i + 1..] else []
    ensures (forall k :: 0 <= k < |lines[..i]| ==> ParsePoint(lines[..i][k]).Some?)
      <==> (forall k :: 0 <= k < i ==> ParsePoint(lines[k]).Some?)
    ensures (forall k :: 0 <= k < |rest| ==> ParseFold(rest[k]).Some?)
      <==> (forall k :: i < k < |lines| ==> ParseFold(lines[k]).Some?)
  {
    assert |lines[..i]| == i && forall k :: 0 <= k < i ==> lines[..i][k] == lines[k];
    assert forall k :: i < k < |lines| ==> lines[k] == rest[k - i - 1];
  }

  /** `parse_input`: dots up to the first empty line, folds after it; `None`
      where a line fails to parse and the original panics. */
  function ParseInput(raw: string): (r: Option<Input>)
    ensures var lines := Lines(raw); var i := FirstBlank(lines);
      r.Some? <==>
        && (forall k :: 0 <= k < i ==> ParsePoint(lines[k]).Some?)
        && (forall k :: i < k < |lines| ==> ParseFold(lines[k]).Some?)
  {
    var lines := Lines(raw);
    var i := FirstBlank(lines);
    var rest := if i < |lines| then lines[i + 1..] else [];
    SectionsParse(lines, i, rest);
    match ParsePoints(lines[..i])
    case None => None
    case Some(points) =>
      match ParseFolds(rest)
      case None =>
        None
      case Some(folds) => Some(Input(points, folds))
  }

  // ---------------------------------------------------------------------
  // Rendering, the partner of parsing
  // ---------------------------------------------------------------------

  function RenderPoint(p: Point): string
  {
    IntString(p.x) + "," + IntString(p.y)
  }

  function RenderFold(f: Fold): string
  {
    match f
    case X(l) => "fold along x=" + IntString(l)
    case Y(l) => "fold along y=" + IntString(l)
  }

  lemma ParseRenderPoint(p: Point)
    requires I64Min <= p.x <= I64Max && I64Min <= p.y <= I64Max
    ensures ParsePoint(RenderPoint(p)) == Some(p)
  {
    IntStringHasNo(p.x, ',');
    IntStringHasNo(p.y, ',');
    var parts := [IntString(p.x), IntString(p.y)];
    assert Join(parts, ',') == RenderPoint(p);
    JoinSplit(parts, ',');
    ParseIntString(p.x);
    ParseIntString(p.y);
  }

  lemma ParseRenderFold(f: Fold)
    requires I64Min <= f.line <= I64Max
    ensures ParseFold(RenderFold(f)) == Some(f)
  {
    var line := RenderFold(f);
    var axis := if f.X? then "fold along x" else "fold along y";
    var digits := IntString(f.line);
    assert line == axis + "=" + digits;
    IntStringHasNo(f.line, '=');
    assert '=' !in axis;
    var parts := [axis, digits];
    assert Join(parts, '=') == line by {
      assert Join(parts[1..], '=') == digits;
    }
    JoinSplit(parts, '=');
    ParseIntString(f.line);
    assert |line| > AxisAt && line[AxisAt] == axis[AxisAt];
  }
}

=== FILE: packet_eval.dfy ===
/** Day 16, part three: `Message::eval` of src/day_16/mod.rs, the value of a
    packet tree. The original's `unwrap` panics (a minimum or maximum of no
    children, a comparison with fewer than two) are `None` here, and so is
    any panic below the packet. */
module PacketEval {
  import opened Wrappers
  import opened PacketParser
  import opened Arith

  /** A comparison's outcome as the 1 or 0 the original returns. */
  function CompareValues(cmp: Comparison, a: nat, b: nat): (r: nat)
    ensures r <= 1
  {
    var pass := match cmp
      case GreaterThan => a > b
      case LessThan => a < b
      case EqualTo => a == b;
    if pass then 1 else 0
  }

  /** The value of packet `id`. Sum, product, minimum and maximum consume every
      child; a comparison pulls only the first two children from the lazy
      iterator, so a third child is never evaluated. */
  function Eval(arena: seq<Packet>, id: nat): (r: Option<nat>)
    requires ChildrenBefore(arena) && id < |arena|
    ensures arena[id].payload.Literal? ==> r == Some(arena[id].payload.value)
    ensures arena[id].payload == Operator(Sum, []) ==> r == Some(0)
    ensures arena[id].payload == Operator(Product, []) ==> r == Some(1)
    ensures arena[id].payload == Operator(Min, []) || arena[id].payload == Operator(Max, []) ==> r == None
    ensures arena[id].payload.Operator? && arena[id].payload.operation.Compare? ==>
              (|arena[id].payload.subPackets| < 2 ==> r == None) && (r.Some? ==> r.value <= 1)
    decreases id, 1
  {
    match arena[id].payload
    case Literal(v) => Some(v)
    case Operator(op, subs) =>
      if op.Compare? then
        if |subs| < 2 then None
        else
          match (Eval(arena, subs[0]), Eval(arena, subs[1]))
          case (Some(a), Some(b)) => Some(CompareValues(op.op, a, b))
          case _ => None
      else
        match EvalAll(arena, subs, id)
        case None => None
        case Some(vs) =>
          match op
          case Sum => Some(SeqSum(vs))
          case Product => Some(SeqProduct(vs))
          case Min => if |vs| == 0 then None else Some(SeqMin(vs))
          case Max => if |vs| == 0 then None else Some(SeqMax(vs))
  }

  /** The values of the packets `ids` (all below `bound`), or None if any fails. */
  function EvalAll(arena: seq<Packet>, ids: seq<nat>, bound: nat): (r: Option<seq<nat>>)
    requires ChildrenBefore(arena) && bound <= |arena|
    requires forall k :: 0 <= k < |ids| ==> ids[k] < bound
    ensures r.Some? <==> forall k :: 0 <= k < |ids| ==> Eval(arena, ids[k]).Some?
    ensures r.Some? ==> |r.value| == |ids| && forall k :: 0 <= k < |ids| ==> Eval(arena, ids[k]) == Some(r.value[k])
    decreases bound, 0, |ids|
  {
    if |ids| == 0 then Some([])
    else
      match Eval(arena, ids[0])
      case None => None
      case Some(v) =>
        match EvalAll(arena, ids[1..], bound)
        case None =>
          assert forall k :: 1 <= k < |ids| ==> ids[k] == ids[1..][k - 1];
          None
        case Some(vs) =>
          assert forall k :: 1 <= k < |ids| ==> ids[k] == ids[1..][k - 1];
          Some([v] + vs)
  }

  /** `vs` lists the values of the packets `subs`, in order. */
  predicate ValuesOf(arena: seq<Packet>, subs: seq<nat>, vs: seq<nat>)
    requires ChildrenBefore(arena) && forall k :: 0 <= k < |subs| ==> subs[k] < |arena|
  {
    |vs| == |subs| && forall k :: 0 <= k < |subs| ==> Eval(arena, subs[k]) == Some(vs[k])
  }

  /** A minimum is defined exactly when every child is, and is then the least child value. */
  lemma EvalMin(arena: seq<Packet>, id: nat)
    requires ChildrenBefore(arena) && id < |arena|
    requires arena[id].payload.Operator? && arena[id].payload.operation == Min
    ensures var subs := arena[id].payload.subPackets;
      && (Eval(arena, id).Some? <==> |subs| > 0 && forall k :: 0 <= k < |subs| ==> Eval(arena, subs[k]).Some?)
      && (Eval(arena, id).Some? ==>
            && (exists k :: 0 <= k < |subs| && Eval(arena, subs[k]) == Eval(arena, id))
            && (forall k :: 0 <= k < |subs| ==> Eval(arena, id).value <= Eval(arena, subs[k]).value))
  {
    var subs := arena[id].payload.subPackets;
    var all := EvalAll(arena, subs, id);
    if Eval(arena, id).Some? {
      var vs := all.value;
      var m := SeqMin(vs);
      var k :| 0 <= k < |vs| && vs[k] == m;
      assert Eval(arena, subs[k]) == Eval(arena, id);
    }
  }

  /** A maximum is defined exactly when every child is, and is then the greatest child value. */
  lemma EvalMax(arena: seq<Packet>, id: nat)
    requires ChildrenBefore(arena) && id < |arena|
    requires arena[id].payload.Operator? && arena[id].payload.operation == Max
    ensures var subs := arena[id].payload.subPackets;
      && (Eval(arena, id).Some? <==> |subs| > 0 && forall k :: 0 <= k < |subs| ==> Eval(arena, subs[k]).Some?)
      && (Eval(arena, id).Some? ==>
            && (exists k :: 0 <= k < |subs| && Eval(arena, subs[k]) == Eval(arena, id))
            && (forall k :: 0 <= k < |subs| ==> Eval(arena, subs[k]).value <= Eval(arena, id).value))
  {
    var subs := arena[id].payload.subPackets;
    var all := EvalAll(arena, subs, id);
    if Eval(arena, id).Some? {
      var vs := all.value;
      var m := SeqMax(vs);
      var k :| 0 <= k < |vs| && vs[k] == m;
      assert Eval(arena, subs[k]) == Eval(arena, id);
    }
  }

  /** A comparison yields 1 exactly when its first two children are defined and
      stand in the relation, 0 when they are defined and do not; whatever
      follows the second child plays no part. */
  lemma EvalCompare(arena: seq<Packet>, id: nat)
    requires ChildrenBefore(arena) && id < |arena|
    requires arena[id].payload.Operator? && arena[id].payload.operation.Compare?
    requires |arena[id].payload.subPackets| >= 2
    ensures var subs := arena[id].payload.subPackets;
      var a := Eval(arena, subs[0]);
      var b := Eval(arena, subs[1]);
      && (Eval(arena, id).Some? <==> a.Some? && b.Some?)
      && (Eval(arena, id) == Some(1) <==>
            a.Some? && b.Some? &&
            match arena[id].payload.operation.op
            case GreaterThan => a.value > b.value
            case LessThan => a.value < b.value
            case EqualTo => a.value == b.value)
  {
  }

  /** A sum is defined exactly when every child is; it is then at least each
      child value, and zero exactly when every child is zero. */
  lemma EvalSum(arena: seq<Packet>, id: nat)
    requires ChildrenBefore(arena) && id < |arena|
    requires arena[id].payload.Operator? && arena[id].payload.operation == Sum
    ensures var subs := arena[id].payload.subPackets;
      && (Eval(arena, id).Some? <==> forall k :: 0 <= k < |subs| ==> Eval(arena, subs[k]).Some?)
      && (Eval(arena, id).Some? ==>
            && (forall k :: 0 <= k < |subs| ==> Eval(arena, subs[k]).value <= Eval(arena, id).value)
            && (Eval(arena, id) == Some(0) <==> forall k :: 0 <= k < |subs| ==> Eval(arena, subs[k]) == Some(0)))
    ensures var subs := arena[id].payload.subPackets;
      forall vs :: ValuesOf(arena, subs, vs) ==> Eval(arena, id) == Some(SeqSum(vs))
  {
    var subs := arena[id].payload.subPackets;
    var all := EvalAll(arena, subs, id);
    if all.Some? {
      var vs := all.value;
      assert Eval(arena, id) == Some(SeqSum(vs));
      SumBounds(vs);
      SumZero(vs);
    }
    forall vs | ValuesOf(arena, subs, vs)
      ensures Eval(arena, id) == Some(SeqSum(vs))
    {
      ValuesAreAll(arena, subs, id, vs);
    }
  }

  /** A product is defined exactly when every child is; it is then zero
      exactly when some child is zero, and otherwise at least each child value. */
  lemma EvalProduct(arena: seq<Packet>, id: nat)
    requires ChildrenBefore(arena) && id < |arena|
    requires arena[id].payload.Operator? && arena[id].payload.operation == Product
    ensures var subs := arena[id].payload.subPackets;
      && (Eval(arena, id).Some? <==> forall k :: 0 <= k < |subs| ==> Eval(arena, subs[k]).Some?)
      && (Eval(arena, id).Some? ==>
            && (Eval(arena, id) == Some(0) <==> exists k :: 0 <= k < |subs| && Eval(arena, subs[k]) == Some(0))
            && (Eval(arena, id) != Some(0) ==>
                  forall k :: 0 <= k < |subs| ==> Eval(arena, subs[k]).value <= Eval(arena, id).value))
    ensures var subs := arena[id].payload.subPackets;
      forall vs :: ValuesOf(arena, subs, vs) ==> Eval(arena, id) == Some(SeqProduct(vs))
  {
    var subs := arena[id].payload.subPackets;
    var all := EvalAll(arena, subs, id);
    if all.Some? {
      var vs := all.value;
      assert Eval(arena, id) == Some(SeqProduct(vs));
      ProductBounds(vs);
      ProductZero(vs);
    }
    forall vs | ValuesOf(arena, subs, vs)
      ensures Eval(arena, id) == Some(SeqProduct(vs))
    {
      ValuesAreAll(arena, subs, id, vs);
    }
  }

  /** Any listing of the children's values is the one `EvalAll` returns. */
  lemma ValuesAreAll(arena: seq<Packet>, subs: seq<nat>, bound: nat, vs: seq<nat>)
    requires ChildrenBefore(arena) && bound <= |arena| && forall k :: 0 <= k < |subs| ==> subs[k] < bound
    requires ValuesOf(arena, subs, vs)
    ensures EvalAll(arena, subs, bound) == Some(vs)
  {
    var all := EvalAll(arena, subs, bound);
    assert all.Some?;
    assert all.value == vs;
  }

  /** Every element is at most the sum. */
  lemma SumBounds(xs: seq<nat>)
    ensures forall k :: 0 <= k < |xs| ==> xs[k] <= SeqSum(xs)
  {
    forall k | 0 <= k < |xs|
      ensures xs[k] <= SeqSum(xs)
    {
      SeqRemove(xs, k);
    }
  }

  /** Every element is at most a non-zero product. */
  lemma ProductBounds(xs: seq<nat>)
    ensures SeqProduct(xs) != 0 ==> forall k :: 0 <= k < |xs| ==> xs[k] <= SeqProduct(xs)
  {
    if SeqProduct(xs) != 0 {
      forall k | 0 <= k < |xs|
        ensures xs[k] <= SeqProduct(xs)
      {
        SeqRemove(xs, k);
        var rest := SeqProduct(xs[..k] + xs[k + 1..]);
        assert SeqProduct(xs) == xs[k] * rest;
        FactorBound(xs[k], rest);
      }
    }
  }

  /** A factor is at most a non-zero product. */
  lemma FactorBound(a: nat, b: nat)
    requires a * b != 0
    ensures a <= a * b
  {
    assert b >= 1;
    assert a * b == a + a * (b - 1);
  }

  lemma {:induction false} SumZero(xs: seq<nat>)
    ensures SeqSum(xs) == 0 <==> forall k :: 0 <= k < |xs| ==> xs[k] == 0
    decreases |xs|
  {
    if |xs| > 0 {
      SumZero(xs[1..]);
      assert forall k :: 1 <= k < |xs| ==> xs[k] == xs[1..][k - 1];
    }
  }

  lemma {:induction false} ProductZero(xs: seq<nat>)
    ensures SeqProduct(xs) == 0 <==> exists k :: 0 <= k < |xs| && xs[k] == 0
    decreases |xs|
  {
    if |xs| > 0 {
      ProductZero(xs[1..]);
      assert forall k :: 1 <= k < |xs| ==> xs[k] == xs[1..][k - 1];
      if SeqProduct(xs[1..]) == 0 {
        var k :| 0 <= k < |xs[1..]| && xs[1..][k] == 0;
        assert xs[k + 1] == 0;
      }
    }
  }

  /** The value of packet `id`, or 0 where there is none; the image the
      reordering argument maps child ids through. */
  function ValueOrZero(arena: seq<Packet>, id: nat): nat
  {
    if ChildrenBefore(arena) && id < |arena| && Eval(arena, id).Some? then Eval(arena, id).value else 0
  }

  /** Sum and product do not depend on the order of the children: two packets
      of the same operation whose children are the same ids, in any order,
      have the same value. */
  lemma EvalReordered(arena: seq<Packet>, i: nat, j: nat)
    requires ChildrenBefore(arena) && i < |arena| && j < |arena|
    requires arena[i].payload.Operator? && arena[j].payload.Operator?
    requires arena[i].payload.operation in {Sum, Product} && arena[j].payload.operation == arena[i].payload.operation
    requires multiset(arena[i].payload.subPackets) == multiset(arena[j].payload.subPackets)
    ensures Eval(arena, i) == Eval(arena, j)
  {
    var a, b := arena[i].payload.subPackets, arena[j].payload.subPackets;
    var ea, eb := EvalAll(arena, a, i), EvalAll(arena, b, j);
    SameChildrenDefined(arena, a, b, i, j);
    if ea.Some? {
      SameChildrenCombine(arena, a, b, i, j, ea.value, eb.value);
    }
  }

  lemma SameChildrenDefined(arena: seq<Packet>, a: seq<nat>, b: seq<nat>, i: nat, j: nat)
    requires ChildrenBefore(arena) && i <= |arena| && j <= |arena| && multiset(a) == multiset(b)
    requires (forall k :: 0 <= k < |a| ==> a[k] < i) && (forall k :: 0 <= k < |b| ==> b[k] < j)
    ensures EvalAll(arena, a, i).Some? <==> EvalAll(arena, b, j).Some?
  {
    forall k | 0 <= k < |a|
      ensures a[k] in b
    {
      assert a[k] in multiset(a);
    }
    forall k | 0 <= k < |b|
      ensures b[k] in a
    {
      assert b[k] in multiset(b);
    }
  }

  lemma SameChildrenCombine(arena: seq<Packet>, a: seq<nat>, b: seq<nat>, i: nat, j: nat, va: seq<nat>, vb: seq<nat>)
    requires ChildrenBefore(arena) && i <= |arena| && j <= |arena| && multiset(a) == multiset(b)
    requires (forall k :: 0 <= k < |a| ==> a[k] < i) && (forall k :: 0 <= k < |b| ==> b[k] < j)
    requires EvalAll(arena, a, i) == Some(va) && EvalAll(arena, b, j) == Some(vb)
    ensures SeqSum(va) == SeqSum(vb) && SeqProduct(va) == SeqProduct(vb)
  {
    var f := x => ValueOrZero(arena, x);
    assert forall k :: 0 <= k < |a| ==> va[k] == f(a[k]);
    assert forall k :: 0 <= k < |b| ==> vb[k] == f(b[k]);
    PermutedImages(a, b, va, vb, f);
  }

  /** `part_2`: the value of the outermost packet. */
  function Part2(m: Message): Option<nat>
    requires ChildrenBefore(m.packets) && m.root < |m.packets|
  {
    Eval(m.packets, m.root)
  }

  // ---------------------------------------------------------------------
  // The evaluation examples of the unit tests
  // ---------------------------------------------------------------------

  /** The arenas the seven transmissions of `test_eval` decode to, children
      pushed before their parent as `parse_packet` does, the root last. */
  const SumExample: seq<Packet> := [Packet(6, Literal(1)), Packet(2, Literal(2)), Packet(6, Operator(Sum, [0, 1]))]
  const ProductExample: seq<Packet> := [Packet(5, Literal(6)), Packet(3, Literal(9)), Packet(0, Operator(Product, [0, 1]))]
  const MaxExample: seq<Packet> :=
    [Packet(0, Literal(7)), Packet(5, Literal(8)), Packet(0, Literal(9)), Packet(6, Operator(Max, [0, 1, 2]))]
  const LessExample: seq<Packet> :=
    [Packet(5, Literal(5)), Packet(2, Literal(15)), Packet(6, Operator(Compare(LessThan), [0, 1]))]
  const GreaterExample: seq<Packet> :=
    [Packet(7, Literal(5)), Packet(5, Literal(15)), Packet(7, Operator(Compare(GreaterThan), [0, 1]))]
  const EqualExample: seq<Packet> :=
    [Packet(5, Literal(5)), Packet(7, Literal(15)), Packet(4, Operator(Compare(EqualTo), [0, 1]))]
  const NestedExample: seq<Packet> :=
    [Packet(2, Literal(1)), Packet(4, Literal(3)), Packet(2, Operator(Sum, [0, 1])),
     Packet(0, Literal(2)), Packet(2, Literal(2)), Packet(6, Operator(Product, [3, 4])),
     Packet(4, Operator(Compare(EqualTo), [2, 5]))]

  /** The values of a run of children, one at a time. */
  lemma EvalAllCons(arena: seq<Packet>, x: nat, rest: seq<nat>, bound: nat, v: nat, vs: seq<nat>)
    requires ChildrenBefore(arena) && bound <= |arena| && x < bound
    requires forall k :: 0 <= k < |rest| ==> rest[k] < bound
    requires Eval(arena, x) == Some(v) && EvalAll(arena, rest, bound) == Some(vs)
    ensures EvalAll(arena, [x] + rest, bound) == Some([v] + vs)
  {
    assert ([x] + rest)[1..] == rest;
  }

  lemma EvalAllPair(arena: seq<Packet>, x: nat, y: nat, bound: nat, vx: nat, vy: nat)
    requires ChildrenBefore(arena) && bound <= |arena| && x < bound && y < bound
    requires Eval(arena, x) == Some(vx) && Eval(arena, y) == Some(vy)
    ensures EvalAll(arena, [x, y], bound) == Some([vx, vy])
  {
    assert EvalAll(arena, [], bound) == Some([]);
    EvalAllCons(arena, y, [], bound, vy, []);
    assert [y] + [] == [y] && [vy] + [] == [vy];
    EvalAllCons(arena, x, [y], bound, vx, [vy]);
    assert [x] + [y] == [x, y] && [vx] + [vy] == [vx, vy];
  }

  lemma EvalAllTriple(arena: seq<Packet>, x: nat, y: nat, z: nat, bound: nat, vx: nat, vy: nat, vz: nat)
    requires ChildrenBefore(arena) && bound <= |arena| && x < bound && y < bound && z < bound
    requires Eval(arena, x) == Some(vx) && Eval(arena, y) == Some(vy) && Eval(arena, z) == Some(vz)
    ensures EvalAll(arena, [x, y, z], bound) == Some([vx, vy, vz])
  {
    EvalAllPair(arena, y, z, bound, vy, vz);
    EvalAllCons(arena, x, [y, z], bound, vx, [vy, vz]);
    assert [x] + [y, z] == [x, y, z] && [vx] + [vy, vz] == [vx, vy, vz];
  }

  /** 1 + 2 is 3. */
  lemma SumExampleValue()
    ensures Part2(Message(SumExample, 2)) == Some(3)
  {
    assert ChildrenBefore(SumExample);
    EvalAllPair(SumExample, 0, 1, 2, 1, 2);
    assert SeqSum([1, 2]) == 3;
  }

  /** 6 * 9 is 54. */
  lemma ProductExampleValue()
    ensures Part2(Message(ProductExample, 2)) == Some(54)
  {
    assert ChildrenBefore(ProductExample);
    EvalAllPair(ProductExample, 0, 1, 2, 6, 9);
    assert SeqProduct([6, 9]) == 54;
  }

  /** The maximum of 7, 8 and 9 is 9. */
  lemma MaxExampleValue()
    ensures Part2(Message(MaxExample, 3)) == Some(9)
  {
    MaxChildren();
    MaxOfExample();
    EvalOperator(MaxExample, 3, [7, 8, 9]);
  }

  lemma MaxChildren()
    ensures ChildrenBefore(MaxExample) && EvalAll(MaxExample, [0, 1, 2], 3) == Some([7, 8, 9])
  {
    assert ChildrenBefore(MaxExample);
    EvalAllTriple(MaxExample, 0, 1, 2, 3, 7, 8, 9);
  }

  /** An operator other than a comparison, once its children's values are known. */
  lemma EvalOperator(arena: seq<Packet>, id: nat, vs: seq<nat>)
    requires ChildrenBefore(arena) && id < |arena| && arena[id].payload.Operator?
    requires !arena[id].payload.operation.Compare?
    requires EvalAll(arena, arena[id].payload.subPackets, id) == Some(vs)
    ensures arena[id].payload.operation == Sum ==> Eval(arena, id) == Some(SeqSum(vs))
    ensures arena[id].payload.operation == Product ==> Eval(arena, id) == Some(SeqProduct(vs))
    ensures arena[id].payload.operation == Max && |vs| > 0 ==> Eval(arena, id) == Some(SeqMax(vs))
  {
  }

  lemma MaxOfExample()
    ensures SeqMax([7, 8, 9]) == 9
  {
    var m := SeqMax([7, 8, 9]);
    assert m in [7, 8, 9] && [7, 8, 9][2] <= m;
  }

  /** 5 < 15 holds. */
  lemma LessExampleValue()
    ensures Part2(Message(LessExample, 2)) == Some(1)
  {
    assert ChildrenBefore(LessExample);
  }

  /** 5 > 15 does not hold. */
  lemma GreaterExampleValue()
    ensures Part2(Message(GreaterExample, 2)) == Some(0)
  {
    assert ChildrenBefore(GreaterExample);
  }

  /** 5 == 15 does not hold. */
  lemma EqualExampleValue()
    ensures Part2(Message(EqualExample, 2)) == Some(0)
  {
    assert ChildrenBefore(EqualExample);
  }

  /** 1 + 3 == 2 * 2 holds. */
  lemma NestedExampleValue()
    ensures Part2(Message(NestedExample, 6)) == Some(1)
  {
    NestedSides();
  }

  /** Both sides of the nested example, 1 + 3 and 2 * 2, are 4. */
  lemma NestedSides()
    ensures ChildrenBefore(NestedExample)
    ensures Eval(NestedExample, 2) == Some(4) && Eval(NestedExample, 5) == Some(4)
  {
    assert ChildrenBefore(NestedExample);
    NestedSum();
    NestedProduct();
  }

  lemma NestedSum()
    requires ChildrenBefore(NestedExample)
    ensures Eval(NestedExample, 2) == Some(4)
  {
    EvalAllPair(NestedExample, 0, 1, 2, 1, 3);
    assert SeqSum([1, 3]) == 4;
    EvalOperator(NestedExample, 2, [1, 3]);
  }

  lemma NestedProduct()
    requires ChildrenBefore(NestedExample)
    ensures Eval(NestedExample, 5) == Some(4)
  {
    EvalAllPair(NestedExample, 3, 4, 5, 2, 2);
    assert SeqProduct([2, 2]) == 4;
    EvalOperator(NestedExample, 5, [2, 2]);
  }
}

=== FILE: packet_parser.dfy ===
/** Day 16, part two: the recursive-descent packet parser of src/day_16/mod.rs.
    Every parsed packet is appended to an arena after all of its children,
    so a child's index is always smaller than its parent's and the root is
    the last entry. The parse threads a cursor and an arena through
    `Result`, one `Err` per panic of the original. */
module PacketParser {
  import opened Wrappers
  import opened Arith
  import opened BitCursor

  datatype Comparison = GreaterThan | LessThan | EqualTo

  datatype Operation = Sum | Product | Min | Max | Compare(op: Comparison)

  /** A packet's body; an operator refers to its children by arena index. */
  datatype Payload =
    | Literal(value: nat)
    | Operator(operation: Operation, subPackets: seq<nat>)

  datatype Packet = Packet(version: nat, payload: Payload)

  /** The arena of every packet of a transmission and the index of the outermost one. */
  datatype Message = Message(packets: seq<Packet>, root: nat)

  /** What one parse step produced, with the cursor and arena after it. */
  datatype Parsed<T> = Parsed(value: T, cursor: Cursor, arena: seq<Packet>)

  // ---------------------------------------------------------------------
  // Arena invariant and the version sums
  // ---------------------------------------------------------------------

  /** Every child index of every operator is smaller than the operator's own index. */
  predicate ChildrenBefore(arena: seq<Packet>)
  {
    forall i, k :: 0 <= i < |arena| && arena[i].payload.Operator? && 0 <= k < |arena[i].payload.subPackets|
      ==> arena[i].payload.subPackets[k] < i
  }

  /** `after` is `before` with packets appended. */
  predicate Extends(before: seq<Packet>, after: seq<Packet>)
  {
    |before| <= |after| && after[..|before|] == before
  }

  /** The sum of the versions of a run of packets, whatever their structure (`part_1`). */
  function VersionSum(ps: seq<Packet>): nat
  {
    if |ps| == 0 then 0 else VersionSum(ps[..|ps| - 1]) + ps[|ps| - 1].version
  }

  lemma {:induction false} VersionSumAppend(a: seq<Packet>, b: seq<Packet>)
    ensures VersionSum(a + b) == VersionSum(a) + VersionSum(b)
    decreases |b|
  {
    if |b| == 0 {
      assert a + b == a;
    } else {
      assert (a + b)[..|a + b| - 1] == a + b[..|b| - 1];
      VersionSumAppend(a, b[..|b| - 1]);
    }
  }

  /** The versions of the packet `id` and of everything below it in the tree. */
  function TreeVersionSum(arena: seq<Packet>, id: nat): nat
    requires ChildrenBefore(arena) && id < |arena|
    decreases id, 1
  {
    arena[id].version
      + match arena[id].payload
        case Literal(_) => 0
        case Operator(_, subs) => ChildrenVersionSum(arena, subs, id)
  }

  /** The tree version sums of the packets `ids`, all below `bound`. */
  function ChildrenVersionSum(arena: seq<Packet>, ids: seq<nat>, bound: nat): nat
    requires ChildrenBefore(arena) && bound <= |arena|
    requires forall k :: 0 <= k < |ids| ==> ids[k] < bound
    decreases bound, 0, |ids|
  {
    if |ids| == 0 then 0
    else TreeVersionSum(arena, ids[0]) + ChildrenVersionSum(arena, ids[1..], bound)
  }

  /** Appending packets does not change the tree below an existing packet. */
  lemma {:induction false} TreeVersionSumFrame(a: seq<Packet>, b: seq<Packet>, id: nat)
    requires ChildrenBefore(a) && ChildrenBefore(b) && Extends(a, b) && id < |a|
    ensures TreeVersionSum(b, id) == TreeVersionSum(a, id)
    decreases id, 1
  {
    assert b[id] == a[id];
    match a[id].payload
    case Literal(_) =>
    case Operator(_, subs) =>
      ChildrenVersionSumFrame(a, b, subs, id, id);
  }

  lemma {:induction false} ChildrenVersionSumFrame(a: seq<Packet>, b: seq<Packet>, ids: seq<nat>, boundA: nat, boundB: nat)
    requires ChildrenBefore(a) && ChildrenBefore(b) && Extends(a, b)
    requires boundA <= |a| && boundB <= |b|
    requires forall k :: 0 <= k < |ids| ==> ids[k] < boundA && ids[k] < boundB
    ensures ChildrenVersionSum(b, ids, boundB) == ChildrenVersionSum(a, ids, boundA)
    decreases boundA, 0, |ids|
  {
    if |ids| > 0 {
      TreeVersionSumFrame(a, b, ids[0]);
      ChildrenVersionSumFrame(a, b, ids[1..], boundA, boundB);
    }
  }

  // ---------------------------------------------------------------------
  // Literal values: 5-bit groups with a continuation bit
  // ---------------------------------------------------------------------

  /** `parse_variable_length_integer`: each 5-bit group contributes its low four
      bits (`chunk & 0b01111`, which is `chunk % 16`) below the value so far
      (`out << 4 |`, which is `16 * out +`); a group whose bit 4 is clear
      (`chunk & 0b10000 == 0`, which for a 5-bit chunk is `chunk < 16`) is the last. */
  function ParseLiteral(c: Cursor, acc: nat): (r: Result<(nat, Cursor), DecodeError>)
    requires c.Valid()
    ensures r.Ok? ==> r.value.1.Valid() && r.value.1.nibbles == c.nibbles
    ensures r.Ok? ==> r.value.1.Pos() >= c.Pos() + 5
    ensures r.Ok? ==> r.value.0 >= acc
    ensures r.Err? ==> r.error == BufferExhausted
    decreases c.Rest()
  {
    match TakeN(c, 5)
    case Err(e) => Err(e)
    case Ok((chunk, d)) =>
      var out := acc * 16 + chunk % 16;
      if chunk < 16 then Ok((out, d))
      else ParseLiteral(d, out)
  }

  /** The value spelled by hexadecimal digits, most significant first, after `acc`. */
  function DigitsValue(acc: nat, ds: seq<Nibble>): nat
    decreases |ds|
  {
    if |ds| == 0 then acc else DigitsValue(acc * 16 + ds[0], ds[1..])
  }

  lemma {:induction false} DigitsValueSnoc(acc: nat, ds: seq<Nibble>, d: Nibble)
    ensures DigitsValue(acc, ds + [d]) == DigitsValue(acc, ds) * 16 + d
    decreases |ds|
  {
    if |ds| == 0 {
      assert ds + [d] == [d];
    } else {
      assert (ds + [d])[1..] == ds[1..] + [d];
      DigitsValueSnoc(acc * 16 + ds[0], ds[1..], d);
    }
  }

  /** The shortest hexadecimal digit string of `v` (one digit for 0). */
  function HexDigitsOf(v: nat): (ds: seq<Nibble>)
    ensures |ds| > 0 && DigitsValue(0, ds) == v
    decreases v
  {
    if v < 16 then
      assert DigitsValue(0, [v]) == v by { assert [v as Nibble][1..] == []; }
      [v]
    else
      var high := HexDigitsOf(v / 16);
      DigitsValueSnoc(0, high, v % 16);
      high + [v % 16]
  }

  /** The encoder partner of ParseLiteral: one 5-bit group per digit, the
      continuation bit set on all but the last. */
  function LiteralGroups(ds: seq<Nibble>): (bits: seq<Bit>)
    ensures |bits| == 5 * |ds|
  {
    if |ds| == 0 then []
    else
      assert Pow2(4) == 16;
      [if |ds| > 1 then 1 else 0] + ToBits(ds[0], 4) + LiteralGroups(ds[1..])
  }

  /** The round trip of literals: reading the groups of any digit string (so,
      by HexDigitsOf, of any value) yields the digits' value and stops right
      after the last group. */
  lemma ParseLiteralGroups(ns: seq<Nibble>, p: nat, acc: nat, ds: seq<Nibble>)
    requires |ds| > 0 && p + 5 * |ds| <= 4 * |ns|
    requires Stream(ns)[p..p + 5 * |ds|] == LiteralGroups(ds)
    ensures ParseLiteral(CursorAt(ns, p), acc) == Ok((DigitsValue(acc, ds), CursorAt(ns, p + 5 * |ds|)))
  {
    StreamGroups(ns, p, ds);
    ParseGroupsAt(ns, p, acc, ds);
  }

  /** The value of the first 5-bit group of `ds`: its flag above its digit. */
  function GroupValue(ds: seq<Nibble>): nat
    requires |ds| > 0
  {
    var flag: nat := if |ds| > 1 then 1 else 0;
    flag * 16 + ds[0]
  }

  /** Groups spelling `ds` start at bit `p`, read one cursor step at a time. */
  ghost predicate GroupsAt(ns: seq<Nibble>, p: nat, ds: seq<Nibble>)
    decreases |ds|
  {
    && p + 5 * |ds| <= 4 * |ns|
    && (|ds| > 0 ==>
          && TakeN(CursorAt(ns, p), 5) == Ok((GroupValue(ds), CursorAt(ns, p + 5)))
          && GroupsAt(ns, p + 5, ds[1..]))
  }

  /** Groups written into the stream read back one by one. */
  lemma {:induction false} StreamGroups(ns: seq<Nibble>, p: nat, ds: seq<Nibble>)
    requires p + 5 * |ds| <= 4 * |ns|
    requires Stream(ns)[p..p + 5 * |ds|] == LiteralGroups(ds)
    ensures GroupsAt(ns, p, ds)
    decreases |ds|
  {
    if |ds| > 0 {
      var chunk := FirstGroup(ns, p, ds);
      if |ds| > 1 {
        LaterGroups(ns, p, ds);
      }
      StreamGroups(ns, p + 5, ds[1..]);
    }
  }

  /** Reading groups that spell `ds` accumulates the digits' value. */
  lemma {:induction false} ParseGroupsAt(ns: seq<Nibble>, p: nat, acc: nat, ds: seq<Nibble>)
    requires |ds| > 0 && GroupsAt(ns, p, ds)
    ensures ParseLiteral(CursorAt(ns, p), acc) == Ok((DigitsValue(acc, ds), CursorAt(ns, p + 5 * |ds|)))
    decreases |ds|
  {
    var chunk := GroupValue(ds);
    GroupFields(if |ds| > 1 then 1 else 0, ds[0]);
    DigitsValueCons(acc, ds);
    LiteralStep(CursorAt(ns, p), acc, chunk, CursorAt(ns, p + 5), ds[0]);
    if |ds| > 1 {
      ParseGroupsAt(ns, p + 5, acc * 16 + ds[0], ds[1..]);
    }
  }

  /** The first digit shifts into the accumulator; a single digit is all there is. */
  lemma DigitsValueCons(acc: nat, ds: seq<Nibble>)
    requires |ds| > 0
    ensures DigitsValue(acc, ds) == DigitsValue(acc * 16 + ds[0], ds[1..])
    ensures |ds| == 1 ==> DigitsValue(acc, ds) == acc * 16 + ds[0]
  {
  }

  /** One iteration of `parse_literal`'s loop on a group that reads as `chunk`. */
  lemma LiteralStep(c: Cursor, acc: nat, chunk: nat, d: Cursor, digit: nat)
    requires c.Valid() && TakeN(c, 5) == Ok((chunk, d)) && chunk % 16 == digit
    ensures chunk < 16 ==> ParseLiteral(c, acc) == Ok((acc * 16 + digit, d))
    ensures chunk >= 16 ==> ParseLiteral(c, acc) == ParseLiteral(d, acc * 16 + digit)
  {
  }

  /** The groups after the first one follow it in the stream. */
  lemma LaterGroups(ns: seq<Nibble>, p: nat, ds: seq<Nibble>)
    requires |ds| > 1 && p + 5 * |ds| <= 4 * |ns|
    requires Stream(ns)[p..p + 5 * |ds|] == LiteralGroups(ds)
    ensures Stream(ns)[p + 5..p + 5 * |ds|] == LiteralGroups(ds[1..])
  {
    assert Stream(ns)[p + 5..p + 5 * |ds|] == Stream(ns)[p..p + 5 * |ds|][5..];
    assert Pow2(4) == 16;
    var flag: Bit := 1;
    assert LiteralGroups(ds) == [flag] + ToBits(ds[0], 4) + LiteralGroups(ds[1..]);
  }

  /** The first group of `ds` reads as its flag above its digit. */
  lemma FirstGroup(ns: seq<Nibble>, p: nat, ds: seq<Nibble>) returns (chunk: nat)
    requires |ds| > 0 && p + 5 * |ds| <= 4 * |ns|
    requires Stream(ns)[p..p + 5 * |ds|] == LiteralGroups(ds)
    ensures chunk == GroupValue(ds)
    ensures TakeN(CursorAt(ns, p), 5) == Ok((chunk, CursorAt(ns, p + 5)))
  {
    var flag: Bit := if |ds| > 1 then 1 else 0;
    assert Pow2(4) == 16;
    var digit := ToBits(ds[0], 4);
    assert Stream(ns)[p..p + 5] == [flag] + digit by {
      var g := LiteralGroups(ds);
      assert g == [flag] + digit + LiteralGroups(ds[1..]);
      assert Stream(ns)[p..p + 5] == g[..5];
    }
    assert BitsValue([flag] + digit) == flag * 16 + ds[0] by {
      BitsValueAppend([flag], digit);
      assert BitsValue([flag]) == flag by { assert [flag][1..] == []; }
    }
    chunk := flag * 16 + ds[0];
    GroupFields(flag, ds[0]);
    TakeAt(ns, p, 5, chunk);
  }

  /** The two fields of a 5-bit group: the flag above, the digit below. */
  lemma GroupFields(flag: Bit, d: Nibble)
    ensures (flag * 16 + d) % 16 == d
    ensures flag * 16 + d < 16 <==> flag == 0
  {
    if flag == 1 {
      assert (16 + d) % 16 == d;
    }
  }

  // ---------------------------------------------------------------------
  // Operators
  // ---------------------------------------------------------------------

  /** The operation of a type id other than 4 (the literal id). Type ids are
      three bits, so the original's `Invalid operation ID` arm cannot be reached. */
  function OperationOf(id: nat): Operation
    requires id < 8 && id != 4
  {
    match id
    case 0 => Sum
    case 1 => Product
    case 2 => Min
    case 3 => Max
    case 5 => Compare(GreaterThan)
    case 6 => Compare(LessThan)
    case _ => Compare(EqualTo)
  }

  /** The type id an encoder writes for an operation. */
  function OperationId(op: Operation): (id: nat)
    ensures id < 8 && id != 4
  {
    match op
    case Sum => 0
    case Product => 1
    case Min => 2
    case Max => 3
    case Compare(GreaterThan) => 5
    case Compare(LessThan) => 6
    case Compare(EqualTo) => 7
  }

  /** The operator table is a bijection between the seven non-literal ids and the operations. */
  lemma OperationIdRoundTrip(op: Operation, id: nat)
    ensures OperationOf(OperationId(op)) == op
    ensures id < 8 && id != 4 ==> OperationId(OperationOf(id)) == id
  {
  }

  /** The cursor moved forward over the same transmission. */
  predicate Advanced(c: Cursor, d: Cursor)
  {
    d.Valid() && d.nibbles == c.nibbles && d.Pos() >= c.Pos()
  }

  /** What the children parsers promise: the arena only grows, every returned
      index is a new packet, and the new packets are exactly the returned trees. */
  predicate ChildrenParsed(c: Cursor, arena: seq<Packet>, r: Parsed<seq<nat>>)
  {
    Advanced(c, r.cursor) && ChildrenAppended(arena, r.value, r.arena)
  }

  predicate ChildrenAppended(arena: seq<Packet>, ids: seq<nat>, after: seq<Packet>)
  {
    && Extends(arena, after)
    && (forall k :: 0 <= k < |ids| ==> |arena| <= ids[k] < |after|)
    && (ChildrenBefore(arena) ==>
          && ChildrenBefore(after)
          && ChildrenVersionSum(after, ids, |after|) == VersionSum(after[|arena|..]))
  }

  /** `parse_packet`: a 3-bit version, a 3-bit type id, then a literal (id 4) or
      an operator payload; the packet is pushed after everything it contains
      and its index is the arena length before the push. */
  function ParsePacket(c: Cursor, arena: seq<Packet>): (r: Result<Parsed<nat>, DecodeError>)
    requires c.Valid()
    ensures r.Ok? ==> Advanced(c, r.value.cursor) && r.value.cursor.Pos() >= c.Pos() + 11
    ensures r.Ok? ==> Extends(arena, r.value.arena) && r.value.value == |r.value.arena| - 1 >= |arena|
    ensures r.Ok? && ChildrenBefore(arena) ==>
              && ChildrenBefore(r.value.arena)
              && TreeVersionSum(r.value.arena, r.value.value) == VersionSum(r.value.arena[|arena|..])
    decreases c.Rest(), 0
  {
    match TakeN(c, 3)
    case Err(e) => Err(e)
    case Ok((version, c1)) =>
      match TakeN(c1, 3)
      case Err(e) => Err(e)
      case Ok((typeId, c2)) =>
        if typeId == 4 then
          match ParseLiteral(c2, 0)
          case Err(e) => Err(e)
          case Ok((v, d)) =>
            PushLiteral(arena, version, v);
            var id: nat := |arena|;
            Ok(Parsed(id, d, arena + [Packet(version, Literal(v))]))
        else
          match ParseOperatorPayload(c2, arena, typeId)
          case Err(e) => Err(e)
          case Ok(Parsed(payload, d, a)) =>
            PushOperator(arena, a, version, payload);
            var id: nat := |a|;
            Ok(Parsed(id, d, a + [Packet(version, payload)]))
  }

  /** `parse_operator_payload`: a length-type bit, then either a 15-bit budget of
      bits (type 0) or an 11-bit count of children (type 1). The budget is
      turned into a target for `remaining()`; a budget above `remaining()`
      underflows, a panic in the original. */
  function ParseOperatorPayload(c: Cursor, arena: seq<Packet>, typeId: nat): (r: Result<Parsed<Payload>, DecodeError>)
    requires c.Valid() && typeId < 8 && typeId != 4
    ensures r.Ok? ==> r.value.value.Operator? && r.value.value.operation == OperationOf(typeId)
    ensures r.Ok? ==> ChildrenParsed(c, arena, Parsed(r.value.value.subPackets, r.value.cursor, r.value.arena))
    ensures r.Ok? ==> r.value.cursor.Pos() >= c.Pos() + 12
    decreases c.Rest(), 1
  {
    match TakeN(c, 1)
    case Err(e) => Err(e)
    case Ok((lengthType, c1)) =>
      var children: Result<Parsed<seq<nat>>, DecodeError> :=
        if lengthType == 0 then
          match TakeN(c1, 15)
          case Err(e) => Err(e)
          case Ok((bitCount, c2)) =>
            if bitCount > Remaining(c2) then Err(FrameUnderflow)
            else ParseByBits(c2, arena, Remaining(c2) - bitCount)
        else
          match TakeN(c1, 11)
          case Err(e) => Err(e)
          case Ok((count, c2)) => ParseByCount(c2, arena, count);
      match children
      case Err(e) => Err(e)
      case Ok(Parsed(ids, d, a)) => Ok(Parsed(Operator(OperationOf(typeId), ids), d, a))
  }

  /** Length type 0: packets are parsed while `remaining()` is above the target;
      a packet that overshoots the target ends the loop without an error. */
  function ParseByBits(c: Cursor, arena: seq<Packet>, target: nat): (r: Result<Parsed<seq<nat>>, DecodeError>)
    requires c.Valid()
    ensures r.Ok? ==> ChildrenParsed(c, arena, r.value)
    ensures r.Ok? ==> Remaining(r.value.cursor) <= target
    ensures Remaining(c) <= target ==> r == Ok(Parsed([], c, arena))
    decreases c.Rest(), 1
  {
    if Remaining(c) <= target then Ok(Parsed([], c, arena))
    else
      match ParsePacket(c, arena)
      case Err(e) => Err(e)
      case Ok(Parsed(id, c1, a1)) =>
        match ParseByBits(c1, a1, target)
        case Err(e) => Err(e)
        case Ok(Parsed(ids, d, a2)) =>
          ConsChild(c, arena, id, c1, a1, Parsed(ids, d, a2));
          Ok(Parsed([id] + ids, d, a2))
  }

  /** Length type 1: exactly `count` packets. */
  function ParseByCount(c: Cursor, arena: seq<Packet>, count: nat): (r: Result<Parsed<seq<nat>>, DecodeError>)
    requires c.Valid()
    ensures r.Ok? ==> ChildrenParsed(c, arena, r.value)
    ensures r.Ok? ==> |r.value.value| == count
    decreases c.Rest(), 1, count
  {
    if count == 0 then Ok(Parsed([], c, arena))
    else
      match ParsePacket(c, arena)
      case Err(e) => Err(e)
      case Ok(Parsed(id, c1, a1)) =>
        match ParseByCount(c1, a1, count - 1)
        case Err(e) => Err(e)
        case Ok(Parsed(ids, d, a2)) =>
          ConsChild(c, arena, id, c1, a1, Parsed(ids, d, a2));
          Ok(Parsed([id] + ids, d, a2))
  }

  lemma PushLiteral(arena: seq<Packet>, version: nat, v: nat)
    ensures var a := arena + [Packet(version, Literal(v))];
      && Extends(arena, a)
      && (ChildrenBefore(arena) ==>
            ChildrenBefore(a) && TreeVersionSum(a, |arena|) == VersionSum(a[|arena|..]))
  {
    var a := arena + [Packet(version, Literal(v))];
    assert a[..|arena|] == arena;
    assert a[|arena|..] == [Packet(version, Literal(v))];
    assert VersionSum([Packet(version, Literal(v))]) == version by {
      assert [Packet(version, Literal(v))][..0] == [];
    }
  }

  lemma PushOperator(arena: seq<Packet>, a: seq<Packet>, version: nat, payload: Payload)
    requires payload.Operator?
    requires ChildrenAppended(arena, payload.subPackets, a)
    ensures var b := a + [Packet(version, payload)];
      && Extends(arena, b)
      && (ChildrenBefore(arena) ==>
            ChildrenBefore(b) && TreeVersionSum(b, |a|) == VersionSum(b[|arena|..]))
  {
    var b := a + [Packet(version, payload)];
    assert b[..|a|] == a;
    assert b[..|arena|] == a[..|arena|];
    if ChildrenBefore(arena) {
      PushKeepsOrder(a, Packet(version, payload));
      ChildrenVersionSumFrame(a, b, payload.subPackets, |a|, |a|);
      PushVersionSum(arena, a, Packet(version, payload));
    }
  }

  /** A packet whose children all precede it keeps the arena ordered. */
  lemma PushKeepsOrder(a: seq<Packet>, p: Packet)
    requires ChildrenBefore(a)
    requires p.payload.Operator? ==> forall k :: 0 <= k < |p.payload.subPackets| ==> p.payload.subPackets[k] < |a|
    ensures ChildrenBefore(a + [p])
  {
    var b := a + [p];
    forall i, k | 0 <= i < |b| && b[i].payload.Operator? && 0 <= k < |b[i].payload.subPackets|
      ensures b[i].payload.subPackets[k] < i
    {
      if i < |a| {
        assert b[i] == a[i];
      }
    }
  }

  /** Pushing a packet adds its version to the sum of the packets after `arena`. */
  lemma PushVersionSum(arena: seq<Packet>, a: seq<Packet>, p: Packet)
    requires |arena| <= |a|
    ensures VersionSum((a + [p])[|arena|..]) == VersionSum(a[|arena|..]) + p.version
  {
    assert (a + [p])[|arena|..] == a[|arena|..] + [p];
    VersionSumAppend(a[|arena|..], [p]);
    assert VersionSum([p]) == p.version by {
      assert [p][..0] == [];
    }
  }

  lemma ConsChild(c: Cursor, arena: seq<Packet>, id: nat, c1: Cursor, a1: seq<Packet>, rest: Parsed<seq<nat>>)
    requires Advanced(c, c1) && Extends(arena, a1) && id == |a1| - 1 >= |arena|
    requires ChildrenBefore(arena) ==> ChildrenBefore(a1) && TreeVersionSum(a1, id) == VersionSum(a1[|arena|..])
    requires ChildrenParsed(c1, a1, rest)
    ensures ChildrenParsed(c, arena, Parsed([id] + rest.value, rest.cursor, rest.arena))
  {
    var a2 := rest.arena;
    var ids := [id] + rest.value;
    assert a2[..|arena|] == a1[..|a1|][..|arena|] by {
      assert a2[..|a1|] == a1;
    }
    if ChildrenBefore(arena) {
      assert ids[1..] == rest.value;
      TreeVersionSumFrame(a1, a2, id);
      assert ChildrenVersionSum(a2, ids, |a2|)
          == TreeVersionSum(a2, id) + ChildrenVersionSum(a2, rest.value, |a2|);
      assert a2[|arena|..] == a1[|arena|..] + a2[|a1|..] by {
        assert a2[..|a1|] == a1;
      }
      VersionSumAppend(a1[|arena|..], a2[|a1|..]);
    }
  }

  // ---------------------------------------------------------------------
  // Whole transmissions
  // ---------------------------------------------------------------------

  /** `parse_input`: the outermost packet of a hexadecimal transmission; bits after it are ignored. */
  function ParseInput(s: string): (r: Result<Message, DecodeError>)
    ensures r.Ok? ==> |r.value.packets| > 0 && r.value.root == |r.value.packets| - 1
    ensures r.Ok? ==> ChildrenBefore(r.value.packets)
    ensures r.Ok? ==> VersionSum(r.value.packets) == TreeVersionSum(r.value.packets, r.value.root)
  {
    match FromHexStr(s)
    case Err(e) => Err(e)
    case Ok(c) =>
      var parsed := ParsePacket(c, []);
      if parsed.Err? then Err(parsed.error)
      else
        var arena := parsed.value.arena;
        assert ChildrenBefore([]);
        assert arena[0..] == arena;
        Ok(Message(arena, parsed.value.value))
  }

  /** `part_1`: the sum of the versions of every packet in the arena. */
  function Part1(m: Message): nat
  {
    VersionSum(m.packets)
  }
}

=== FILE: polymer.dfy ===
/** Day 14 (src/day_14/mod.rs): extended polymerization. The original never
    builds the polymer: it keeps one counter per letter pair, rewrites the
    counters once per round, and reads letter frequencies off the pair
    counts. `Expand` below builds the polymer, and the lemmas show the
    counters track it exactly. Counters are unbounded here. */
module Polymer {
  import opened Wrappers
  import opened Arith
  import opened Text
  import opened Seqs

  type Pair = (char, char)

  predicate IsUpper(c: char)
  {
    'A' <= c <= 'Z'
  }

  /** `c - b'A'` for an upper-case letter. */
  function LetterIndex(c: char): (r: nat)
    requires IsUpper(c)
    ensures r < 26
  {
    c as nat - 'A' as nat
  }

  function Letter(i: nat): char
    requires i < 26
  {
    ('A' as nat + i) as char
  }

  /** The original's `Input`: the pairs that have a rule, numbered by
      `PairId`; the template; how often each pair occurs in the template;
      and for each pair the two pairs an insertion turns it into. */
  datatype Input = Input(pairs: seq<Pair>, template: string, initState: seq<nat>, additions: seq<(nat, nat)>)

  /** The panics of `parse_input`: a rule line too short to slice, a
      non-upper-case pair, no first line, an empty template (`len() - 1`
      underflows), a template pair or a produced pair with no rule. */
  datatype ParseError = ShortRule | NotUppercase | NoTemplate | EmptyTemplate | UnknownTemplatePair | UnknownProduct

  // ---------------------------------------------------------------------
  // Pair numbering
  // ---------------------------------------------------------------------

  // ---------------------------------------------------------------------
  // parse_input (src/day_14/mod.rs:18-70)
  // ---------------------------------------------------------------------

  /** The lines after the template and the blank line. */
  function RuleLines(lines: seq<string>): seq<string>
  {
    if |lines| <= 2 then [] else lines[2..]
  }

  /** `line[..2]` of every rule line. */
  function RulePairs(rules: seq<string>): (r: Result<seq<Pair>, ParseError>)
    ensures r.Ok? <==> forall k :: 0 <= k < |rules| ==> |rules[k]| >= 2
    ensures r.Ok? ==> |r.value| == |rules| && forall k :: 0 <= k < |rules| ==> r.value[k] == (rules[k][0], rules[k][1])
  {
    if |rules| == 0 then Ok([])
    else if |rules[0]| < 2 then Err(ShortRule)
    else
      match RulePairs(rules[1..])
      case Err(e) =>
        assert forall k :: 1 <= k < |rules| ==> rules[1..][k - 1] == rules[k];
        Err(e)
      case Ok(rest) =>
        assert forall k :: 1 <= k < |rules| ==> rules[1..][k - 1] == rules[k];
        Ok([(rules[0][0], rules[0][1])] + rest)
  }

  predicate AllUpper(pairs: seq<Pair>)
  {
    forall k :: 0 <= k < |pairs| ==> IsUpper(pairs[k].0) && IsUpper(pairs[k].1)
  }

  function Zeros(n: nat): (r: seq<nat>)
    ensures |r| == n && forall k :: 0 <= k < n ==> r[k] == 0
  {
    seq(n, _ => 0)
  }

  /** The loop over the template's adjacent pairs from position `i` on,
      counting each in `state`. */
  function InitFrom(template: string, pairs: seq<Pair>, i: nat, state: seq<nat>): (r: Result<seq<nat>, ParseError>)
    requires 0 < |template| && i <= |template| - 1 && |state| == |pairs|
    ensures r.Ok? ==> |r.value| == |pairs|
    decreases |template| - i
  {
    if i == |template| - 1 then Ok(state)
    else
      match IndexOf(pairs, (template[i], template[i + 1]))
      case None => Err(UnknownTemplatePair)
      case Some(id) => InitFrom(template, pairs, i + 1, state[id := state[id] + 1])
  }

  /** The rule lines from the `k`-th on, each setting the two products of its pair. */
  function AdditionsFrom(rules: seq<string>, pairs: seq<Pair>, adds: seq<(nat, nat)>): (r: Result<seq<(nat, nat)>, ParseError>)
    requires |adds| == |pairs|
    requires forall k :: 0 <= k < |rules| ==> |rules[k]| >= 2 && (rules[k][0], rules[k][1]) in pairs
    ensures r.Ok? ==> |r.value| == |pairs|
    decreases |rules|
  {
    if |rules| == 0 then Ok(adds)
    else
      var line := rules[0];
      var source := IndexOf(pairs, (line[0], line[1])).value;
      if |line| < 7 then Err(ShortRule)
      else
        match (IndexOf(pairs, (line[0], line[6])), IndexOf(pairs, (line[6], line[1])))
        case (Some(first), Some(second)) =>
          AdditionsFrom(rules[1..], pairs, adds[source := (first, second)])
        case _ => Err(UnknownProduct)
  }

  /** `parse_input`. */
  function ParseInput(raw: string): (r: Result<Input, ParseError>)
    ensures r.Ok? ==> ValidInput(r.value)
  {
    var lines := Lines(raw);
    var rules := RuleLines(lines);
    match RulePairs(rules)
    case Err(e) => Err(e)
    case Ok(lhs) =>
      var pairs := Dedup(lhs);
      if !AllUpper(pairs) then Err(NotUppercase)
      else if |lines| == 0 then Err(NoTemplate)
      else if |lines[0]| == 0 then Err(EmptyTemplate)
      else
        var template := lines[0];
        match InitFrom(template, pairs, 0, Zeros(|pairs|))
        case Err(e) => Err(e)
        case Ok(init) =>
          assert forall k :: 0 <= k < |rules| ==> lhs[k] in pairs;
          match AdditionsFrom(rules, pairs, NoAdditions(|pairs|))
          case Err(e) => Err(e)
          case Ok(adds) =>
            AdditionsInRange(rules, pairs, NoAdditions(|pairs|));
            Ok(Input(pairs, template, init, adds))
  }

  /** `vec![(PairId(0), PairId(0)); pairs.len()]`. */
  function NoAdditions(n: nat): (r: seq<(nat, nat)>)
    ensures |r| == n && AdditionsInBounds(r, n + 1)
  {
    seq(n, _ => (0, 0))
  }

  /** What `do_solve` relies on: one counter and one pair of products per
      pair, products that are pair numbers, and upper-case pairs. */
  predicate ValidInput(inp: Input)
  {
    && |inp.initState| == |inp.pairs| && |inp.additions| == |inp.pairs|
    && AdditionsInBounds(inp.additions, |inp.pairs|)
    && AllUpper(inp.pairs) && Distinct(inp.pairs) && |inp.template| > 0
  }

  predicate AdditionsInBounds(adds: seq<(nat, nat)>, n: nat)
  {
    forall k :: 0 <= k < |adds| ==> adds[k].0 < n && adds[k].1 < n
  }

  lemma {:induction false} AdditionsInRange(rules: seq<string>, pairs: seq<Pair>, adds: seq<(nat, nat)>)
    requires |adds| == |pairs| && AdditionsInBounds(adds, |pairs|)
    requires forall k :: 0 <= k < |rules| ==> |rules[k]| >= 2 && (rules[k][0], rules[k][1]) in pairs
    ensures AdditionsFrom(rules, pairs, adds).Ok? ==> AdditionsInBounds(AdditionsFrom(rules, pairs, adds).value, |pairs|)
    decreases |rules|
  {
    if |rules| > 0 {
      var line := rules[0];
      var source := IndexOf(pairs, (line[0], line[1])).value;
      if |line| >= 7 {
        var first := IndexOf(pairs, (line[0], line[6]));
        var second := IndexOf(pairs, (line[6], line[1]));
        if first.Some? && second.Some? {
          AdditionsInRange(rules[1..], pairs, adds[source := (first.value, second.value)]);
        }
      }
    }
  }

  // ---------------------------------------------------------------------
  // The polymer itself
  // ---------------------------------------------------------------------

  /** An insertion rule `AB -> C`. */
  datatype Rule = Rule(pair: Pair, insert: char)

  /** The rules the rule lines state: characters 0, 1 and 6 of every line
      long enough to have them. */
  function RulesOf(rules: seq<string>): (r: seq<Rule>)
    ensures (forall k :: 0 <= k < |rules| ==> |rules[k]| >= 7) ==>
      |r| == |rules| && forall k :: 0 <= k < |rules| ==> r[k] == Rule((rules[k][0], rules[k][1]), rules[k][6])
  {
    if |rules| == 0 then []
    else
      var rest := RulesOf(rules[1..]);
      assert forall k :: 1 <= k < |rules| ==> rules[1..][k - 1] == rules[k];
      (if |rules[0]| >= 7 then [Rule((rules[0][0], rules[0][1]), rules[0][6])] else []) + rest
  }

  /** The letter inserted between the two letters of `p`; a later rule for
      the same pair overrides an earlier one. */
  function Insert(rules: seq<Rule>, p: Pair): Option<char>
  {
    if |rules| == 0 then None
    else
      var later := Insert(rules[1..], p);
      if later.Some? then later
      else if rules[0].pair == p then Some(rules[0].insert)
      else None
  }

  /** One step of polymerization: between every two adjacent letters, the
      letter their rule inserts. */
  function Expand(s: string, rules: seq<Rule>): (r: string)
    ensures |s| > 0 ==> |r| > 0 && r[0] == s[0]
  {
    if |s| <= 1 then s
    else
      var middle := match Insert(rules, (s[0], s[1])) case Some(c) => [c] case None => [];
      [s[0]] + middle + Expand(s[1..], rules)
  }

  /** `n` steps; the first letter never changes. */
  function ExpandN(s: string, rules: seq<Rule>, n: nat): (r: string)
    ensures |s| > 0 ==> |r| > 0 && r[0] == s[0]
  {
    if n == 0 then s else Expand(ExpandN(s, rules, n - 1), rules)
  }

  /** The adjacent letter pairs of a polymer, left to right. */
  function Adjacent(s: string): (r: seq<Pair>)
    ensures |r| == if |s| == 0 then 0 else |s| - 1
  {
    if |s| <= 1 then [] else [(s[0], s[1])] + Adjacent(s[1..])
  }

  lemma {:induction false} AdjacentAt(s: string, i: nat)
    requires i + 1 < |s|
    ensures Adjacent(s)[i] == (s[i], s[i + 1])
  {
    if i > 0 {
      AdjacentAt(s[1..], i - 1);
    }
  }

  /** The pairs one pair becomes after a step. */
  function Produce(p: Pair, rules: seq<Rule>): seq<Pair>
  {
    match Insert(rules, p)
    case Some(z) => [(p.0, z), (z, p.1)]
    case None => [p]
  }

  function ProduceAll(ps: seq<Pair>, rules: seq<Rule>): seq<Pair>
  {
    if |ps| == 0 then [] else Produce(ps[0], rules) + ProduceAll(ps[1..], rules)
  }

  lemma AdjacentCons(c: char, t: string)
    requires |t| > 0
    ensures Adjacent([c] + t) == [(c, t[0])] + Adjacent(t)
  {
    assert ([c] + t)[1..] == t;
  }

  lemma ProduceAllCons(p: Pair, ps: seq<Pair>, rules: seq<Rule>)
    ensures ProduceAll([p] + ps, rules) == Produce(p, rules) + ProduceAll(ps, rules)
  {
    assert ([p] + ps)[1..] == ps;
  }

  /** The pairs of the expanded polymer are what the pairs of the old one
      produce, in order. */
  lemma {:induction false} AdjacentExpand(s: string, rules: seq<Rule>)
    ensures Adjacent(Expand(s, rules)) == ProduceAll(Adjacent(s), rules)
    decreases |s|
  {
    if |s| > 1 {
      var t := s[1..];
      var e := Expand(t, rules);
      AdjacentExpand(t, rules);
      assert s == [s[0]] + t;
      AdjacentCons(s[0], t);
      ProduceAllCons((s[0], s[1]), Adjacent(t), rules);
      match Insert(rules, (s[0], s[1]))
      case Some(z) =>
        assert Expand(s, rules) == [s[0]] + ([z] + e);
        AdjacentCons(z, e);
        AdjacentCons(s[0], [z] + e);
        assert [(s[0], z)] + ([(z, s[1])] + Adjacent(e)) == [(s[0], z), (z, s[1])] + Adjacent(e);
      case None =>
        assert Expand(s, rules) == [s[0]] + e;
        AdjacentCons(s[0], e);
    }
  }

  // ---------------------------------------------------------------------
  // Pair counts as vectors
  // ---------------------------------------------------------------------

  /** Every pair of `ps` is numbered. */
  predicate Within(ps: seq<Pair>, pairs: seq<Pair>)
  {
    |ps| == 0 || (ps[0] in pairs && Within(ps[1..], pairs))
  }

  lemma {:induction false} WithinAt(ps: seq<Pair>, pairs: seq<Pair>, i: nat)
    requires Within(ps, pairs) && i < |ps|
    ensures ps[i] in pairs
  {
    if i > 0 {
      WithinAt(ps[1..], pairs, i - 1);
    }
  }

  lemma {:induction false} WithinAppend(ps: seq<Pair>, qs: seq<Pair>, pairs: seq<Pair>)
    requires Within(ps, pairs) && Within(qs, pairs)
    ensures Within(ps + qs, pairs)
    decreases |ps|
  {
    if |ps| == 0 {
      assert ps + qs == qs;
    } else {
      assert (ps + qs)[1..] == ps[1..] + qs;
      WithinAppend(ps[1..], qs, pairs);
    }
  }

  /** How often each numbered pair occurs in `ps`. */
  function CountVec(ps: seq<Pair>, pairs: seq<Pair>): (v: seq<nat>)
    ensures |v| == |pairs|
  {
    seq(|pairs|, k requires 0 <= k < |pairs| => multiset(ps)[pairs[k]])
  }

  /** How often each numbered pair occurs in the polymer `s`. */
  function Counts(s: string, pairs: seq<Pair>): (v: seq<nat>)
    ensures |v| == |pairs|
  {
    CountVec(Adjacent(s), pairs)
  }

  function Dot(v: seq<nat>, w: seq<nat>): nat
    requires |v| == |w|
  {
    if |v| == 0 then 0 else Dot(v[..|v| - 1], w[..|w| - 1]) + v[|v| - 1] * w[|w| - 1]
  }

  lemma {:induction false} DotZero(e: seq<nat>, w: seq<nat>)
    requires |e| == |w| && forall i :: 0 <= i < |e| ==> e[i] == 0
    ensures Dot(e, w) == 0
    decreases |e|
  {
    if |e| > 0 {
      DotZero(e[..|e| - 1], w[..|w| - 1]);
    }
  }

  lemma {:induction false} DotAdd(u: seq<nat>, e: seq<nat>, v: seq<nat>, w: seq<nat>)
    requires |u| == |e| == |v| == |w|
    requires forall i :: 0 <= i < |v| ==> v[i] == u[i] + e[i]
    ensures Dot(v, w) == Dot(u, w) + Dot(e, w)
    decreases |v|
  {
    if |v| > 0 {
      var n := |v| - 1;
      DotAdd(u[..n], e[..n], v[..n], w[..n]);
      Distribute(w[n], u[n], e[n]);
    }
  }

  lemma {:induction false} DotUnit(e: seq<nat>, w: seq<nat>, id: nat)
    requires |e| == |w| && id < |e|
    requires forall i :: 0 <= i < |e| ==> e[i] == if i == id then 1 else 0
    ensures Dot(e, w) == w[id]
    decreases |e|
  {
    var n := |e| - 1;
    if n == id {
      DotZero(e[..n], w[..n]);
    } else {
      DotUnit(e[..n], w[..n], id);
    }
  }

  /** The sum over the pairs in `ps` of the weight `w` gives the pair's number. */
  function PairWeight(ps: seq<Pair>, pairs: seq<Pair>, w: seq<nat>): nat
    requires |w| == |pairs| && Within(ps, pairs)
  {
    if |ps| == 0 then 0 else w[IndexOf(pairs, ps[0]).value] + PairWeight(ps[1..], pairs, w)
  }

  /** A weighted sum of the count vector is the sum of the weights of the pairs counted. */
  lemma {:induction false} DotCounts(ps: seq<Pair>, pairs: seq<Pair>, w: seq<nat>)
    requires Distinct(pairs) && Within(ps, pairs) && |w| == |pairs|
    ensures Dot(CountVec(ps, pairs), w) == PairWeight(ps, pairs, w)
    decreases |ps|
  {
    var v := CountVec(ps, pairs);
    if |ps| == 0 {
      DotZero(v, w);
    } else {
      var id := IndexOf(pairs, ps[0]).value;
      var u := CountVec(ps[1..], pairs);
      var e := seq(|pairs|, i => if i == id then 1 else 0);
      assert ps == [ps[0]] + ps[1..];
      assert multiset(ps) == multiset{ps[0]} + multiset(ps[1..]);
      forall i | 0 <= i < |v|
        ensures v[i] == u[i] + e[i]
      {
        assert pairs[i] == ps[0] <==> i == id;
      }
      DotAdd(u, e, v, w);
      DotUnit(e, w, id);
      DotCounts(ps[1..], pairs, w);
    }
  }

  // ---------------------------------------------------------------------
  // One round of do_solve (src/day_14/mod.rs:84-90)
  // ---------------------------------------------------------------------

  /** The inner loop up to pair `m`: starting from zeros, each pair's count
      is added to both pairs it turns into. */
  function RoundUpTo(read: seq<nat>, adds: seq<(nat, nat)>, m: nat): (w: seq<nat>)
    requires |read| == |adds| && m <= |adds| && AdditionsInBounds(adds, |read|)
    ensures |w| == |read|
  {
    if m == 0 then Zeros(|read|)
    else
      var w := RoundUpTo(read, adds, m - 1);
      var d1 := adds[m - 1].0;
      var d2 := adds[m - 1].1;
      var w1 := w[d1 := w[d1] + read[m - 1]];
      w1[d2 := w1[d2] + read[m - 1]]
  }

  function Round(read: seq<nat>, adds: seq<(nat, nat)>): (w: seq<nat>)
    requires |read| == |adds| && AdditionsInBounds(adds, |read|)
    ensures |w| == |read|
  {
    RoundUpTo(read, adds, |adds|)
  }

  /** Every pair turns into two, so a round doubles the number of pairs. */
  lemma {:induction false} RoundDoubles(read: seq<nat>, adds: seq<(nat, nat)>, m: nat)
    requires |read| == |adds| && m <= |adds| && AdditionsInBounds(adds, |read|)
    ensures SeqSum(RoundUpTo(read, adds, m)) == 2 * SeqSum(read[..m])
  {
    if m == 0 {
      ZerosSum(|read|);
    } else {
      RoundDoubles(read, adds, m - 1);
      RoundStepSum(read, adds, m);
      SumSnoc(read, m);
    }
  }

  /** Pair `m - 1` adds its count twice to the running total. */
  lemma RoundStepSum(read: seq<nat>, adds: seq<(nat, nat)>, m: nat)
    requires |read| == |adds| && 0 < m <= |adds| && AdditionsInBounds(adds, |read|)
    ensures SeqSum(RoundUpTo(read, adds, m)) == SeqSum(RoundUpTo(read, adds, m - 1)) + 2 * read[m - 1]
  {
    var w := RoundUpTo(read, adds, m - 1);
    var x := read[m - 1];
    var d1, d2 := adds[m - 1].0, adds[m - 1].1;
    var w1 := w[d1 := w[d1] + x];
    SeqSumAddAt(w, d1, x);
    SeqSumAddAt(w1, d2, x);
  }

  lemma SumSnoc(xs: seq<nat>, m: nat)
    requires 0 < m <= |xs|
    ensures SeqSum(xs[..m]) == SeqSum(xs[..m - 1]) + xs[m - 1]
  {
    assert xs[..m] == xs[..m - 1] + [xs[m - 1]];
    SeqSumAppend(xs[..m - 1], [xs[m - 1]]);
    assert SeqSum([xs[m - 1]]) == xs[m - 1] + SeqSum([xs[m - 1]][1..]);
  }

  lemma {:induction false} ZerosSum(n: nat)
    ensures SeqSum(Zeros(n)) == 0
  {
    if n > 0 {
      assert Zeros(n)[1..] == Zeros(n - 1);
      ZerosSum(n - 1);
    }
  }

  /** How often pair `i` lands in pair `j` in one round: 0, 1 or 2. */
  function Weight(adds: seq<(nat, nat)>, i: nat, j: nat): nat
    requires i < |adds|
  {
    (if adds[i].0 == j then 1 else 0) + (if adds[i].1 == j then 1 else 0)
  }

  function RoundWeights(adds: seq<(nat, nat)>, j: nat): (w: seq<nat>)
    ensures |w| == |adds|
  {
    seq(|adds|, i requires 0 <= i < |adds| => Weight(adds, i, j))
  }

  /** The inner loop computes, for each pair, the weighted sum of the counts
      of the pairs that turn into it. */
  lemma {:induction false} RoundPointwise(read: seq<nat>, adds: seq<(nat, nat)>, m: nat, j: nat)
    requires |read| == |adds| && m <= |adds| && AdditionsInBounds(adds, |read|) && j < |read|
    ensures RoundUpTo(read, adds, m)[j] == Dot(read[..m], RoundWeights(adds, j)[..m])
  {
    if m > 0 {
      RoundPointwise(read, adds, m - 1, j);
      RoundStepAt(read, adds, m, j);
      DotSnoc(read, RoundWeights(adds, j), m);
    }
  }

  /** Pair `m - 1` adds its count to pair `j` once per product equal to `j`. */
  lemma RoundStepAt(read: seq<nat>, adds: seq<(nat, nat)>, m: nat, j: nat)
    requires |read| == |adds| && 0 < m <= |adds| && AdditionsInBounds(adds, |read|) && j < |read|
    ensures RoundUpTo(read, adds, m)[j] == RoundUpTo(read, adds, m - 1)[j] + read[m - 1] * RoundWeights(adds, j)[m - 1]
  {
    var x := read[m - 1];
    assert x * Weight(adds, m - 1, j) == (if adds[m - 1].0 == j then x else 0) + (if adds[m - 1].1 == j then x else 0);
  }

  /** A dot product over one more position gains that position's product. */
  lemma DotSnoc(v: seq<nat>, w: seq<nat>, m: nat)
    requires |v| == |w| && 0 < m <= |v|
    ensures Dot(v[..m], w[..m]) == Dot(v[..m - 1], w[..m - 1]) + v[m - 1] * w[m - 1]
  {
    assert v[..m][..m - 1] == v[..m - 1];
    assert w[..m][..m - 1] == w[..m - 1];
  }

  /** The products of pair `p` as pair numbers, if it has a rule and both exist. */
  function Products(pairs: seq<Pair>, rules: seq<Rule>, p: Pair): Option<(nat, nat)>
  {
    match Insert(rules, p)
    case None => None
    case Some(z) =>
      match (IndexOf(pairs, (p.0, z)), IndexOf(pairs, (z, p.1)))
      case (Some(a), Some(b)) => Some((a, b))
      case _ => None
  }

  /** The additions table agrees with the rules: every numbered pair has a
      rule, and both pairs it produces are numbered. */
  predicate Consistent(pairs: seq<Pair>, adds: seq<(nat, nat)>, rules: seq<Rule>)
    requires |adds| == |pairs|
  {
    forall k {:trigger adds[k]} :: 0 <= k < |pairs| ==> Products(pairs, rules, pairs[k]) == Some(adds[k])
  }

  lemma {:induction false} ProducedWeight(ps: seq<Pair>, pairs: seq<Pair>, adds: seq<(nat, nat)>, rules: seq<Rule>, j: nat)
    requires Distinct(pairs) && Within(ps, pairs) && |adds| == |pairs| && j < |pairs|
    requires Consistent(pairs, adds, rules)
    ensures PairWeight(ps, pairs, RoundWeights(adds, j)) == multiset(ProduceAll(ps, rules))[pairs[j]]
    decreases |ps|
  {
    if |ps| > 0 {
      var p := ps[0];
      var id := IndexOf(pairs, p).value;
      assert Products(pairs, rules, pairs[id]) == Some(adds[id]);
      var z := Insert(rules, p).value;
      var a := IndexOf(pairs, (p.0, z)).value;
      var b := IndexOf(pairs, (z, p.1)).value;
      IndexOfDistinct(pairs, j);
      assert pairs[j] == (p.0, z) <==> a == j;
      assert pairs[j] == (z, p.1) <==> b == j;
      assert Produce(p, rules) == [(p.0, z), (z, p.1)];
      assert multiset(ProduceAll(ps, rules)) == multiset(Produce(p, rules)) + multiset(ProduceAll(ps[1..], rules));
      ProducedWeight(ps[1..], pairs, adds, rules, j);
    }
  }

  lemma RoundCountsAt(ps: seq<Pair>, pairs: seq<Pair>, adds: seq<(nat, nat)>, rules: seq<Rule>, j: nat)
    requires Distinct(pairs) && Within(ps, pairs) && |adds| == |pairs| && AdditionsInBounds(adds, |pairs|)
    requires Consistent(pairs, adds, rules) && j < |pairs|
    ensures Round(CountVec(ps, pairs), adds)[j] == multiset(ProduceAll(ps, rules))[pairs[j]]
  {
    var v := CountVec(ps, pairs);
    RoundPointwise(v, adds, |adds|, j);
    assert v[..|adds|] == v;
    assert RoundWeights(adds, j)[..|adds|] == RoundWeights(adds, j);
    DotCounts(ps, pairs, RoundWeights(adds, j));
    ProducedWeight(ps, pairs, adds, rules, j);
  }

  /** A round of the counters is a step of the polymer, counted. */
  lemma RoundCounts(ps: seq<Pair>, pairs: seq<Pair>, adds: seq<(nat, nat)>, rules: seq<Rule>)
    requires Distinct(pairs) && Within(ps, pairs) && |adds| == |pairs| && AdditionsInBounds(adds, |pairs|)
    requires Consistent(pairs, adds, rules)
    ensures Round(CountVec(ps, pairs), adds) == CountVec(ProduceAll(ps, rules), pairs)
  {
    var lhs := Round(CountVec(ps, pairs), adds);
    var rhs := CountVec(ProduceAll(ps, rules), pairs);
    forall j | 0 <= j < |pairs|
      ensures lhs[j] == rhs[j]
    {
      RoundCountsAt(ps, pairs, adds, rules, j);
    }
  }

  /** One step of the polymer, as counters. */
  lemma StepCounts(s: string, pairs: seq<Pair>, adds: seq<(nat, nat)>, rules: seq<Rule>)
    requires Distinct(pairs) && |adds| == |pairs| && AdditionsInBounds(adds, |pairs|)
    requires Consistent(pairs, adds, rules) && Within(Adjacent(s), pairs)
    ensures Round(Counts(s, pairs), adds) == Counts(Expand(s, rules), pairs)
  {
    AdjacentExpand(s, rules);
    RoundCounts(Adjacent(s), pairs, adds, rules);
  }

  /** The produced pairs of numbered pairs are numbered. */
  lemma {:induction false} ProduceWithin(ps: seq<Pair>, pairs: seq<Pair>, adds: seq<(nat, nat)>, rules: seq<Rule>)
    requires Within(ps, pairs) && |adds| == |pairs| && Consistent(pairs, adds, rules)
    ensures Within(ProduceAll(ps, rules), pairs)
    decreases |ps|
  {
    if |ps| > 0 {
      var id := IndexOf(pairs, ps[0]).value;
      assert Products(pairs, rules, pairs[id]) == Some(adds[id]);
      var z := Insert(rules, ps[0]).value;
      var produced := [(ps[0].0, z), (z, ps[0].1)];
      assert Produce(ps[0], rules) == produced;
      assert Within(produced[1..], pairs);
      ProduceWithin(ps[1..], pairs, adds, rules);
      WithinAppend(produced, ProduceAll(ps[1..], rules), pairs);
    }
  }

  /** `n` rounds of the counters. */
  function Iterate(state: seq<nat>, adds: seq<(nat, nat)>, n: nat): (r: seq<nat>)
    requires |state| == |adds| && AdditionsInBounds(adds, |state|)
    ensures |r| == |state|
  {
    if n == 0 then state else Round(Iterate(state, adds, n - 1), adds)
  }

  /** Every pair of the polymer stays numbered, however many steps it takes. */
  lemma {:induction false} ExpandNWithin(s: string, pairs: seq<Pair>, adds: seq<(nat, nat)>, rules: seq<Rule>, n: nat)
    requires |adds| == |pairs| && Consistent(pairs, adds, rules) && Within(Adjacent(s), pairs)
    ensures Within(Adjacent(ExpandN(s, rules, n)), pairs)
  {
    if n > 0 {
      var before := ExpandN(s, rules, n - 1);
      ExpandNWithin(s, pairs, adds, rules, n - 1);
      AdjacentExpand(before, rules);
      ProduceWithin(Adjacent(before), pairs, adds, rules);
    }
  }

  /** After any number of rounds the counters are the pair counts of the
      polymer after as many steps. */
  lemma {:induction false} IterateExpands(s: string, pairs: seq<Pair>, adds: seq<(nat, nat)>, rules: seq<Rule>, n: nat)
    requires Distinct(pairs) && |adds| == |pairs| && AdditionsInBounds(adds, |pairs|)
    requires Consistent(pairs, adds, rules) && Within(Adjacent(s), pairs)
    ensures Iterate(Counts(s, pairs), adds, n) == Counts(ExpandN(s, rules, n), pairs)
  {
    if n > 0 {
      var m: nat := n - 1;
      var before := ExpandN(s, rules, m);
      var previous := Iterate(Counts(s, pairs), adds, m);
      assert ExpandN(s, rules, n) == Expand(before, rules);
      assert Iterate(Counts(s, pairs), adds, n) == Round(previous, adds);
      IterateExpands(s, pairs, adds, rules, m);
      ExpandNWithin(s, pairs, adds, rules, m);
      StepCounts(before, pairs, adds, rules);
      Chain(Iterate(Counts(s, pairs), adds, n), Round(previous, adds), Counts(Expand(before, rules), pairs), Counts(ExpandN(s, rules, n), pairs));
    }
  }

  /** Three equal steps, spelled out so the solver need not search for them. */
  lemma Chain(a: seq<nat>, b: seq<nat>, c: seq<nat>, d: seq<nat>)
    requires a == b && b == c && c == d
    ensures a == d
  {
  }

  // ---------------------------------------------------------------------
  // Letter histogram (src/day_14/mod.rs:94-107)
  // ---------------------------------------------------------------------

  /** The histogram loop up to pair `m`: each pair's count is credited to
      its second letter. */
  function CreditUpTo(state: seq<nat>, pairs: seq<Pair>, m: nat): (h: seq<nat>)
    requires |state| == |pairs| && m <= |pairs| && AllUpper(pairs)
    ensures |h| == 26
  {
    if m == 0 then Zeros(26)
    else
      var h := CreditUpTo(state, pairs, m - 1);
      var x := LetterIndex(pairs[m - 1].1);
      h[x := h[x] + state[m - 1]]
  }

  /** The histogram of letters: second letters of all pairs plus the first
      letter of the template. A first letter that is not upper-case makes
      the original's `- b'A'` underflow, or index past the 26 entries for a
      letter after `Z`; that is `None`. */
  function Histogram(state: seq<nat>, pairs: seq<Pair>, first: char): (r: Option<seq<nat>>)
    requires |state| == |pairs| && AllUpper(pairs)
    ensures r.Some? <==> IsUpper(first)
    ensures r.Some? ==> |r.value| == 26 && r.value[LetterIndex(first)] > 0
  {
    if !IsUpper(first) then None
    else
      var h := CreditUpTo(state, pairs, |pairs|);
      var x := LetterIndex(first);
      Some(h[x := h[x] + 1])
  }

  function LetterWeights(pairs: seq<Pair>, x: nat): (w: seq<nat>)
    requires AllUpper(pairs)
    ensures |w| == |pairs|
  {
    seq(|pairs|, i requires 0 <= i < |pairs| && AllUpper(pairs) => if LetterIndex(pairs[i].1) == x then 1 else 0)
  }

  lemma {:induction false} CreditPointwise(state: seq<nat>, pairs: seq<Pair>, m: nat, x: nat)
    requires |state| == |pairs| && m <= |pairs| && AllUpper(pairs) && x < 26
    ensures CreditUpTo(state, pairs, m)[x] == Dot(state[..m], LetterWeights(pairs, x)[..m])
  {
    if m > 0 {
      CreditPointwise(state, pairs, m - 1, x);
      assert state[..m][..m - 1] == state[..m - 1];
      assert LetterWeights(pairs, x)[..m][..m - 1] == LetterWeights(pairs, x)[..m - 1];
    }
  }

  /** How often each letter occurs in a polymer. */
  function LetterHistogram(s: string): (h: seq<nat>)
    ensures |h| == 26
  {
    seq(26, x requires 0 <= x < 26 => multiset(s)[Letter(x)])
  }

  /** Every letter but the first is the second letter of exactly one pair. */
  lemma {:induction false} LettersFromPairs(s: string, pairs: seq<Pair>, x: nat)
    requires |s| > 0 && Within(Adjacent(s), pairs) && AllUpper(pairs) && Distinct(pairs) && x < 26
    requires forall i :: 0 <= i < |s| ==> IsUpper(s[i])
    ensures multiset(s)[Letter(x)] == (if LetterIndex(s[0]) == x then 1 else 0) + PairWeight(Adjacent(s), pairs, LetterWeights(pairs, x))
    decreases |s|
  {
    var t := s[1..];
    assert s == [s[0]] + t;
    assert multiset(s) == multiset{s[0]} + multiset(t);
    assert s[0] == Letter(x) <==> LetterIndex(s[0]) == x;
    if |t| > 0 {
      var p := (s[0], s[1]);
      assert Adjacent(s)[1..] == Adjacent(t);
      LettersFromPairs(t, pairs, x);
      var id := IndexOf(pairs, p).value;
      assert LetterWeights(pairs, x)[id] == if LetterIndex(s[1]) == x then 1 else 0;
    }
  }

  /** A polymer whose first letter is upper-case and whose pairs are all
      numbered is upper-case throughout. */
  lemma {:induction false} UpperThroughout(s: string, pairs: seq<Pair>, i: nat)
    requires |s| > 0 && IsUpper(s[0]) && Within(Adjacent(s), pairs) && AllUpper(pairs) && i < |s|
    ensures IsUpper(s[i])
  {
    if i > 0 {
      AdjacentAt(s, i - 1);
      WithinAt(Adjacent(s), pairs, i - 1);
      var k :| 0 <= k < |pairs| && pairs[k] == (s[i - 1], s[i]);
    }
  }

  lemma HistogramAt(s: string, pairs: seq<Pair>, x: nat)
    requires |s| > 0 && IsUpper(s[0]) && Within(Adjacent(s), pairs) && AllUpper(pairs) && Distinct(pairs)
    requires forall i :: 0 <= i < |s| ==> IsUpper(s[i])
    requires x < 26
    ensures Histogram(Counts(s, pairs), pairs, s[0]).value[x] == multiset(s)[Letter(x)]
  {
    var state := Counts(s, pairs);
    CreditPointwise(state, pairs, |pairs|, x);
    assert state[..|pairs|] == state;
    assert LetterWeights(pairs, x)[..|pairs|] == LetterWeights(pairs, x);
    DotCounts(Adjacent(s), pairs, LetterWeights(pairs, x));
    LettersFromPairs(s, pairs, x);
  }

  /** The histogram read off the pair counts is the polymer's letter histogram. */
  lemma HistogramLetters(s: string, pairs: seq<Pair>)
    requires |s| > 0 && IsUpper(s[0]) && Within(Adjacent(s), pairs) && AllUpper(pairs) && Distinct(pairs)
    ensures Histogram(Counts(s, pairs), pairs, s[0]) == Some(LetterHistogram(s))
  {
    forall i | 0 <= i < |s|
      ensures IsUpper(s[i])
    {
      UpperThroughout(s, pairs, i);
    }
    var h := Histogram(Counts(s, pairs), pairs, s[0]).value;
    forall x | 0 <= x < 26
      ensures h[x] == LetterHistogram(s)[x]
    {
      HistogramAt(s, pairs, x);
    }
    assert h == LetterHistogram(s);
  }

  /** The smallest non-zero entry: what the original finds as the first
      non-zero entry of the sorted histogram. */
  function MinNonzero(h: seq<nat>): (r: Option<nat>)
    ensures r.None? <==> forall k :: 0 <= k < |h| ==> h[k] == 0
    ensures r.Some? ==> r.value > 0 && r.value in h && forall k :: 0 <= k < |h| && h[k] > 0 ==> r.value <= h[k]
  {
    if |h| == 0 then None
    else
      var rest := MinNonzero(h[1..]);
      assert forall k :: 1 <= k < |h| ==> h[k] == h[1..][k - 1];
      if h[0] == 0 then rest
      else if rest.Some? && rest.value < h[0] then rest
      else Some(h[0])
  }

  /** Most common count minus least common non-zero count: the last entry
      of the sorted histogram minus its first non-zero one. */
  function Spread(h: seq<nat>): (r: Option<nat>)
    requires |h| > 0
  {
    match MinNonzero(h)
    case None => None
    case Some(m) => Some(SeqMax(h) - m)
  }

  /** The histogram and spread steps that end `do_solve`. */
  function Answer(state: seq<nat>, inp: Input): Option<nat>
    requires ValidInput(inp) && |state| == |inp.pairs|
  {
    match Histogram(state, inp.pairs, inp.template[0])
    case None => None
    case Some(h) => Spread(h)
  }

  /** `do_solve`: two buffers take turns being read and written, each round
      clearing the one written and adding every pair's count to the two
      pairs it turns into. */
  method DoSolve(inp: Input, rounds: nat) returns (r: Option<nat>)
    requires ValidInput(inp)
    ensures r == Answer(Iterate(inp.initState, inp.additions, rounds), inp)
  {
    var final := RunRounds(inp.initState, inp.additions, rounds);
    r := Answer(final, inp);
  }

  /** The rounds loop of `do_solve`: buffer `a` is read on even iterations
      and `b` on odd ones, so the last one written holds the result. */
  method RunRounds(init: seq<nat>, adds: seq<(nat, nat)>, rounds: nat) returns (final: seq<nat>)
    requires |init| == |adds| && AdditionsInBounds(adds, |init|)
    ensures final == Iterate(init, adds, rounds)
  {
    var a := init;
    var b := init;
    var iteration := 0;
    var readsA := true;
    while iteration < rounds
      invariant iteration <= rounds && |a| == |init| && |b| == |init|
      invariant readsA == (iteration % 2 == 0)
      invariant (if readsA then a else b) == Iterate(init, adds, iteration)
    {
      var read := if readsA then a else b;
      var write := RunRound(read, adds);
      if readsA {
        b := write;
      } else {
        a := write;
      }
      iteration := iteration + 1;
      readsA := !readsA;
    }
    final := if readsA then a else b;
  }

  /** The inner loop of one round: clear the buffer written, then add every
      pair's count to the two pairs it turns into. */
  method RunRound(read: seq<nat>, adds: seq<(nat, nat)>) returns (write: seq<nat>)
    requires |read| == |adds| && AdditionsInBounds(adds, |read|)
    ensures write == Round(read, adds)
  {
    write := Zeros(|read|);
    var i := 0;
    while i < |read|
      invariant i <= |read| && write == RoundUpTo(read, adds, i)
    {
      var d1 := adds[i].0;
      var d2 := adds[i].1;
      write := write[d1 := write[d1] + read[i]];
      write := write[d2 := write[d2] + read[i]];
      i := i + 1;
    }
  }

  // ---------------------------------------------------------------------
  // What parse_input builds
  // ---------------------------------------------------------------------

  lemma {:induction false} InsertSome(rs: seq<Rule>, j: nat)
    requires j < |rs|
    ensures Insert(rs, rs[j].pair).Some?
  {
    if j > 0 && Insert(rs[1..], rs[j].pair).None? {
      InsertSome(rs[1..], j - 1);
    }
  }

  /** The template loop succeeds exactly when every pair of the template
      has a number, and then counts each pair once per occurrence. */
  lemma {:induction false} InitFromCounts(template: string, pairs: seq<Pair>, i: nat, state: seq<nat>)
    requires 0 < |template| && i <= |template| - 1 && |state| == |pairs| && Distinct(pairs)
    ensures InitFrom(template, pairs, i, state).Ok? <==> Within(Adjacent(template[i..]), pairs)
    ensures InitFrom(template, pairs, i, state).Ok? ==>
      forall k :: 0 <= k < |pairs| ==> InitFrom(template, pairs, i, state).value[k] == state[k] + multiset(Adjacent(template[i..]))[pairs[k]]
    decreases |template| - i
  {
    var t := template[i..];
    if i < |template| - 1 {
      var q := (template[i], template[i + 1]);
      var rest := Adjacent(template[i + 1..]);
      assert Adjacent(t) == [q] + rest by {
        assert t == [template[i]] + template[i + 1..];
        AdjacentCons(template[i], template[i + 1..]);
      }
      assert ([q] + rest)[1..] == rest;
      match IndexOf(pairs, q)
      case None =>
      case Some(id) =>
        var next := state[id := state[id] + 1];
        assert InitFrom(template, pairs, i, state) == InitFrom(template, pairs, i + 1, next);
        InitFromCounts(template, pairs, i + 1, next);
        assert multiset(Adjacent(t)) == multiset{q} + multiset(rest);
        forall k | 0 <= k < |pairs|
          ensures next[k] == state[k] + (if pairs[k] == q then 1 else 0)
        {
          IndexOfDistinct(pairs, k);
        }
    }
  }

  /** Reading the rule lines in order, the entry of every pair is the one
      its last rule line sets; pairs with no rule keep their entry. Every
      rule line is long enough to hold its inserted letter. */
  lemma {:induction false} AdditionsConsistent(rules: seq<string>, pairs: seq<Pair>, adds: seq<(nat, nat)>)
    requires |adds| == |pairs| && Distinct(pairs)
    requires forall k :: 0 <= k < |rules| ==> |rules[k]| >= 2 && (rules[k][0], rules[k][1]) in pairs
    requires AdditionsFrom(rules, pairs, adds).Ok?
    ensures forall k :: 0 <= k < |rules| ==> |rules[k]| >= 7
    ensures var out := AdditionsFrom(rules, pairs, adds).value;
      forall k :: 0 <= k < |pairs| ==>
        if Insert(RulesOf(rules), pairs[k]).Some? then Products(pairs, RulesOf(rules), pairs[k]) == Some(out[k])
        else out[k] == adds[k]
    decreases |rules|
  {
    if |rules| > 0 {
      var src, first, second := AdditionsHead(rules, pairs, adds);
      var line, rest := rules[0], rules[1..];
      AdditionsConsistent(rest, pairs, adds[src := (first, second)]);
      var out := AdditionsFrom(rules, pairs, adds).value;
      var r := Rule((line[0], line[1]), line[6]);
      forall k | 0 <= k < |pairs|
        ensures if Insert([r] + RulesOf(rest), pairs[k]).Some? then Products(pairs, [r] + RulesOf(rest), pairs[k]) == Some(out[k])
                else out[k] == adds[k]
      {
        AdditionsAt(pairs, RulesOf(rest), r, src, first, second, adds, out, k);
      }
    }
  }

  /** The first rule line of a successful `AdditionsFrom`: long enough, its
      pairs numbered, the rest read from the updated table. */
  lemma AdditionsHead(rules: seq<string>, pairs: seq<Pair>, adds: seq<(nat, nat)>) returns (src: nat, first: nat, second: nat)
    requires |adds| == |pairs| && |rules| > 0
    requires forall k :: 0 <= k < |rules| ==> |rules[k]| >= 2 && (rules[k][0], rules[k][1]) in pairs
    requires AdditionsFrom(rules, pairs, adds).Ok?
    ensures var line := rules[0];
      && |line| >= 7
      && IndexOf(pairs, (line[0], line[1])) == Some(src)
      && IndexOf(pairs, (line[0], line[6])) == Some(first)
      && IndexOf(pairs, (line[6], line[1])) == Some(second)
      && (forall k :: 0 <= k < |rules[1..]| ==> |rules[1..][k]| >= 2 && (rules[1..][k][0], rules[1..][k][1]) in pairs)
      && AdditionsFrom(rules[1..], pairs, adds[src := (first, second)]) == AdditionsFrom(rules, pairs, adds)
      && RulesOf(rules) == [Rule((line[0], line[1]), line[6])] + RulesOf(rules[1..])
  {
    var line := rules[0];
    src := IndexOf(pairs, (line[0], line[1])).value;
    first := IndexOf(pairs, (line[0], line[6])).value;
    second := IndexOf(pairs, (line[6], line[1])).value;
    assert forall k :: 0 <= k < |rules[1..]| ==> rules[1..][k] == rules[k + 1];
  }

  /** One rule line in front of the rest: the pair it names takes its
      products unless a later line names the same pair. */
  lemma AdditionsAt(pairs: seq<Pair>, rules: seq<Rule>, r: Rule, src: nat, first: nat, second: nat,
                    adds: seq<(nat, nat)>, out: seq<(nat, nat)>, k: nat)
    requires Distinct(pairs) && |adds| == |pairs| && |out| == |pairs| && k < |pairs|
    requires IndexOf(pairs, r.pair) == Some(src)
    requires IndexOf(pairs, (r.pair.0, r.insert)) == Some(first) && IndexOf(pairs, (r.insert, r.pair.1)) == Some(second)
    requires var next := adds[src := (first, second)];
      if Insert(rules, pairs[k]).Some? then Products(pairs, rules, pairs[k]) == Some(out[k]) else out[k] == next[k]
    ensures if Insert([r] + rules, pairs[k]).Some? then Products(pairs, [r] + rules, pairs[k]) == Some(out[k])
            else out[k] == adds[k]
  {
    assert ([r] + rules)[1..] == rules;
    if Insert(rules, pairs[k]).None? && pairs[k] == r.pair {
      IndexOfDistinct(pairs, k);
    }
  }

  /** The steps of a successful `parse_input`. */
  lemma ParseSteps(raw: string)
    requires ParseInput(raw).Ok?
    ensures var inp := ParseInput(raw).value;
      var ruleLines := RuleLines(Lines(raw));
      && RulePairs(ruleLines).Ok?
      && inp.pairs == Dedup(RulePairs(ruleLines).value)
      && |Lines(raw)| > 0 && inp.template == Lines(raw)[0] && |inp.template| > 0
      && InitFrom(inp.template, inp.pairs, 0, Zeros(|inp.pairs|)) == Ok(inp.initState)
      && AdditionsFrom(ruleLines, inp.pairs, NoAdditions(|inp.pairs|)) == Ok(inp.additions)
  {
  }

  /** The initial counters count the template's pairs, all of which are numbered. */
  lemma InitCounts(template: string, pairs: seq<Pair>)
    requires |template| > 0 && Distinct(pairs) && InitFrom(template, pairs, 0, Zeros(|pairs|)).Ok?
    ensures InitFrom(template, pairs, 0, Zeros(|pairs|)).value == Counts(template, pairs)
    ensures Within(Adjacent(template), pairs)
  {
    InitFromCounts(template, pairs, 0, Zeros(|pairs|));
    assert template[0..] == template;
    var init := InitFrom(template, pairs, 0, Zeros(|pairs|)).value;
    assert forall k :: 0 <= k < |pairs| ==> init[k] == Counts(template, pairs)[k];
  }

  /** The pairs numbered are exactly the pairs that have a rule. */
  lemma PairsAreRulePairs(ruleLines: seq<string>, p: Pair)
    requires RulePairs(ruleLines).Ok? && forall k :: 0 <= k < |ruleLines| ==> |ruleLines[k]| >= 7
    ensures var rules := RulesOf(ruleLines);
      p in Dedup(RulePairs(ruleLines).value) <==> exists k :: 0 <= k < |rules| && rules[k].pair == p
  {
    RulePairsMatch(ruleLines);
    PairsOfRules(RulePairs(ruleLines).value, RulesOf(ruleLines), p);
  }

  /** The pairs read from the rule lines are the rules' pairs, in order. */
  lemma RulePairsMatch(ruleLines: seq<string>)
    requires RulePairs(ruleLines).Ok? && forall k :: 0 <= k < |ruleLines| ==> |ruleLines[k]| >= 7
    ensures var lhs, rules := RulePairs(ruleLines).value, RulesOf(ruleLines);
      |lhs| == |rules| && forall k :: 0 <= k < |lhs| ==> lhs[k] == rules[k].pair
  {
  }

  /** A list holding each rule's pair, in order, holds exactly the rule pairs. */
  lemma PairsOfRules(lhs: seq<Pair>, rules: seq<Rule>, p: Pair)
    requires |lhs| == |rules| && forall k :: 0 <= k < |lhs| ==> lhs[k] == rules[k].pair
    ensures p in lhs <==> exists k :: 0 <= k < |rules| && rules[k].pair == p
  {
    if p in lhs {
      var k :| 0 <= k < |lhs| && lhs[k] == p;
      assert rules[k].pair == p;
    }
  }

  /** What a successful `parse_input` holds: the template is the first
      line; the pairs are exactly the pairs that have a rule; the initial
      counters count the template's pairs; and the additions table agrees
      with the rules. */
  lemma ParseFacts(raw: string)
    requires ParseInput(raw).Ok?
    ensures var inp := ParseInput(raw).value;
      var rules := RulesOf(RuleLines(Lines(raw)));
      && |Lines(raw)| > 0 && inp.template == Lines(raw)[0]
      && (forall p :: p in inp.pairs <==> exists k :: 0 <= k < |rules| && rules[k].pair == p)
      && Within(Adjacent(inp.template), inp.pairs)
      && inp.initState == Counts(inp.template, inp.pairs)
      && Consistent(inp.pairs, inp.additions, rules)
  {
    var inp := ParseInput(raw).value;
    var ruleLines := RuleLines(Lines(raw));
    var lhs := RulePairs(ruleLines).value;
    var pairs := inp.pairs;
    ParseSteps(raw);
    InitCounts(inp.template, pairs);
    assert forall k :: 0 <= k < |ruleLines| ==> lhs[k] in pairs;
    AdditionsConsistent(ruleLines, pairs, NoAdditions(|pairs|));
    var rules := RulesOf(ruleLines);
    forall p
      ensures p in pairs <==> exists k :: 0 <= k < |rules| && rules[k].pair == p
    {
      PairsAreRulePairs(ruleLines, p);
    }
    forall k | 0 <= k < |pairs|
      ensures Products(pairs, rules, pairs[k]) == Some(inp.additions[k])
    {
      PairsAreRulePairs(ruleLines, pairs[k]);
      var j :| 0 <= j < |rules| && rules[j].pair == pairs[k];
      InsertSome(rules, j);
    }
  }

  /** The end of `do_solve` after `rounds` rounds, on a parsed input, is the
      spread of the letter histogram of the polymer grown from the template
      by the rules for as many steps; it fails only when the template's
      first letter is not upper-case, which only a one-letter template can
      have. */
  lemma SolveMatchesPolymer(raw: string, rounds: nat)
    requires ParseInput(raw).Ok?
    ensures var inp := ParseInput(raw).value;
      var polymer := ExpandN(inp.template, RulesOf(RuleLines(Lines(raw))), rounds);
      && (|inp.template| > 1 ==> IsUpper(inp.template[0]))
      && Answer(Iterate(inp.initState, inp.additions, rounds), inp)
           == (if IsUpper(inp.template[0]) then Spread(LetterHistogram(polymer)) else None)
      && (IsUpper(inp.template[0]) ==> Spread(LetterHistogram(polymer)).Some?)
  {
    var inp := ParseInput(raw).value;
    var rules := RulesOf(RuleLines(Lines(raw)));
    var polymer := ExpandN(inp.template, rules, rounds);
    ParseFacts(raw);
    IterateExpands(inp.template, inp.pairs, inp.additions, rules, rounds);
    ExpandNWithin(inp.template, inp.pairs, inp.additions, rules, rounds);
    if |inp.template| > 1 {
      UpperThroughout(inp.template, inp.pairs, 0);
      AdjacentAt(inp.template, 0);
      WithinAt(Adjacent(inp.template), inp.pairs, 0);
      var k :| 0 <= k < |inp.pairs| && inp.pairs[k] == (inp.template[0], inp.template[1]);
    }
    if IsUpper(inp.template[0]) {
      HistogramLetters(polymer, inp.pairs);
      var h := LetterHistogram(polymer);
      assert h[LetterIndex(inp.template[0])] > 0;
    }
  }
}

=== FILE: seven_segment.dfy ===
/** Day 8 (src/day_8/mod.rs): seven-segment search. Each display shows the
    ten digit patterns in a scrambled order over scrambled wires; the
    original stores a pattern as a `u8` bit mask whose bit s is segment
    `'a' + s`. Here a pattern is the set of those bit positions, so `|`
    is union, `x & y == y` is `y <= x` and `count_ones` is cardinality. */
module SevenSegment {
  import opened Wrappers
  import opened Text

  type Segment = s: nat | s < 7
  type Pattern = set<Segment>
  type Digit = d: nat | d < 10

  // ---------------------------------------------------------------------
  // Parsing (src/day_8/mod.rs:3-33)
  // ---------------------------------------------------------------------

  function SegmentChar(s: Segment): char
  {
    ('a' as int + s) as char
  }

  predicate IsSegmentChar(c: char)
  {
    'a' <= c <= 'g'
  }

  /** `parse_segment`: the set of letters `a`..`g` in the word; any other
      character panics. */
  function ParseSegment(word: string): (r: Option<Pattern>)
    ensures r.Some? <==> forall k :: 0 <= k < |word| ==> IsSegmentChar(word[k])
    ensures r.Some? ==> forall s: Segment :: s in r.value <==> SegmentChar(s) in word
  {
    if |word| == 0 then Some({})
    else if !IsSegmentChar(word[0]) then None
    else
      match ParseSegment(word[1..])
      case None => None
      case Some(rest) =>
        var s: Segment := word[0] as int - 'a' as int;
        assert SegmentChar(s) == word[0];
        assert forall t: Segment :: SegmentChar(t) in word <==> t == s || SegmentChar(t) in word[1..] by {
          assert word == [word[0]] + word[1..];
        }
        Some({s} + rest)
  }

  /** One input line: ten patterns before the bar and four after it. */
  datatype Entry = Entry(signals: seq<Pattern>, code: seq<Pattern>)

  predicate WellSized(e: Entry)
  {
    |e.signals| == 10 && |e.code| == 4
  }

  function Blank10(): seq<Pattern>
  {
    seq(10, _ => {})
  }

  /** The loop of `parse_line` from token `i` on: tokens 0 to 9 fill the
      signals, token 10 (the bar) is skipped, tokens 11 to 14 fill the code and
      a sixteenth token indexes past the end of the code array. */
  function ParseTokens(tokens: seq<string>, i: nat, e: Entry): (r: Option<Entry>)
    requires WellSized(e) && i <= |tokens|
    ensures r.Some? ==> WellSized(r.value)
    decreases |tokens| - i
  {
    if i == |tokens| then Some(e)
    else if i < 10 then
      match ParseSegment(tokens[i])
      case None => None
      case Some(p) => ParseTokens(tokens, i + 1, e.(signals := e.signals[i := p]))
    else if i == 10 then ParseTokens(tokens, i + 1, e)
    else if i < 15 then
      match ParseSegment(tokens[i])
      case None => None
      case Some(p) => ParseTokens(tokens, i + 1, e.(code := e.code[i - 11 := p]))
    else None
  }

  /** `parse_line`: the whitespace-separated tokens of the line. */
  function ParseLine(line: string): (r: Option<Entry>)
    ensures r.Some? ==> WellSized(r.value)
  {
    ParseTokens(Words(line), 0, Entry(Blank10(), seq(4, _ => {})))
  }

  /** A line of ten patterns, the bar and four patterns parses into exactly those patterns. */
  lemma {:induction false} ParseTokensFull(tokens: seq<string>, i: nat, e: Entry)
    requires WellSized(e) && |tokens| == 15 && i <= 15
    requires forall k :: 0 <= k < 15 && k != 10 ==> ParseSegment(tokens[k]).Some?
    ensures ParseTokens(tokens, i, e).Some?
    ensures forall k :: 0 <= k < 10 ==>
              ParseTokens(tokens, i, e).value.signals[k] == if k < i then e.signals[k] else ParseSegment(tokens[k]).value
    ensures forall k :: 0 <= k < 4 ==>
              ParseTokens(tokens, i, e).value.code[k] == if k + 11 < i then e.code[k] else ParseSegment(tokens[k + 11]).value
    decreases 15 - i
  {
    if i < 15 {
      if i < 10 {
        ParseTokensFull(tokens, i + 1, e.(signals := e.signals[i := ParseSegment(tokens[i]).value]));
      } else if i == 10 {
        ParseTokensFull(tokens, i + 1, e);
      } else {
        ParseTokensFull(tokens, i + 1, e.(code := e.code[i - 11 := ParseSegment(tokens[i]).value]));
      }
    }
  }

  /** More than fifteen tokens always panics. */
  lemma {:induction false} ParseTokensTooMany(tokens: seq<string>, i: nat, e: Entry)
    requires WellSized(e) && |tokens| > 15 && i <= |tokens|
    ensures i <= 15 ==> ParseTokens(tokens, i, e).None?
    decreases |tokens| - i
  {
    if i < 15 {
      if i < 10 {
        if ParseSegment(tokens[i]).Some? {
          ParseTokensTooMany(tokens, i + 1, e.(signals := e.signals[i := ParseSegment(tokens[i]).value]));
        }
      } else if i == 10 {
        ParseTokensTooMany(tokens, i + 1, e);
      } else if ParseSegment(tokens[i]).Some? {
        ParseTokensTooMany(tokens, i + 1, e.(code := e.code[i - 11 := ParseSegment(tokens[i]).value]));
      }
    }
  }

  /** `parse_input`: one entry per line; a panic on any line is `None`. */
  function ParseInput(raw: string): (r: Option<seq<Entry>>)
    ensures r.Some? ==> |r.value| == |Lines(raw)|
    ensures r.Some? ==> forall k :: 0 <= k < |r.value| ==> Some(r.value[k]) == ParseLine(Lines(raw)[k])
  {
    ParseLines(Lines(raw))
  }

  function ParseLines(lines: seq<string>): (r: Option<seq<Entry>>)
    ensures r.Some? <==> forall k :: 0 <= k < |lines| ==> ParseLine(lines[k]).Some?
    ensures r.Some? ==> |r.value| == |lines| && forall k :: 0 <= k < |lines| ==> Some(r.value[k]) == ParseLine(lines[k])
  {
    if |lines| == 0 then Some([])
    else
      match ParseLine(lines[0])
      case None => None
      case Some(e) =>
        match ParseLines(lines[1..])
        case None =>
          assert forall k :: 1 <= k < |lines| ==> lines[k] == lines[1..][k - 1];
          None
        case Some(rest) =>
          assert forall k :: 1 <= k < |lines| ==> lines[k] == lines[1..][k - 1];
          Some([e] + rest)
  }

  // ---------------------------------------------------------------------
  // SolvedMap::from_input (src/day_8/mod.rs:40-101)
  // ---------------------------------------------------------------------

  /** One `for val in map` loop that may store each pattern into a digit
      slot: `rule` names the slot, and a later pattern overwrites an earlier one. */
  function Pass(signals: seq<Pattern>, out: seq<Pattern>, rule: Pattern -> Option<Digit>): (r: seq<Pattern>)
    requires |out| == 10
    ensures |r| == 10
    ensures forall k: Digit :: (forall j :: 0 <= j < |signals| ==> rule(signals[j]) != Some(k)) ==> r[k] == out[k]
    decreases |signals|
  {
    if |signals| == 0 then out
    else
      var next := match rule(signals[0]) case Some(k) => out[k := signals[0]] case None => out;
      assert forall j :: 1 <= j < |signals| ==> signals[1..][j - 1] == signals[j];
      Pass(signals[1..], next, rule)
  }

  /** When exactly one pattern is routed to slot `k`, the slot ends up holding it. */
  lemma {:induction false} PassUnique(signals: seq<Pattern>, out: seq<Pattern>, rule: Pattern -> Option<Digit>, i: nat, k: Digit)
    requires |out| == 10 && i < |signals| && rule(signals[i]) == Some(k)
    requires forall j :: 0 <= j < |signals| && j != i ==> rule(signals[j]) != Some(k)
    ensures Pass(signals, out, rule)[k] == signals[i]
    decreases |signals|
  {
    var next := match rule(signals[0]) case Some(k') => out[k' := signals[0]] case None => out;
    assert forall j :: 1 <= j < |signals| ==> signals[1..][j - 1] == signals[j];
    if i > 0 {
      PassUnique(signals[1..], next, rule, i - 1, k);
    }
  }

  /** `filter(..).next().unwrap()`: the first pattern that satisfies `pred`. */
  function FirstWhere(signals: seq<Pattern>, pred: Pattern -> bool): (r: Option<Pattern>)
    ensures r.None? <==> forall j :: 0 <= j < |signals| ==> !pred(signals[j])
    ensures r.Some? ==> exists i :: 0 <= i < |signals| && signals[i] == r.value && pred(signals[i])
                          && forall j :: 0 <= j < i ==> !pred(signals[j])
  {
    if |signals| == 0 then None
    else if pred(signals[0]) then Some(signals[0])
    else
      var rest := FirstWhere(signals[1..], pred);
      assert forall j :: 1 <= j < |signals| ==> signals[1..][j - 1] == signals[j];
      if rest.Some? then
        var i :| 0 <= i < |signals[1..]| && signals[1..][i] == rest.value && pred(signals[1..][i])
                 && forall j :: 0 <= j < i ==> !pred(signals[1..][j]);
        assert signals[i + 1] == rest.value;
        rest
      else rest
  }

  /** The patterns with 2, 3, 4 and 7 segments can only be 1, 7, 4 and 8. */
  function EasySlot(count: nat): Option<Digit>
  {
    match count
    case 2 => Some(1)
    case 3 => Some(7)
    case 4 => Some(4)
    case 7 => Some(8)
    case _ => None
  }

  function EasyRule(v: Pattern): Option<Digit>
  {
    EasySlot(|v|)
  }

  /** The six-segment patterns other than 6: 9 covers 4, 0 does not. */
  function ZeroNineRule(six: Pattern, four: Pattern, v: Pattern): Option<Digit>
  {
    if |v| == 6 && v != six then (if four <= v then Some(9) else Some(0)) else None
  }

  /** The five-segment patterns other than 3: 6 covers 5, not 2. */
  function TwoFiveRule(three: Pattern, six: Pattern, v: Pattern): Option<Digit>
  {
    if |v| == 5 && v != three then (if v <= six then Some(5) else Some(2)) else None
  }

  /** The first five-segment pattern that covers the pattern of 1: the 3. */
  function FindThree(signals: seq<Pattern>, one: Pattern): Option<Pattern>
  {
    FirstWhere(signals, v => |v| == 5 && one <= v)
  }

  /** The first six-segment pattern that does not cover the pattern of 1: the 6. */
  function FindSix(signals: seq<Pattern>, one: Pattern): Option<Pattern>
  {
    FirstWhere(signals, v => |v| == 6 && !(one <= v))
  }

  function ZeroNinePass(signals: seq<Pattern>, out: seq<Pattern>, six: Pattern, four: Pattern): (r: seq<Pattern>)
    requires |out| == 10
    ensures |r| == 10
  {
    Pass(signals, out, v => ZeroNineRule(six, four, v))
  }

  function TwoFivePass(signals: seq<Pattern>, out: seq<Pattern>, three: Pattern, six: Pattern): (r: seq<Pattern>)
    requires |out| == 10
    ensures |r| == 10
  {
    Pass(signals, out, v => TwoFiveRule(three, six, v))
  }

  /** `SolvedMap::from_input`: the pattern of each digit, indexed by the
      digit. `None` is a panic of one of the two `unwrap`s. */
  function FromInput(signals: seq<Pattern>): (r: Option<seq<Pattern>>)
    ensures r.Some? ==> |r.value| == 10
  {
    var easy := Pass(signals, Blank10(), EasyRule);
    match FindThree(signals, easy[1])
    case None => None
    case Some(three) =>
      var withThree := easy[3 := three];
      match FindSix(signals, withThree[1])
      case None => None
      case Some(six) =>
        var withSix := withThree[6 := six];
        var withZeroNine := ZeroNinePass(signals, withSix, six, withSix[4]);
        Some(TwoFivePass(signals, withZeroNine, three, six))
  }

  /** `SolvedMap::value`: the digit whose pattern is `v`; a pattern that is
      not in the map panics. */
  function Value(digits: seq<Pattern>, v: Pattern): (r: Option<Digit>)
    requires |digits| == 10
    ensures r.Some? ==> digits[r.value] == v && forall d :: 0 <= d < r.value ==> digits[d] != v
    ensures r.None? <==> v !in digits
  {
    ValueFrom(digits, v, 0)
  }

  function ValueFrom(digits: seq<Pattern>, v: Pattern, d: nat): (r: Option<Digit>)
    requires |digits| == 10 && d <= 10
    ensures r.Some? ==> d <= r.value && digits[r.value] == v && forall e :: d <= e < r.value ==> digits[e] != v
    ensures r.None? <==> forall e :: d <= e < 10 ==> digits[e] != v
    decreases 10 - d
  {
    if d == 10 then None else if digits[d] == v then Some(d) else ValueFrom(digits, v, d + 1)
  }

  // ---------------------------------------------------------------------
  // part_1 and part_2 (src/day_8/mod.rs:108-135)
  // ---------------------------------------------------------------------

  /** `easy_code`: a pattern with 2, 3, 4 or 7 segments. */
  predicate EasyCode(c: Pattern)
  {
    |c| in {2, 3, 4, 7}
  }

  function CountEasy(code: seq<Pattern>): (r: nat)
    ensures r <= |code|
  {
    if |code| == 0 then 0 else (if EasyCode(code[0]) then 1 else 0) + CountEasy(code[1..])
  }

  /** `part_1`: the easy patterns among all output codes. */
  function Part1(entries: seq<Entry>): nat
  {
    if |entries| == 0 then 0 else CountEasy(entries[0].code) + Part1(entries[1..])
  }

  /** The four-digit number an entry's code shows, or `None` on a panic. */
  function DecodeEntry(e: Entry): (r: Option<nat>)
    requires WellSized(e)
    ensures r.Some? ==> r.value < 10000
  {
    match FromInput(e.signals)
    case None => None
    case Some(digits) =>
      var v0 := Value(digits, e.code[0]);
      var v1 := Value(digits, e.code[1]);
      var v2 := Value(digits, e.code[2]);
      var v3 := Value(digits, e.code[3]);
      if v0.Some? && v1.Some? && v2.Some? && v3.Some? then
        Some(FourDigits(v0.value, v1.value, v2.value, v3.value))
      else None
  }

  function FourDigits(d0: Digit, d1: Digit, d2: Digit, d3: Digit): (r: nat)
    ensures r < 10000
  {
    (d0 as nat) * 1000 + (d1 as nat) * 100 + (d2 as nat) * 10 + (d3 as nat)
  }

  /** `part_2`: the sum of the decoded outputs. */
  function Part2(entries: seq<Entry>): Option<nat>
    requires forall k :: 0 <= k < |entries| ==> WellSized(entries[k])
  {
    if |entries| == 0 then Some(0)
    else
      match (DecodeEntry(entries[0]), Part2(entries[1..]))
      case (Some(x), Some(rest)) => Some(x + rest)
      case _ => None
  }

  // ---------------------------------------------------------------------
  // The display being decoded
  // ---------------------------------------------------------------------

  /** The lit segments of each digit on an unscrambled display. */
  function Canon(d: Digit): Pattern
  {
    match d
    case 0 => {0, 1, 2, 4, 5, 6}
    case 1 => {2, 5}
    case 2 => {0, 2, 3, 4, 6}
    case 3 => {0, 2, 3, 5, 6}
    case 4 => {1, 2, 3, 5}
    case 5 => {0, 1, 3, 5, 6}
    case 6 => {0, 1, 3, 4, 5, 6}
    case 7 => {0, 2, 5}
    case 8 => {0, 1, 2, 3, 4, 5, 6}
    case 9 => {0, 1, 2, 3, 5, 6}
  }

  /** The number of segments each digit lights. */
  function CanonCount(d: Digit): nat
  {
    [6, 2, 5, 5, 4, 5, 6, 3, 7, 6][d]
  }

  lemma CanonCards()
    ensures forall d: Digit :: |Canon(d)| == CanonCount(d)
  {
    assert |Canon(0)| == 6;
    assert |Canon(1)| == 2;
    assert |Canon(2)| == 5;
    assert |Canon(3)| == 5;
    assert |Canon(4)| == 4;
    assert |Canon(5)| == 5;
    assert |Canon(6)| == 6;
    assert |Canon(7)| == 3;
    assert |Canon(8)| == 7;
    assert |Canon(9)| == 6;
  }

  /** A wiring sends segment s to wire w[s]; distinct segments use distinct wires. */
  predicate IsWiring(w: seq<Segment>)
  {
    |w| == 7 && forall s, t :: 0 <= s < t < 7 ==> w[s] != w[t]
  }

  /** The wires a pattern lights under a wiring. */
  function Image(w: seq<Segment>, p: Pattern): Pattern
    requires |w| == 7
  {
    set s | s in p :: w[s]
  }

  /** Every digit appears exactly once in `order`. */
  predicate IsOrder(order: seq<Digit>)
  {
    && |order| == 10
    && (forall i, j :: 0 <= i < j < 10 ==> order[i] != order[j])
    && (forall d: Digit :: d in order)
  }

  /** A display's ten patterns: the digits in the order `order`, over the wiring `w`. */
  predicate Scrambled(signals: seq<Pattern>, w: seq<Segment>, order: seq<Digit>)
  {
    IsWiring(w) && IsOrder(order) && |signals| == 10
    && forall i :: 0 <= i < 10 ==> signals[i] == Image(w, Canon(order[i]))
  }

  /** The patterns of the ten digits, in digit order, over wiring `w`. */
  function Decoded(w: seq<Segment>): seq<Pattern>
    requires |w| == 7
  {
    seq(10, d requires 0 <= d < 10 => Image(w, Canon(d)))
  }

  lemma {:induction false} ImageCard(w: seq<Segment>, p: Pattern)
    requires IsWiring(w)
    ensures |Image(w, p)| == |p|
    decreases p
  {
    if p != {} {
      var x :| x in p;
      ImageCard(w, p - {x});
      assert Image(w, p) == Image(w, p - {x}) + {w[x]};
      assert w[x] !in Image(w, p - {x});
    }
  }

  lemma ImageSubset(w: seq<Segment>, a: Pattern, b: Pattern)
    requires IsWiring(w)
    ensures Image(w, a) <= Image(w, b) <==> a <= b
  {
    if Image(w, a) <= Image(w, b) {
      forall x | x in a
        ensures x in b
      {
        assert w[x] in Image(w, b);
        var y :| y in b && w[y] == w[x];
      }
    }
  }

  lemma ImageEqual(w: seq<Segment>, a: Pattern, b: Pattern)
    requires IsWiring(w)
    ensures Image(w, a) == Image(w, b) <==> a == b
  {
    ImageSubset(w, a, b);
    ImageSubset(w, b, a);
  }

  /** No two digits light the same segments. */
  lemma CanonDistinct()
    ensures forall d: Digit, e: Digit :: Canon(d) == Canon(e) ==> d == e
  {
    CanonCards();
    assert 1 !in Canon(2) && 1 !in Canon(3) && 1 in Canon(5);
    assert 4 in Canon(2) && 4 !in Canon(3);
    assert 2 in Canon(0) && 2 !in Canon(6) && 2 in Canon(9);
    assert 3 !in Canon(0) && 3 in Canon(9);
  }

  /** The digits whose segments include those of 1. */
  predicate CoversOne(e: Digit)
  {
    e in {0, 1, 3, 4, 7, 8, 9}
  }

  /** The digits whose segments include those of 4. */
  predicate CoversFour(e: Digit)
  {
    e in {4, 8, 9}
  }

  /** The digits whose segments lie inside those of 6. */
  predicate InsideSix(e: Digit)
  {
    e in {5, 6}
  }

  lemma CanonCoversOne()
    ensures forall e: Digit :: Canon(1) <= Canon(e) <==> CoversOne(e)
  {
    assert 5 !in Canon(2) && 2 !in Canon(5) && 2 !in Canon(6);
  }

  lemma CanonCoversFour()
    ensures forall e: Digit :: Canon(4) <= Canon(e) <==> CoversFour(e)
  {
    assert 1 !in Canon(2) && 1 !in Canon(3) && 1 !in Canon(7) && 3 !in Canon(0);
    assert 2 !in Canon(5) && 2 !in Canon(6) && 3 !in Canon(1);
  }

  lemma CanonInsideSix()
    ensures forall e: Digit :: Canon(e) <= Canon(6) <==> InsideSix(e)
  {
    assert 2 !in Canon(6);
  }

  /** Where digit `d` sits in the scrambled order. */
  lemma PositionOf(order: seq<Digit>, d: Digit) returns (i: nat)
    requires IsOrder(order)
    ensures i < 10 && order[i] == d
    ensures forall j :: 0 <= j < 10 && j != i ==> order[j] != d
  {
    assert d in order;
    i :| 0 <= i < |order| && order[i] == d;
  }

  /** A scrambled pattern's size is its digit's segment count. */
  lemma ObserveCount(signals: seq<Pattern>, w: seq<Segment>, order: seq<Digit>)
    requires Scrambled(signals, w, order)
    ensures forall j :: 0 <= j < 10 ==> |signals[j]| == CanonCount(order[j])
  {
    CanonCards();
    forall j | 0 <= j < 10
      ensures |signals[j]| == CanonCount(order[j])
    {
      ImageCard(w, Canon(order[j]));
    }
  }

  /** A scrambled pattern equals the scrambled pattern of `d` exactly when it is `d`'s. */
  lemma ObserveEqual(signals: seq<Pattern>, w: seq<Segment>, order: seq<Digit>, d: Digit)
    requires Scrambled(signals, w, order)
    ensures forall j :: 0 <= j < 10 ==> (signals[j] == Image(w, Canon(d)) <==> order[j] == d)
  {
    CanonDistinct();
    forall j | 0 <= j < 10
      ensures signals[j] == Image(w, Canon(d)) <==> order[j] == d
    {
      ImageEqual(w, Canon(order[j]), Canon(d));
    }
  }

  /** Covering is seen through the wiring unchanged. */
  lemma ObserveCovers(signals: seq<Pattern>, w: seq<Segment>, order: seq<Digit>)
    requires Scrambled(signals, w, order)
    ensures forall j :: 0 <= j < 10 ==> (Image(w, Canon(1)) <= signals[j] <==> CoversOne(order[j]))
    ensures forall j :: 0 <= j < 10 ==> (Image(w, Canon(4)) <= signals[j] <==> CoversFour(order[j]))
    ensures forall j :: 0 <= j < 10 ==> (signals[j] <= Image(w, Canon(6)) <==> InsideSix(order[j]))
  {
    CanonCoversOne();
    CanonCoversFour();
    CanonInsideSix();
    forall j | 0 <= j < 10
      ensures Image(w, Canon(1)) <= signals[j] <==> CoversOne(order[j])
      ensures Image(w, Canon(4)) <= signals[j] <==> CoversFour(order[j])
      ensures signals[j] <= Image(w, Canon(6)) <==> InsideSix(order[j])
    {
      ImageSubset(w, Canon(1), Canon(order[j]));
      ImageSubset(w, Canon(4), Canon(order[j]));
      ImageSubset(w, Canon(order[j]), Canon(6));
    }
  }

  /** Counting segments places 1, 4, 7 and 8. */
  lemma EasyStage(signals: seq<Pattern>, w: seq<Segment>, order: seq<Digit>, k: Digit)
    requires Scrambled(signals, w, order) && k in {1, 4, 7, 8}
    ensures Pass(signals, Blank10(), EasyRule)[k] == Image(w, Canon(k))
  {
    ObserveCount(signals, w, order);
    var i := PositionOf(order, k);
    assert forall j :: 0 <= j < 10 ==> (EasyRule(signals[j]) == Some(k) <==> order[j] == k);
    PassUnique(signals, Blank10(), EasyRule, i, k);
  }

  lemma FirstUnique(signals: seq<Pattern>, pred: Pattern -> bool, i: nat)
    requires i < |signals| && pred(signals[i])
    requires forall j :: 0 <= j < |signals| && j != i ==> !pred(signals[j])
    ensures FirstWhere(signals, pred) == Some(signals[i])
  {
  }

  /** The 3 is the five-segment pattern covering the 1. */
  lemma ThreeStage(signals: seq<Pattern>, w: seq<Segment>, order: seq<Digit>)
    requires Scrambled(signals, w, order)
    ensures FindThree(signals, Image(w, Canon(1))) == Some(Image(w, Canon(3)))
  {
    ObserveCount(signals, w, order);
    ObserveCovers(signals, w, order);
    var one := Image(w, Canon(1));
    var i := PositionOf(order, 3);
    var pred := v => |v| == 5 && one <= v;
    assert forall j :: 0 <= j < 10 ==> (pred(signals[j]) <==> order[j] == 3);
    FirstUnique(signals, pred, i);
  }

  /** The 6 is the six-segment pattern not covering the 1. */
  lemma SixStage(signals: seq<Pattern>, w: seq<Segment>, order: seq<Digit>)
    requires Scrambled(signals, w, order)
    ensures FindSix(signals, Image(w, Canon(1))) == Some(Image(w, Canon(6)))
  {
    ObserveCount(signals, w, order);
    ObserveCovers(signals, w, order);
    var one := Image(w, Canon(1));
    var i := PositionOf(order, 6);
    var pred := v => |v| == 6 && !(one <= v);
    assert forall j :: 0 <= j < 10 ==> (pred(signals[j]) <==> order[j] == 6);
    FirstUnique(signals, pred, i);
  }

  /** Of the other six-segment patterns, the one covering the 4 is the 9 and the other the 0. */
  lemma ZeroNineStage(signals: seq<Pattern>, w: seq<Segment>, order: seq<Digit>, out: seq<Pattern>)
    requires Scrambled(signals, w, order) && |out| == 10
    ensures var r := ZeroNinePass(signals, out, Image(w, Canon(6)), Image(w, Canon(4)));
      && r[0] == Image(w, Canon(0)) && r[9] == Image(w, Canon(9))
      && forall d: Digit :: d != 0 && d != 9 ==> r[d] == out[d]
  {
    var six := Image(w, Canon(6));
    var four := Image(w, Canon(4));
    ZeroNineRuleFacts(signals, w, order);
    var rule := v => ZeroNineRule(six, four, v);
    var i9 := PositionOf(order, 9);
    PassUnique(signals, out, rule, i9, 9);
    var i0 := PositionOf(order, 0);
    PassUnique(signals, out, rule, i0, 0);
  }

  /** Of the other five-segment patterns, the one inside the 6 is the 5 and the other the 2. */
  lemma TwoFiveStage(signals: seq<Pattern>, w: seq<Segment>, order: seq<Digit>, out: seq<Pattern>)
    requires Scrambled(signals, w, order) && |out| == 10
    ensures var r := TwoFivePass(signals, out, Image(w, Canon(3)), Image(w, Canon(6)));
      && r[2] == Image(w, Canon(2)) && r[5] == Image(w, Canon(5))
      && forall d: Digit :: d != 2 && d != 5 ==> r[d] == out[d]
  {
    var three := Image(w, Canon(3));
    var six := Image(w, Canon(6));
    TwoFiveRuleFacts(signals, w, order);
    var rule := v => TwoFiveRule(three, six, v);
    var i5 := PositionOf(order, 5);
    PassUnique(signals, out, rule, i5, 5);
    var i2 := PositionOf(order, 2);
    PassUnique(signals, out, rule, i2, 2);
  }

  /** `ZeroNineRule` picks out exactly the 9 and the 0, and names no other digit. */
  lemma ZeroNineRuleFacts(signals: seq<Pattern>, w: seq<Segment>, order: seq<Digit>)
    requires Scrambled(signals, w, order)
    ensures var six, four := Image(w, Canon(6)), Image(w, Canon(4));
      && (forall j :: 0 <= j < 10 ==> (ZeroNineRule(six, four, signals[j]) == Some(9) <==> order[j] == 9))
      && (forall j :: 0 <= j < 10 ==> (ZeroNineRule(six, four, signals[j]) == Some(0) <==> order[j] == 0))
      && (forall j, k: Digit :: 0 <= j < 10 && k != 0 && k != 9 ==> ZeroNineRule(six, four, signals[j]) != Some(k))
  {
    ObserveCount(signals, w, order);
    ObserveCovers(signals, w, order);
    ObserveEqual(signals, w, order, 6);
    ZeroNineSelects(signals, w, order, 9);
    ZeroNineSelects(signals, w, order, 0);
  }

  lemma ZeroNineSelects(signals: seq<Pattern>, w: seq<Segment>, order: seq<Digit>, d: Digit)
    requires Scrambled(signals, w, order) && d in {0, 9}
    requires forall j :: 0 <= j < 10 ==> |signals[j]| == CanonCount(order[j])
    requires forall j :: 0 <= j < 10 ==> (Image(w, Canon(4)) <= signals[j] <==> CoversFour(order[j]))
    requires forall j :: 0 <= j < 10 ==> (signals[j] == Image(w, Canon(6)) <==> order[j] == 6)
    ensures forall j :: 0 <= j < 10 ==> (ZeroNineRule(Image(w, Canon(6)), Image(w, Canon(4)), signals[j]) == Some(d) <==> order[j] == d)
  {
    CanonCards();
  }

  /** `TwoFiveRule` picks out exactly the 5 and the 2, and names no other digit. */
  lemma TwoFiveRuleFacts(signals: seq<Pattern>, w: seq<Segment>, order: seq<Digit>)
    requires Scrambled(signals, w, order)
    ensures var three, six := Image(w, Canon(3)), Image(w, Canon(6));
      && (forall j :: 0 <= j < 10 ==> (TwoFiveRule(three, six, signals[j]) == Some(5) <==> order[j] == 5))
      && (forall j :: 0 <= j < 10 ==> (TwoFiveRule(three, six, signals[j]) == Some(2) <==> order[j] == 2))
      && (forall j, k: Digit :: 0 <= j < 10 && k != 2 && k != 5 ==> TwoFiveRule(three, six, signals[j]) != Some(k))
  {
    ObserveCount(signals, w, order);
    ObserveCovers(signals, w, order);
    ObserveEqual(signals, w, order, 3);
    TwoFiveSelects(signals, w, order, 5);
    TwoFiveSelects(signals, w, order, 2);
  }

  lemma TwoFiveSelects(signals: seq<Pattern>, w: seq<Segment>, order: seq<Digit>, d: Digit)
    requires Scrambled(signals, w, order) && d in {2, 5}
    requires forall j :: 0 <= j < 10 ==> |signals[j]| == CanonCount(order[j])
    requires forall j :: 0 <= j < 10 ==> (signals[j] <= Image(w, Canon(6)) <==> InsideSix(order[j]))
    requires forall j :: 0 <= j < 10 ==> (signals[j] == Image(w, Canon(3)) <==> order[j] == 3)
    ensures forall j :: 0 <= j < 10 ==> (TwoFiveRule(Image(w, Canon(3)), Image(w, Canon(6)), signals[j]) == Some(d) <==> order[j] == d)
  {
    CanonCards();
  }

  /** The deduction is correct: on any display, whatever the wiring and the
      order of the ten patterns, `from_input` recovers every digit's pattern. */
  lemma FromInputDecodes(signals: seq<Pattern>, w: seq<Segment>, order: seq<Digit>)
    requires Scrambled(signals, w, order)
    ensures FromInput(signals) == Some(Decoded(w))
  {
    var easy := Pass(signals, Blank10(), EasyRule);
    EasyKnown(signals, w, order);
    ThreeStage(signals, w, order);
    SixStage(signals, w, order);
    var three, six, four := Image(w, Canon(3)), Image(w, Canon(6)), Image(w, Canon(4));
    var withSix := easy[3 := three][6 := six];
    KnownSet(easy, w, {1, 4, 7, 8}, 3);
    KnownSet(easy[3 := three], w, {1, 4, 7, 8, 3}, 6);
    assert easy[1] == Image(w, Canon(1)) && withSix[4] == four;
    var withZeroNine := ZeroNinePass(signals, withSix, six, four);
    ZeroNineKnown(signals, w, order, withSix, {1, 4, 7, 8, 3, 6});
    var r := TwoFivePass(signals, withZeroNine, three, six);
    TwoFiveKnown(signals, w, order, withZeroNine, {1, 4, 7, 8, 3, 6, 0, 9});
    FromInputSteps(signals, three, six);
    KnownAll(r, w, {1, 4, 7, 8, 3, 6, 0, 9, 2, 5});
  }

  /** The digits in `ds` have their true patterns in `out`. */
  predicate Known(out: seq<Pattern>, w: seq<Segment>, ds: set<Digit>)
    requires |w| == 7
  {
    |out| == 10 && forall d: Digit :: d in ds ==> out[d] == Image(w, Canon(d))
  }

  lemma KnownSet(out: seq<Pattern>, w: seq<Segment>, ds: set<Digit>, d: Digit)
    requires |w| == 7 && Known(out, w, ds)
    ensures Known(out[d := Image(w, Canon(d))], w, ds + {d})
  {
  }

  lemma KnownAll(out: seq<Pattern>, w: seq<Segment>, ds: set<Digit>)
    requires |w| == 7 && Known(out, w, ds)
    requires 0 in ds && 1 in ds && 2 in ds && 3 in ds && 4 in ds
    requires 5 in ds && 6 in ds && 7 in ds && 8 in ds && 9 in ds
    ensures out == Decoded(w)
  {
    forall d: Digit
      ensures out[d] == Decoded(w)[d]
    {
      assert d in ds by {
        assert d == 0 || d == 1 || d == 2 || d == 3 || d == 4 || d == 5 || d == 6 || d == 7 || d == 8 || d == 9;
      }
    }
  }

  /** The counting pass gets 1, 4, 7 and 8 right. */
  lemma EasyKnown(signals: seq<Pattern>, w: seq<Segment>, order: seq<Digit>)
    requires Scrambled(signals, w, order)
    ensures Known(Pass(signals, Blank10(), EasyRule), w, {1, 4, 7, 8})
  {
    forall d: Digit | d in {1, 4, 7, 8}
      ensures Pass(signals, Blank10(), EasyRule)[d] == Image(w, Canon(d))
    {
      EasyStage(signals, w, order, d);
    }
  }

  /** The zero-nine pass adds 0 and 9 to what is known. */
  lemma ZeroNineKnown(signals: seq<Pattern>, w: seq<Segment>, order: seq<Digit>, out: seq<Pattern>, ds: set<Digit>)
    requires Scrambled(signals, w, order) && Known(out, w, ds)
    ensures Known(ZeroNinePass(signals, out, Image(w, Canon(6)), Image(w, Canon(4))), w, ds + {0, 9})
  {
    ZeroNineStage(signals, w, order, out);
  }

  /** The two-five pass adds 2 and 5 to what is known. */
  lemma TwoFiveKnown(signals: seq<Pattern>, w: seq<Segment>, order: seq<Digit>, out: seq<Pattern>, ds: set<Digit>)
    requires Scrambled(signals, w, order) && Known(out, w, ds)
    ensures Known(TwoFivePass(signals, out, Image(w, Canon(3)), Image(w, Canon(6))), w, ds + {2, 5})
  {
    TwoFiveStage(signals, w, order, out);
  }

  /** `from_input` once the 3 and the 6 have been found. */
  lemma FromInputSteps(signals: seq<Pattern>, three: Pattern, six: Pattern)
    requires var easy := Pass(signals, Blank10(), EasyRule);
      FindThree(signals, easy[1]) == Some(three) && FindSix(signals, easy[1]) == Some(six)
    ensures var withSix := Pass(signals, Blank10(), EasyRule)[3 := three][6 := six];
      FromInput(signals) == Some(TwoFivePass(signals, ZeroNinePass(signals, withSix, six, withSix[4]), three, six))
  {
  }

  lemma TenEqual(a: seq<Pattern>, b: seq<Pattern>)
    requires |a| == 10 && |b| == 10
    requires a[0] == b[0] && a[1] == b[1] && a[2] == b[2] && a[3] == b[3] && a[4] == b[4]
    requires a[5] == b[5] && a[6] == b[6] && a[7] == b[7] && a[8] == b[8] && a[9] == b[9]
    ensures a == b
  {
    forall k | 0 <= k < 10
      ensures a[k] == b[k]
    {
    }
  }

  /** Once decoded, every digit's pattern reads back as that digit. */
  lemma ValueDecodes(w: seq<Segment>, d: Digit)
    requires IsWiring(w)
    ensures Value(Decoded(w), Image(w, Canon(d))) == Some(d)
  {
    CanonDistinct();
    forall e: Digit
      ensures Decoded(w)[e] == Image(w, Canon(d)) <==> e == d
    {
      ImageEqual(w, Canon(e), Canon(d));
    }
    ValueUnique(Decoded(w), Image(w, Canon(d)), d);
  }

  /** A pattern held by exactly one digit is looked up to that digit. */
  lemma ValueUnique(digits: seq<Pattern>, v: Pattern, d: Digit)
    requires |digits| == 10 && digits[d] == v
    requires forall e: Digit :: e != d ==> digits[e] != v
    ensures Value(digits, v) == Some(d)
  {
  }

  /** An entry as a display shows it: its patterns scrambled by `w` and
      `order`, and its code showing the digits `shown`. */
  predicate Displays(e: Entry, w: seq<Segment>, order: seq<Digit>, shown: seq<Digit>)
  {
    WellSized(e) && Scrambled(e.signals, w, order) && |shown| == 4
    && forall j :: 0 <= j < 4 ==> e.code[j] == Image(w, Canon(shown[j]))
  }

  /** The shown digits among 1, 4, 7 and 8. */
  function CountEasyDigits(shown: seq<Digit>): nat
  {
    if |shown| == 0 then 0 else (if shown[0] in {1, 4, 7, 8} then 1 else 0) + CountEasyDigits(shown[1..])
  }

  lemma {:induction false} CountEasyMatches(code: seq<Pattern>, shown: seq<Digit>)
    requires |code| == |shown|
    requires forall j :: 0 <= j < |code| ==> (EasyCode(code[j]) <==> shown[j] in {1, 4, 7, 8})
    ensures CountEasy(code) == CountEasyDigits(shown)
    decreases |code|
  {
    if |code| > 0 {
      assert forall j :: 1 <= j < |code| ==> code[1..][j - 1] == code[j] && shown[1..][j - 1] == shown[j];
      CountEasyMatches(code[1..], shown[1..]);
    }
  }

  /** `part_1` counts exactly the 1s, 4s, 7s and 8s an entry shows. */
  lemma EasyCodesAreEasyDigits(e: Entry, w: seq<Segment>, order: seq<Digit>, shown: seq<Digit>)
    requires Displays(e, w, order, shown)
    ensures CountEasy(e.code) == CountEasyDigits(shown)
  {
    CanonCards();
    forall j | 0 <= j < 4
      ensures EasyCode(e.code[j]) <==> shown[j] in {1, 4, 7, 8}
    {
      ImageCard(w, Canon(shown[j]));
    }
    CountEasyMatches(e.code, shown);
  }

  /** An entry decodes to the number its display shows. */
  lemma DecodeEntryShows(e: Entry, w: seq<Segment>, order: seq<Digit>, shown: seq<Digit>)
    requires Displays(e, w, order, shown)
    ensures DecodeEntry(e) == Some(FourDigits(shown[0], shown[1], shown[2], shown[3]))
  {
    FromInputDecodes(e.signals, w, order);
    ValueDecodes(w, shown[0]);
    ValueDecodes(w, shown[1]);
    ValueDecodes(w, shown[2]);
    ValueDecodes(w, shown[3]);
  }

  function SumShown(shown: seq<seq<Digit>>): nat
    requires forall k :: 0 <= k < |shown| ==> |shown[k]| == 4
  {
    if |shown| == 0 then 0 else FourDigits(shown[0][0], shown[0][1], shown[0][2], shown[0][3]) + SumShown(shown[1..])
  }

  lemma {:induction false} Part2Sum(entries: seq<Entry>, shown: seq<seq<Digit>>)
    requires |shown| == |entries|
    requires forall k :: 0 <= k < |entries| ==> WellSized(entries[k]) && |shown[k]| == 4
    requires forall k :: 0 <= k < |entries| ==>
               DecodeEntry(entries[k]) == Some(FourDigits(shown[k][0], shown[k][1], shown[k][2], shown[k][3]))
    ensures Part2(entries) == Some(SumShown(shown))
    decreases |entries|
  {
    if |entries| > 0 {
      assert forall k :: 1 <= k < |entries| ==> entries[1..][k - 1] == entries[k] && shown[1..][k - 1] == shown[k];
      Part2Sum(entries[1..], shown[1..]);
    }
  }

  /** `part_2` is the sum of the numbers the displays show. */
  lemma Part2Shows(entries: seq<Entry>, ws: seq<seq<Segment>>, orders: seq<seq<Digit>>, shown: seq<seq<Digit>>)
    requires |ws| == |entries| && |orders| == |entries| && |shown| == |entries|
    requires forall k :: 0 <= k < |entries| ==> WellSized(entries[k]) && |shown[k]| == 4
    requires forall k :: 0 <= k < |entries| ==> Displays(entries[k], ws[k], orders[k], shown[k])
    ensures Part2(entries) == Some(SumShown(shown))
  {
    forall k | 0 <= k < |entries|
      ensures DecodeEntry(entries[k]) == Some(FourDigits(shown[k][0], shown[k][1], shown[k][2], shown[k][3]))
    {
      DecodeEntryShows(entries[k], ws[k], orders[k], shown[k]);
    }
    Part2Sum(entries, shown);
  }
}

=== FILE: snailfish.dfy ===
/** Day 18 (src/day_18/mod.rs): snailfish numbers. A snailfish number is a
    binary tree of pairs whose leaves are regular numbers; the original packs
    a tree of at most five nested pairs into 32 `i8` slots, where -1 marks an
    empty slot. `Tree` and `Layout` are the reference meaning of that packing;
    every slot operation is proved against them. */
module Snailfish {
  import opened Wrappers
  import opened Arith
  import opened Text

  // ---------------------------------------------------------------------
  // The reference tree and its packing into slots
  // ---------------------------------------------------------------------

  datatype Tree = Leaf(value: nat) | Pair(left: Tree, right: Tree)

  /** The number of pairs on the longest root-to-leaf path. */
  function PairDepth(t: Tree): nat
  {
    match t
    case Leaf(_) => 0
    case Pair(l, r) => 1 + (if PairDepth(l) >= PairDepth(r) then PairDepth(l) else PairDepth(r))
  }

  function TreeMagnitude(t: Tree): nat
  {
    match t
    case Leaf(v) => v
    case Pair(l, r) => 3 * TreeMagnitude(l) + 2 * TreeMagnitude(r)
  }

  /** The value of the empty slot. */
  const Empty: int := -1

  function Blank(n: nat): (r: seq<int>)
    ensures |r| == n && forall i :: 0 <= i < n ==> r[i] == Empty
  {
    seq(n, _ => Empty)
  }

  /** The slots of a chunk of 2^k slots holding `t`: a leaf sits in the first
      slot of its chunk with the rest empty, and a pair puts its two children
      in the two halves. Whole numbers are the case k = 5. */
  function Layout(t: Tree, k: nat): (r: seq<int>)
    requires PairDepth(t) <= k
    ensures |r| == Pow2(k) && r[0] == LeftmostLeaf(t)
  {
    match t
    case Leaf(v) => [v] + Blank(Pow2(k) - 1)
    case Pair(l, r) => Layout(l, k - 1) + Layout(r, k - 1)
  }

  function LeftmostLeaf(t: Tree): nat
  {
    match t
    case Leaf(v) => v
    case Pair(l, _) => LeftmostLeaf(l)
  }

  /** The number a whole 32-slot array stands for. */
  ghost predicate Represents(s: seq<int>, t: Tree)
  {
    PairDepth(t) <= 5 && s == Layout(t, 5)
  }

  // ---------------------------------------------------------------------
  // magnitude (src/day_18/mod.rs:27-47)
  // ---------------------------------------------------------------------

  /** How `magnitude_chunk` combines the values of two halves, -1 meaning an
      empty half. The same rule serves a two-slot chunk and a longer one. */
  function CombineMagnitudes(x: int, y: int): int
  {
    if x == -1 && y == -1 then -1
    else if y == -1 then x
    else 3 * x + 2 * y
  }

  /** `magnitude_chunk` on a chunk of 2^k slots: -1 for an empty chunk. */
  function MagnitudeChunk(c: seq<int>, k: nat): int
    requires k >= 1 && |c| == Pow2(k)
  {
    if k == 1 then CombineMagnitudes(c[0], c[1])
    else
      var h := Pow2(k - 1);
      CombineMagnitudes(MagnitudeChunk(c[..h], k - 1), MagnitudeChunk(c[h..], k - 1))
  }

  function Magnitude(s: seq<int>): int
    requires |s| == 32
  {
    MagnitudeChunk(s, 5)
  }

  lemma {:induction false} MagnitudeBlank(k: nat)
    requires k >= 1
    ensures MagnitudeChunk(Blank(Pow2(k)), k) == -1
    decreases k
  {
    if k > 1 {
      var h := Pow2(k - 1);
      assert Blank(Pow2(k))[..h] == Blank(h);
      assert Blank(Pow2(k))[h..] == Blank(h);
      MagnitudeBlank(k - 1);
    }
  }

  /** Splitting a leaf's chunk gives the leaf's chunk one level down and an empty half. */
  lemma LeafHalves(v: nat, k: nat)
    requires k >= 1
    ensures Layout(Leaf(v), k)[..Pow2(k - 1)] == Layout(Leaf(v), k - 1)
    ensures Layout(Leaf(v), k)[Pow2(k - 1)..] == Blank(Pow2(k - 1))
  {
    var h := Pow2(k - 1);
    var c := Layout(Leaf(v), k);
    assert c[..h] == [v] + Blank(h - 1);
  }

  /** The slot magnitude of a packed tree is the tree's magnitude. */
  lemma {:induction false} MagnitudeLayout(t: Tree, k: nat)
    requires k >= 1 && PairDepth(t) <= k
    ensures MagnitudeChunk(Layout(t, k), k) == TreeMagnitude(t)
    decreases t, k
  {
    match t
    case Leaf(v) =>
      if k > 1 {
        MagnitudeLayout(t, k - 1);
        MagnitudeLeafStep(v, k);
      }
    case Pair(l, r) =>
      if k > 1 {
        MagnitudeLayout(l, k - 1);
        MagnitudeLayout(r, k - 1);
        MagnitudePairStep(l, r, k);
      } else {
        assert Layout(t, k) == [TreeMagnitude(l), TreeMagnitude(r)];
      }
  }

  /** A leaf's chunk has the magnitude of the leaf's chunk one level down. */
  lemma MagnitudeLeafStep(v: nat, k: nat)
    requires k > 1 && MagnitudeChunk(Layout(Leaf(v), k - 1), k - 1) == v
    ensures MagnitudeChunk(Layout(Leaf(v), k), k) == v
  {
    LeafHalves(v, k);
    MagnitudeBlank(k - 1);
  }

  /** A pair's chunk combines the magnitudes of its halves. */
  lemma MagnitudePairStep(l: Tree, r: Tree, k: nat)
    requires k > 1 && PairDepth(Pair(l, r)) <= k
    requires MagnitudeChunk(Layout(l, k - 1), k - 1) == TreeMagnitude(l)
    requires MagnitudeChunk(Layout(r, k - 1), k - 1) == TreeMagnitude(r)
    ensures MagnitudeChunk(Layout(Pair(l, r), k), k) == TreeMagnitude(Pair(l, r))
  {
    var c := Layout(Pair(l, r), k);
    var h := Pow2(k - 1);
    assert c[..h] == Layout(l, k - 1);
    assert c[h..] == Layout(r, k - 1);
  }

  // ---------------------------------------------------------------------
  // Rendering (src/day_18/mod.rs:129-155)
  // ---------------------------------------------------------------------

  /** The text form of a tree: `[left,right]` for a pair, decimal for a leaf. */
  function TreeString(t: Tree): (r: string)
    ensures |r| > 0
  {
    match t
    case Leaf(v) => IntString(v)
    case Pair(l, r) => "[" + TreeString(l) + "," + TreeString(r) + "]"
  }

  /** `render_chunk` on a chunk of 2^k slots: the empty string for an empty chunk. */
  function RenderChunk(c: seq<int>, k: nat): string
    requires k >= 1 && |c| == Pow2(k)
  {
    if k == 1 then
      if c[0] == -1 && c[1] == -1 then ""
      else if c[1] == -1 then IntString(c[0])
      else "[" + IntString(c[0]) + "," + IntString(c[1]) + "]"
    else
      var h := Pow2(k - 1);
      var x := RenderChunk(c[..h], k - 1);
      var y := RenderChunk(c[h..], k - 1);
      if x == "" && y == "" then ""
      else if y == "" then x
      else if x == "" then y
      else "[" + x + "," + y + "]"
  }

  /** `Display for SnailNum`. */
  function Render(s: seq<int>): string
    requires |s| == 32
  {
    RenderChunk(s, 5)
  }

  lemma {:induction false} RenderBlank(k: nat)
    requires k >= 1
    ensures RenderChunk(Blank(Pow2(k)), k) == ""
    decreases k
  {
    if k > 1 {
      var h := Pow2(k - 1);
      assert Blank(Pow2(k))[..h] == Blank(h);
      assert Blank(Pow2(k))[h..] == Blank(h);
      RenderBlank(k - 1);
    }
  }

  /** Rendering a packed tree prints the tree. */
  lemma {:induction false} RenderLayout(t: Tree, k: nat)
    requires k >= 1 && PairDepth(t) <= k
    ensures RenderChunk(Layout(t, k), k) == TreeString(t)
    decreases t, k
  {
    match t
    case Leaf(v) =>
      if k > 1 {
        RenderLayout(t, k - 1);
        RenderLeafStep(v, k);
      }
    case Pair(l, r) =>
      if k > 1 {
        RenderLayout(l, k - 1);
        RenderLayout(r, k - 1);
        RenderPairStep(l, r, k);
      } else {
        assert Layout(t, k) == [LeftmostLeaf(l), LeftmostLeaf(r)];
      }
  }

  /** A leaf's chunk renders as the leaf's chunk one level down. */
  lemma RenderLeafStep(v: nat, k: nat)
    requires k > 1 && RenderChunk(Layout(Leaf(v), k - 1), k - 1) == IntString(v)
    ensures RenderChunk(Layout(Leaf(v), k), k) == IntString(v)
  {
    LeafHalves(v, k);
    RenderBlank(k - 1);
  }

  /** A pair's chunk renders as the bracketed renderings of its halves. */
  lemma RenderPairStep(l: Tree, r: Tree, k: nat)
    requires k > 1 && PairDepth(Pair(l, r)) <= k
    requires RenderChunk(Layout(l, k - 1), k - 1) == TreeString(l)
    requires RenderChunk(Layout(r, k - 1), k - 1) == TreeString(r)
    ensures RenderChunk(Layout(Pair(l, r), k), k) == TreeString(Pair(l, r))
  {
    var c := Layout(Pair(l, r), k);
    var h := Pow2(k - 1);
    assert c[..h] == Layout(l, k - 1);
    assert c[h..] == Layout(r, k - 1);
  }

  // ---------------------------------------------------------------------
  // Parsing (src/day_18/mod.rs:179-216)
  // ---------------------------------------------------------------------

  /** `SnailNumParseError`, extended by the panics `from_str` can hit: `depth`
      is a `u8`, so a `]` at depth 0 underflows, a `[` at depth 255 overflows
      and a `,` deeper than 5 underflows the shift amount; a digit stored past
      slot 31 is an out-of-bounds index. */
  datatype ParseError = TooDeep | InvalidChar | DepthUnderflow | DepthOverflow | ShiftUnderflow | SlotOutOfRange

  datatype ParseState = ParseState(slots: seq<int>, idx: nat, depth: nat)

  /** The characters `from_str` gives a meaning to besides whitespace. */
  predicate IsSnailChar(c: char)
  {
    c == '[' || c == ']' || c == ',' || '0' <= c <= '9'
  }

  /** One character of `from_str`'s loop. A `,` rounds `idx` up to the next
      multiple of 2^(5 - depth), the width of the chunk the next sibling owns. */
  function ParseChar(st: ParseState, c: char): (r: Result<ParseState, ParseError>)
    requires |st.slots| == 32
    ensures r.Ok? ==> |r.value.slots| == 32
    ensures r.Err? ==> r.error != TooDeep
    ensures r == Err(InvalidChar) <==> !IsAsciiWhitespace(c) && !IsSnailChar(c)
  {
    if IsAsciiWhitespace(c) then Ok(st)
    else if c == '[' then
      if st.depth == 255 then Err(DepthOverflow) else Ok(st.(depth := st.depth + 1))
    else if c == ']' then
      if st.depth == 0 then Err(DepthUnderflow) else Ok(st.(depth := st.depth - 1))
    else if c == ',' then
      if st.depth > 5 then Err(ShiftUnderflow)
      else
        var w := Pow2(5 - st.depth);
        Ok(st.(idx := (st.idx / w + 1) * w))
    else if '0' <= c <= '9' then
      if st.idx >= 32 then Err(SlotOutOfRange)
      else Ok(st.(slots := st.slots[st.idx := c as int - 48]))
    else Err(InvalidChar)
  }

  /** The loop over the remaining characters; the first failure ends it. */
  function ParseFrom(st: ParseState, s: string): (r: Result<ParseState, ParseError>)
    requires |st.slots| == 32
    ensures r.Ok? ==> |r.value.slots| == 32
    ensures r.Err? ==> r.error != TooDeep
    decreases |s|
  {
    if |s| == 0 then Ok(st)
    else
      match ParseChar(st, s[0])
      case Err(e) => Err(e)
      case Ok(next) => ParseFrom(next, s[1..])
  }

  function InitialState(): (st: ParseState)
    ensures |st.slots| == 32
  {
    ParseState(Blank(32), 0, 0)
  }

  /** `SnailNum::from_str`: the slots after the whole string. */
  function FromStr(s: string): (r: Result<seq<int>, ParseError>)
    ensures r.Ok? ==> |r.value| == 32
    ensures r.Err? ==> r.error != TooDeep
  {
    match ParseFrom(InitialState(), s)
    case Ok(st) => Ok(st.slots)
    case Err(e) => Err(e)
  }

  /** Parsing a concatenation parses the first part, then the second from where it left off. */
  lemma {:induction false} ParseFromAppend(st: ParseState, a: string, b: string)
    requires |st.slots| == 32
    ensures ParseFrom(st, a + b) ==
              match ParseFrom(st, a)
              case Ok(mid) => ParseFrom(mid, b)
              case Err(e) => Err(e)
    decreases |a|
  {
    if |a| == 0 {
      assert a + b == b;
    } else {
      assert (a + b)[0] == a[0];
      assert (a + b)[1..] == a[1..] + b;
      match ParseChar(st, a[0])
      case Err(_) =>
      case Ok(next) => ParseFromAppend(next, a[1..], b);
    }
  }

  /** Every leaf is a single decimal digit, as `from_str` reads them. */
  predicate DigitLeaves(t: Tree)
  {
    match t
    case Leaf(v) => v <= 9
    case Pair(l, r) => DigitLeaves(l) && DigitLeaves(r)
  }

  /** `slots` with the chunk starting at `base` replaced by `chunk`. */
  function Place(slots: seq<int>, base: nat, chunk: seq<int>): (r: seq<int>)
    requires base + |chunk| <= |slots|
    ensures |r| == |slots|
    ensures forall i :: 0 <= i < |slots| ==> r[i] == if base <= i < base + |chunk| then chunk[i - base] else slots[i]
  {
    slots[..base] + chunk + slots[base + |chunk|..]
  }

  /** Where `idx` is left after parsing `t` in the chunk of 2^k slots at `base`:
      at its rightmost leaf. */
  function EndIdx(t: Tree, base: nat, k: nat): (r: nat)
    requires PairDepth(t) <= k
    ensures base <= r < base + Pow2(k)
  {
    match t
    case Leaf(_) => base
    case Pair(_, right) => EndIdx(right, base + Pow2(k - 1), k - 1)
  }

  lemma MulMonotone(a: nat, b: nat, h: nat)
    requires a <= b
    ensures a * h <= b * h
  {
  }

  /** Integer division recovers the quotient of `q * h + rem` for `rem < h`. */
  lemma DivideExact(x: nat, q: nat, h: nat)
    requires h >= 1 && q * h <= x < q * h + h
    ensures x / h == q
  {
    var d := x / h;
    var rem := x % h;
    assert x == d * h + rem && 0 <= rem < h;
    assert (q + 1) * h == q * h + h;
    assert (d + 1) * h == d * h + h;
    if d > q {
      MulMonotone(q + 1, d, h);
    } else if d < q {
      MulMonotone(d + 1, q, h);
    }
  }

  /** A `,` after the left child of a chunk of 2h slots at `base` moves `idx`
      to the start of the right half. */
  lemma NextSibling(idx: nat, base: nat, h: nat)
    requires h >= 1 && base % (2 * h) == 0 && base <= idx < base + h
    ensures (idx / h + 1) * h == base + h
  {
    var m := base / (2 * h);
    assert base == (2 * m) * h by {
      assert base == m * (2 * h) + base % (2 * h);
    }
    DivideExact(idx, 2 * m, h);
  }

  /** A multiple of 2h is a multiple of h, and so is the start of its second half. */
  lemma HalfAligned(base: nat, h: nat)
    requires h >= 1 && base % (2 * h) == 0
    ensures base % h == 0 && (base + h) % h == 0
  {
    var m := base / (2 * h);
    assert base == (2 * m) * h by {
      assert base == m * (2 * h) + base % (2 * h);
    }
    assert base + h == (2 * m + 1) * h;
    MultipleMod(2 * m, h);
    MultipleMod(2 * m + 1, h);
  }

  lemma MultipleMod(q: nat, h: nat)
    requires h >= 1
    ensures (q * h) % h == 0
  {
    DivideExact(q * h, q, h);
    assert q * h == ((q * h) / h) * h + (q * h) % h;
  }

  /** Parsing one character is one step of the loop. */
  lemma ParseOne(st: ParseState, c: char)
    requires |st.slots| == 32
    ensures ParseFrom(st, [c]) == ParseChar(st, c)
  {
    assert [c][1..] == [];
  }

  /** The state the parse of `t` ends in, from `st`. */
  function ParsedTree(t: Tree, k: nat, st: ParseState): ParseState
    requires PairDepth(t) <= k && st.idx + Pow2(k) <= |st.slots|
  {
    ParseState(Place(st.slots, st.idx, Layout(t, k)), EndIdx(t, st.idx, k), st.depth)
  }

  /** The conditions under which the text of a tree in a chunk of 2^k slots parses into it. */
  predicate ReadyFor(t: Tree, k: nat, st: ParseState)
  {
    && PairDepth(t) <= k <= 5 && DigitLeaves(t)
    && |st.slots| == 32 && st.depth == 5 - k
    && st.idx % Pow2(k) == 0 && st.idx + Pow2(k) <= 32
    && st.slots[st.idx..st.idx + Pow2(k)] == Blank(Pow2(k))
  }

  /** Parsing the text of `t` at depth 5 - k, with `idx` at the start of an
      empty chunk of 2^k slots, writes the packing of `t` into that chunk,
      leaves every other slot alone and returns to the same depth. */
  lemma {:induction false} ParseTree(t: Tree, k: nat, st: ParseState)
    requires ReadyFor(t, k, st)
    ensures ParseFrom(st, TreeString(t)) == Ok(ParsedTree(t, k, st))
    decreases t, 2
  {
    match t
    case Leaf(v) =>
      var c := DigitChar(v);
      assert TreeString(t) == [c];
      ParseOne(st, c);
      assert st.slots[st.idx := v] == Place(st.slots, st.idx, Layout(t, k));
    case Pair(_, _) =>
      ParsePair(t, k, st);
  }

  /** The state after a pair's `[`, its left child and the `,`: the left half
      is filled and `idx` is at the start of the right half. */
  function AfterLeft(t: Tree, k: nat, st: ParseState): ParseState
    requires t.Pair? && 1 <= k && PairDepth(t) <= k && st.idx + Pow2(k) <= |st.slots|
  {
    var st2 := ParsedTree(t.left, k - 1, st.(depth := st.depth + 1));
    st2.(idx := st.idx + Pow2(k - 1))
  }

  lemma {:induction false} ParsePair(t: Tree, k: nat, st: ParseState)
    requires ReadyFor(t, k, st) && t.Pair?
    ensures ParseFrom(st, TreeString(t)) == Ok(ParsedTree(t, k, st))
    decreases t, 1
  {
    ParseLeftHalf(t, k, st);
    RightReady(t, k, st);
    ParseTree(t.right, k - 1, AfterLeft(t, k, st));
    ParseFromAppend(st, "[" + TreeString(t.left) + ",", TreeString(t.right));
    CloseBracket(t, k, st);
  }

  /** The closing `]` of a pair whose children have been parsed. */
  lemma CloseBracket(t: Tree, k: nat, st: ParseState)
    requires ReadyFor(t, k, st) && t.Pair?
    requires ParseFrom(st, "[" + TreeString(t.left) + "," + TreeString(t.right)) ==
               Ok(ParsedTree(t.right, k - 1, AfterLeft(t, k, st)))
    ensures ParseFrom(st, TreeString(t)) == Ok(ParsedTree(t, k, st))
  {
    PairShape(t, k, st);
    var st4 := ParsedTree(t.right, k - 1, AfterLeft(t, k, st));
    CloseOne(st4);
    ParseFromAppend(st, "[" + TreeString(t.left) + "," + TreeString(t.right), "]");
    PairParsed(t, k, st);
  }

  /** A `]` one level down climbs back up. */
  lemma CloseOne(st: ParseState)
    requires |st.slots| == 32 && st.depth >= 1
    ensures ParseFrom(st, "]") == Ok(st.(depth := st.depth - 1))
  {
    ParseOne(st, ']');
  }

  /** Both children parsed into their halves is the pair parsed into the chunk. */
  lemma PairParsed(t: Tree, k: nat, st: ParseState)
    requires ReadyFor(t, k, st) && t.Pair?
    ensures var st4 := ParsedTree(t.right, k - 1, AfterLeft(t, k, st));
      st4.(depth := st4.depth - 1) == ParsedTree(t, k, st)
  {
    PairShape(t, k, st);
    PlaceHalves(st.slots, st.idx, Layout(t.left, k - 1), Layout(t.right, k - 1));
  }

  /** After the left half, the right child starts at an empty, aligned half chunk. */
  lemma RightReady(t: Tree, k: nat, st: ParseState)
    requires ReadyFor(t, k, st) && t.Pair?
    ensures ReadyFor(t.right, k - 1, AfterLeft(t, k, st))
  {
    HalfAligned(st.idx, Pow2(k - 1));
    RightHalfBlank(st.slots, st.idx, Pow2(k - 1), Layout(t.left, k - 1));
  }

  lemma {:induction false} ParseLeftHalf(t: Tree, k: nat, st: ParseState)
    requires ReadyFor(t, k, st) && t.Pair?
    ensures ParseFrom(st, "[" + TreeString(t.left) + ",") == Ok(AfterLeft(t, k, st))
    decreases t, 0
  {
    var st1 := st.(depth := st.depth + 1);
    LeftReady(t, k, st);
    ParseTree(t.left, k - 1, st1);
    ParseFromAppend(st, "[", TreeString(t.left));
    LeftComma(t, k, st);
    ParseFromAppend(st, "[" + TreeString(t.left), ",");
  }

  /** The `[` of a pair opens a level, and the left child then starts at an
      empty, aligned half chunk. */
  lemma LeftReady(t: Tree, k: nat, st: ParseState)
    requires ReadyFor(t, k, st) && t.Pair?
    ensures ParseFrom(st, "[") == Ok(st.(depth := st.depth + 1))
    ensures ReadyFor(t.left, k - 1, st.(depth := st.depth + 1))
  {
    PairShape(t, k, st);
    HalfAligned(st.idx, Pow2(k - 1));
    LeftHalfBlank(st.slots, st.idx, Pow2(k - 1));
    ParseOne(st, '[');
  }

  /** The `,` after the left child moves `idx` to the start of the right half. */
  lemma {:induction false} LeftComma(t: Tree, k: nat, st: ParseState)
    requires ReadyFor(t, k, st) && t.Pair?
    ensures ParseFrom(ParsedTree(t.left, k - 1, st.(depth := st.depth + 1)), ",") == Ok(AfterLeft(t, k, st))
  {
    PairShape(t, k, st);
    var h := Pow2(k - 1);
    var st2 := ParsedTree(t.left, k - 1, st.(depth := st.depth + 1));
    assert st2.idx == EndIdx(t.left, st.idx, k - 1) && st.idx <= st2.idx < st.idx + h;
    assert |st2.slots| == 32 && st2.depth == st.depth + 1 && 5 - st2.depth == k - 1;
    CommaStep(st2, h, st.idx);
  }

  /** A `,` inside the left half of a chunk of 2h slots at `base`, at the depth
      whose chunks are h wide, moves `idx` to the start of the right half. */
  lemma CommaStep(st: ParseState, h: nat, base: nat)
    requires |st.slots| == 32 && st.depth <= 5 && Pow2(5 - st.depth) == h && h >= 1
    requires base % (2 * h) == 0 && base <= st.idx < base + h
    ensures ParseFrom(st, ",") == Ok(st.(idx := base + h))
  {
    ParseOne(st, ',');
    NextSibling(st.idx, base, h);
  }

  /** A pair ready to parse sits in a chunk of at least two slots whose halves hold its children. */
  lemma PairShape(t: Tree, k: nat, st: ParseState)
    requires ReadyFor(t, k, st) && t.Pair?
    ensures 1 <= k && PairDepth(t.left) <= k - 1 && PairDepth(t.right) <= k - 1
    ensures Pow2(k) == 2 * Pow2(k - 1) && st.idx % (2 * Pow2(k - 1)) == 0
  {
  }

  lemma LeftHalfBlank(slots: seq<int>, base: nat, h: nat)
    requires base + 2 * h <= |slots| && slots[base..base + 2 * h] == Blank(2 * h)
    ensures slots[base..base + h] == Blank(h)
  {
    assert slots[base..base + h] == slots[base..base + 2 * h][..h];
  }

  lemma RightHalfBlank(slots: seq<int>, base: nat, h: nat, left: seq<int>)
    requires base + 2 * h <= |slots| && slots[base..base + 2 * h] == Blank(2 * h) && |left| == h
    ensures Place(slots, base, left)[base + h..base + h + h] == Blank(h)
  {
    assert forall i :: base + h <= i < base + 2 * h ==> slots[i] == slots[base..base + 2 * h][i - base];
  }

  lemma PlaceHalves(slots: seq<int>, base: nat, left: seq<int>, right: seq<int>)
    requires base + |left| + |right| <= |slots|
    ensures Place(Place(slots, base, left), base + |left|, right) == Place(slots, base, left + right)
  {
  }

  /** Parsing the text of a tree of digits with at most five nested pairs
      yields its packing, and rendering that packing gives the text back. */
  lemma ParseRenderRoundTrip(t: Tree)
    requires PairDepth(t) <= 5 && DigitLeaves(t)
    ensures FromStr(TreeString(t)) == Ok(Layout(t, 5))
    ensures Render(Layout(t, 5)) == TreeString(t)
  {
    var st := InitialState();
    assert st.slots[0..32] == Blank(32);
    ParseTree(t, 5, st);
    assert Place(st.slots, 0, Layout(t, 5)) == Layout(t, 5);
    RenderLayout(t, 5);
  }

  // ---------------------------------------------------------------------
  // Searching the slots (src/day_18/mod.rs:49-78)
  // ---------------------------------------------------------------------

  /** Slots `i` and `i + 1`, `i` even, hold the two leaves of a pair nested five deep. */
  predicate DeepPairAt(s: seq<int>, i: int)
  {
    0 <= i && i % 2 == 0 && i + 1 < |s| && s[i] != Empty && s[i + 1] != Empty
  }

  function FirstDepth5From(s: seq<int>, pair: nat): (r: Option<nat>)
    requires |s| == 32 && pair <= 16
    ensures r.Some? ==> 2 * pair <= r.value && DeepPairAt(s, r.value)
    ensures r.Some? ==> forall i :: 2 * pair <= i < r.value ==> !DeepPairAt(s, i)
    ensures r.None? ==> forall i :: 2 * pair <= i < 32 ==> !DeepPairAt(s, i)
    decreases 16 - pair
  {
    if pair == 16 then None
    else if s[2 * pair] != Empty && s[2 * pair + 1] != Empty then Some(2 * pair)
    else FirstDepth5From(s, pair + 1)
  }

  /** `first_depth_5`: the left slot of the first pair nested five deep. */
  function FirstDepth5(s: seq<int>): (r: Option<nat>)
    requires |s| == 32
    ensures r.Some? ==> DeepPairAt(s, r.value) && forall i :: 0 <= i < r.value ==> !DeepPairAt(s, i)
    ensures r.None? <==> forall i :: 0 <= i < 32 ==> !DeepPairAt(s, i)
  {
    FirstDepth5From(s, 0)
  }

  function FirstGte10From(s: seq<int>, i: nat): (r: Option<nat>)
    requires i <= |s|
    ensures r.Some? ==> i <= r.value < |s| && s[r.value] >= 10
    ensures r.Some? ==> forall j :: i <= j < r.value ==> s[j] < 10
    ensures r.None? ==> forall j :: i <= j < |s| ==> s[j] < 10
    decreases |s| - i
  {
    if i == |s| then None
    else if s[i] >= 10 then Some(i)
    else FirstGte10From(s, i + 1)
  }

  /** `first_gte_10`: the first slot holding a value of at least 10. */
  function FirstGte10(s: seq<int>): (r: Option<nat>)
    ensures r.Some? ==> r.value < |s| && s[r.value] >= 10 && forall j :: 0 <= j < r.value ==> s[j] < 10
    ensures r.None? <==> forall j :: 0 <= j < |s| ==> s[j] < 10
  {
    FirstGte10From(s, 0)
  }

  function NextFrom(s: seq<int>, i: nat): (r: Option<nat>)
    requires i <= |s|
    ensures r.Some? ==> i <= r.value < |s| && s[r.value] != Empty
    ensures r.Some? ==> forall j :: i <= j < r.value ==> s[j] == Empty
    ensures r.None? ==> forall j :: i <= j < |s| ==> s[j] == Empty
    decreases |s| - i
  {
    if i == |s| then None
    else if s[i] != Empty then Some(i)
    else NextFrom(s, i + 1)
  }

  /** `next`: the nearest non-empty slot after `idx`. */
  function Next(s: seq<int>, idx: nat): (r: Option<nat>)
    requires idx < |s|
    ensures r.Some? ==> idx < r.value < |s| && s[r.value] != Empty
    ensures r.Some? ==> forall j :: idx < j < r.value ==> s[j] == Empty
    ensures r.None? <==> forall j :: idx < j < |s| ==> s[j] == Empty
  {
    NextFrom(s, idx + 1)
  }

  /** `prev`: the nearest non-empty slot before `idx`. */
  function Prev(s: seq<int>, idx: nat): (r: Option<nat>)
    requires idx <= |s|
    ensures r.Some? ==> r.value < idx && s[r.value] != Empty
    ensures r.Some? ==> forall j :: r.value < j < idx ==> s[j] == Empty
    ensures r.None? <==> forall j :: 0 <= j < idx ==> s[j] == Empty
    decreases idx
  {
    if idx == 0 then None
    else if s[idx - 1] != Empty then Some(idx - 1)
    else Prev(s, idx - 1)
  }

  /** `next` only looks past `idx`: changing slots at or before it does not affect it. */
  lemma {:induction false} NextFrame(s: seq<int>, t: seq<int>, idx: nat)
    requires idx < |s| == |t| && s[idx + 1..] == t[idx + 1..]
    ensures Next(s, idx) == Next(t, idx)
  {
    NextFromFrame(s, t, idx + 1);
  }

  lemma {:induction false} NextFromFrame(s: seq<int>, t: seq<int>, i: nat)
    requires i <= |s| == |t| && s[i..] == t[i..]
    ensures NextFrom(s, i) == NextFrom(t, i)
    decreases |s| - i
  {
    if i < |s| {
      assert s[i] == s[i..][0] && t[i] == t[i..][0];
      assert s[i + 1..] == s[i..][1..];
      assert t[i + 1..] == t[i..][1..];
      NextFromFrame(s, t, i + 1);
    }
  }

  // ---------------------------------------------------------------------
  // The value a number holds, and well-formed slots
  // ---------------------------------------------------------------------

  /** Every slot is empty or holds a regular number. */
  predicate WellFormed(s: seq<int>)
  {
    forall i :: 0 <= i < |s| ==> s[i] >= Empty
  }

  function SlotValue(x: int): int
  {
    if x == Empty then 0 else x
  }

  /** The sum of the regular numbers in the slots. */
  function Total(s: seq<int>): int
  {
    if |s| == 0 then 0 else SlotValue(s[0]) + Total(s[1..])
  }

  lemma {:induction false} TotalUpdate(s: seq<int>, j: nat, x: int)
    requires j < |s|
    ensures Total(s[j := x]) == Total(s) - SlotValue(s[j]) + SlotValue(x)
    decreases |s|
  {
    if j > 0 {
      assert s[j := x][1..] == s[1..][j - 1 := x];
      TotalUpdate(s[1..], j - 1, x);
    } else {
      assert s[j := x][1..] == s[1..];
    }
  }

  // ---------------------------------------------------------------------
  // Explode and split (src/day_18/mod.rs:82-121)
  // ---------------------------------------------------------------------

  /** Adds the value at `idx` to the nearest non-empty slot before it, if any. */
  function AddToPrev(s: seq<int>, idx: nat): (r: seq<int>)
    requires idx < |s|
    ensures |r| == |s| && r[idx..] == s[idx..]
  {
    match Prev(s, idx)
    case Some(p) => s[p := s[p] + s[idx]]
    case None => s
  }

  /** Adds the value at `idx` to the nearest non-empty slot after it, if any. */
  function AddToNext(s: seq<int>, idx: nat): (r: seq<int>)
    requires idx < |s|
    ensures |r| == |s| && r[..idx + 1] == s[..idx + 1]
  {
    match Next(s, idx)
    case Some(n) => s[n := s[n] + s[idx]]
    case None => s
  }

  /** The explode branch of `reduce` on the pair at slots `idx`, `idx + 1`. */
  function Explode(s: seq<int>, idx: nat): (r: seq<int>)
    requires |s| == 32 && DeepPairAt(s, idx)
    ensures |r| == 32 && r[idx] == 0 && r[idx + 1] == Empty
  {
    var left := idx;
    var right := idx + 1;
    var s1 := AddToPrev(s, left);
    AddToNext(s1, right)[left := 0][right := Empty]
  }

  /** Where an explosion sends the pair's values: the left one to the nearest
      regular number before the pair, the right one to the nearest after it;
      every other slot keeps its value. */
  lemma ExplodeSpreads(s: seq<int>, idx: nat)
    requires |s| == 32 && DeepPairAt(s, idx)
    ensures var r := Explode(s, idx);
      && (Prev(s, idx).Some? ==> r[Prev(s, idx).value] == s[Prev(s, idx).value] + s[idx])
      && (Next(s, idx + 1).Some? ==> r[Next(s, idx + 1).value] == s[Next(s, idx + 1).value] + s[idx + 1])
      && forall j :: (0 <= j < 32 && j != idx && j != idx + 1 &&
                      Prev(s, idx) != Some(j) && Next(s, idx + 1) != Some(j)) ==> r[j] == s[j]
  {
    var left := idx;
    var right := idx + 1;
    var s1 := AddToPrev(s, left);
    assert s1[right + 1..] == s[right + 1..] && s1[right] == s[right];
    NextFrame(s1, s, right);
  }

  lemma {:induction false} AddToPrevTotal(s: seq<int>, idx: nat)
    requires idx < |s| && WellFormed(s) && s[idx] >= 0
    ensures WellFormed(AddToPrev(s, idx))
    ensures Total(AddToPrev(s, idx)) == Total(s) + (if Prev(s, idx).Some? then s[idx] else 0)
  {
    if Prev(s, idx).Some? {
      var p := Prev(s, idx).value;
      TotalUpdate(s, p, s[p] + s[idx]);
    }
  }

  lemma {:induction false} AddToNextTotal(s: seq<int>, idx: nat)
    requires idx < |s| && WellFormed(s) && s[idx] >= 0
    ensures WellFormed(AddToNext(s, idx))
    ensures Total(AddToNext(s, idx)) == Total(s) + (if Next(s, idx).Some? then s[idx] else 0)
  {
    if Next(s, idx).Some? {
      var n := Next(s, idx).value;
      TotalUpdate(s, n, s[n] + s[idx]);
    }
  }

  /** Explosion keeps the slots well formed, and the sum of the regular
      numbers is unchanged except for a half that has no neighbour to go to. */
  lemma ExplodeTotal(s: seq<int>, idx: nat)
    requires |s| == 32 && DeepPairAt(s, idx) && WellFormed(s)
    ensures WellFormed(Explode(s, idx))
    ensures Total(Explode(s, idx)) == Total(s)
              - (if Prev(s, idx).None? then s[idx] else 0)
              - (if Next(s, idx + 1).None? then s[idx + 1] else 0)
  {
    var left := idx;
    var right := idx + 1;
    var s1 := AddToPrev(s, left);
    AddToPrevTotal(s, left);
    assert s1[right + 1..] == s[right + 1..] && s1[right] == s[right];
    NextFrame(s1, s, right);
    var s2 := AddToNext(s1, right);
    AddToNextTotal(s1, right);
    assert s2[left] == s[left] && s2[right] == s[right] by {
      assert s2[left] == s2[..right + 1][left];
    }
    TotalUpdate(s2, left, 0);
    TotalUpdate(s2[left := 0], right, Empty);
  }

  /** The number of empty slots in a row from `i`. */
  function EmptyRun(s: seq<int>, i: nat): (r: nat)
    requires i <= |s|
    ensures i + r <= |s|
    ensures forall j :: i <= j < i + r ==> s[j] == Empty
    ensures i + r == |s| || s[i + r] != Empty
    decreases |s| - i
  {
    if i == |s| || s[i] != Empty then 0 else 1 + EmptyRun(s, i + 1)
  }

  /** How far `split` puts the right half from the left, for the empty run
      that follows a leaf; other runs are `unreachable!()`. */
  function SplitOffset(spaces: nat): (r: Option<nat>)
    ensures r.Some? <==> spaces in {1, 3, 7, 15}
    ensures r.Some? ==> 2 * r.value == spaces + 1
  {
    match spaces
    case 1 => Some(1)
    case 3 => Some(2)
    case 7 => Some(4)
    case 15 => Some(8)
    case _ => None
  }

  /** The slot a split of the value at `idx` writes its right half to: the
      middle of the chunk the leaf owns. */
  function SplitTarget(s: seq<int>, idx: nat): (r: Option<nat>)
    requires idx < |s|
    ensures r.Some? ==> idx < r.value < |s| && forall j :: idx < j <= r.value ==> s[j] == Empty
  {
    match SplitOffset(EmptyRun(s, idx + 1))
    case Some(o) => Some(idx + o)
    case None => None
  }

  /** The split branch of `reduce` on the value at `idx`; `None` is the
      `unreachable!()` arm. */
  function Split(s: seq<int>, idx: nat): (r: Option<seq<int>>)
    requires |s| == 32 && idx < 32 && s[idx] >= 10
    ensures r.Some? <==> SplitTarget(s, idx).Some?
    ensures r.Some? ==> var j := SplitTarget(s, idx).value;
      && |r.value| == 32
      && r.value[idx] + r.value[j] == s[idx]
      && r.value[idx] == s[idx] / 2 && r.value[idx] <= r.value[j] <= r.value[idx] + 1
      && forall i :: 0 <= i < 32 && i != idx && i != j ==> r.value[i] == s[i]
  {
    match SplitTarget(s, idx)
    case None => None
    case Some(right) =>
      var old_ := s[idx];
      var leftValue := old_ / 2;
      var rightValue := old_ - leftValue;
      Some(s[idx := leftValue][right := rightValue])
  }

  /** Splitting keeps the slots well formed and the sum of the regular numbers. */
  lemma SplitTotal(s: seq<int>, idx: nat)
    requires |s| == 32 && idx < 32 && s[idx] >= 10 && WellFormed(s) && Split(s, idx).Some?
    ensures WellFormed(Split(s, idx).value) && Total(Split(s, idx).value) == Total(s)
  {
    var j := SplitTarget(s, idx).value;
    var v := s[idx];
    TotalUpdate(s, idx, v / 2);
    TotalUpdate(s[idx := v / 2], j, v - v / 2);
    assert Split(s, idx).value == s[idx := v / 2][j := v - v / 2];
  }

  // ---------------------------------------------------------------------
  // reduce (src/day_18/mod.rs:80-126)
  // ---------------------------------------------------------------------

  /** `unreachable!()` in the split branch, or the step bound ran out. */
  datatype ReduceError = SplitUnreachable | OutOfFuel

  /** One pass of `reduce`'s loop: a rewrite, the `break`, or the `unreachable!()`. */
  datatype ReduceStep = Rewritten(next: seq<int>) | Stable | Stuck

  /** The loop's exit condition: nothing to explode and nothing to split. */
  predicate Reduced(s: seq<int>)
    requires |s| == 32
  {
    FirstDepth5(s).None? && FirstGte10(s).None?
  }

  /** One pass of `reduce`'s loop. Exploding takes precedence over splitting:
      while a pair is nested five deep the first one explodes, and only then
      is the first value of at least 10 split. */
  function Step(s: seq<int>): (r: ReduceStep)
    requires |s| == 32
    ensures r.Stable? <==> Reduced(s)
    ensures r.Rewritten? ==> |r.next| == 32
    ensures FirstDepth5(s).Some? ==> var i := FirstDepth5(s).value;
              r.Rewritten? && r.next[i] == 0 && r.next[i + 1] == Empty
    ensures FirstDepth5(s).None? && !r.Stable? ==> var i := FirstGte10(s).value;
              (r.Stuck? <==> SplitTarget(s, i).None?) &&
              (r.Rewritten? ==> r.next[i] == s[i] / 2 && r.next[SplitTarget(s, i).value] == s[i] - s[i] / 2)
  {
    Pass(s)
  }

  /** The pass itself, without the facts `Step` states about it. */
  function Pass(s: seq<int>): (r: ReduceStep)
    requires |s| == 32
    ensures r.Rewritten? ==> |r.next| == 32
  {
    match FirstDepth5(s)
    case Some(idx) => Rewritten(Explode(s, idx))
    case None =>
      match FirstGte10(s)
      case None => Stable
      case Some(idx) =>
        match Split(s, idx)
        case None => Stuck
        case Some(next) => Rewritten(next)
  }

  /** A rewrite keeps the slots well formed and never adds to the sum of the regular numbers. */
  lemma StepTotal(s: seq<int>)
    requires |s| == 32 && WellFormed(s) && Step(s).Rewritten?
    ensures WellFormed(Step(s).next) && Total(Step(s).next) <= Total(s)
  {
    match FirstDepth5(s)
    case Some(idx) =>
      ExplodeTotal(s, idx);
    case None =>
      var idx := FirstGte10(s).value;
      SplitTotal(s, idx);
  }

  /** The slots after one more pass, if that pass rewrites; `None` when the
      loop would leave (or for slots that are not a number's 32). */
  function Advance(t: seq<int>): (r: Option<seq<int>>)
    ensures r.Some? ==> |t| == 32 && |r.value| == 32
  {
    if |t| != 32 then None
    else
      match Pass(t)
      case Rewritten(next) => Some(next)
      case _ => None
  }

  /** `trace` is a run of the rewriting `advance` from `s`: it starts at `s`
      and each entry is the rewrite of the one before. With `Advance` it is
      the unbounded `reduce` loop's run so far. */
  ghost predicate IsRun(advance: seq<int> -> Option<seq<int>>, s: seq<int>, trace: seq<seq<int>>)
  {
    && |trace| > 0 && trace[0] == s
    && forall i :: 0 <= i < |trace| - 1 ==> advance(trace[i]) == Some(trace[i + 1])
  }

  /** A run extends by the rewrite of its last entry. */
  lemma RunExtends(advance: seq<int> -> Option<seq<int>>, s: seq<int>, trace: seq<seq<int>>, next: seq<int>)
    requires IsRun(advance, s, trace) && advance(trace[|trace| - 1]) == Some(next)
    ensures IsRun(advance, s, trace + [next])
  {
    var t := trace + [next];
    forall i | 0 <= i < |t| - 1
      ensures advance(t[i]) == Some(t[i + 1])
    {
      assert t[i] == trace[i];
    }
  }

  lemma RunStep(advance: seq<int> -> Option<seq<int>>, s: seq<int>, trace: seq<seq<int>>, k: nat)
    requires IsRun(advance, s, trace) && k + 1 < |trace|
    ensures advance(trace[k]) == Some(trace[k + 1])
  {
  }

  lemma RunStepBefore(advance: seq<int> -> Option<seq<int>>, s: seq<int>, trace: seq<seq<int>>, k: nat)
    requires IsRun(advance, s, trace) && k < |trace|
    ensures k + 1 < |trace| ==> advance(trace[k]) == Some(trace[k + 1])
  {
  }

  /** Rewriting is deterministic: two runs from the same slots agree as far as both go. */
  lemma {:induction false} RunsAgree(advance: seq<int> -> Option<seq<int>>, s: seq<int>, a: seq<seq<int>>, b: seq<seq<int>>, n: nat)
    requires IsRun(advance, s, a) && IsRun(advance, s, b) && n < |a| && n < |b|
    ensures a[n] == b[n]
    decreases n
  {
    if n > 0 {
      RunsAgree(advance, s, a, b, n - 1);
      assert advance(a[n - 1]) == Some(a[n]);
      assert advance(b[n - 1]) == Some(b[n]);
    }
  }

  /** A run that ends where `advance` stops is the longest one: any other
      run from the same slots is a prefix of it. */
  lemma RunPrefix(advance: seq<int> -> Option<seq<int>>, s: seq<int>, e: seq<seq<int>>, trace: seq<seq<int>>)
    requires IsRun(advance, s, e) && advance(e[|e| - 1]) == None && IsRun(advance, s, trace)
    ensures |trace| <= |e| && trace == e[..|trace|]
  {
    if |trace| > |e| {
      RunsAgree(advance, s, trace, e, |e| - 1);
      RunStep(advance, s, trace, |e| - 1);
    }
    forall n | 0 <= n < |trace|
      ensures trace[n] == e[n]
    {
      RunsAgree(advance, s, trace, e, n);
    }
  }

  /** `reduce`: rewrite until neither an explosion nor a split applies. The
      original loops without bound; `fuel` bounds the number of rewrites here.
      `trace` is the run the loop takes: the answer is the reduced number it
      settles on or the `unreachable!()` it meets at its end, and `OutOfFuel`
      says exactly that the run rewrote `fuel` times and could rewrite again. */
  method Reduce(s: seq<int>, fuel: nat) returns (r: Result<seq<int>, ReduceError>, ghost trace: seq<seq<int>>)
    requires |s| == 32
    ensures IsRun(Advance, s, trace) && |trace| <= fuel + 2 && |trace[|trace| - 1]| == 32
    ensures r.Ok? ==> |r.value| == 32 && Reduced(r.value)
    ensures r.Ok? ==> r.value == trace[|trace| - 1]
    ensures r == Err(SplitUnreachable) ==> Step(trace[|trace| - 1]).Stuck?
    ensures r == Err(OutOfFuel) <==> |trace| == fuel + 2
    ensures r.Ok? && WellFormed(s) ==> WellFormed(r.value) && Total(r.value) <= Total(s)
    ensures Reduced(s) ==> r == Ok(s)
  {
    var cur := s;
    var left: nat := fuel;
    trace := [s];
    while true
      invariant |cur| == 32 && left <= fuel
      invariant IsRun(Advance, s, trace) && |trace| == fuel - left + 1 && trace[|trace| - 1] == cur
      invariant WellFormed(s) ==> WellFormed(cur) && Total(cur) <= Total(s)
      invariant Reduced(s) ==> cur == s
      decreases left
    {
      var st := Step(cur);
      if st.Stable? {
        return Ok(cur), trace;
      } else if st.Stuck? {
        return Err(SplitUnreachable), trace;
      }
      assert Advance(cur) == Some(st.next);
      RunExtends(Advance, s, trace, st.next);
      if left == 0 {
        return Err(OutOfFuel), trace + [st.next];
      }
      if WellFormed(s) {
        StepTotal(cur);
      }
      trace := trace + [st.next];
      cur := st.next;
      left := left - 1;
    }
  }

  /** What `Reduce` answers is fixed by the run alone: when the run from `s`
      settles on a reduced number within `fuel` rewrites, any answer meeting
      `Reduce`'s contract is that number. */
  lemma ReduceSettlesOn(s: seq<int>, e: seq<seq<int>>, fuel: nat, r: Result<seq<int>, ReduceError>, trace: seq<seq<int>>)
    requires |s| == 32 && IsRun(Advance, s, e) && Advance(e[|e| - 1]) == None && |e| <= fuel + 1
    requires |e[|e| - 1]| == 32 && Reduced(e[|e| - 1])
    requires IsRun(Advance, s, trace) && |trace| <= fuel + 2 && |trace[|trace| - 1]| == 32
    requires r.Ok? ==> r.value == trace[|trace| - 1]
    requires r == Err(SplitUnreachable) ==> Step(trace[|trace| - 1]).Stuck?
    requires r == Err(OutOfFuel) <==> |trace| == fuel + 2
    requires r.Ok? ==> |r.value| == 32 && Reduced(r.value)
    ensures r == Ok(e[|e| - 1])
  {
    RunPrefix(Advance, s, e, trace);
    var k := |trace| - 1;
    assert trace[k] == e[k];
    AdvanceIsStep(e[k]);
    RunStepBefore(Advance, s, e, k);
    assert k + 1 < |e| ==> Step(e[k]).Rewritten? && !Reduced(e[k]);
    assert k + 1 == |e| ==> Step(e[k]).Stable?;
    match r {
      case Ok(v) =>
      case Err(OutOfFuel) =>
      case Err(SplitUnreachable) =>
    }
  }

  /** `Advance` rewrites exactly when `Step` does, to the same slots. */
  lemma AdvanceIsStep(t: seq<int>)
    requires |t| == 32
    ensures Advance(t).Some? <==> Step(t).Rewritten?
    ensures Advance(t).Some? ==> Advance(t).value == Step(t).next
    ensures Step(t).Stable? <==> Reduced(t)
  {
  }

  // ---------------------------------------------------------------------
  // Addition (src/day_18/mod.rs:163-177)
  // ---------------------------------------------------------------------

  /** The slots of `[a,b]` before reduction: the even slots of `a` fill the
      first half and the even slots of `b` the second. */
  function Join(a: seq<int>, b: seq<int>): (r: seq<int>)
    requires |a| == 32 && |b| == 32
    ensures |r| == 32
  {
    seq(32, i requires 0 <= i < 32 => if i < 16 then a[2 * i] else b[2 * (i - 16)])
  }

  /** `Add for SnailNum`. */
  method Add(a: seq<int>, b: seq<int>, fuel: nat) returns (r: Result<seq<int>, ReduceError>, ghost trace: seq<seq<int>>)
    requires |a| == 32 && |b| == 32
    ensures IsRun(Advance, Join(a, b), trace) && |trace| <= fuel + 2 && |trace[|trace| - 1]| == 32
    ensures r.Ok? ==> |r.value| == 32 && Reduced(r.value) && r.value == trace[|trace| - 1]
    ensures r == Err(SplitUnreachable) ==> Step(trace[|trace| - 1]).Stuck?
    ensures r == Err(OutOfFuel) <==> |trace| == fuel + 2
    ensures r.Ok? && WellFormed(a) && WellFormed(b) ==> WellFormed(r.value)
    ensures Reduced(Join(a, b)) ==> r == Ok(Join(a, b))
  {
    var joined := Join(a, b);
    assert WellFormed(a) && WellFormed(b) ==> WellFormed(joined) by {
      if WellFormed(a) && WellFormed(b) {
        forall i | 0 <= i < 32
          ensures joined[i] >= Empty
        {
          if i < 16 {
            assert joined[i] == a[2 * i];
          } else {
            assert joined[i] == b[2 * (i - 16)];
          }
        }
      }
    }
    r, trace := Reduce(joined, fuel);
  }

  /** Every other slot of a chunk, starting with the first. */
  function Halve(c: seq<int>): (r: seq<int>)
    ensures |r| == |c| / 2
  {
    seq(|c| / 2, i requires 0 <= i < |c| / 2 => c[2 * i])
  }

  lemma HalveAppend(a: seq<int>, b: seq<int>)
    requires |a| % 2 == 0
    ensures Halve(a + b) == Halve(a) + Halve(b)
  {
    assert |Halve(a + b)| == |Halve(a)| + |Halve(b)|;
    forall i | 0 <= i < |Halve(a + b)|
      ensures Halve(a + b)[i] == (Halve(a) + Halve(b))[i]
    {
      if i >= |a| / 2 {
        assert 2 * i == |a| + 2 * (i - |a| / 2);
      }
    }
  }

  /** Dropping the odd slots of a packing moves the tree up one level, as long
      as no pair needs the extra level. */
  lemma {:induction false} HalveLayout(t: Tree, k: nat)
    requires PairDepth(t) <= k
    ensures Halve(Layout(t, k + 1)) == Layout(t, k)
    decreases t
  {
    match t
    case Leaf(v) =>
      HalveLeaf(v, k);
    case Pair(l, r) =>
      HalveLayout(l, k - 1);
      HalveLayout(r, k - 1);
      HalvePairStep(l, r, k);
  }

  lemma HalveLeaf(v: nat, k: nat)
    ensures Halve(Layout(Leaf(v), k + 1)) == Layout(Leaf(v), k)
  {
    var c := Layout(Leaf(v), k + 1);
    forall i | 0 <= i < Pow2(k)
      ensures Halve(c)[i] == Layout(Leaf(v), k)[i]
    {
      if i > 0 {
        assert c[2 * i] == Empty;
      }
    }
  }

  lemma HalvePairStep(l: Tree, r: Tree, k: nat)
    requires PairDepth(Pair(l, r)) <= k
    requires Halve(Layout(l, k)) == Layout(l, k - 1) && Halve(Layout(r, k)) == Layout(r, k - 1)
    ensures Halve(Layout(Pair(l, r), k + 1)) == Layout(Pair(l, r), k)
  {
    HalveAppend(Layout(l, k), Layout(r, k));
  }

  lemma JoinHalves(a: seq<int>, b: seq<int>)
    requires |a| == 32 && |b| == 32
    ensures Join(a, b) == Halve(a) + Halve(b)
  {
  }

  /** Adding two numbers whose pairs nest at most four deep packs exactly the
      pair of the two trees: the addition loses nothing before reduction. */
  lemma JoinLayout(ta: Tree, tb: Tree)
    requires PairDepth(ta) <= 4 && PairDepth(tb) <= 4
    ensures Join(Layout(ta, 5), Layout(tb, 5)) == Layout(Pair(ta, tb), 5)
  {
    JoinHalves(Layout(ta, 5), Layout(tb, 5));
    HalveLayout(ta, 4);
    HalveLayout(tb, 4);
  }

  ghost predicate HasDeepPair(c: seq<int>)
  {
    exists i :: DeepPairAt(c, i)
  }

  lemma DeepPairAppend(a: seq<int>, b: seq<int>)
    requires |a| % 2 == 0
    ensures HasDeepPair(a + b) <==> HasDeepPair(a) || HasDeepPair(b)
  {
    if HasDeepPair(a + b) {
      var i :| DeepPairAt(a + b, i);
      if i < |a| {
        assert DeepPairAt(a, i);
      } else {
        assert DeepPairAt(b, i - |a|);
      }
    }
    if HasDeepPair(a) {
      var i :| DeepPairAt(a, i);
      assert DeepPairAt(a + b, i);
    }
    if HasDeepPair(b) {
      var i :| DeepPairAt(b, i);
      assert DeepPairAt(a + b, i + |a|);
    }
  }

  /** A packing has two adjacent filled slots exactly when the tree uses all
      of its levels: for whole numbers, a pair nested five deep. */
  lemma {:induction false} DeepPairLayout(t: Tree, k: nat)
    requires 1 <= k && PairDepth(t) <= k
    ensures HasDeepPair(Layout(t, k)) <==> PairDepth(t) == k
    decreases t
  {
    var c := Layout(t, k);
    match t
    case Leaf(v) =>
    case Pair(l, r) =>
      if k == 1 {
        assert DeepPairAt(c, 0);
      } else {
        DeepPairAppend(Layout(l, k - 1), Layout(r, k - 1));
        DeepPairLayout(l, k - 1);
        DeepPairLayout(r, k - 1);
      }
  }

  /** `first_depth_5` finds a pair in a packed number exactly when its pairs
      nest five deep, which is also when addition drops a filled slot. */
  lemma FirstDepth5Layout(t: Tree)
    requires PairDepth(t) <= 5
    ensures FirstDepth5(Layout(t, 5)).None? <==> PairDepth(t) <= 4
  {
    DeepPairLayout(t, 5);
  }

  // ---------------------------------------------------------------------
  // The searches pinned down by the slots they look at
  // ---------------------------------------------------------------------

  /** The first pair nested five deep is the one at `i` when no earlier pair
      has both slots filled. */
  lemma {:induction false} FirstDepth5At(s: seq<int>, i: nat)
    requires |s| == 32 && DeepPairAt(s, i)
    requires forall p :: 0 <= p < i / 2 ==> s[2 * p] == Empty || s[2 * p + 1] == Empty
    ensures FirstDepth5(s) == Some(i)
  {
    forall j | 0 <= j < i
      ensures !DeepPairAt(s, j)
    {
      var q := j / 2;
      assert j == 2 * q + j % 2 && i == 2 * (i / 2);
      assert j % 2 != 0 || (q < i / 2 && j == 2 * q);
    }
  }

  /** No pair is nested five deep when every pair has an empty slot. */
  lemma NoDepth5(s: seq<int>)
    requires |s| == 32 && forall p :: 0 <= p < 16 ==> s[2 * p] == Empty || s[2 * p + 1] == Empty
    ensures FirstDepth5(s) == None
  {
    forall j | 0 <= j < 32
      ensures !DeepPairAt(s, j)
    {
      assert j % 2 != 0 || (j / 2 < 16 && j == 2 * (j / 2));
    }
  }

  lemma FirstGte10At(s: seq<int>, i: nat)
    requires i < |s| && s[i] >= 10 && forall j :: 0 <= j < i ==> s[j] < 10
    ensures FirstGte10(s) == Some(i)
  {
  }

  lemma PrevAt(s: seq<int>, idx: nat, p: nat)
    requires p < idx <= |s| && s[p] != Empty && forall j :: p < j < idx ==> s[j] == Empty
    ensures Prev(s, idx) == Some(p)
  {
  }

  lemma PrevNone(s: seq<int>, idx: nat)
    requires idx <= |s| && forall j :: 0 <= j < idx ==> s[j] == Empty
    ensures Prev(s, idx) == None
  {
  }

  lemma NextNone(s: seq<int>, idx: nat)
    requires idx < |s| && forall j :: idx < j < |s| ==> s[j] == Empty
    ensures Next(s, idx) == None
  {
  }

  lemma NextAt(s: seq<int>, idx: nat, n: nat)
    requires idx < n < |s| && s[n] != Empty && forall j :: idx < j < n ==> s[j] == Empty
    ensures Next(s, idx) == Some(n)
  {
  }

  lemma EmptyRunIs(s: seq<int>, i: nat, n: nat)
    requires i + n <= |s| && forall j :: i <= j < i + n ==> s[j] == Empty
    requires i + n == |s| || s[i + n] != Empty
    ensures EmptyRun(s, i) == n
  {
  }

  lemma {:induction false} AddToPrevAt(s: seq<int>, idx: nat, p: nat)
    requires idx < |s| && Prev(s, idx) == Some(p)
    ensures AddToPrev(s, idx) == s[p := s[p] + s[idx]]
  {
    assert AddToPrev(s, idx) == s[p := s[p] + s[idx]];
  }

  lemma AddToPrevNone(s: seq<int>, idx: nat)
    requires idx < |s| && Prev(s, idx) == None
    ensures AddToPrev(s, idx) == s
  {
  }

  lemma {:induction false} AddToNextAt(s: seq<int>, idx: nat, n: nat)
    requires idx < |s| && Next(s, idx) == Some(n)
    ensures AddToNext(s, idx) == s[n := s[n] + s[idx]]
  {
    assert AddToNext(s, idx) == s[n := s[n] + s[idx]];
  }

  lemma AddToNextNone(s: seq<int>, idx: nat)
    requires idx < |s| && Next(s, idx) == None
    ensures AddToNext(s, idx) == s
  {
  }

  /** An explosion with regular numbers on both sides, as slot updates. */
  lemma ExplodeBetween(s: seq<int>, idx: nat, p: nat, n: nat)
    requires |s| == 32 && DeepPairAt(s, idx) && Prev(s, idx) == Some(p) && Next(s, idx + 1) == Some(n)
    ensures Explode(s, idx) == s[p := s[p] + s[idx]][n := s[n] + s[idx + 1]][idx := 0][idx + 1 := Empty]
  {
    var s1 := AddToPrev(s, idx);
    AddToPrevAt(s, idx, p);
    assert s1[idx + 2..] == s[idx + 2..];
    NextFrame(s1, s, idx + 1);
    AddToNextAt(s1, idx + 1, n);
  }

  /** An explosion with nothing before the pair. */
  lemma ExplodeFirst(s: seq<int>, idx: nat, n: nat)
    requires |s| == 32 && DeepPairAt(s, idx) && Prev(s, idx) == None && Next(s, idx + 1) == Some(n)
    ensures Explode(s, idx) == s[n := s[n] + s[idx + 1]][idx := 0][idx + 1 := Empty]
  {
    AddToPrevNone(s, idx);
    AddToNextAt(s, idx + 1, n);
  }

  /** An explosion with nothing after the pair. */
  lemma ExplodeLast(s: seq<int>, idx: nat, p: nat)
    requires |s| == 32 && DeepPairAt(s, idx) && Prev(s, idx) == Some(p) && Next(s, idx + 1) == None
    ensures Explode(s, idx) == s[p := s[p] + s[idx]][idx := 0][idx + 1 := Empty]
  {
    var s1 := AddToPrev(s, idx);
    AddToPrevAt(s, idx, p);
    assert s1[idx + 2..] == s[idx + 2..];
    NextFrame(s1, s, idx + 1);
    AddToNextNone(s1, idx + 1);
  }

  /** The pass on `s` explodes the pair at `idx`, with the regular numbers at
      `p` before it and `n` after it, and leaves `next`. */
  predicate ExplodesBetween(s: seq<int>, idx: nat, p: nat, n: nat, next: seq<int>)
  {
    && |s| == 32 && FirstDepth5(s) == Some(idx) && Prev(s, idx) == Some(p) && Next(s, idx + 1) == Some(n)
    && next == s[p := s[p] + s[idx]][n := s[n] + s[idx + 1]][idx := 0][idx + 1 := Empty]
  }

  /** The same with nothing before the pair. */
  predicate ExplodesFirst(s: seq<int>, idx: nat, n: nat, next: seq<int>)
  {
    && |s| == 32 && FirstDepth5(s) == Some(idx) && Prev(s, idx) == None && Next(s, idx + 1) == Some(n)
    && next == s[n := s[n] + s[idx + 1]][idx := 0][idx + 1 := Empty]
  }

  /** The same with nothing after the pair. */
  predicate ExplodesLast(s: seq<int>, idx: nat, p: nat, next: seq<int>)
  {
    && |s| == 32 && FirstDepth5(s) == Some(idx) && Prev(s, idx) == Some(p) && Next(s, idx + 1) == None
    && next == s[p := s[p] + s[idx]][idx := 0][idx + 1 := Empty]
  }

  /** The pass on `s` splits the regular number at `i`, which has `spaces`
      empty slots after it, and leaves `next`. */
  predicate SplitsAt(s: seq<int>, i: nat, spaces: nat, next: seq<int>)
  {
    && |s| == 32 && FirstDepth5(s) == None && FirstGte10(s) == Some(i)
    && EmptyRun(s, i + 1) == spaces && spaces in {1, 3, 7, 15}
    && next == s[i := s[i] / 2][i + (spaces + 1) / 2 := s[i] - s[i] / 2]
  }

  lemma AdvanceExplodesBetween(s: seq<int>, idx: nat, p: nat, n: nat, next: seq<int>)
    requires ExplodesBetween(s, idx, p, n, next)
    ensures Advance(s) == Some(next)
  {
    ExplodeBetween(s, idx, p, n);
  }

  lemma AdvanceExplodesFirst(s: seq<int>, idx: nat, n: nat, next: seq<int>)
    requires ExplodesFirst(s, idx, n, next)
    ensures Advance(s) == Some(next)
  {
    ExplodeFirst(s, idx, n);
  }

  lemma AdvanceExplodesLast(s: seq<int>, idx: nat, p: nat, next: seq<int>)
    requires ExplodesLast(s, idx, p, next)
    ensures Advance(s) == Some(next)
  {
    ExplodeLast(s, idx, p);
  }

  lemma AdvanceSplits(s: seq<int>, i: nat, spaces: nat, next: seq<int>)
    requires SplitsAt(s, i, spaces, next)
    ensures Advance(s) == Some(next)
  {
    SplitLeafAt(s, i, spaces);
  }

  lemma SplitLeafAt(s: seq<int>, i: nat, spaces: nat)
    requires |s| == 32 && i < 32 && s[i] >= 10 && EmptyRun(s, i + 1) == spaces && spaces in {1, 3, 7, 15}
    ensures Split(s, i) == Some(s[i := s[i] / 2][i + (spaces + 1) / 2 := s[i] - s[i] / 2])
  {
    assert SplitOffset(spaces) == Some((spaces + 1) / 2);
    assert SplitTarget(s, i) == Some(i + (spaces + 1) / 2);
  }

  // ---------------------------------------------------------------------
  // The worked examples of the original's tests (src/day_18/mod.rs:257-343)
  // ---------------------------------------------------------------------

  /** The text of a tree of digits parses to its packing, whose magnitude is the tree's. */
  lemma MagnitudeOfText(t: Tree, text: string)
    requires PairDepth(t) <= 5 && DigitLeaves(t) && TreeString(t) == text
    ensures FromStr(text) == Ok(Layout(t, 5))
    ensures Magnitude(Layout(t, 5)) == TreeMagnitude(t)
  {
    ParseRenderRoundTrip(t);
    MagnitudeLayout(t, 5);
  }

  function Example143(): Tree
  {
    Pair(Pair(Leaf(1), Leaf(2)), Pair(Pair(Leaf(3), Leaf(4)), Leaf(5)))
  }

  lemma Example143Facts()
    ensures PairDepth(Example143()) <= 5 && DigitLeaves(Example143())
    ensures TreeString(Example143()) == "[[1,2],[[3,4],5]]"
    ensures TreeMagnitude(Example143()) == 143
  {
    Example143Text();
  }

  lemma Example143Text()
    ensures TreeString(Example143()) == "[[1,2],[[3,4],5]]"
  {
  }

  lemma MagnitudeExample(text: string)
    requires text == "[[1,2],[[3,4],5]]"
    ensures FromStr(text).Ok? && Magnitude(FromStr(text).value) == 143
  {
    Example143Facts();
    MagnitudeOfText(Example143(), text);
  }

  lemma RenderExample(s: seq<int>)
    requires s == Blank(32)[0 := 1][16 := 2][24 := 3]
    ensures Render(s) == "[1,[2,3]]"
  {
    var t := Pair(Leaf(1), Pair(Leaf(2), Leaf(3)));
    assert s == Layout(t, 5);
    RenderLayout(t, 5);
  }
}

=== FILE: snailfish_examples.dfy ===
/** Worked examples from the original's tests, run through the model of
    `reduce` and `Add for SnailNum` (src/day_18/mod.rs:304-318 and 163-177).

    Each number appears in its 32-slot packing: slot `i` holds the regular
    number whose path from the root, read as five bits (left 0, right 1,
    padded with 0s), is `i`, and -1 marks an empty slot. Each state of a run
    is written as the slots its rewrite changes, and each rewrite is pinned
    down by the slots the searches look at: `Shape` lemmas state those slots,
    `Find` lemmas what the searches return, `Next` lemmas the slots the
    rewrite writes, and `Step` lemmas that one pass goes from one state to
    the next. A state is written out in full every few rewrites to keep the
    chains of updates short. */
module SnailfishExamples {
  import opened Wrappers
  import opened Snailfish

  // ---------------------------------------------------------------------
  // reduce: [[[[[4,3],4],4],[7,[[8,4],9]]],[1,1]] becomes [[[[0,7],4],[[7,8],[6,0]]],[8,1]]
  // ---------------------------------------------------------------------

  const R0: seq<int> := [4, 3, 4, -1, 4, -1, -1, -1, 7, -1, -1, -1, 8, 4, 9, -1, 1, -1, -1, -1, -1, -1, -1, -1, 1, -1, -1, -1, -1, -1, -1, -1]
  const R1: seq<int> := R0[2 := 7][0 := 0][1 := -1]
  const R2: seq<int> := R1[8 := 15][14 := 13][12 := 0][13 := -1]
  const R3: seq<int> := R2[8 := 7][10 := 8]
  const R4: seq<int> := R3[14 := 6][15 := 7]
  const R5: seq<int> := [0, -1, 7, -1, 4, -1, -1, -1, 7, -1, 8, -1, 6, -1, 0, -1, 8, -1, -1, -1, -1, -1, -1, -1, 1, -1, -1, -1, -1, -1, -1, -1]

  lemma RShape0()
    ensures R0[0] != Empty && R0[1] != Empty
    ensures R0[2] != Empty
  {
  }

  lemma RFind0()
    ensures |R0| == 32 && FirstDepth5(R0) == Some(0) && Prev(R0, 0) == None && Next(R0, 0 + 1) == Some(2)
  {
    RShape0();
    FirstDepth5At(R0, 0);
    PrevNone(R0, 0);
    NextAt(R0, 1, 2);
  }

  lemma RCert0()
    ensures ExplodesFirst(R0, 0, 2, R1)
  {
    RFind0();
    RNext0();
  }

  lemma RNext0()
    ensures R1 == R0[2 := R0[2] + R0[0 + 1]][0 := 0][0 + 1 := Empty]
  {
  }

  lemma RStep0()
    ensures Advance(R0) == Some(R1)
  {
    RCert0();
    AdvanceExplodesFirst(R0, 0, 2, R1);
  }

  lemma RShape1()
    ensures R1[12] != Empty && R1[13] != Empty
    ensures forall q :: 0 <= q < 6 ==> R1[2 * q] == Empty || R1[2 * q + 1] == Empty
    ensures R1[8] != Empty
    ensures forall j :: 8 < j < 12 ==> R1[j] == Empty
    ensures R1[14] != Empty
  {
  }

  lemma RFind1()
    ensures |R1| == 32 && FirstDepth5(R1) == Some(12) && Prev(R1, 12) == Some(8) && Next(R1, 12 + 1) == Some(14)
  {
    RShape1();
    FirstDepth5At(R1, 12);
    PrevAt(R1, 12, 8);
    NextAt(R1, 13, 14);
  }

  lemma RCert1()
    ensures ExplodesBetween(R1, 12, 8, 14, R2)
  {
    RFind1();
    RNext1();
  }

  lemma RNext1()
    ensures R2 == R1[8 := R1[8] + R1[12]][14 := R1[14] + R1[12 + 1]][12 := 0][12 + 1 := Empty]
  {
  }

  lemma RStep1()
    ensures Advance(R1) == Some(R2)
  {
    RCert1();
    AdvanceExplodesBetween(R1, 12, 8, 14, R2);
  }

  lemma RShape2()
    ensures forall q :: 0 <= q < 16 ==> R2[2 * q] == Empty || R2[2 * q + 1] == Empty
    ensures R2[8] == 15
    ensures forall j :: 0 <= j < 8 ==> R2[j] < 10
    ensures forall j :: 9 <= j < 12 ==> R2[j] == Empty
    ensures R2[12] != Empty
  {
  }

  lemma RFind2()
    ensures |R2| == 32 && FirstDepth5(R2) == None && FirstGte10(R2) == Some(8) && EmptyRun(R2, 8 + 1) == 3
  {
    RShape2();
    NoDepth5(R2);
    FirstGte10At(R2, 8);
    EmptyRunIs(R2, 9, 3);
  }

  lemma RCert2()
    ensures SplitsAt(R2, 8, 3, R3)
  {
    RFind2();
    RNext2();
  }

  lemma RNext2()
    ensures R3 == R2[8 := R2[8] / 2][8 + (3 + 1) / 2 := R2[8] - R2[8] / 2]
  {
  }

  lemma RStep2()
    ensures Advance(R2) == Some(R3)
  {
    RCert2();
    AdvanceSplits(R2, 8, 3, R3);
  }

  lemma RShape3()
    ensures forall q :: 0 <= q < 16 ==> R3[2 * q] == Empty || R3[2 * q + 1] == Empty
    ensures R3[14] == 13
    ensures forall j :: 0 <= j < 14 ==> R3[j] < 10
    ensures forall j :: 15 <= j < 16 ==> R3[j] == Empty
    ensures R3[16] != Empty
  {
  }

  lemma RFind3()
    ensures |R3| == 32 && FirstDepth5(R3) == None && FirstGte10(R3) == Some(14) && EmptyRun(R3, 14 + 1) == 1
  {
    RShape3();
    NoDepth5(R3);
    FirstGte10At(R3, 14);
    EmptyRunIs(R3, 15, 1);
  }

  lemma RCert3()
    ensures SplitsAt(R3, 14, 1, R4)
  {
    RFind3();
    RNext3();
  }

  lemma RNext3()
    ensures R4 == R3[14 := R3[14] / 2][14 + (1 + 1) / 2 := R3[14] - R3[14] / 2]
  {
  }

  lemma RStep3()
    ensures Advance(R3) == Some(R4)
  {
    RCert3();
    AdvanceSplits(R3, 14, 1, R4);
  }

  lemma RShape4()
    ensures R4[14] != Empty && R4[15] != Empty
    ensures forall q :: 0 <= q < 7 ==> R4[2 * q] == Empty || R4[2 * q + 1] == Empty
    ensures R4[12] != Empty
    ensures forall j :: 12 < j < 14 ==> R4[j] == Empty
    ensures R4[16] != Empty
  {
  }

  lemma RFind4()
    ensures |R4| == 32 && FirstDepth5(R4) == Some(14) && Prev(R4, 14) == Some(12) && Next(R4, 14 + 1) == Some(16)
  {
    RShape4();
    FirstDepth5At(R4, 14);
    PrevAt(R4, 14, 12);
    NextAt(R4, 15, 16);
  }

  lemma RCert4()
    ensures ExplodesBetween(R4, 14, 12, 16, R5)
  {
    RFind4();
    RNext4();
  }

  lemma RNext4()
    ensures R5 == R4[12 := R4[12] + R4[14]][16 := R4[16] + R4[14 + 1]][14 := 0][14 + 1 := Empty]
  {
    RNext4Low();
    RNext4High();
  }

  lemma RNext4Low()
    ensures forall j :: 0 <= j < 16 ==> R5[j] == R4[12 := R4[12] + R4[14]][16 := R4[16] + R4[14 + 1]][14 := 0][14 + 1 := Empty][j]
  {
    R4Slots();
  }

  lemma RNext4High()
    ensures forall j :: 16 <= j < 32 ==> R5[j] == R4[12 := R4[12] + R4[14]][16 := R4[16] + R4[14 + 1]][14 := 0][14 + 1 := Empty][j]
  {
    R4Slots();
  }

  /** The state before the last rewrite, written out in full. */
  lemma R4Slots()
    ensures R4 == [0, -1, 7, -1, 4, -1, -1, -1, 7, -1, 8, -1, 0, -1, 6, 7, 1, -1, -1, -1, -1, -1, -1, -1, 1, -1, -1, -1, -1, -1, -1, -1]
  {
  }

  lemma RStep4()
    ensures Advance(R4) == Some(R5)
  {
    RCert4();
    AdvanceExplodesBetween(R4, 14, 12, 16, R5);
  }

  lemma RShape5()
    ensures forall q :: 0 <= q < 16 ==> R5[2 * q] == Empty || R5[2 * q + 1] == Empty
    ensures forall j :: 0 <= j < 32 ==> R5[j] < 10
  {
    assert forall j :: 0 <= j < 16 ==> R5[j] < 10;
    assert forall j :: 16 <= j < 32 ==> R5[j] < 10;
  }

  lemma RSettles()
    ensures Advance(R5) == None
    ensures Reduced(R5)
  {
    RShape5();
    NoDepth5(R5);
    assert FirstGte10(R5) == None;
    assert Pass(R5) == Stable;
    assert |R5| == 32;
  }

  /** The run of `reduce` from the unreduced number to the reduced one. */
  const ReduceTrace: seq<seq<int>> := [R0, R1, R2, R3, R4, R5]

  lemma ReduceRun()
    ensures IsRun(Advance, R0, ReduceTrace) && Advance(R5) == None && Reduced(R5)
  {
    ReduceRunFrom0();
    ReduceRunFrom3();
    RSettles();
    forall i | 0 <= i < |ReduceTrace| - 1
      ensures Advance(ReduceTrace[i]) == Some(ReduceTrace[i + 1])
    {
      assert 0 <= i < 3 || 3 <= i < 5;
    }
  }

  lemma ReduceRunFrom0()
    ensures forall i :: 0 <= i < 3 ==> Advance(ReduceTrace[i]) == Some(ReduceTrace[i + 1])
  {
    RStep0();
    RStep1();
    RStep2();
    forall i | 0 <= i < 3
      ensures Advance(ReduceTrace[i]) == Some(ReduceTrace[i + 1])
    {
      assert i == 0 || i == 1 || i == 2;
    }
  }

  lemma ReduceRunFrom3()
    ensures forall i :: 3 <= i < 5 ==> Advance(ReduceTrace[i]) == Some(ReduceTrace[i + 1])
  {
    RStep3();
    RStep4();
    forall i | 3 <= i < 5
      ensures Advance(ReduceTrace[i]) == Some(ReduceTrace[i + 1])
    {
      assert i == 3 || i == 4;
    }
  }

  /** `reduce` on [[[[[4,3],4],4],[7,[[8,4],9]]],[1,1]] settles on [[[[0,7],4],[[7,8],[6,0]]],[8,1]], given fuel for the 5 rewrites it takes. */
  method ReduceExample(fuel: nat) returns (r: Result<seq<int>, ReduceError>)
    requires fuel >= 5
    ensures r == Ok(R5)
  {
    ghost var trace;
    r, trace := Reduce(R0, fuel);
    ReduceRun();
    ReduceSettlesOn(R0, ReduceTrace, fuel, r, trace);
  }

  // ---------------------------------------------------------------------
  // Addition: [[[[4,3],4],4],[7,[[8,4],9]]] + [1,1] is the number above
  // ---------------------------------------------------------------------

  const A: seq<int> := [4, -1, 3, -1, 4, -1, -1, -1, 4, -1, -1, -1, -1, -1, -1, -1, 7, -1, -1, -1, -1, -1, -1, -1, 8, -1, 4, -1, 9, -1, -1, -1]
  const B: seq<int> := [1, -1, -1, -1, -1, -1, -1, -1, -1, -1, -1, -1, -1, -1, -1, -1, 1, -1, -1, -1, -1, -1, -1, -1, -1, -1, -1, -1, -1, -1, -1, -1]

  /** Joining the two numbers gives the unreduced number of the example above. */
  lemma JoinAB()
    ensures Join(A, B) == R0
  {
    JoinLow();
    JoinHigh();
  }

  lemma JoinLow()
    ensures forall i :: 0 <= i < 16 ==> Join(A, B)[i] == R0[i]
  {
  }

  lemma JoinHigh()
    ensures forall i :: 16 <= i < 32 ==> Join(A, B)[i] == R0[i]
  {
  }

  /** Adding [[[[4,3],4],4],[7,[[8,4],9]]] and [1,1] gives [[[[0,7],4],[[7,8],[6,0]]],[8,1]]. */
  method AddExample(fuel: nat) returns (r: Result<seq<int>, ReduceError>)
    requires fuel >= 5
    ensures r == Ok(R5)
  {
    ghost var trace;
    r, trace := Add(A, B, fuel);
    JoinAB();
    ReduceRun();
    ReduceSettlesOn(R0, ReduceTrace, fuel, r, trace);
  }
}

=== FILE: sonar.dfy ===
/** Day 1, "Sonar Sweep" (src/day_1/mod.rs): depth measurements, one `u16`
    per line. Part 1 counts the measurements deeper than the one before;
    part 2 counts the three-measurement sliding windows whose sum grows,
    which the original computes without summing: two overlapping windows
    share two measurements, so only `numbers[i]` and `numbers[i + 3]` are
    compared. Counts are unbounded here (`u16` in the original). */
module Sonar {
  import opened Wrappers
  import opened Text

  /** The number of `i < n` with `xs[i] < xs[i + gap]`: the rises at distance `gap`. */
  function RisesUpTo(xs: seq<int>, gap: nat, n: nat): nat
    requires n + gap <= |xs|
  {
    if n == 0 then 0
    else RisesUpTo(xs, gap, n - 1) + (if xs[n - 1] < xs[n - 1 + gap] then 1 else 0)
  }

  function Rises(xs: seq<int>, gap: nat): nat
    requires gap <= |xs|
  {
    RisesUpTo(xs, gap, |xs| - gap)
  }

  predicate RiseAt(xs: seq<int>, gap: nat, i: nat)
    requires i + gap < |xs|
  {
    xs[i] < xs[i + gap]
  }

  /** The positions `i < n` that rise. */
  function RiseSet(xs: seq<int>, gap: nat, n: nat): set<nat>
    requires n + gap <= |xs|
  {
    set i: nat | i < n && RiseAt(xs, gap, i)
  }

  /** The positions counted, as a set: the count is its size. */
  lemma {:induction false} RisesUpToIsCard(xs: seq<int>, gap: nat, n: nat)
    requires n + gap <= |xs|
    ensures RisesUpTo(xs, gap, n) == |RiseSet(xs, gap, n)|
    decreases n
  {
    if n > 0 {
      RisesUpToIsCard(xs, gap, n - 1);
      var before := RiseSet(xs, gap, n - 1);
      var extra: set<nat> := if RiseAt(xs, gap, n - 1) then {n - 1} else {};
      forall i: nat
        ensures i in RiseSet(xs, gap, n) <==> i in before + extra
      {
      }
      assert RiseSet(xs, gap, n) == before + extra;
      assert before !! extra;
    }
  }

  /** The count never exceeds the number of pairs compared. */
  lemma {:induction false} RisesBound(xs: seq<int>, gap: nat, n: nat)
    requires n + gap <= |xs|
    ensures RisesUpTo(xs, gap, n) <= n
    decreases n
  {
    if n > 0 {
      RisesBound(xs, gap, n - 1);
    }
  }

  /** `part_1`: walks the input keeping the previous measurement; `None` is
      the index panic on an empty input. */
  method Part1(input: seq<int>) returns (r: Option<nat>)
    ensures r.None? <==> |input| == 0
    ensures r.Some? ==> r.value == Rises(input, 1) && r.value < |input|
  {
    if |input| == 0 {
      return None;
    }
    var count := 0;
    var previous := input[0];
    for i := 1 to |input|
      invariant previous == input[i - 1]
      invariant count == RisesUpTo(input, 1, i - 1)
    {
      if previous < input[i] {
        count := count + 1;
      }
      previous := input[i];
    }
    RisesBound(input, 1, |input| - 1);
    return Some(count);
  }

  /** `part_2`: `None` is the `usize` underflow of `numbers.len() - 3` on an
      input shorter than three. */
  method Part2(numbers: seq<int>) returns (r: Option<nat>)
    ensures r.None? <==> |numbers| < 3
    ensures r.Some? ==> r.value == Rises(numbers, 3) && r.value <= |numbers| - 3
  {
    if |numbers| < 3 {
      return None;
    }
    var count := 0;
    for i := 0 to |numbers| - 3
      invariant count == RisesUpTo(numbers, 3, i)
    {
      if numbers[i] < numbers[i + 3] {
        count := count + 1;
      }
    }
    RisesBound(numbers, 3, |numbers| - 3);
    return Some(count);
  }

  /** `part_2_unchecked`: the same loop reading through `get_unchecked`. Every
      index it reads is below the length, so it is as safe as `part_2` and
      returns the same count. */
  method Part2Unchecked(numbers: seq<int>) returns (r: Option<nat>)
    ensures r.None? <==> |numbers| < 3
    ensures r.Some? ==> r.value == Rises(numbers, 3)
  {
    if |numbers| < 3 {
      return None;
    }
    var count := 0;
    var i := 0;
    while i < |numbers| - 3
      invariant 0 <= i <= |numbers| - 3
      invariant count == RisesUpTo(numbers, 3, i)
    {
      assert i + 3 < |numbers|;
      if numbers[i] < numbers[i + 3] {
        count := count + 1;
      }
      i := i + 1;
    }
    return Some(count);
  }

  /** The three-measurement windows' sums, as the puzzle defines them. */
  function Windows(xs: seq<int>): (w: seq<int>)
    requires |xs| >= 2
    ensures |w| == |xs| - 2
  {
    seq(|xs| - 2, i requires 0 <= i < |xs| - 2 => xs[i] + xs[i + 1] + xs[i + 2])
  }

  /** Comparing `numbers[i]` with `numbers[i + 3]` counts exactly the windows
      whose sum grows: what part 2 is meant to count. */
  lemma {:induction false} RisesOfWindows(xs: seq<int>, n: nat)
    requires |xs| >= 3 && n <= |xs| - 3
    ensures RisesUpTo(Windows(xs), 1, n) == RisesUpTo(xs, 3, n)
    decreases n
  {
    if n > 0 {
      RisesOfWindows(xs, n - 1);
      var w := Windows(xs);
      assert w[n - 1] < w[n] <==> xs[n - 1] < xs[n + 2];
    }
  }

  lemma Part2CountsWindows(xs: seq<int>)
    requires |xs| >= 3
    ensures Rises(Windows(xs), 1) == Rises(xs, 3)
  {
    RisesOfWindows(xs, |xs| - 3);
  }

  /** `str::parse::<u16>`. */
  function ParseU16(s: string): (r: Option<nat>)
    ensures r == ParseNatBelow(s, 0x1_0000)
  {
    ParseNatBelow(s, 0x1_0000)
  }

  /** `parse_input`: one `u16` per line, each `unwrap`ped (`None` on failure). */
  function ParseInput(raw: string): (r: Option<seq<nat>>)
    ensures var lines := Lines(raw);
      r.Some? <==> forall k :: 0 <= k < |lines| ==> ParseU16(lines[k]).Some?
    ensures var lines := Lines(raw);
      r.Some? ==> |r.value| == |lines| && forall k :: 0 <= k < |lines| ==> ParseU16(lines[k]) == Some(r.value[k])
  {
    ParseAll(Lines(raw), ParseU16)
  }
}

=== FILE: syntax.dfy ===
/** Day 10 (Syntax Scoring): lines of brackets checked with a stack. A line
    is corrupted at its first closer that does not match the innermost open
    chunk, and otherwise incomplete; corrupted lines score by the offending
    closer, incomplete ones by the base-5 score of their completion. */
module Syntax {
  import opened Wrappers
  import opened Seqs
  import opened Text

  // ---------------------------------------------------------------------
  // Symbols
  // ---------------------------------------------------------------------

  datatype Delimiter = Paren | Bracket | Brace | Angle

  datatype Symbol = Open(d: Delimiter) | Close(d: Delimiter)

  predicate IsBracket(c: char)
  {
    c in "()[]{}<>"
  }

  /** `Symbol::from_char`; `None` where the original panics on an illegal character. */
  function FromChar(c: char): (r: Option<Symbol>)
    ensures r.Some? <==> IsBracket(c)
  {
    match c
    case '(' => Some(Open(Paren))
    case ')' => Some(Close(Paren))
    case '[' => Some(Open(Bracket))
    case ']' => Some(Close(Bracket))
    case '{' => Some(Open(Brace))
    case '}' => Some(Close(Brace))
    case '<' => Some(Open(Angle))
    case '>' => Some(Close(Angle))
    case _ => None
  }

  /** The character a symbol is written as. */
  function ToChar(s: Symbol): char
  {
    match s
    case Open(Paren) => '('
    case Close(Paren) => ')'
    case Open(Bracket) => '['
    case Close(Bracket) => ']'
    case Open(Brace) => '{'
    case Close(Brace) => '}'
    case Open(Angle) => '<'
    case Close(Angle) => '>'
  }

  /** Each symbol reads back from its character, and each accepted character
      is the one its symbol is written as. */
  lemma FromCharToChar(s: Symbol, c: char)
    ensures FromChar(ToChar(s)) == Some(s)
    ensures FromChar(c).Some? ==> ToChar(FromChar(c).value) == c
  {
  }

  /** `line.chars().map(Symbol::from_char).collect()`. */
  function ParseLine(line: string): (r: Option<seq<Symbol>>)
    ensures r.Some? <==> forall k :: 0 <= k < |line| ==> IsBracket(line[k])
    ensures r.Some? ==> |r.value| == |line|
    ensures r.Some? ==> forall k :: 0 <= k < |line| ==> FromChar(line[k]) == Some(r.value[k])
  {
    if |line| == 0 then Some([])
    else
      match (FromChar(line[0]), ParseLine(line[1..]))
      case (Some(s), Some(rest)) =>
        assert forall k :: 1 <= k < |line| ==> line[k] == line[1..][k - 1];
        Some([s] + rest)
      case (_, _) =>
        assert forall k :: 1 <= k < |line| ==> line[k] == line[1..][k - 1];
        None
  }

  function Render(line: seq<Symbol>): (r: string)
    ensures |r| == |line|
  {
    if |line| == 0 then [] else [ToChar(line[0])] + Render(line[1..])
  }

  /** Parsing inverts rendering. */
  lemma {:induction false} ParseRender(line: seq<Symbol>)
    ensures ParseLine(Render(line)) == Some(line)
    decreases |line|
  {
    if |line| > 0 {
      var r := Render(line);
      assert r[0] == ToChar(line[0]) && r[1..] == Render(line[1..]);
      ParseRender(line[1..]);
      FromCharToChar(line[0], r[0]);
      assert line == [line[0]] + line[1..];
    }
  }

  /** `parse_input`: every line parsed, or `None` on the first illegal character. */
  function ParseLines(lines: seq<string>): (r: Option<seq<seq<Symbol>>>)
    ensures r.Some? ==> |r.value| == |lines|
    ensures r.Some? ==> forall k :: 0 <= k < |lines| ==> ParseLine(lines[k]) == Some(r.value[k])
    ensures r.None? ==> exists k :: 0 <= k < |lines| && ParseLine(lines[k]).None?
  {
    if |lines| == 0 then Some([])
    else
      match (ParseLine(lines[0]), ParseLines(lines[1..]))
      case (Some(l), Some(rest)) =>
        assert forall k :: 1 <= k < |lines| ==> lines[k] == lines[1..][k - 1];
        Some([l] + rest)
      case (None, _) => None
      case (_, None) =>
        var k :| 0 <= k < |lines[1..]| && ParseLine(lines[1..][k]).None?;
        assert ParseLine(lines[k + 1]).None?;
        None
  }

  function ParseInput(raw: string): Option<seq<seq<Symbol>>>
  {
    ParseLines(Lines(raw))
  }

  // ---------------------------------------------------------------------
  // Checking a line
  // ---------------------------------------------------------------------

  /** What the stack machine makes of a line: the first mismatching closer,
      a closer with nothing open (the original panics), or the chunks still
      open, innermost last. */
  datatype Outcome = Corrupt(found: Delimiter) | Underflow | Incomplete(stack: seq<Delimiter>)

  /** The inner loop over one line's symbols, starting from `stack`. */
  function CheckFrom(line: seq<Symbol>, stack: seq<Delimiter>): Outcome
    decreases |line|
  {
    if |line| == 0 then Incomplete(stack)
    else
      match line[0]
      case Open(d) => CheckFrom(line[1..], stack + [d])
      case Close(d) =>
        if |stack| == 0 then Underflow
        else if stack[|stack| - 1] == d then CheckFrom(line[1..], stack[..|stack| - 1])
        else Corrupt(d)
  }

  function Check(line: seq<Symbol>): Outcome
  {
    CheckFrom(line, [])
  }

  /** Checking a concatenation checks the first part, then carries on from its stack. */
  lemma {:induction false} CheckAppend(a: seq<Symbol>, b: seq<Symbol>, stack: seq<Delimiter>)
    ensures CheckFrom(a + b, stack)
         == match CheckFrom(a, stack)
            case Incomplete(st) => CheckFrom(b, st)
            case other => other
    decreases |a|
  {
    if |a| == 0 {
      assert a + b == b;
    } else {
      assert (a + b)[0] == a[0] && (a + b)[1..] == a[1..] + b;
      match a[0]
      case Open(d) => CheckAppend(a[1..], b, stack + [d]);
      case Close(d) =>
        if |stack| > 0 && stack[|stack| - 1] == d {
          CheckAppend(a[1..], b, stack[..|stack| - 1]);
        }
    }
  }

  /** The closers that finish the open chunks, innermost first. */
  function Completion(stack: seq<Delimiter>): (r: seq<Symbol>)
    ensures |r| == |stack|
  {
    if |stack| == 0 then [] else [Close(stack[|stack| - 1])] + Completion(stack[..|stack| - 1])
  }

  /** Appending the completion closes every open chunk. */
  lemma {:induction false} CompletionCloses(stack: seq<Delimiter>)
    ensures CheckFrom(Completion(stack), stack) == Incomplete([])
    decreases |stack|
  {
    if |stack| > 0 {
      var c := Completion(stack);
      assert c[1..] == Completion(stack[..|stack| - 1]);
      CompletionCloses(stack[..|stack| - 1]);
    }
  }

  /** An incomplete line with its completion appended leaves nothing open. */
  lemma CompletedLine(line: seq<Symbol>)
    requires Check(line).Incomplete?
    ensures Check(line + Completion(Check(line).stack)) == Incomplete([])
  {
    CheckAppend(line, Completion(Check(line).stack), []);
    CompletionCloses(Check(line).stack);
  }

  /** A corrupted line is corrupted at its first illegal character: up to
      there everything checks, and there a closer meets a different opener. */
  lemma {:induction false} CorruptAtFirstIllegal(line: seq<Symbol>, stack: seq<Delimiter>) returns (i: nat)
    requires CheckFrom(line, stack).Corrupt?
    ensures i < |line| && line[i] == Close(CheckFrom(line, stack).found)
    ensures CheckFrom(line[..i], stack).Incomplete?
    ensures var st := CheckFrom(line[..i], stack).stack;
      |st| > 0 && st[|st| - 1] != line[i].d
    decreases |line|
  {
    var rest := line[1..];
    assert line == [line[0]] + rest;
    match line[0]
    case Open(d) =>
      var j := CorruptAtFirstIllegal(rest, stack + [d]);
      i := j + 1;
      CheckAppend([line[0]], rest[..j], stack);
      assert line[..i] == [line[0]] + rest[..j];
    case Close(d) =>
      if |stack| > 0 && stack[|stack| - 1] == d {
        var j := CorruptAtFirstIllegal(rest, stack[..|stack| - 1]);
        i := j + 1;
        CheckAppend([line[0]], rest[..j], stack);
        assert line[..i] == [line[0]] + rest[..j];
      } else {
        i := 0;
        assert line[..0] == [];
      }
  }

  // ---------------------------------------------------------------------
  // Scores
  // ---------------------------------------------------------------------

  /** Part 1's table for the offending closer. */
  function CorruptScore(d: Delimiter): nat
  {
    match d
    case Paren => 3
    case Bracket => 57
    case Brace => 1197
    case Angle => 25137
  }

  /** Part 2's table for each completing closer. */
  function CloseScore(d: Delimiter): (r: nat)
    ensures 1 <= r <= 4
  {
    match d
    case Paren => 1
    case Bracket => 2
    case Brace => 3
    case Angle => 4
  }

  /** `stack.iter().rev().fold(0, |s, d| s * 5 + score(*d))`: the innermost
      open chunk is the most significant base-5 digit. */
  function CompletionScore(stack: seq<Delimiter>): nat
  {
    if |stack| == 0 then 0 else CompletionScore(stack[1..]) * 5 + CloseScore(stack[0])
  }

  /** Reads a completion score back as the stack it came from. */
  function DecodeScore(n: nat): seq<Delimiter>
    decreases n
  {
    if n == 0 then []
    else
      var digit := n % 5;
      var d := if digit == 1 then Paren else if digit == 2 then Bracket else if digit == 3 then Brace else Angle;
      [d] + DecodeScore(n / 5)
  }

  /** The score determines the completion: different open stacks never tie. */
  lemma {:induction false} DecodeCompletionScore(stack: seq<Delimiter>)
    ensures DecodeScore(CompletionScore(stack)) == stack
    decreases |stack|
  {
    if |stack| > 0 {
      var n := CompletionScore(stack);
      var r := CompletionScore(stack[1..]);
      assert n % 5 == CloseScore(stack[0]) && n / 5 == r;
      DecodeCompletionScore(stack[1..]);
      assert stack == [stack[0]] + stack[1..];
    }
  }

  /** The part 1 score of one line; `None` where the original panics. */
  function LineCorruptScore(line: seq<Symbol>): (r: Option<nat>)
    ensures r.None? <==> Check(line).Underflow?
    ensures r.Some? && r.value > 0 <==> Check(line).Corrupt?
  {
    match Check(line)
    case Corrupt(d) => Some(CorruptScore(d))
    case Underflow => None
    case Incomplete(_) => Some(0)
  }

  /** The total part 1 score of the lines, `None` if any line panics. */
  function TotalCorruptScore(lines: seq<seq<Symbol>>): Option<nat>
  {
    if |lines| == 0 then Some(0)
    else
      match (LineCorruptScore(lines[0]), TotalCorruptScore(lines[1..]))
      case (Some(a), Some(b)) => Some(a + b)
      case (_, _) => None
  }

  // ---------------------------------------------------------------------
  // The two parts
  // ---------------------------------------------------------------------

  /** The inner `for sym in line` loop: stops at the first mismatch or underflow. */
  method RunLine(line: seq<Symbol>) returns (r: Outcome)
    ensures r == Check(line)
  {
    var stack: seq<Delimiter> := [];
    var i := 0;
    while i < |line|
      invariant 0 <= i <= |line|
      invariant CheckFrom(line[i..], stack) == Check(line)
    {
      assert line[i..][0] == line[i] && line[i..][1..] == line[i + 1..];
      match line[i] {
        case Open(d) =>
          stack := stack + [d];
        case Close(d) =>
          if |stack| == 0 {
            return Underflow;
          } else if stack[|stack| - 1] == d {
            stack := stack[..|stack| - 1];
          } else {
            return Corrupt(d);
          }
      }
      i := i + 1;
    }
    assert line[i..] == [];
    return Incomplete(stack);
  }

  lemma {:induction false} TotalCorruptStep(lines: seq<seq<Symbol>>, i: nat, total: nat)
    requires i < |lines| && LineCorruptScore(lines[i]).Some?
    requires TotalCorruptScore(lines[..i]) == Some(total)
    ensures TotalCorruptScore(lines[..i + 1]) == Some(total + LineCorruptScore(lines[i]).value)
    decreases i
  {
    var pre := lines[..i + 1];
    if i == 0 {
      assert pre[1..] == [];
    } else {
      assert pre[1..] == lines[1..][..i];
      assert lines[..i][1..] == lines[1..][..i - 1];
      assert LineCorruptScore(lines[0]).Some?;
      var sub := TotalCorruptScore(lines[1..][..i - 1]).value;
      TotalCorruptStep(lines[1..], i - 1, sub);
    }
  }

  lemma {:induction false} TotalCorruptPanics(lines: seq<seq<Symbol>>, i: nat)
    requires i < |lines| && LineCorruptScore(lines[i]).None?
    ensures TotalCorruptScore(lines).None?
    decreases i
  {
    if i > 0 {
      TotalCorruptPanics(lines[1..], i - 1);
    }
  }

  /** `part_1`: the sum of the corrupted lines' scores; `None` if some line
      has a closer with nothing open before any mismatch. */
  method Part1(lines: seq<seq<Symbol>>) returns (r: Option<nat>)
    ensures r == TotalCorruptScore(lines)
  {
    var total := 0;
    var i := 0;
    while i < |lines|
      invariant 0 <= i <= |lines|
      invariant TotalCorruptScore(lines[..i]) == Some(total)
    {
      var outcome := RunLine(lines[i]);
      if outcome.Underflow? {
        TotalCorruptPanics(lines, i);
        return None;
      }
      TotalCorruptStep(lines, i, total);
      total := total + LineCorruptScore(lines[i]).value;
      i := i + 1;
    }
    assert lines[..i] == lines;
    return Some(total);
  }

  /** The completion scores of the incomplete lines, in order; `None` if any
      line panics. */
  function CompletionScores(lines: seq<seq<Symbol>>): Option<seq<nat>>
  {
    if |lines| == 0 then Some([])
    else
      match (Check(lines[0]), CompletionScores(lines[1..]))
      case (Underflow, _) => None
      case (_, None) => None
      case (Corrupt(_), Some(rest)) => Some(rest)
      case (Incomplete(st), Some(rest)) => Some([CompletionScore(st)] + rest)
  }

  // ---------------------------------------------------------------------
  // Sorting and the middle score
  // ---------------------------------------------------------------------

  /** How many scores lie below, and above, `v`. */
  function CountBelow(xs: seq<nat>, v: nat): nat
  {
    if |xs| == 0 then 0 else (if xs[0] < v then 1 else 0) + CountBelow(xs[1..], v)
  }

  function CountAbove(xs: seq<nat>, v: nat): nat
  {
    if |xs| == 0 then 0 else (if xs[0] > v then 1 else 0) + CountAbove(xs[1..], v)
  }

  lemma {:induction false} CountsInsert(x: nat, xs: seq<nat>, v: nat)
    requires Sorted(xs)
    ensures CountBelow(Insert(x, xs), v) == CountBelow(xs, v) + (if x < v then 1 else 0)
    ensures CountAbove(Insert(x, xs), v) == CountAbove(xs, v) + (if x > v then 1 else 0)
    decreases |xs|
  {
    if |xs| > 0 && x > xs[0] {
      CountsInsert(x, xs[1..], v);
      assert ([xs[0]] + Insert(x, xs[1..]))[1..] == Insert(x, xs[1..]);
    } else if |xs| > 0 {
      assert ([x] + xs)[1..] == xs;
    }
  }

  /** Sorting keeps how many scores lie below and above any value. */
  lemma {:induction false} CountsSort(xs: seq<nat>, v: nat)
    ensures CountBelow(Sort(xs), v) == CountBelow(xs, v)
    ensures CountAbove(Sort(xs), v) == CountAbove(xs, v)
    decreases |xs|
  {
    if |xs| > 0 {
      CountsSort(xs[1..], v);
      CountsInsert(xs[0], Sort(xs[1..]), v);
    }
  }

  lemma {:induction false} CountsSorted(xs: seq<nat>, i: nat)
    requires Sorted(xs) && i < |xs|
    ensures CountBelow(xs, xs[i]) <= i
    ensures CountAbove(xs, xs[i]) <= |xs| - 1 - i
    decreases |xs|
  {
    if i > 0 {
      CountsSorted(xs[1..], i - 1);
      assert xs[1..][i - 1] == xs[i];
    } else {
      CountsNone(xs[1..], xs[0]);
      CountAboveBound(xs[1..], xs[0]);
    }
  }

  lemma {:induction false} CountAboveBound(xs: seq<nat>, v: nat)
    ensures CountAbove(xs, v) <= |xs|
    decreases |xs|
  {
    if |xs| > 0 {
      CountAboveBound(xs[1..], v);
    }
  }

  lemma {:induction false} CountsNone(xs: seq<nat>, v: nat)
    requires forall k :: 0 <= k < |xs| ==> v <= xs[k]
    ensures CountBelow(xs, v) == 0
    decreases |xs|
  {
    if |xs| > 0 {
      CountsNone(xs[1..], v);
    }
  }

  /** `scores[scores.len() / 2]` after sorting; `None` where indexing an empty vector panics. */
  function MiddleScore(scores: seq<nat>): (r: Option<nat>)
    ensures r.None? <==> |scores| == 0
    ensures r.Some? ==> r.value in multiset(scores)
  {
    if |scores| == 0 then None
    else
      var sorted := Sort(scores);
      assert sorted[|sorted| / 2] in multiset(sorted);
      Some(sorted[|sorted| / 2])
  }

  /** The middle score is a median: at most half the scores (rounded down)
      lie below it and at most half lie above it. */
  lemma MiddleIsMedian(scores: seq<nat>)
    requires |scores| > 0
    ensures CountBelow(scores, MiddleScore(scores).value) <= |scores| / 2
    ensures CountAbove(scores, MiddleScore(scores).value) <= (|scores| - 1) / 2 + (|scores| - 1) % 2
  {
    var sorted := Sort(scores);
    assert |sorted| == |multiset(sorted)| == |scores|;
    CountsSorted(sorted, |sorted| / 2);
    CountsSort(scores, sorted[|sorted| / 2]);
  }

  /** `part_2`: the middle completion score of the incomplete lines; `None`
      if some line panics or no line is incomplete. */
  method Part2(lines: seq<seq<Symbol>>) returns (r: Option<nat>)
    ensures r == match CompletionScores(lines) case None => None case Some(s) => MiddleScore(s)
  {
    var scores: seq<nat> := [];
    var i := |lines|;
    while i > 0
      invariant 0 <= i <= |lines|
      invariant CompletionScores(lines[i..]) == Some(scores)
      decreases i
    {
      i := i - 1;
      assert lines[i..][1..] == lines[i + 1..];
      var outcome := RunLine(lines[i]);
      match outcome
      case Underflow =>
        ScoresPanic(lines, i);
        return None;
      case Corrupt(_) =>
      case Incomplete(st) =>
        scores := [CompletionScore(st)] + scores;
    }
    assert lines[0..] == lines;
    return MiddleScore(scores);
  }

  lemma {:induction false} ScoresPanic(lines: seq<seq<Symbol>>, i: nat)
    requires i < |lines| && Check(lines[i]).Underflow?
    ensures CompletionScores(lines).None?
    decreases i
  {
    if i > 0 {
      ScoresPanic(lines[1..], i - 1);
    }
  }
}

=== FILE: text.dfy ===
/** The slices of Rust's `str` API the puzzle parsers rely on: character
    classes, decimal numbers (`str::parse` for unsigned and signed integers),
    `split` on a character, `split_ascii_whitespace`, `lines` and `trim`.
    `ParseNat` and `ParseInt` accept numbers of any size; `ParseNatBelow` and
    `ParseIntIn` add the range check of a fixed-width target type. */
module Text {
  import opened Wrappers

  // ---------------------------------------------------------------------
  // Character classes
  // ---------------------------------------------------------------------

  /** `u8::is_ascii_whitespace`: space, tab, line feed, form feed, carriage return. */
  predicate IsAsciiWhitespace(c: char)
  {
    c == ' ' || c == '\t' || c == '\n' || c == 12 as char || c == '\r'
  }

  /** `char::is_whitespace`: the Unicode White_Space property. */
  predicate IsWhitespace(c: char)
  {
    IsAsciiWhitespace(c) || c == 11 as char || c == 0x85 as char || c == 0xA0 as char
    || c == 0x1680 as char || (0x2000 as char <= c <= 0x200A as char)
    || c == 0x2028 as char || c == 0x2029 as char || c == 0x202F as char
    || c == 0x205F as char || c == 0x3000 as char
  }

  predicate IsDigit(c: char)
  {
    '0' <= c <= '9'
  }

  predicate AllDigits(s: string)
  {
    forall k :: 0 <= k < |s| ==> IsDigit(s[k])
  }

  function DigitValue(c: char): (d: nat)
    requires IsDigit(c)
    ensures d < 10
  {
    c as nat - '0' as nat
  }

  function DigitChar(d: nat): (c: char)
    requires d < 10
    ensures IsDigit(c) && DigitValue(c) == d
  {
    (48 + d) as char
  }

  // ---------------------------------------------------------------------
  // Decimal numbers
  // ---------------------------------------------------------------------

  /** `format!("{}")` of a natural number: no sign, no leading zero. */
  function NatString(n: nat): (r: string)
    ensures |r| > 0 && AllDigits(r)
    ensures r[0] != '0' || n == 0
  {
    if n < 10 then [DigitChar(n)] else NatString(n / 10) + [DigitChar(n % 10)]
  }

  function IntString(x: int): (r: string)
    ensures |r| > 0
  {
    if x < 0 then "-" + NatString(-x) else NatString(x)
  }

  /** The value of a string of decimal digits, most significant first. */
  function DigitsValue(s: string): nat
    requires AllDigits(s)
  {
    if |s| == 0 then 0 else 10 * DigitsValue(s[..|s| - 1]) + DigitValue(s[|s| - 1])
  }

  /** `str::parse` for an unsigned integer: an optional `+`, then one or more
      decimal digits and nothing else. */
  function ParseNat(s: string): (r: Option<nat>)
    ensures r.Some? <==> (|s| > 0 && s[0] == '+' && |s| > 1 && AllDigits(s[1..])) || (|s| > 0 && AllDigits(s))
  {
    var digits := if |s| > 0 && s[0] == '+' then s[1..] else s;
    if |digits| > 0 && AllDigits(digits) then Some(DigitsValue(digits)) else None
  }

  /** `str::parse` for a signed integer: as `ParseNat`, but `-` may also lead. */
  function ParseInt(s: string): (r: Option<int>)
    ensures r.Some? && |s| > 0 && s[0] == '-' ==> r.value <= 0
    ensures |s| > 0 && s[0] != '-' ==> (r.Some? <==> ParseNat(s).Some?) && (r.Some? ==> r.value == ParseNat(s).value)
    ensures |s| == 0 ==> r.None?
  {
    if |s| > 0 && s[0] == '-' then
      var digits := s[1..];
      if |digits| > 0 && AllDigits(digits) then Some(-(DigitsValue(digits) as int)) else None
    else
      match ParseNat(s)
      case Some(n) => Some(n)
      case None => None
  }

  /** `str::parse` into an unsigned type whose values are `0..bound`: a
      number that does not fit is an error, as in Rust. */
  function ParseNatBelow(s: string, bound: nat): (r: Option<nat>)
    ensures r.Some? <==> ParseNat(s).Some? && ParseNat(s).value < bound
    ensures r.Some? ==> r == ParseNat(s)
  {
    match ParseNat(s)
    case Some(n) => if n < bound then Some(n) else None
    case None => None
  }

  /** `str::parse` into a signed type whose values are `lo..=hi`. */
  function ParseIntIn(s: string, lo: int, hi: int): (r: Option<int>)
    ensures r.Some? <==> ParseInt(s).Some? && lo <= ParseInt(s).value <= hi
    ensures r.Some? ==> r == ParseInt(s)
  {
    match ParseInt(s)
    case Some(x) => if lo <= x <= hi then Some(x) else None
    case None => None
  }

  /** The bounds of `i32`. */
  const I32Min: int := -0x8000_0000
  const I32Max: int := 0x7FFF_FFFF

  /** `str::parse::<i32>`. */
  function ParseI32(s: string): (r: Option<int>)
    ensures r == ParseIntIn(s, I32Min, I32Max)
  {
    ParseIntIn(s, I32Min, I32Max)
  }

  /** The bounds of `i64`. */
  const I64Min: int := -0x8000_0000_0000_0000
  const I64Max: int := 0x7FFF_FFFF_FFFF_FFFF

  /** `str::parse::<i64>`. */
  function ParseI64(s: string): (r: Option<int>)
    ensures r == ParseIntIn(s, I64Min, I64Max)
  {
    ParseIntIn(s, I64Min, I64Max)
  }

  /** Every piece parsed with `parse`, or `None` if one fails: what
      `collect::<Result<Vec<_>, _>>()` and a chain of `unwrap`s both give. */
  function ParseAll<T>(pieces: seq<string>, parse: string -> Option<T>): (r: Option<seq<T>>)
    ensures r.Some? <==> forall k :: 0 <= k < |pieces| ==> parse(pieces[k]).Some?
    ensures r.Some? ==> |r.value| == |pieces|
    ensures r.Some? ==> forall k :: 0 <= k < |pieces| ==> parse(pieces[k]) == Some(r.value[k])
  {
    if |pieces| == 0 then Some([])
    else
      var first := parse(pieces[0]);
      var rest := ParseAll(pieces[1..], parse);
      assert forall k :: 1 <= k < |pieces| ==> pieces[k] == pieces[1..][k - 1];
      if first.None? || rest.None? then None else Some([first.value] + rest.value)
  }

  /** Pieces that each parse to a value parse to the list of them. */
  lemma {:induction false} ParseAllEach<T>(pieces: seq<string>, parse: string -> Option<T>, xs: seq<T>)
    requires |pieces| == |xs| && forall k :: 0 <= k < |pieces| ==> parse(pieces[k]) == Some(xs[k])
    ensures ParseAll(pieces, parse) == Some(xs)
  {
    var r := ParseAll(pieces, parse);
    assert r.Some?;
    assert r.value == xs;
  }

  lemma {:induction false} DigitsValueNatString(n: nat)
    ensures DigitsValue(NatString(n)) == n
    decreases n
  {
    var s := NatString(n);
    if n >= 10 {
      DigitsValueNatString(n / 10);
      assert s[..|s| - 1] == NatString(n / 10);
    }
  }

  /** Printing a natural number and parsing it back gives the number. */
  lemma ParseNatString(n: nat)
    ensures ParseNat(NatString(n)) == Some(n)
  {
    DigitsValueNatString(n);
  }

  /** Printing an integer and parsing it back gives the integer. */
  lemma ParseIntString(x: int)
    ensures ParseInt(IntString(x)) == Some(x)
  {
    if x < 0 {
      ParseNegativeString(x);
    } else {
      ParseNatString(x);
    }
  }

  lemma ParseNegativeString(x: int)
    requires x < 0
    ensures ParseInt(IntString(x)) == Some(x)
  {
    var s := IntString(x);
    var digits := NatString(-x);
    assert s == "-" + digits && s[1..] == digits;
    DigitsValueNatString(-x);
    assert |digits| > 0 && AllDigits(digits);
  }

  /** A formatted integer holds only digits and a leading minus sign. */
  lemma IntStringHasNo(x: int, c: char)
    requires !IsDigit(c) && c != '-'
    ensures c !in IntString(x)
  {
    var s := IntString(x);
    forall k | 0 <= k < |s|
      ensures s[k] != c
    {
      if x < 0 && k > 0 {
        assert s[k] == NatString(-x)[k - 1];
      }
    }
  }

  // ---------------------------------------------------------------------
  // Splitting
  // ---------------------------------------------------------------------

  function SplitFrom(s: string, sep: char, cur: string): (r: seq<string>)
    ensures |r| > 0
    ensures forall k :: 0 <= k < |r| ==> sep !in r[k] || (k == 0 && sep in cur)
    decreases |s|
  {
    if |s| == 0 then [cur]
    else if s[0] == sep then [cur] + SplitFrom(s[1..], sep, [])
    else SplitFrom(s[1..], sep, cur + [s[0]])
  }

  /** `str::split` on one character: the pieces between separators, always at
      least one, possibly empty. */
  function Split(s: string, sep: char): (r: seq<string>)
    ensures |r| > 0 && forall k :: 0 <= k < |r| ==> sep !in r[k]
  {
    SplitFrom(s, sep, [])
  }

  /** The pieces glued back together with the separator between them. */
  function Join(parts: seq<string>, sep: char): string
    requires |parts| > 0
  {
    if |parts| == 1 then parts[0] else parts[0] + [sep] + Join(parts[1..], sep)
  }

  lemma {:induction false} SplitFromJoin(s: string, sep: char, cur: string)
    ensures Join(SplitFrom(s, sep, cur), sep) == cur + s
    decreases |s|
  {
    if |s| == 0 {
    } else if s[0] == sep {
      SplitFromJoin(s[1..], sep, []);
      assert cur + s == cur + [sep] + s[1..];
    } else {
      SplitFromJoin(s[1..], sep, cur + [s[0]]);
      assert cur + s == (cur + [s[0]]) + s[1..];
    }
  }

  /** Splitting loses nothing: the pieces and separators make up the input. */
  lemma SplitJoin(s: string, sep: char)
    ensures Join(Split(s, sep), sep) == s
  {
    SplitFromJoin(s, sep, []);
  }

  lemma {:induction false} SplitFromPiece(p: string, rest: string, sep: char, cur: string)
    requires sep !in p
    ensures SplitFrom(p + rest, sep, cur) == SplitFrom(rest, sep, cur + p)
    decreases |p|
  {
    if |p| > 0 {
      assert (p + rest)[0] == p[0];
      assert (p + rest)[1..] == p[1..] + rest;
      SplitFromPiece(p[1..], rest, sep, cur + [p[0]]);
      assert cur + [p[0]] + p[1..] == cur + p;
    } else {
      assert p + rest == rest;
      assert cur + p == cur;
    }
  }

  lemma {:induction false} JoinSplitFrom(parts: seq<string>, sep: char)
    requires |parts| > 0 && forall k :: 0 <= k < |parts| ==> sep !in parts[k]
    ensures SplitFrom(Join(parts, sep), sep, []) == parts
    decreases |parts|
  {
    if |parts| == 1 {
      SplitFromPiece(parts[0], [], sep, []);
      assert parts[0] + [] == parts[0];
      assert [] + parts[0] == parts[0];
      assert SplitFrom([], sep, parts[0]) == [parts[0]];
    } else {
      var tail := Join(parts[1..], sep);
      assert Join(parts, sep) == parts[0] + ([sep] + tail);
      SplitFromPiece(parts[0], [sep] + tail, sep, []);
      assert ([sep] + tail)[1..] == tail;
      JoinSplitFrom(parts[1..], sep);
      assert [] + parts[0] == parts[0];
    }
  }

  /** Pieces free of the separator come back unchanged from a join then a split. */
  lemma JoinSplit(parts: seq<string>, sep: char)
    requires |parts| > 0 && forall k :: 0 <= k < |parts| ==> sep !in parts[k]
    ensures Split(Join(parts, sep), sep) == parts
  {
    JoinSplitFrom(parts, sep);
  }

  // ---------------------------------------------------------------------
  // Whitespace-separated words
  // ---------------------------------------------------------------------

  predicate IsWord(w: string)
  {
    |w| > 0 && forall k :: 0 <= k < |w| ==> !IsAsciiWhitespace(w[k])
  }

  function WordsFrom(s: string, cur: string): (r: seq<string>)
    requires forall k :: 0 <= k < |cur| ==> !IsAsciiWhitespace(cur[k])
    ensures forall k :: 0 <= k < |r| ==> IsWord(r[k])
    decreases |s|
  {
    if |s| == 0 then (if |cur| == 0 then [] else [cur])
    else if IsAsciiWhitespace(s[0]) then
      (if |cur| == 0 then [] else [cur]) + WordsFrom(s[1..], [])
    else WordsFrom(s[1..], cur + [s[0]])
  }

  /** `str::split_ascii_whitespace`: the maximal runs of non-whitespace characters. */
  function Words(s: string): (r: seq<string>)
    ensures forall k :: 0 <= k < |r| ==> IsWord(r[k])
  {
    WordsFrom(s, [])
  }

  /** Words separated by single spaces. */
  function Unwords(ws: seq<string>): string
  {
    if |ws| == 0 then "" else if |ws| == 1 then ws[0] else ws[0] + " " + Unwords(ws[1..])
  }

  lemma {:induction false} WordsFromWord(w: string, rest: string, cur: string)
    requires forall k :: 0 <= k < |w| ==> !IsAsciiWhitespace(w[k])
    requires forall k :: 0 <= k < |cur| ==> !IsAsciiWhitespace(cur[k])
    ensures WordsFrom(w + rest, cur) == WordsFrom(rest, cur + w)
    decreases |w|
  {
    if |w| > 0 {
      assert (w + rest)[0] == w[0];
      assert (w + rest)[1..] == w[1..] + rest;
      WordsFromWord(w[1..], rest, cur + [w[0]]);
      assert cur + [w[0]] + w[1..] == cur + w;
    } else {
      assert w + rest == rest;
      assert cur + w == cur;
    }
  }

  lemma {:induction false} UnwordsWords(ws: seq<string>)
    requires forall k :: 0 <= k < |ws| ==> IsWord(ws[k])
    ensures WordsFrom(Unwords(ws), []) == ws
    decreases |ws|
  {
    if |ws| == 1 {
      WordsFromWord(ws[0], [], []);
      assert ws[0] + [] == ws[0];
      assert [] + ws[0] == ws[0];
      assert WordsFrom([], ws[0]) == [ws[0]];
    } else if |ws| > 1 {
      var tail := Unwords(ws[1..]);
      assert Unwords(ws) == ws[0] + (" " + tail);
      WordsFromWord(ws[0], " " + tail, []);
      assert (" " + tail)[1..] == tail;
      UnwordsWords(ws[1..]);
      assert [] + ws[0] == ws[0];
    }
  }

  /** Words joined with spaces split back into the same words. */
  lemma WordsUnwords(ws: seq<string>)
    requires forall k :: 0 <= k < |ws| ==> IsWord(ws[k])
    ensures Words(Unwords(ws)) == ws
  {
    UnwordsWords(ws);
  }

  // ---------------------------------------------------------------------
  // Lines and trimming
  // ---------------------------------------------------------------------

  /** Drops one carriage return at the end of a line. */
  function StripCr(l: string): (r: string)
    ensures |r| <= |l| && r == l[..|r|]
  {
    if |l| > 0 && l[|l| - 1] == '\r' then l[..|l| - 1] else l
  }

  /** `str::lines`: the text split at `\n`, each line that a `\n` ended
      losing one trailing `\r`, and no empty line after a final `\n`. */
  function Lines(s: string): (r: seq<string>)
    ensures forall k :: 0 <= k < |r| ==> '\n' !in r[k]
    ensures |s| == 0 ==> r == []
  {
    var pieces := Split(s, '\n');
    var last := |pieces| - 1;
    var kept := if pieces[last] == [] then last else |pieces|;
    seq(kept, k requires 0 <= k < kept => if k < last then StripCr(pieces[k]) else pieces[k])
  }

  function TrimStart(s: string): (r: string)
    ensures |r| <= |s| && r == s[|s| - |r|..]
    ensures |r| == 0 || !IsWhitespace(r[0])
    decreases |s|
  {
    if |s| > 0 && IsWhitespace(s[0]) then TrimStart(s[1..]) else s
  }

  function TrimEnd(s: string): (r: string)
    ensures |r| <= |s| && r == s[..|r|]
    ensures |r| == 0 || !IsWhitespace(r[|r| - 1])
    decreases |s|
  {
    if |s| > 0 && IsWhitespace(s[|s| - 1]) then TrimEnd(s[..|s| - 1]) else s
  }

  /** `str::trim`: leading and trailing whitespace removed. */
  function Trim(s: string): (r: string)
    ensures |r| <= |s|
    ensures |r| == 0 || (!IsWhitespace(r[0]) && !IsWhitespace(r[|r| - 1]))
  {
    TrimEnd(TrimStart(s))
  }

  // ---------------------------------------------------------------------
  // Splitting at a separator string
  // ---------------------------------------------------------------------

  predicate StartsWith(s: string, prefix: string)
  {
    |prefix| <= |s| && s[..|prefix|] == prefix
  }

  /** `pat` occurs in `s` at position `i`. */
  predicate MatchAt(s: string, pat: string, i: nat)
  {
    i + |pat| <= |s| && s[i..i + |pat|] == pat
  }

  /** The position of the first occurrence of `pat` in `s`. */
  function Find(s: string, pat: string): (r: Option<nat>)
    requires |pat| > 0
    ensures r.Some? ==> MatchAt(s, pat, r.value)
    ensures forall i: nat :: i < (if r.Some? then r.value else |s|) ==> !MatchAt(s, pat, i)
    decreases |s|
  {
    if |s| < |pat| then None
    else if s[..|pat|] == pat then Some(0)
    else
      var r := Find(s[1..], pat);
      assert forall i: nat :: 1 <= i ==> (MatchAt(s, pat, i) <==> MatchAt(s[1..], pat, i - 1));
      match r
      case None => None
      case Some(i) => Some(i + 1)
  }

  /** The first piece `str::split(pat)` yields: the text before the first `pat`. */
  function PieceBefore(s: string, pat: string): (r: string)
    requires |pat| > 0
    ensures |r| <= |s| && r == s[..|r|]
  {
    match Find(s, pat)
    case None => s
    case Some(i) => s[..i]
  }

  /** The text after the first `pat`, where the next pieces of `str::split` come from. */
  function After(s: string, pat: string): (r: Option<string>)
    requires |pat| > 0
    ensures r.Some? <==> Find(s, pat).Some?
    ensures r.Some? ==> s == PieceBefore(s, pat) + pat + r.value
  {
    match Find(s, pat)
    case None => None
    case Some(i) =>
      assert s == s[..i] + s[i..i + |pat|] + s[i + |pat|..];
      Some(s[i + |pat|..])
  }

  /** A text without the separator's first character has no separator. */
  lemma FindAbsent(s: string, pat: string)
    requires |pat| > 0 && pat[0] !in s
    ensures Find(s, pat).None?
  {
    forall i: nat | i < |s|
      ensures !MatchAt(s, pat, i)
    {
      if i + |pat| <= |s| {
        assert s[i..i + |pat|][0] == s[i];
      }
    }
  }

  /** The separator is found right after a text that lacks its first character. */
  lemma {:induction false} FindAfter(a: string, pat: string, b: string)
    requires |pat| > 0 && pat[0] !in a
    ensures Find(a + pat + b, pat) == Some(|a|)
    decreases |a|
  {
    var s := a + pat + b;
    if |a| == 0 {
      assert s[..|pat|] == pat;
    } else {
      assert s[..|pat|][0] == a[0];
      assert s[1..] == a[1..] + pat + b;
      FindAfter(a[1..], pat, b);
    }
  }

  /** `split` on `a + pat + b` yields `a` and then the pieces of `b`. */
  lemma SplitAt(a: string, pat: string, b: string)
    requires |pat| > 0 && pat[0] !in a
    ensures PieceBefore(a + pat + b, pat) == a
    ensures After(a + pat + b, pat) == Some(b)
  {
    FindAfter(a, pat, b);
    var s := a + pat + b;
    assert s[..|a|] == a;
    assert s[|a| + |pat|..] == b;
  }
}

=== FILE: trick_shot.dfy ===
/** Day 17 (Trick Shot): a probe launched from the origin with an initial
    velocity drifts (drag pulls its horizontal speed toward zero, gravity
    lowers its vertical speed by one each step); the search tries every
    velocity in a box and asks whether the probe ever lands in the target. */
module TrickShot {
  import opened Wrappers
  import opened Text

  datatype Point = Point(x: int, y: int)

  /** The target area, corners included. */
  datatype Target = Target(bottomLeft: Point, topRight: Point)

  datatype Probe = Probe(pos: Point, vel: Point)

  /** `Target::contains`: an inclusive bounding-box test. */
  predicate Contains(t: Target, p: Point)
  {
    t.bottomLeft.x <= p.x <= t.topRight.x && t.bottomLeft.y <= p.y <= t.topRight.y
  }

  function Signum(v: int): int
  {
    if v > 0 then 1 else if v < 0 then -1 else 0
  }

  function Abs(v: int): nat
  {
    if v < 0 then -v else v
  }

  /** `State::step`. */
  function Step(s: Probe): (r: Probe)
    ensures r.vel.y == s.vel.y - 1
    ensures Signum(r.vel.x) == Signum(s.vel.x) || r.vel.x == 0
    ensures Abs(r.vel.x) == if s.vel.x == 0 then 0 else Abs(s.vel.x) - 1
  {
    Probe(Point(s.pos.x + s.vel.x, s.pos.y + s.vel.y), Point(s.vel.x - Signum(s.vel.x), s.vel.y - 1))
  }

  // ---------------------------------------------------------------------
  // The trajectory
  // ---------------------------------------------------------------------

  /** The probe after `n` steps from the origin with velocity `v`. */
  function At(v: Point, n: nat): Probe
  {
    if n == 0 then Probe(Point(0, 0), v) else Step(At(v, n - 1))
  }

  /** After `n` steps the vertical speed has dropped by `n`. */
  lemma {:induction false} AtVelY(v: Point, n: nat)
    ensures At(v, n).vel.y == v.y - n
  {
    if n > 0 {
      AtVelY(v, n - 1);
    }
  }

  /** After `n` steps the height is `n·v.y − n(n−1)/2`. */
  lemma {:induction false} AtPosY(v: Point, n: nat)
    ensures 2 * At(v, n).pos.y == 2 * n * v.y - n * (n - 1)
  {
    if n > 0 {
      var m := n - 1;
      AtPosY(v, m);
      AtVelY(v, m);
      assert At(v, n).pos.y == At(v, m).pos.y + (v.y - m);
      assert n * (n - 1) == m * (m - 1) + 2 * m;
      assert 2 * n * v.y == 2 * m * v.y + 2 * v.y;
    }
  }

  /** The horizontal speed drops by `c = min(n, |v.x|)` toward zero. */
  lemma {:induction false} AtVelX(v: Point, n: nat)
    ensures var c := if n < Abs(v.x) then n else Abs(v.x);
      At(v, n).vel.x == Signum(v.x) * (Abs(v.x) - c)
  {
    if n > 0 {
      AtVelX(v, n - 1);
    }
  }

  /** Twice the distance covered by `c` steps starting at speed `a`, slowing by one each step. */
  function Glide(c: int, a: int): int
  {
    2 * c * a - c * (c - 1)
  }

  lemma GlideStep(c: int, a: int)
    ensures Glide(c + 1, a) == Glide(c, a) + 2 * (a - c)
  {
    assert (c + 1) * c == c * (c - 1) + 2 * c;
    assert 2 * (c + 1) * a == 2 * c * a + 2 * a;
  }

  /** The distance covered sideways is `c·|v.x| − c(c−1)/2` in the
      direction of `v.x`, with `c = min(n, |v.x|)`. */
  lemma {:induction false} AtPosX(v: Point, n: nat)
    ensures var c := if n < Abs(v.x) then n else Abs(v.x);
      2 * At(v, n).pos.x == Signum(v.x) * Glide(c, Abs(v.x))
  {
    if n > 0 {
      var m := n - 1;
      var a := Abs(v.x);
      var c := if m < a then m else a;
      var c' := if n < a then n else a;
      AtPosX(v, m);
      AtVelX(v, m);
      var before := At(v, m);
      assert At(v, n).pos.x == before.pos.x + before.vel.x;
      if c < a {
        assert c' == c + 1;
        GlideStep(c, a);
        GlideSigned(Signum(v.x), c, a, 2 * before.pos.x);
      } else {
        assert c' == c && before.vel.x == 0 by {
          assert Signum(v.x) * (a - c) == 0;
        }
      }
    }
  }

  /** One more step at speed `a − c`, in the direction `sign`, adds to twice
      the signed distance what `GlideStep` adds to the glide. */
  lemma GlideSigned(sign: int, c: int, a: int, twice: int)
    requires sign == 1 || sign == -1 || sign == 0
    requires twice == sign * Glide(c, a)
    ensures twice + 2 * (sign * (a - c)) == sign * (Glide(c, a) + 2 * (a - c))
  {
  }

  /** `max_height` after `n` steps: the highest point reached so far, and at
      least 0. */
  function MaxHeight(v: Point, n: nat): (h: int)
    ensures h >= 0
  {
    if n == 0 then 0 else
      var before := MaxHeight(v, n - 1);
      var y := At(v, n).pos.y;
      if before < y then y else before
  }

  /** `MaxHeight` is the maximum of 0 and every height reached within `n` steps. */
  lemma {:induction false} MaxHeightIsMax(v: Point, n: nat)
    ensures forall m: nat :: m <= n ==> At(v, m).pos.y <= MaxHeight(v, n)
    ensures MaxHeight(v, n) == 0 || exists m: nat :: m <= n && At(v, m).pos.y == MaxHeight(v, n)
  {
    if n > 0 {
      MaxHeightIsMax(v, n - 1);
      if MaxHeight(v, n - 1) < At(v, n).pos.y {
        assert At(v, n).pos.y == MaxHeight(v, n);
        assert exists m: nat :: m <= n && At(v, m).pos.y == MaxHeight(v, n);
      } else {
        assert MaxHeight(v, n) == MaxHeight(v, n - 1);
      }
    }
  }

  // ---------------------------------------------------------------------
  // A single trial
  // ---------------------------------------------------------------------

  /** Below the target and not rising. */
  predicate Below(t: Target, s: Probe)
  {
    s.pos.y < t.bottomLeft.y && s.vel.y <= 0
  }

  /** Short of the target and not moving right. */
  predicate Short(t: Target, s: Probe)
  {
    s.pos.x < t.bottomLeft.x && s.vel.x <= 0
  }

  /** Past the target and not moving left. */
  predicate Past(t: Target, s: Probe)
  {
    s.pos.x > t.topRight.x && s.vel.x >= 0
  }

  /** The conditions on which `trial` gives up. */
  predicate Hopeless(t: Target, s: Probe)
  {
    Below(t, s) || Short(t, s) || Past(t, s)
  }

  /** The loop of `trial` from probe state `s`, with `maxHeight` so far. It
      ends because the vertical speed falls by one each step: once it is not
      positive the probe sinks until it is below the target. */
  function TrialFrom(t: Target, s: Probe, maxHeight: int): Option<int>
    decreases if s.vel.y > 0 then s.vel.y else 0, s.pos.y - t.bottomLeft.y + (if s.vel.y == 0 then 1 else 0)
  {
    if Contains(t, s.pos) then Some(maxHeight)
    else if Hopeless(t, s) then None
    else
      var next := Step(s);
      TrialFrom(t, next, if maxHeight < next.pos.y then next.pos.y else maxHeight)
  }

  /** `trial`: the highest point before the probe first lands in the target,
      or `None` once it can no longer reach it. */
  function Trial(t: Target, v: Point): Option<int>
  {
    TrialFrom(t, At(v, 0), MaxHeight(v, 0))
  }

  /** A hopeless probe stays hopeless, and is not in the target. */
  lemma HopelessStep(t: Target, s: Probe)
    requires Hopeless(t, s)
    ensures Hopeless(t, Step(s)) && !Contains(t, s.pos)
  {
  }

  /** Giving up is sound: from a hopeless state the probe never reaches the target. */
  lemma {:induction false} HopelessForever(t: Target, v: Point, n: nat, m: nat)
    requires n <= m && Hopeless(t, At(v, n))
    ensures Hopeless(t, At(v, m)) && !Contains(t, At(v, m).pos)
    decreases m - n
  {
    HopelessStep(t, At(v, n));
    if n < m {
      HopelessForever(t, v, n + 1, m);
    }
  }

  /** The probe is in the target after `n` steps and was not before. */
  predicate FirstHit(t: Target, v: Point, n: nat)
  {
    Contains(t, At(v, n).pos) && forall k: nat :: k < n ==> !Contains(t, At(v, k).pos)
  }

  /** What the loop computes from step `n` on. */
  lemma {:induction false} TrialFromAt(t: Target, v: Point, n: nat)
    requires forall k: nat :: k < n ==> !Contains(t, At(v, k).pos)
    ensures var r := TrialFrom(t, At(v, n), MaxHeight(v, n));
      && (r.Some? ==> exists m: nat :: n <= m && FirstHit(t, v, m) && r.value == MaxHeight(v, m))
      && (r.None? ==> forall m: nat :: n <= m ==> !Contains(t, At(v, m).pos))
    decreases if At(v, n).vel.y > 0 then At(v, n).vel.y else 0,
      At(v, n).pos.y - t.bottomLeft.y + (if At(v, n).vel.y == 0 then 1 else 0)
  {
    var s := At(v, n);
    if Contains(t, s.pos) {
      assert FirstHit(t, v, n);
    } else if Hopeless(t, s) {
      forall m: nat | n <= m
        ensures !Contains(t, At(v, m).pos)
      {
        HopelessForever(t, v, n, m);
      }
    } else {
      assert At(v, n + 1) == Step(s);
      TrialFromAt(t, v, n + 1);
    }
  }

  /** `trial` succeeds exactly when the trajectory ever enters the target,
      and then gives the highest point reached up to the first entry. */
  lemma TrialIsFirstHit(t: Target, v: Point)
    ensures Trial(t, v).Some? <==> exists n: nat :: Contains(t, At(v, n).pos)
    ensures Trial(t, v).Some? ==> exists n: nat :: FirstHit(t, v, n) && Trial(t, v).value == MaxHeight(v, n)
  {
    TrialFromAt(t, v, 0);
    if Trial(t, v).None? {
      assert forall m: nat :: !Contains(t, At(v, m).pos);
    }
    if Trial(t, v).Some? {
      var m: nat :| FirstHit(t, v, m) && Trial(t, v).value == MaxHeight(v, m);
      assert Contains(t, At(v, m).pos);
      assert exists n: nat :: Contains(t, At(v, n).pos);
    }
  }

  // ---------------------------------------------------------------------
  // The search
  // ---------------------------------------------------------------------

  /** `init_y` runs up to, not including, this bound. */
  const YEnd: int := 1000

  /** The first `init_y` tried: `bottom_left.y - 1`. */
  function YStart(t: Target): int
  {
    t.bottomLeft.y - 1
  }

  /** The velocities the search tries: `init_x` in `0..=top_right.x`,
      `init_y` in `bottom_left.y - 1..1000`. */
  predicate InBox(t: Target, v: Point)
  {
    0 <= v.x <= t.topRight.x && YStart(t) <= v.y < YEnd
  }

  /** The velocities the search has tried before `(x, y)`. */
  predicate Before(t: Target, v: Point, x: int, y: int)
  {
    InBox(t, v) && (v.x < x || (v.x == x && v.y < y))
  }

  /** The velocities tried before `(x, y)` that `trial` reports as hits.
      The search is stated for any trial function, so its proofs never look
      inside a trajectory; `TrialOf` supplies the real one. */
  function HitsBefore(t: Target, trial: Point -> Option<int>, x: int, y: int): set<Point>
  {
    set vx, vy | 0 <= vx <= t.topRight.x && YStart(t) <= vy < YEnd
      && Before(t, Point(vx, vy), x, y) && trial(Point(vx, vy)).Some? :: Point(vx, vy)
  }

  /** Every velocity of the box that hits. */
  function Hits(t: Target, trial: Point -> Option<int>): set<Point>
  {
    HitsBefore(t, trial, t.topRight.x + 1, YStart(t))
  }

  function TrialOf(t: Target): Point -> Option<int>
  {
    v => Trial(t, v)
  }

  lemma HitsMembers(t: Target, trial: Point -> Option<int>, x: int, y: int, v: Point)
    ensures v in HitsBefore(t, trial, x, y) <==> Before(t, v, x, y) && trial(v).Some?
  {
    if Before(t, v, x, y) && trial(v).Some? {
      assert v == Point(v.x, v.y);
    }
  }

  /** Two stages of the search that have tried the same velocities have the same hits. */
  lemma HitsSame(t: Target, trial: Point -> Option<int>, x: int, y: int, x': int, y': int)
    requires forall v :: Before(t, v, x, y) <==> Before(t, v, x', y')
    ensures HitsBefore(t, trial, x, y) == HitsBefore(t, trial, x', y')
  {
    var a, b := HitsBefore(t, trial, x, y), HitsBefore(t, trial, x', y');
    forall v
      ensures v in a <==> v in b
    {
      HitsMembers(t, trial, x, y, v);
      HitsMembers(t, trial, x', y', v);
    }
  }

  /** Finishing a column of `init_y` values is starting the next one. */
  lemma HitsColumnEnd(t: Target, trial: Point -> Option<int>, x: int, y: int)
    requires y >= YEnd
    ensures HitsBefore(t, trial, x, y) == HitsBefore(t, trial, x + 1, YStart(t))
  {
    HitsSame(t, trial, x, y, x + 1, YStart(t));
  }

  /** Past the last column every velocity of the box has been tried. */
  lemma HitsEnd(t: Target, trial: Point -> Option<int>, x: int)
    requires x >= 0 && x >= t.topRight.x + 1
    ensures HitsBefore(t, trial, x, YStart(t)) == Hits(t, trial)
  {
    HitsSame(t, trial, x, YStart(t), t.topRight.x + 1, YStart(t));
  }

  /** Trying velocity `(x, y)` adds it to the hits exactly when it hits. */
  lemma HitsNext(t: Target, trial: Point -> Option<int>, x: int, y: int)
    requires 0 <= x <= t.topRight.x && YStart(t) <= y < YEnd
    ensures HitsBefore(t, trial, x, y + 1)
      == HitsBefore(t, trial, x, y) + (if trial(Point(x, y)).Some? then {Point(x, y)} else {})
    ensures Point(x, y) !in HitsBefore(t, trial, x, y)
  {
    var a, b := HitsBefore(t, trial, x, y + 1), HitsBefore(t, trial, x, y);
    var c := b + (if trial(Point(x, y)).Some? then {Point(x, y)} else {});
    forall v
      ensures v in a <==> v in c
    {
      HitsMembers(t, trial, x, y + 1, v);
      HitsMembers(t, trial, x, y, v);
    }
    HitsMembers(t, trial, x, y, Point(x, y));
  }

  /** The loops of `part_2`, for any trial function. */
  method CountHits(t: Target, trial: Point -> Option<int>) returns (count: nat)
    ensures count == |Hits(t, trial)|
  {
    count := 0;
    var x := 0;
    while x < t.topRight.x + 1
      invariant 0 <= x && (t.topRight.x >= 0 ==> x <= t.topRight.x + 1)
      invariant count == |HitsBefore(t, trial, x, YStart(t))|
    {
      var y := YStart(t);
      while y < YEnd
        invariant YStart(t) <= y && (YStart(t) < YEnd ==> y <= YEnd)
        invariant count == |HitsBefore(t, trial, x, y)|
      {
        HitsNext(t, trial, x, y);
        if trial(Point(x, y)).Some? {
          count := count + 1;
        }
        y := y + 1;
      }
      HitsColumnEnd(t, trial, x, y);
      x := x + 1;
    }
    HitsEnd(t, trial, x);
  }

  /** The hits of the real trial are exactly the velocities of the box whose
      trajectory enters the target. */
  lemma HitsReach(t: Target, v: Point)
    ensures v in Hits(t, TrialOf(t)) <==> InBox(t, v) && exists n: nat :: Contains(t, At(v, n).pos)
  {
    HitsMembers(t, TrialOf(t), t.topRight.x + 1, YStart(t), v);
    TrialIsFirstHit(t, v);
  }

  /** `part_2`: how many velocities of the box land in the target (see `HitsReach`). */
  method Part2(t: Target) returns (count: nat)
    ensures count == |Hits(t, TrialOf(t))|
  {
    count := CountHits(t, TrialOf(t));
  }

  /** `m` is 0 or the value of some hit, and at least every hit's value. */
  predicate IsBest(trial: Point -> Option<int>, hits: set<Point>, m: int)
  {
    && m >= 0
    && (forall v :: v in hits ==> trial(v).Some? && trial(v).value <= m)
    && (m == 0 || exists v :: v in hits && trial(v) == Some(m))
  }

  lemma BestAdd(trial: Point -> Option<int>, hits: set<Point>, m: int, v: Point, m': int)
    requires IsBest(trial, hits, m) && trial(v).Some?
    requires m' == if m < trial(v).value then trial(v).value else m
    ensures IsBest(trial, hits + {v}, m')
  {
    if m' != 0 && m' != m {
      assert v in hits + {v};
    }
    if m' == m && m != 0 {
      var w :| w in hits && trial(w) == Some(m);
      assert w in hits + {v};
    }
  }

  /** The loops of `part_1`, for any trial function. */
  method BestHeight(t: Target, trial: Point -> Option<int>) returns (best: int)
    ensures IsBest(trial, Hits(t, trial), best)
  {
    best := 0;
    var x := 0;
    while x < t.topRight.x + 1
      invariant 0 <= x && (t.topRight.x >= 0 ==> x <= t.topRight.x + 1)
      invariant IsBest(trial, HitsBefore(t, trial, x, YStart(t)), best)
    {
      var y := YStart(t);
      while y < YEnd
        invariant YStart(t) <= y && (YStart(t) < YEnd ==> y <= YEnd)
        invariant IsBest(trial, HitsBefore(t, trial, x, y), best)
      {
        HitsNext(t, trial, x, y);
        match trial(Point(x, y)) {
          case Some(height) =>
            var before := best;
            best := if best < height then height else best;
            BestAdd(trial, HitsBefore(t, trial, x, y), before, Point(x, y), best);
          case None =>
        }
        y := y + 1;
      }
      HitsColumnEnd(t, trial, x, y);
      x := x + 1;
    }
    HitsEnd(t, trial, x);
  }

  /** `part_1`: the greatest height any hitting velocity of the box reaches,
      or 0 if none hits. */
  method Part1(t: Target) returns (best: int)
    ensures IsBest(TrialOf(t), Hits(t, TrialOf(t)), best)
  {
    best := BestHeight(t, TrialOf(t));
  }

  // ---------------------------------------------------------------------
  // Parsing
  // ---------------------------------------------------------------------

  /** `a..b`: the first two pieces of splitting at `..`. */
  function ParseRange(s: string): Option<(int, int)>
  {
    match ParseI32(PieceBefore(s, ".."))
    case None => None
    case Some(lo) =>
      match After(s, "..")
      case None => None
      case Some(rest) =>
        match ParseI32(PieceBefore(rest, ".."))
        case None => None
        case Some(hi) => Some((lo, hi))
  }

  /** `parse_input`: `target area: x=a..b, y=c..d`; `None` where the original
      panics on a missing prefix, piece or number. */
  function ParseInput(raw: string): Option<Target>
  {
    if !StartsWith(raw, "target area: ") then None
    else
      var rest := raw[|"target area: "|..];
      var xPart := PieceBefore(rest, ",");
      if !StartsWith(xPart, "x=") then None
      else
        match ParseRange(xPart[2..])
        case None => None
        case Some((xMin, xMax)) =>
          match After(rest, ",")
          case None => None
          case Some(afterComma) =>
            var yPart := PieceBefore(afterComma, ",");
            if !StartsWith(yPart, " y=") then None
            else
              match ParseRange(yPart[3..])
              case None => None
              case Some((yMin, yMax)) => Some(Target(Point(xMin, yMin), Point(xMax, yMax)))
  }

  function RenderRange(lo: int, hi: int): string
  {
    IntString(lo) + ".." + IntString(hi)
  }

  /** The puzzle's input line for a target. */
  function Render(t: Target): string
  {
    "target area: " + ("x=" + RenderRange(t.bottomLeft.x, t.topRight.x))
      + "," + (" y=" + RenderRange(t.bottomLeft.y, t.topRight.y))
  }

  lemma ParseRenderRange(lo: int, hi: int)
    requires I32Min <= lo <= I32Max && I32Min <= hi <= I32Max
    ensures ParseRange(RenderRange(lo, hi)) == Some((lo, hi))
  {
    IntStringHasNo(lo, '.');
    IntStringHasNo(hi, '.');
    SplitAt(IntString(lo), "..", IntString(hi));
    FindAbsent(IntString(hi), "..");
    ParseIntString(lo);
    ParseIntString(hi);
  }

  /** The input line splits at its comma into the `x=` and ` y=` parts. */
  lemma ParsePieces(raw: string, xPart: string, yPart: string)
    requires raw == "target area: " + (xPart + "," + yPart)
    requires ',' !in xPart && ',' !in yPart && StartsWith(xPart, "x=") && StartsWith(yPart, " y=")
    ensures ParseInput(raw) ==
      match (ParseRange(xPart[2..]), ParseRange(yPart[3..]))
      case (Some((a, b)), Some((c, d))) => Some(Target(Point(a, c), Point(b, d)))
      case _ => None
  {
    assert StartsWith(raw, "target area: ");
    var rest := raw[|"target area: "|..];
    assert rest == xPart + "," + yPart;
    SplitAt(xPart, ",", yPart);
    FindAbsent(yPart, ",");
  }

  /** The target's corners fit the original's `i32` coordinates. */
  predicate FitsI32(t: Target)
  {
    && I32Min <= t.bottomLeft.x <= I32Max && I32Min <= t.bottomLeft.y <= I32Max
    && I32Min <= t.topRight.x <= I32Max && I32Min <= t.topRight.y <= I32Max
  }

  lemma ParseRender(t: Target)
    requires FitsI32(t)
    ensures ParseInput(Render(t)) == Some(t)
  {
    var xRange := RenderRange(t.bottomLeft.x, t.topRight.x);
    var yRange := RenderRange(t.bottomLeft.y, t.topRight.y);
    var xPart, yPart := "x=" + xRange, " y=" + yRange;
    IntStringHasNo(t.bottomLeft.x, ',');
    IntStringHasNo(t.topRight.x, ',');
    IntStringHasNo(t.bottomLeft.y, ',');
    IntStringHasNo(t.topRight.y, ',');
    assert ',' !in xPart && ',' !in yPart;
    assert StartsWith(xPart, "x=") && xPart[2..] == xRange;
    assert StartsWith(yPart, " y=") && yPart[3..] == yRange;
    ParsePieces(Render(t), xPart, yPart);
    ParseRenderRange(t.bottomLeft.x, t.topRight.x);
    ParseRenderRange(t.bottomLeft.y, t.topRight.y);
  }
}

=== FILE: vents.dfy ===
/** Day 5, "Hydrothermal Venture" (src/day_5/mod.rs and its standalone copy
    day_5/src/main.rs): lines of vents between two integer points, and the
    number of points at least two lines cover. Part 1 counts only the
    horizontal and vertical lines, part 2 every line. A line is walked by an
    iterator that starts at `start` and steps by the sign vector of
    `end - start` until it reaches `end + dir`; that reaches its target only
    for horizontal, vertical and 45-degree lines, covers nothing for a line
    from a point to itself, and on any other slope walks off until an `i32`
    coordinate overflows (a panic in a debug build). */
module Vents {
  import opened Wrappers
  import opened Text

  /** `IntVec`: coordinates are `i32` in the original. */
  datatype Vec = Vec(x: int, y: int)

  datatype Line = Line(start: Vec, end: Vec)

  predicate InI32(v: Vec)
  {
    I32Min <= v.x <= I32Max && I32Min <= v.y <= I32Max
  }

  predicate Endpoints(l: Line)
  {
    InI32(l.start) && InI32(l.end)
  }

  /** `i32::signum`. */
  function Signum(n: int): int
  {
    if n > 0 then 1 else if n < 0 then -1 else 0
  }

  function Abs(n: int): nat
  {
    if n < 0 then -n else n
  }

  /** `IntVec + IntVec`, unbounded; callers check the `i32` range. */
  function Add(a: Vec, b: Vec): Vec
  {
    Vec(a.x + b.x, a.y + b.y)
  }

  /** `Line::dir`: the sign of each coordinate of `end - start`. */
  function Dir(l: Line): Vec
  {
    Vec(Signum(l.end.x - l.start.x), Signum(l.end.y - l.start.y))
  }

  /** The point the iterator stops at: `end + dir`. */
  function Stop(l: Line): Vec
  {
    Add(l.end, Dir(l))
  }

  /** Part 1's filter: the line is horizontal or vertical. */
  predicate Straight(l: Line)
  {
    Dir(l).x == 0 || Dir(l).y == 0
  }

  /** The lines whose walk reaches `end`: straight or at 45 degrees. */
  predicate Walkable(l: Line)
  {
    Straight(l) || Abs(l.end.x - l.start.x) == Abs(l.end.y - l.start.y)
  }

  /** The number of steps from `start` to `end`. */
  function Span(l: Line): nat
  {
    var dx, dy := Abs(l.end.x - l.start.x), Abs(l.end.y - l.start.y);
    if dx < dy then dy else dx
  }

  /** `k * s` for a sign `s`, written without multiplication. */
  function Scale(k: int, s: int): int
  {
    if s == 1 then k else if s == -1 then -k else 0
  }

  /** The point `k` steps along the line from `start`. */
  function At(l: Line, k: int): Vec
  {
    var d := Dir(l);
    Vec(l.start.x + Scale(k, d.x), l.start.y + Scale(k, d.y))
  }

  /** The points of a line as the puzzle draws them, in order from `start`:
      `Span + 1` of them, except that a line from a point to itself covers
      nothing, because its walk stops before it starts. */
  function Points(l: Line): (ps: seq<Vec>)
    ensures l.start != l.end ==> |ps| == Span(l) + 1
    ensures l.start == l.end ==> ps == []
  {
    if l.start == l.end then [] else seq(Span(l) + 1, k requires 0 <= k <= Span(l) => At(l, k))
  }

  predicate Between(a: int, x: int, b: int)
  {
    (a <= x <= b) || (b <= x <= a)
  }

  /** A point lies on the segment: inside its bounding box, on its row or
      column if it is straight, and as far along in x as in y if it is
      diagonal. */
  predicate OnSegment(l: Line, p: Vec)
  {
    var d := Dir(l);
    && Between(l.start.x, p.x, l.end.x) && Between(l.start.y, p.y, l.end.y)
    && (d.x != 0 && d.y != 0 ==> Scale(p.x - l.start.x, d.x) == Scale(p.y - l.start.y, d.y))
  }

  /** The walk of a walkable line covers exactly the segment's points, and
      each of them once. */
  lemma PointsAreSegment(l: Line, p: Vec)
    requires Walkable(l) && l.start != l.end
    ensures p in Points(l) <==> OnSegment(l, p)
  {
    var ps := Points(l);
    if p in ps {
      var k :| 0 <= k < |ps| && ps[k] == p;
      AtOnSegment(l, k);
    }
    if OnSegment(l, p) {
      var d := Dir(l);
      var k := if d.x != 0 then Scale(p.x - l.start.x, d.x) else Scale(p.y - l.start.y, d.y);
      assert 0 <= k <= Span(l);
      assert At(l, k).x == p.x;
      assert At(l, k).y == p.y;
      assert ps[k] == p;
    }
  }

  lemma AtOnSegment(l: Line, k: int)
    requires Walkable(l) && 0 <= k <= Span(l)
    ensures OnSegment(l, At(l, k))
  {
  }

  lemma PointsDistinct(l: Line, i: nat, j: nat)
    requires i < j < |Points(l)|
    ensures Points(l)[i] != Points(l)[j]
  {
  }

  /** The walk ends where the line does and stops one step later. */
  lemma Ends(l: Line)
    requires Walkable(l) && l.start != l.end
    ensures At(l, Span(l)) == l.end && At(l, Span(l) + 1) == Stop(l)
  {
  }

  /** A line that moves never returns to a point. */
  lemma AtInjective(l: Line, a: int, b: int)
    requires l.start != l.end && At(l, a) == At(l, b)
    ensures a == b
  {
  }

  /** Off the 45-degree diagonals no step of the walk hits the stop point. */
  lemma NeverStops(l: Line, k: int)
    requires !Walkable(l)
    ensures At(l, k) != Stop(l)
  {
  }

  /** Every point of a walkable line's walk up to the stop point lies
      between `start` and the stop point, so it is in the `i32` range when
      they are. */
  lemma WalkInRange(l: Line, k: nat)
    requires Walkable(l) && l.start != l.end && k <= Span(l) + 1
    requires InI32(l.start) && InI32(Stop(l))
    ensures InI32(At(l, k))
  {
    Ends(l);
  }

  /** How far `pos` can still move along `d` before leaving the `i32` range. */
  function Room(d: Vec, pos: Vec): int
  {
    if d.x == 1 then I32Max - pos.x
    else if d.x == -1 then pos.x - I32Min
    else if d.y == 1 then I32Max - pos.y
    else pos.y - I32Min
  }

  /** `iter_points` collected: the walk from `start`, one step of `dir` at a
      time, until `end + dir`. `None` is the `i32` overflow of a debug build,
      either in computing `end + dir` or on a walk that never meets it. */
  method Rasterise(l: Line) returns (r: Option<seq<Vec>>)
    requires Endpoints(l)
    ensures r.Some? <==> Walkable(l) && InI32(Stop(l))
    ensures r.Some? ==> r.value == Points(l)
  {
    var d := Dir(l);
    var stop := Add(l.end, d);
    if !InI32(stop) {
      return None;
    }
    var pos := l.start;
    var ps: seq<Vec> := [];
    while pos != stop
      invariant InI32(pos) && pos == At(l, |ps|)
      invariant forall k :: 0 <= k < |ps| ==> ps[k] == At(l, k)
      invariant Walkable(l) && l.start != l.end ==> |ps| <= Span(l) + 1
      invariant l.start == l.end ==> pos == stop && ps == []
      decreases Room(d, pos)
    {
      if Walkable(l) {
        Ends(l);
      }
      ps := ps + [pos];
      var next := Add(pos, d);
      if Walkable(l) && l.start != l.end {
        WalkInRange(l, |ps|);
      }
      if !InI32(next) {
        return None;
      }
      pos := next;
    }
    if !Walkable(l) {
      NeverStops(l, |ps|);
    } else if l.start != l.end {
      Ends(l);
      AtInjective(l, |ps|, Span(l) + 1);
      assert ps == Points(l);
    }
    return Some(ps);
  }

  // ---------------------------------------------------------------------
  // Counting overlaps
  // ---------------------------------------------------------------------

  /** Whether `count_overlaps::<DIAG>` draws the line. */
  predicate Kept(l: Line, diag: bool)
  {
    diag || Straight(l)
  }

  /** The points of the drawn lines, line after line. */
  function Covered(lines: seq<Line>, diag: bool): seq<Vec>
  {
    if |lines| == 0 then []
    else
      var last := lines[|lines| - 1];
      Covered(lines[..|lines| - 1], diag) + (if Kept(last, diag) then Points(last) else [])
  }

  /** The points covered at least twice, as the puzzle counts them. */
  function Overlaps(ps: seq<Vec>): set<Vec>
  {
    set p | p in ps && multiset(ps)[p] > 1
  }

  /** The density map after the points `ps`: `entry(p).or_insert(0) += 1`
      for each in turn. */
  function Density(ps: seq<Vec>): map<Vec, nat>
  {
    if |ps| == 0 then map[]
    else
      var m := Density(ps[..|ps| - 1]);
      var p := ps[|ps| - 1];
      m[p := if p in m then m[p] + 1 else 1]
  }

  /** The density map holds each covered point with the number of times it
      was covered. */
  lemma {:induction false} DensityCounts(ps: seq<Vec>, p: Vec)
    ensures p in Density(ps) <==> p in ps
    ensures p in ps ==> Density(ps)[p] == multiset(ps)[p]
    decreases |ps|
  {
    if |ps| > 0 {
      var init := ps[..|ps| - 1];
      DensityCounts(init, p);
      assert ps == init + [ps[|ps| - 1]];
      assert multiset(ps) == multiset(init) + multiset{ps[|ps| - 1]};
    }
  }

  /** `usize as i32`: the low 32 bits, read as a signed number. */
  function AsI32(n: nat): (r: int)
    ensures n <= I32Max ==> r == n
  {
    var w := n % 0x1_0000_0000;
    if w <= I32Max then w else w - 0x1_0000_0000
  }

  /** The inner loop: one more line's points added to the density map. */
  method AddPoints(density: map<Vec, nat>, ghost covered: seq<Vec>, ps: seq<Vec>) returns (d: map<Vec, nat>)
    requires density == Density(covered)
    ensures d == Density(covered + ps)
  {
    d := density;
    assert covered + ps[..0] == covered;
    for k := 0 to |ps|
      invariant d == Density(covered + ps[..k])
    {
      var p := ps[k];
      assert (covered + ps[..k + 1])[..|covered| + k] == covered + ps[..k];
      d := d[p := if p in d then d[p] + 1 else 1];
    }
    assert ps[..|ps|] == ps;
  }

  /** `count_overlaps::<DIAG>`: draw the kept lines into the density map and
      count the points drawn more than once. `None` is the overflow panic of
      a kept line's walk. */
  method CountOverlaps(lines: seq<Line>, diag: bool) returns (r: Option<int>)
    requires forall i :: 0 <= i < |lines| ==> Endpoints(lines[i])
    ensures r.Some? <==> forall i :: 0 <= i < |lines| && Kept(lines[i], diag) ==> Walkable(lines[i]) && InI32(Stop(lines[i]))
    ensures r.Some? ==> r.value == AsI32(|Overlaps(Covered(lines, diag))|)
  {
    var density: map<Vec, nat> := map[];
    ghost var covered: seq<Vec> := [];
    for i := 0 to |lines|
      invariant covered == Covered(lines[..i], diag)
      invariant density == Density(covered)
      invariant forall j :: 0 <= j < i && Kept(lines[j], diag) ==> Walkable(lines[j]) && InI32(Stop(lines[j]))
    {
      assert lines[..i + 1][..i] == lines[..i];
      if Kept(lines[i], diag) {
        var ps := Rasterise(lines[i]);
        if ps.None? {
          return None;
        }
        density := AddPoints(density, covered, ps.value);
        covered := covered + ps.value;
      }
    }
    assert lines[..|lines|] == lines;
    var overlaps := set p | p in density && density[p] > 1;
    assert overlaps == Overlaps(covered) by {
      forall p
        ensures p in overlaps <==> p in Overlaps(covered)
      {
        DensityCounts(covered, p);
      }
    }
    return Some(AsI32(|overlaps|));
  }

  /** `part_1`: horizontal and vertical lines only. */
  method Part1(lines: seq<Line>) returns (r: Option<int>)
    requires forall i :: 0 <= i < |lines| ==> Endpoints(lines[i])
    ensures r.Some? <==> forall i :: 0 <= i < |lines| && Straight(lines[i]) ==> InI32(Stop(lines[i]))
    ensures r.Some? ==> r.value == AsI32(|Overlaps(Covered(lines, false))|)
  {
    r := CountOverlaps(lines, false);
  }

  /** `part_2`: every line. */
  method Part2(lines: seq<Line>) returns (r: Option<int>)
    requires forall i :: 0 <= i < |lines| ==> Endpoints(lines[i])
    ensures r.Some? <==> forall i :: 0 <= i < |lines| ==> Walkable(lines[i]) && InI32(Stop(lines[i]))
    ensures r.Some? ==> r.value == AsI32(|Overlaps(Covered(lines, true))|)
  {
    r := CountOverlaps(lines, true);
  }

  /** Part 1 draws a sub-multiset of part 2's points. */
  lemma {:induction false} CoveredGrows(lines: seq<Line>)
    ensures multiset(Covered(lines, false)) <= multiset(Covered(lines, true))
    decreases |lines|
  {
    if |lines| > 0 {
      var init, last := lines[..|lines| - 1], lines[|lines| - 1];
      CoveredGrows(init);
      var a := if Kept(last, false) then Points(last) else [];
      assert multiset(Covered(lines, false)) == multiset(Covered(init, false)) + multiset(a);
      assert multiset(Covered(lines, true)) == multiset(Covered(init, true)) + multiset(Points(last));
    }
  }

  /** Every point part 1 counts, part 2 counts too. */
  lemma Part1WithinPart2(lines: seq<Line>)
    ensures Overlaps(Covered(lines, false)) <= Overlaps(Covered(lines, true))
  {
    CoveredGrows(lines);
    var a, b := Covered(lines, false), Covered(lines, true);
    forall p | p in Overlaps(a)
      ensures p in Overlaps(b)
    {
      assert multiset(a)[p] <= multiset(b)[p];
    }
  }

  // ---------------------------------------------------------------------
  // Input
  // ---------------------------------------------------------------------

  /** `parse_intvec`: `x,y`, split at commas; the first two pieces must be
      `i32`s and any further pieces are ignored. */
  function ParseVec(s: string): (r: Option<Vec>)
    ensures r.Some? ==> |Split(s, ',')| >= 2 && InI32(r.value)
    ensures r.Some? ==> ParseI32(Split(s, ',')[0]) == Some(r.value.x) && ParseI32(Split(s, ',')[1]) == Some(r.value.y)
  {
    var parts := Split(s, ',');
    match ParseI32(parts[0])
    case None => None
    case Some(x) =>
      if |parts| < 2 then None
      else
        match ParseI32(parts[1])
        case None => None
        case Some(y) => Some(Vec(x, y))
  }

  /** One line of input: the first word is the start, the second (the
      arrow) is skipped unread, the third is the end; later words are
      ignored and fewer than three is a panic. */
  function ParseLine(line: string): (r: Option<Line>)
    ensures r.Some? ==> |Words(line)| >= 3 && Endpoints(r.value)
    ensures r.Some? ==> ParseVec(Words(line)[0]) == Some(r.value.start) && ParseVec(Words(line)[2]) == Some(r.value.end)
  {
    var ws := Words(line);
    if |ws| < 3 then None
    else
      match ParseVec(ws[0])
      case None => None
      case Some(start) =>
        match ParseVec(ws[2])
        case None => None
        case Some(end) => Some(Line(start, end))
  }

  /** `parse_input`: one vent line per text line. */
  function ParseInput(raw: string): (r: Option<seq<Line>>)
    ensures var lines := Lines(raw);
      r.Some? <==> forall k :: 0 <= k < |lines| ==> ParseLine(lines[k]).Some?
    ensures var lines := Lines(raw);
      r.Some? ==> |r.value| == |lines| && forall k :: 0 <= k < |lines| ==> ParseLine(lines[k]) == Some(r.value[k])
    ensures r.Some? ==> forall k :: 0 <= k < |r.value| ==> Endpoints(r.value[k])
  {
    ParseAll(Lines(raw), ParseLine)
  }

  function VecString(v: Vec): string
  {
    IntString(v.x) + "," + IntString(v.y)
  }

  /** A vent line as the puzzle writes it: `x1,y1 -> x2,y2`. */
  function Render(l: Line): string
  {
    Unwords([VecString(l.start), "->", VecString(l.end)])
  }

  lemma ParseVecString(v: Vec)
    requires InI32(v)
    ensures ParseVec(VecString(v)) == Some(v)
    ensures IsWord(VecString(v))
  {
    var a, b := IntString(v.x), IntString(v.y);
    IntStringHasNo(v.x, ',');
    IntStringHasNo(v.y, ',');
    assert Join([a, b], ',') == VecString(v);
    JoinSplit([a, b], ',');
    ParseIntString(v.x);
    ParseIntString(v.y);
    WordChars(v.x);
    WordChars(v.y);
  }

  /** A formatted integer contains no whitespace. */
  lemma WordChars(x: int)
    ensures forall k :: 0 <= k < |IntString(x)| ==> !IsAsciiWhitespace(IntString(x)[k])
  {
    IntStringHasNo(x, ' ');
    IntStringHasNo(x, '\t');
    IntStringHasNo(x, '\n');
    IntStringHasNo(x, 12 as char);
    IntStringHasNo(x, '\r');
  }

  /** Parsing reads back every line whose coordinates are `i32`s. */
  lemma ParseLineRender(l: Line)
    requires Endpoints(l)
    ensures ParseLine(Render(l)) == Some(l)
  {
    ParseVecString(l.start);
    ParseVecString(l.end);
    var ws := [VecString(l.start), "->", VecString(l.end)];
    WordsUnwords(ws);
  }
}
